=== FILE: README.md ===
# PromiseService in Dafny

A Dafny model of the business logic of PromiseService. This Spring Boot service
manages meetings ("promises") between friends, together with a small browser
script that calls its API. The model is functional:

- Every status enum is a datatype, and every entity and DTO is an immutable record.
- Every service operation is a pure function or a short method that takes the
  repositories as values (maps or sequences) and returns them updated.
- The clock (`now`), the remote services (user lookup, SMS gateway, Kakao API,
  Alimtalk port, friend check) and the browser (`fetch`, `confirm`, `localStorage`)
  are explicit parameters.
- Java exceptions become `Result` values. Each carries the exception kind and
  the message the code builds, so the global exception handler's mapping can be
  stated over the messages the services actually throw. Messages that come from
  library code are exact where the library fixes them (`Enum.valueOf`'s), and
  are left unset where they do not matter (see "Left out").

The model covers:

- **Meeting lifecycle.** The status transition table and the per-target
  preconditions of `MeetingStatusService`. Separately, the weaker "final
  cannot go back" guard of the JPA `Meeting` entity. The host derived from the
  participants of the domain `Meeting`. Meeting creation, status update, lookup
  and deletion in `MeetingService`.
- **Participants and invitations.**
  - `ParticipantService.inviteParticipants` splits the requested ids into
    invited, already-participating and unknown-user buckets (`existsUser`), and checks capacity.
  - Responding to an invitation moves the accepted count.
  - The host can never be removed.
- **Appointments.**
  - Appointments and their participants, with notification status and error
    messages truncated to 500 characters.
  - `AppointmentNotifyService`: idempotent confirmation, final cancellation, and
    at most one answer per participant.
  - The ordered guards of `AppointmentController.inviteFriend`, and the NOT NULL
    and column-length constraints its saves and `createAppointment`'s meet.
- **Validation and error mapping.** The request validators and the phrase-based
  status mapping of `GlobalExceptionHandler`.
- **Search.**
  - Filter selection, paging and sorting.
  - Participant searches and the popular-meetings ranking of `MeetingSearchService`.
- **Notifications.**
  - The notification and SMS response summaries.
  - The SMS body and phone-number patterns.
  - The status-change and cancellation messages of `NotificationService`.
- **Kakao delivery.**
  - JSON escaping and the template object.
  - Counting deliveries in `KakaoClient.sendToMemo`.
  - The response summaries.
  - The idempotent notification log with its trace ids.
  - The consent and friend-map entities.
  - The failure-to-response pipeline of `KakaoNotifyService`.
- **Other parts.**
  - The Alimtalk send, bulk aggregation and fallback text of `UnifiedNotificationService`.
  - The bypass rules, token-shape check and derived user id and role of
    `JwtAuthenticationFilter`.
  - Header merging, error messages, the re-login prompt, the cancel URL and
    the page guard of `api.js`.

Shared helpers live in `wrappers.dfy` (`Option`, `Result`, exceptions),
`text.dfy` (Java `trim`, `contains`, case mapping, decimal rendering) and
`seqs.dfy` (filters, de-duplication, descending sort).

Two rules in the code look inconsistent, and the model keeps them as written:

- `FriendRequest.cancel` records REJECTED, not CANCELLED.
- The JPA `Meeting` entity allows COMPLETED to CANCELLED, although the service's
  transition table forbids it.

One more rule makes two handlers fail, and the model keeps that too:
`AppointmentController` never sets the NOT NULL `kakao_id` of the participant
rows it saves (`AppointmentParticipant.java:57`). `createAppointment` and
`inviteFriend` therefore answer 500 once their checks pass. After the
refused host row, the appointment `createAppointment` saved stays stored
without participants, because the handler is not transactional.

## Model

| member | source | states |
|---|---|---|
| MeetingStatuses.ParseMeetingStatus | src/main/java/com/promiseservice/service/MeetingStatusService.java:53 | `valueOf` yields the constant whose name is exactly the given text, and fails exactly when no constant has that name |
| MeetingStatuses.ParseMeetingStatusName | src/main/java/com/promiseservice/entity/Meeting.java:159-167 | parsing the name of any status gives that status back |
| MeetingStatuses.EditableIffNotFinal | src/main/java/com/promiseservice/entity/Meeting.java:198-210 | `isEditable` (WAITING, CONFIRMED) and `isFinal` (COMPLETED, CANCELLED) are complements |
| MeetingStatuses.MeetingDisplayNamesDistinct | src/main/java/com/promiseservice/domain/entity/Meeting.java:82-95 | the four statuses have four distinct display names |
| MeetingStatuses.ResponseFinality | src/main/java/com/promiseservice/entity/MeetingParticipant.java:141-153 | a response is final exactly when it is not INVITED, and the positive response is final |
| MeetingStatuses.JoinedAtAfter | src/main/java/com/promiseservice/entity/MeetingParticipant.java:213-230 | a join time is kept exactly for ACCEPTED; accepting keeps an earlier join time and otherwise records `now` |
| MeetingStatuses.JoinedAtAfterAcceptIdempotent | src/main/java/com/promiseservice/domain/entity/MeetingParticipant.java:97-110 | accepting twice keeps the first join time |
| DomainMeeting.NewParticipant | src/main/java/com/promiseservice/service/ParticipantService.java:88-92 | a newly saved participant row is INVITED, has not joined, and is stamped with its invitation time |
| DomainMeeting.EarliestIndex | src/main/java/com/promiseservice/domain/entity/Meeting.java:104-109 | `Stream.min` over invitation times picks a participant invited no later than any other and the first such on a tie |
| DomainMeeting.HostId | src/main/java/com/promiseservice/domain/entity/Meeting.java:104-109 | `getHostId` is null exactly for a meeting without participants; otherwise it is the user id of the first participant with the earliest invitation time: every earlier row was invited strictly later |
| DomainMeeting.HostIsFirstEarliest | src/main/java/com/promiseservice/domain/entity/Meeting.java:104-121 | the participant listed first and invited no later than everybody is the host |
| DomainMeeting.HostStableUnderLaterInvite | src/main/java/com/promiseservice/domain/entity/Meeting.java:104-121 | inviting someone no earlier than the existing participants does not change the host |
| DomainMeeting.AcceptedCount | src/main/java/com/promiseservice/domain/entity/Meeting.java:129-133 | the participant count is at most the number of rows and is zero exactly when nobody has ACCEPTED |
| DomainMeeting.AcceptedCountAppend | src/main/java/com/promiseservice/domain/entity/Meeting.java:129-133 | the accepted count of two lists joined is the sum of their counts |
| DomainMeeting.AcceptedCountUpdate | src/main/java/com/promiseservice/domain/entity/Meeting.java:129-133 | changing one participant's answer moves the count by exactly the change in that answer |
| DomainMeeting.IsMaxParticipantsReached | src/main/java/com/promiseservice/domain/entity/Meeting.java:141-143 | the maximum is reached when the accepted count is at least `maxParticipants`; a null maximum throws on unboxing |
| DomainMeeting.UpdateResponse | src/main/java/com/promiseservice/domain/entity/MeetingParticipant.java:96-110 | the answer is stored; the participant has joined exactly when it is ACCEPTED; an earlier join time survives a repeated accept; nothing else changes |
| DomainMeeting.FindParticipant | src/main/java/com/promiseservice/service/ParticipantService.java:74 | the lookup by user finds a row of that user, and finds none exactly when no row has that user |
| EntityMeeting.UpdateMeetingInfo | src/main/java/com/promiseservice/entity/Meeting.java:237-256 | the update succeeds exactly for a non-blank title and a present time not before `now`; a rejection is an IllegalArgumentException; success stores the trimmed title, the description and the time and changes nothing else |
| EntityMeeting.UpdatedTitleIsTrimmedText | src/main/java/com/promiseservice/entity/Meeting.java:237-256 | after a successful update the title is non-empty and trimming it changes nothing |
| EntityMeeting.UpdateStatus | src/main/java/com/promiseservice/entity/Meeting.java:267-281 | null is an IllegalArgumentException, a final-to-non-final move an IllegalStateException; every other move, final to final included, stores the new status and nothing else |
| EntityMeeting.FinalStatusIsAbsorbing | src/main/java/com/promiseservice/entity/Meeting.java:267-281 | once final, a meeting stays final under any sequence of status updates |
| EntityMeeting.UpdateLocation | src/main/java/com/promiseservice/entity/Meeting.java:292-304 | null or blank coordinates are accepted, other coordinates must be brace-delimited once trimmed; a rejection changes nothing, a success replaces exactly the three location fields |
| EntityMeeting.ValidCoordinatesShape | src/main/java/com/promiseservice/entity/Meeting.java:351-355 | accepted coordinates begin with `{` and end with `}` after trimming |
| EntityMeeting.CurrentParticipantCount | src/main/java/com/promiseservice/entity/Meeting.java:313-319 | the count never exceeds the number of participants and equals it exactly when every participant ACCEPTED |
| EntityMeeting.IsMaxParticipantsReached | src/main/java/com/promiseservice/entity/Meeting.java:328-330 | the maximum is reached exactly when the ACCEPTED count is at least `maxParticipants`; a null maximum throws on unboxing |
| EntityMeeting.Create | src/main/java/com/promiseservice/entity/Meeting.java:371-403 | creation succeeds exactly with a non-blank title, a time and a host; it trims the title, defaults the maximum to 10, starts WAITING with empty participant and history lists and copies every other field |
| EntityMeeting.CreateBasic | src/main/java/com/promiseservice/entity/Meeting.java:409-411 | the basic factory has the same requirements, a maximum of 10 and no optional fields |
| EntityMeeting.CreatedMeetingIsHostedAndOpen | src/main/java/com/promiseservice/entity/Meeting.java:221-225 | a created meeting is hosted by the given host and is not full |
| EntityMeeting.UpdateResponse | src/main/java/com/promiseservice/entity/MeetingParticipant.java:175-190 | null is rejected; otherwise the answer is stored, the participant has joined exactly when ACCEPTED, an earlier join time survives, and the ids are kept |
| EntityMeeting.CreateParticipant | src/main/java/com/promiseservice/entity/MeetingParticipant.java:242-259 | both ids are required; the row keeps them and the meeting reference, has not joined, and a null answer becomes INVITED |
| EntityMeeting.CreateInvited | src/main/java/com/promiseservice/entity/MeetingParticipant.java:266-268 | the invited factory gives an INVITED row without a meeting reference |
| MeetingStatusService.TransitionTableShape | src/main/java/com/promiseservice/service/MeetingStatusService.java:162-187 | the table never maps a status to itself, nothing leaves COMPLETED, every other status has a way out, and COMPLETED is entered only from CONFIRMED |
| MeetingStatusService.TransitionError | src/main/java/com/promiseservice/service/MeetingStatusService.java:87-157 | validation throws nothing exactly when the table allows the move, confirming has two ACCEPTED participants and a time not before `now`, and completing has a time not after `now`; a move to the current status is always refused with the same-status message |
| MeetingStatusService.CancelledMeetingCanReopen | src/main/java/com/promiseservice/service/MeetingStatusService.java:162-187 | the service lets CANCELLED go back to WAITING, a final-to-non-final move the entity meeting itself refuses |
| MeetingStatusService.StatusSpecificEntries | src/main/java/com/promiseservice/service/MeetingStatusService.java:192-251 | at most one extra history entry is recorded for the meeting and the caller, and none exactly for WAITING |
| MeetingStatusService.ParseRequestedStatus | src/main/java/com/promiseservice/service/MeetingStatusService.java:53 | the requested text is accepted exactly when it names a status, and the parsed status has that name; a null text throws a null-pointer error, and an unknown name throws `IllegalArgumentException` with `Enum.valueOf`'s message, "No enum constant com.promiseservice.domain.entity.Meeting.MeetingStatus." and the name |
| MeetingStatusService.CheckHost | src/main/java/com/promiseservice/service/MeetingStatusService.java:44-47 | the host check passes exactly for the derived host; a meeting without a host fails with a null dereference, another caller with the permission message |
| MeetingStatusService.UpdateMeetingStatus | src/main/java/com/promiseservice/service/MeetingStatusService.java:36-80 | an unknown meeting is "not found" and a non-host is refused; the change succeeds exactly for the host, a status name and a permitted move; then only the status changes and the history gains the STATUS_CHANGED entry (with the reason iff present) followed by the status-specific entry |
| MeetingStatusService.UpdateChangesStatus | src/main/java/com/promiseservice/service/MeetingStatusService.java:36-80 | a successful change moves to a different status, never from COMPLETED, and appends one history entry for WAITING and two otherwise |
| MeetingStatusService.CountByStatus | src/main/java/com/promiseservice/service/MeetingStatusService.java:274-279 | a per-status count never exceeds the number of meetings |
| MeetingStatusService.GetStatusStatistics | src/main/java/com/promiseservice/service/MeetingStatusService.java:274-287 | `total` is the sum of the four per-status counts |
| MeetingStatusService.StatisticsTotalIsMeetingCount | src/main/java/com/promiseservice/service/MeetingStatusService.java:274-287 | the total equals the number of meetings, each being counted under exactly one status |
| MeetingService.InviteeRows | src/main/java/com/promiseservice/service/MeetingService.java:60-76 | the invitee rows are built exactly when every listed non-host id is a user and is listed only once; the rows are then one fresh INVITED row per listed non-host id, in list order; otherwise the error is "not a user" for an unknown id or a unique-constraint violation for a repeated one |
| MeetingService.CreateMeeting | src/main/java/com/promiseservice/service/MeetingService.java:36-92 | creation succeeds exactly when every listed non-host invitee exists and none is listed twice; it adds only the new meeting (WAITING, title, description, time and location from the request, host row first as ACCEPTED and joined `now`, then one INVITED row per non-host invitee in list order) and one CREATED history entry |
| MeetingService.CreatedMeetingIsHostedByCreator | src/main/java/com/promiseservice/service/MeetingService.java:50-58 | the creator is the derived host of the created meeting |
| MeetingService.CreateWithTwoInvitees | src/main/java/com/promiseservice/service/MeetingService.java:36-92 | creating with two existing invitees saves three participant rows and one history entry |
| MeetingService.UpdateMeetingStatus | src/main/java/com/promiseservice/service/MeetingService.java:129-149 | an unknown meeting is "not found"; the update succeeds exactly for the host, sets any status and logs one UPDATED entry |
| MeetingService.UnvalidatedUpdateReopensCompleted | src/main/java/com/promiseservice/service/MeetingService.java:129-149 | this update lets the host move a COMPLETED meeting back to WAITING, which the status service refuses |
| MeetingService.DeleteMeeting | src/main/java/com/promiseservice/service/MeetingService.java:155-174 | an unknown meeting is "not found"; deletion succeeds exactly for the host, removes only that meeting and logs one CANCELLED entry |
| MeetingService.GetMeeting | src/main/java/com/promiseservice/service/MeetingService.java:98-103 | the stored meeting when it exists, otherwise the not-found error |
| MeetingService.CreateThenGet | src/main/java/com/promiseservice/service/MeetingService.java:36-103 | after a successful creation, looking up the new id finds the created WAITING meeting with the request's title and time and the host row first; every other id looks up as before |
| MeetingService.DeleteThenGet | src/main/java/com/promiseservice/service/MeetingService.java:98-174 | after a successful deletion the meeting looks up as "not found", and every other id looks up as before |
| MeetingService.CreateWithRepeatedInviteeFails | src/main/java/com/promiseservice/domain/entity/MeetingParticipant.java:23-24 | an invitee listed twice breaks the (meeting, user) unique constraint on the second save, so the creation fails with a data-integrity violation |
| ParticipantService.Outcomes | src/main/java/com/promiseservice/service/ParticipantService.java:70-104 | each requested id is already invited when it had a row or is a user requested earlier, failed when it is not a user, and newly invited otherwise |
| ParticipantService.BucketsPartitionRequest | src/main/java/com/promiseservice/service/ParticipantService.java:66-110 | the three answer lists together are a permutation of the requested ids |
| ParticipantService.NewRows | src/main/java/com/promiseservice/service/ParticipantService.java:88-95 | one fresh INVITED row per invited id, in order |
| ParticipantService.InviteEntries | src/main/java/com/promiseservice/service/ParticipantService.java:97-99 | one UPDATED history entry by the host per successful invitation |
| ParticipantService.CheckInvite | src/main/java/com/promiseservice/service/ParticipantService.java:53-64 | the guards pass exactly for an existing meeting whose host is the caller and whose row count plus the request stays within a non-null maximum; the not-found and no-permission errors |
| ParticipantService.InviteParticipants | src/main/java/com/promiseservice/service/ParticipantService.java:48-115 | the call fails exactly when the guards fail; otherwise the answer equals the loop-free three-way partition, only the invited rows are appended and one entry per invitation is logged |
| ParticipantService.StepKeepsInvariant | src/main/java/com/promiseservice/service/ParticipantService.java:70-104 | one loop pass keeps the rows and the three lists equal to their loop-free definitions |
| ParticipantService.NewRowsAppend | src/main/java/com/promiseservice/service/ParticipantService.java:88-95 | inviting one more id appends exactly its row |
| ParticipantService.InviteLoop | src/main/java/com/promiseservice/service/ParticipantService.java:70-104 | the loop yields the loop-free answer and appends exactly the invited rows |
| ParticipantService.StepAgrees | src/main/java/com/promiseservice/service/ParticipantService.java:72-85 | checking against rows saved so far gives the loop-free outcome, so an id repeated in the request is reported already invited |
| ParticipantService.InvitedSoFarHolds | src/main/java/com/promiseservice/service/ParticipantService.java:70-104 | the invited ids are exactly the requested users that had no row |
| ParticipantService.RowsAfterInvites | src/main/java/com/promiseservice/service/ParticipantService.java:73-95 | after the appends a user has a row exactly when they had one before or were invited |
| ParticipantService.InvitedAreDistinct | src/main/java/com/promiseservice/service/ParticipantService.java:70-104 | no id is invited twice, even when the request repeats it |
| ParticipantService.InvitePreservesUniqueUsers | src/main/java/com/promiseservice/service/ParticipantService.java:70-104 | inviting keeps at most one row per user in the meeting |
| ParticipantService.RespondToInvitation | src/main/java/com/promiseservice/service/ParticipantService.java:129-163 | fails exactly when the row is missing; repeating the current answer changes nothing; otherwise only that row is updated and one JOINED (for ACCEPTED) or DECLINED entry is logged |
| ParticipantService.RespondMovesAcceptedCount | src/main/java/com/promiseservice/service/ParticipantService.java:129-163 | a new acceptance raises the accepted count by one, a withdrawn one lowers it by one, and nothing else raises it |
| ParticipantService.RemoveParticipant | src/main/java/com/promiseservice/service/ParticipantService.java:175-206 | succeeds exactly for the host removing an existing non-host row; removing the host is refused; only that row is deleted and one UPDATED entry logged |
| ParticipantService.RemovalKeepsHost | src/main/java/com/promiseservice/service/ParticipantService.java:175-206 | after a removal the caller is still the derived host |
| ParticipantService.EarliestIsUnique | src/main/java/com/promiseservice/domain/entity/Meeting.java:104-109 | a row that is earliest-invited and strictly earlier than all rows before it is the one chosen as host |
| InviteOutcomes.SelectPartition | src/main/java/com/promiseservice/service/ParticipantService.java:66-104 | the three outcome lists over the first n ids together hold exactly those ids, with multiplicity |
| AppointmentStatuses.AppointmentStatusPredicates | src/main/java/com/promiseservice/enums/AppointmentStatus.java:69-126 | editable and invitable coincide; completed is exactly not editable; only CANCELED is inactive; no status allows both notifications, and either implies completed |
| ParticipantStates.CanChangeToIsAnswer | src/main/java/com/promiseservice/enums/ParticipantState.java:107-119 | from every state the allowed targets are exactly ACCEPTED and DECLINED; nothing returns to INVITED |
| ParticipantStates.ParticipantStatePredicates | src/main/java/com/promiseservice/enums/ParticipantState.java:62-97 | responded is exactly "needs no reminder"; participating and notification-receiving coincide and mean ACCEPTED |
| NotifyStatuses.NotifyStatusPredicates | src/main/java/com/promiseservice/enums/NotifyStatus.java:74-98 | a success is never retryable; user action is needed exactly for the status that is neither successful nor retryable |
| FriendRequestStatuses.FriendRequestStatusPredicates | src/main/java/com/promiseservice/enums/FriendRequestStatus.java:13-63 | every status is either pending or final; the display names are pairwise different |
| LifecycleStatuses.LifecycleStatusPredicates | src/main/java/com/promiseservice/enums/MeetingStatus.java:13-89 | active is exactly not final; the inviting phase is active and unconfirmed; COMPLETED is confirmed and final |
| ParticipantStatuses.ParticipantStatusPredicates | src/main/java/com/promiseservice/enums/ParticipantStatus.java:54-86 | INVITED is exactly the status with none of the other predicates; DECLINED and JOINED are the only final ones that responded or can participate |
| Transports.TransportPredicates | src/main/java/com/promiseservice/enums/PreferredTransport.java:60-82 | public transport is eco-friendly and not personal; BICYCLE alone is personal and eco-friendly; TAXI and OTHER alone have no category |
| Appointments.NewAppointment | src/main/java/com/promiseservice/entity/Appointment.java:112-122 | a new appointment is unsent and DRAFT |
| Appointments.MarkAsSent | src/main/java/com/promiseservice/entity/Appointment.java:194-196 | marking sets the sent flag and changes nothing else |
| Appointments.MarkAsSentIdempotent | src/main/java/com/promiseservice/entity/Appointment.java:194-196 | marking twice equals marking once |
| Appointments.TruncDiv | src/main/java/com/promiseservice/entity/Appointment.java:220 | Java long division rounds toward zero: the quotient times the divisor never passes the dividend and lies on its side of zero |
| Appointments.MinutesUntilAppointment | src/main/java/com/promiseservice/entity/Appointment.java:216-221 | no start time gives 0; otherwise the whole minutes from now to the start, rounded toward zero |
| Appointments.MinutesSign | src/main/java/com/promiseservice/entity/Appointment.java:205-221 | a past appointment never has positive minutes left; a full minute ahead gives at least 1 and a full minute behind at most -1 |
| Appointments.NewParticipant | src/main/java/com/promiseservice/entity/AppointmentParticipant.java:66-76 | a new row is INVITED, notification PENDING, never notified and without error |
| Appointments.ChangeState | src/main/java/com/promiseservice/entity/AppointmentParticipant.java:138-145 | the change succeeds exactly when the current state may move to the new one, sets only the state, and otherwise is an illegal-state error |
| Appointments.MarkNotificationSent | src/main/java/com/promiseservice/entity/AppointmentParticipant.java:152-157 | status SENT at the given time with the error cleared; the answer state and identity are kept |
| Appointments.TruncateError | src/main/java/com/promiseservice/entity/AppointmentParticipant.java:172-174 | a null message stays null; up to 500 characters it is kept; longer ones become their first 500 characters followed by "..." |
| Appointments.TruncateErrorIdempotent | src/main/java/com/promiseservice/entity/AppointmentParticipant.java:172-174 | a stored error is at most 503 characters long and truncating it again changes nothing |
| Appointments.MarkNotificationFailed | src/main/java/com/promiseservice/entity/AppointmentParticipant.java:166-175 | SENT and PENDING are refused as illegal arguments; any other status is stored with the truncated error |
| Appointments.CanRetryNotification | src/main/java/com/promiseservice/entity/AppointmentParticipant.java:184-186 | defined exactly when both states are present; then true exactly for a retryable status of an ACCEPTED participant |
| Appointments.NoRetryAfterSent | src/main/java/com/promiseservice/entity/AppointmentParticipant.java:152-186 | a participant just marked sent is never retried |
| Appointments.ValidateRequiredFields | src/main/java/com/promiseservice/entity/AppointmentParticipant.java:205-218 | passes exactly when appointment id, kakao id, state and notify status are all present; the first missing one names the error |
| Appointments.RowsOf | src/main/java/com/promiseservice/service/AppointmentNotifyService.java:123-124 | the rows of the appointment are exactly the stored rows carrying its id |
| Appointments.SaveAppointment | src/main/java/com/promiseservice/entity/Appointment.java:48-137 | saving a new appointment succeeds exactly when its NOT NULL `title` and `start_at` are set and its texts fit their VARCHAR columns (title 200 at :56, place 300 at :64, recommended place 500 at :48, link and detail URL 500 at :104 and :137), and then adds exactly that appointment under its id; otherwise a data-integrity violation |
| Appointments.SaveParticipant | src/main/java/com/promiseservice/entity/AppointmentParticipant.java:41-76 | saving a new row succeeds exactly when appointment id, Kakao id, state and notify status (the NOT NULL columns) are set, and then appends exactly that row; otherwise a data-integrity violation |
| Appointments.RowCompleteIffRequiredFields | src/main/java/com/promiseservice/entity/AppointmentParticipant.java:205-218 | the column constraints and `validateRequiredFields` accept the same rows, and a row without a Kakao id gets the entity's Kakao-id message |
| Appointments.RowsOfAppendOwn | src/main/java/com/promiseservice/controller/AppointmentController.java:192-194 | saving one more row of an appointment raises the count the capacity guard reads (`countByAppointmentId`) by exactly one |
| AppointmentNotifyService.AcceptedRows | src/main/java/com/promiseservice/service/AppointmentNotifyService.java:70-71 | exactly the stored rows of the appointment in state ACCEPTED |
| AppointmentNotifyService.ConfirmAndNotify | src/main/java/com/promiseservice/service/AppointmentNotifyService.java:40-93 | unknown id is an illegal argument; it succeeds exactly unless both host ids are known and differ, which is a FORBIDDEN error; an already CONFIRMED appointment is reported and left unchanged; otherwise only its status becomes CONFIRMED and every ACCEPTED row counts as a success |
| AppointmentNotifyService.ConfirmIsIdempotent | src/main/java/com/promiseservice/service/AppointmentNotifyService.java:56-61 | after a successful confirm the status is CONFIRMED and confirming again changes nothing and answers "already confirmed" |
| AppointmentNotifyService.CancelAppointment | src/main/java/com/promiseservice/service/AppointmentNotifyService.java:105-145 | the same refusals as confirm; otherwise only the status becomes CANCELED, whatever it was, and every row of the appointment counts as a success |
| AppointmentNotifyService.CancelIsFinal | src/main/java/com/promiseservice/service/AppointmentNotifyService.java:105-145 | a cancelled appointment is inactive and cancelling it again leaves the store as it is |
| AppointmentNotifyService.FindRow | src/main/java/com/promiseservice/service/AppointmentNotifyService.java:161-163 | the first row of that appointment and user, and none exactly when no such row exists |
| AppointmentNotifyService.RespondToInvitation | src/main/java/com/promiseservice/service/AppointmentNotifyService.java:157-177 | succeeds exactly when the row exists and is still INVITED; then only its state becomes ACCEPTED or DECLINED; every refusal is an illegal argument |
| AppointmentNotifyService.AnswerOnlyOnce | src/main/java/com/promiseservice/service/AppointmentNotifyService.java:157-177 | a second answer to the same invitation is refused, and the first was a change the participant state machine allows |
| AppointmentController.CreateAppointment | src/main/java/com/promiseservice/controller/AppointmentController.java:45-124 | without a signed-in user, 401 and nothing saved; otherwise always 500, never 200: an unreadable start time, a missing title or start time, or a title over 200, place over 300, or recommended place or detail URL over 500 characters saves nothing, and when the appointment is saved the host row (which never gets its NOT NULL Kakao id) is refused, leaving exactly that DRAFT appointment stored with the caller as host and the request's title, place, recommended place, maximum, parsed start time and detail URL, every other appointment and row unchanged |
| AppointmentController.InviteFriend | src/main/java/com/promiseservice/controller/AppointmentController.java:137-230 | the store never changes and the answer is never 200; no user gives 401; an unknown appointment gives 500 |
| AppointmentController.InviteReachesSaveIffGuardsPass | src/main/java/com/promiseservice/controller/AppointmentController.java:137-230 | when every guard passes, the row without a Kakao id is refused and the answer is 500 with the store unchanged; for a host request naming a friend id, that 500 comes exactly when the guards pass, a non-friend gets 403 and an already invited friend 400 |
| AppointmentController.HostGuardComesFirst | src/main/java/com/promiseservice/controller/AppointmentController.java:157-163 | a caller who is not the host is refused with 403 whatever the other guards say |
| AppointmentController.InviteRespectsCapacity | src/main/java/com/promiseservice/controller/AppointmentController.java:192-211 | an appointment whose rows are within its maximum stays within it (a corollary of the store never changing), and a host request for a new friend when the rows reach the maximum is refused as full |
| AppointmentController.CreatedAppointmentHasNoRows | src/main/java/com/promiseservice/controller/AppointmentController.java:45-230 | an appointment `createAppointment` keeps is hosted by its creator but has no participant row; the creator passes `inviteFriend`'s host guard, and inviting a friend while the maximum is unset or positive answers 500 with the store unchanged |
| MeetingCreateRequests.Defaults | src/main/java/com/promiseservice/model/dto/MeetingCreateRequest.java:37-58 | a fresh request allows 10 participants, sends notifications and has no invitee lists |
| MeetingCreateRequests.ParticipantUserIds | src/main/java/com/promiseservice/model/dto/MeetingCreateRequest.java:66-71 | the primary list when it is non-empty, else the alternative list, else empty; never null |
| MeetingCreateRequests.IsValidParticipantCount | src/main/java/com/promiseservice/model/dto/MeetingCreateRequest.java:80-87 | defined exactly when a maximum is set; then true exactly when the raw primary list plus the host (when included) fits it |
| MeetingCreateRequests.TotalInvitedCount | src/main/java/com/promiseservice/model/dto/MeetingCreateRequest.java:95-97 | at least one (the host), and exactly one when the primary list is null |
| MeetingCreateRequests.ParticipantCountAgreesWithTotal | src/main/java/com/promiseservice/model/dto/MeetingCreateRequest.java:80-97 | the host-included count check is exactly "total invited within the maximum", so invitees given only in the alternative list are never counted |
| MeetingValidator.IsValidCreateRequest | src/main/java/com/promiseservice/validator/MeetingValidator.java:28-116 | valid exactly for a present request with a non-blank title, a positive place id, a time not before now, and the host plus both invitee lists within the maximum (10 when unset) |
| MeetingValidator.IsValidUpdateRequest | src/main/java/com/promiseservice/validator/MeetingValidator.java:45-161 | a valid update is present and sets some field; for such a request it is valid exactly when every present field is well-formed (non-blank texts, time not before now, maximum in 2..100) |
| MeetingValidator.IsValidInviteRequest | src/main/java/com/promiseservice/validator/MeetingValidator.java:62-178 | valid exactly for a present request with a non-empty user-id or kakao-id list and a message of at most 500 characters |
| MeetingValidator.CountCheckAgreesWithRequestDto | src/main/java/com/promiseservice/validator/MeetingValidator.java:101-116 | the validator's count check agrees with the request DTO's `isValidParticipantCount` (host included) when a maximum is set and no Kakao ids are given; Kakao ids only make it stricter; where the DTO check throws on a null maximum, the validator uses 10 |
| MeetingValidator.UpdateCheckIsPerField | src/main/java/com/promiseservice/validator/MeetingValidator.java:45-161 | an update request with some field is valid exactly when each of its fields, sent alone, would be valid |
| MeetingValidator.InviteCheckSeparatesRecipientsAndMessage | src/main/java/com/promiseservice/validator/MeetingValidator.java:62-178 | the invite check judges recipients and message independently: valid exactly when valid without the message and the message is acceptable with a single recipient |
| GlobalExceptionHandler.HandleRuntimeException | src/main/java/com/promiseservice/controller/GlobalExceptionHandler.java:53-80 | 403 exactly for a message naming a missing permission; 404 exactly for a non-permission message saying something was not found or does not exist; 500 otherwise; the body repeats the status, the matching code and the message (a default text when null) |
| GlobalExceptionHandler.HandleForbidden | src/main/java/com/promiseservice/controller/GlobalExceptionHandler.java:25-35 | 403 with the exception's message; a null message cannot be put in the body and throws |
| GlobalExceptionHandler.HandleNotFound | src/main/java/com/promiseservice/controller/GlobalExceptionHandler.java:39-49 | 404 with the exception's message; a null message throws |
| GlobalExceptionHandler.HandleBadRequest | src/main/java/com/promiseservice/controller/GlobalExceptionHandler.java:85-95 | 400 with the fixed validation message |
| GlobalExceptionHandler.NoPhraseCharIsServerError | src/main/java/com/promiseservice/controller/GlobalExceptionHandler.java:53-80 | a message containing none of the phrases' first characters is answered with 500 |
| GlobalExceptionHandler.PermissionMessagesAreForbidden | src/main/java/com/promiseservice/controller/GlobalExceptionHandler.java:58-63 | the services' permission refusals (status change, invite, remove) reach the client as 403 |
| GlobalExceptionHandler.NoPermissionCharIsNotFound | src/main/java/com/promiseservice/controller/GlobalExceptionHandler.java:65-71 | a not-found message with no permission phrase is answered with 404 |
| GlobalExceptionHandler.MeetingNotFoundIsNotFound | src/main/java/com/promiseservice/service/MeetingStatusService.java:42 | the "meeting not found" error of every meeting id reaches the client as 404 |
| GlobalExceptionHandler.ParticipantNotFoundIsNotFound | src/main/java/com/promiseservice/service/ParticipantService.java:132 | the missing-participant error reaches the client as 404 |
| GlobalExceptionHandler.HostNotRemovableIsServerError | src/main/java/com/promiseservice/service/ParticipantService.java:188-190 | refusing to remove the host reaches the client as 500, not as a client error |
| GlobalExceptionHandler.TooManyIsServerError | src/main/java/com/promiseservice/service/ParticipantService.java:62-64 | the capacity refusal reaches the client as 500 |
| GlobalExceptionHandler.SameStatusIsServerError | src/main/java/com/promiseservice/service/MeetingStatusService.java:92-94 | the same-status refusal reaches the client as 500 |
| MeetingSearchService.DefaultRequest | src/main/java/com/promiseservice/dto/MeetingSearchRequest.java:60-72 | an empty request sorts by meeting time ascending, asks for page 0 of size 20 and applies no filter |
| MeetingSearchService.SelectSearch | src/main/java/com/promiseservice/service/MeetingSearchService.java:93-147 | a status is searched first, and an unknown status name is an illegal argument; a keyword is searched only without a status; the time range (defaulting to now and one month later) only without both; location only without basic filters; participants only without those; all meetings exactly when no criterion is given |
| MeetingSearchService.AppliedFilters | src/main/java/com/promiseservice/service/MeetingSearchService.java:236-254 | between 0 and 6, and 0 exactly when no criterion is present (an empty participant list is no criterion) |
| MeetingSearchService.AllMeetingsIffNoFilter | src/main/java/com/promiseservice/service/MeetingSearchService.java:93-117 | the unfiltered search is chosen exactly when the summary counts no applied filter |
| MeetingSearchService.PageFromList | src/main/java/com/promiseservice/service/MeetingSearchService.java:191-199 | defined exactly when the offset is within the list; the page is the slice from the offset of at most the page size, and the total is the list length |
| MeetingSearchService.AdjacentPagesConcatenate | src/main/java/com/promiseservice/service/MeetingSearchService.java:191-199 | two adjacent pages together are the slice they cover, so paging loses and repeats nothing |
| MeetingSearchService.PageOffset | src/main/java/com/promiseservice/service/MeetingSearchService.java:55 | a page request needs a non-negative page and a positive size; its offset is page times size |
| MeetingSearchService.CreateSort | src/main/java/com/promiseservice/service/MeetingSearchService.java:204-218 | the direction is DESC exactly for "DESC" in any case; the property is title or createdAt when sortBy names them in any case, meetingTime otherwise; a null sortBy throws |
| MeetingSearchService.SortIgnoresCase | src/main/java/com/promiseservice/service/MeetingSearchService.java:204-218 | requests that differ only in letter case sort the same way |
| MeetingSearchService.SearchByParticipants | src/main/java/com/promiseservice/service/MeetingSearchService.java:176-184 | every meeting of any listed user is returned, nothing else, and none twice |
| MeetingSearchService.SingleParticipantSearch | src/main/java/com/promiseservice/service/MeetingSearchService.java:176-184 | for one user the result is that user's meeting list unchanged |
| MeetingSearchService.TopByParticipants | src/main/java/com/promiseservice/service/MeetingSearchService.java:264-271 | a negative limit throws; otherwise min(limit, n) meetings drawn from the input, in non-increasing participant count, and none left out has more participants than any kept |
| MeetingSearchService.Summarize | src/main/java/com/promiseservice/service/MeetingSearchService.java:273-279 | one summary per ranked meeting with its participant count, marked host exactly when its host is the caller |
| MeetingSearchService.PopularMeetings | src/main/java/com/promiseservice/service/MeetingSearchService.java:260-281 | succeeds exactly for a non-negative limit whose ranked meetings all have a host; the result is their summaries |
| MeetingSearchService.PopularMeetingsRanked | src/main/java/com/promiseservice/service/MeetingSearchService.java:260-281 | the answer is at most limit long, ordered by non-increasing participant count, and contains every meeting with more participants than one it shows |
| NotificationResponses.NewResponse | src/main/java/com/promiseservice/dto/NotificationResponse.java:51-69 | both lists are kept, the counters are their sizes and the total their sum; the message is empty exactly when both lists are, starts with the success clause when something succeeded and ends with the failure clause when something failed |
| NotificationResponses.WithFailureReasons | src/main/java/com/promiseservice/dto/NotificationResponse.java:38 | setting the reasons changes no other field |
| NotificationResponses.SeparatorIffBoth | src/main/java/com/promiseservice/dto/NotificationResponse.java:61-67 | the message contains ", " exactly when there are both successes and failures, and then is the two clauses joined by it |
| NotificationResponses.SmsSeparatorIffBoth | src/main/java/com/promiseservice/dto/SmsNotificationResponse.java:68-86 | the SMS response builds the same summary with the word "SMS": it contains ", " exactly when there are both successes and failures, and then is the success clause, ", " and the failure clause |
| SmsRequests.NewSmsRequest | src/main/java/com/promiseservice/dto/SmsNotificationRequest.java:46 | a new request names the default sender and carries nothing else |
| SmsRequests.DigitRun | src/main/java/com/promiseservice/dto/SmsNotificationRequest.java:69 | the length of the leading digit run: everything before it is a digit and the character after it is not |
| SmsRequests.DigitRunAt | src/main/java/com/promiseservice/dto/SmsNotificationRequest.java:69 | a digit prefix followed by a non-digit or the end is the digit run |
| SmsRequests.RecogniseBodyIffPattern | src/main/java/com/promiseservice/dto/SmsNotificationRequest.java:69 | the one-pass recogniser accepts the part after the prefix exactly when it is 3 or 4 digits, an optional dash and 4 digits |
| SmsRequests.RecogniseIffPattern | src/main/java/com/promiseservice/dto/SmsNotificationRequest.java:69 | the recogniser accepts exactly the strings the phone-number pattern matches in full |
| SmsRequests.PhoneCheckMatchesPattern | src/main/java/com/promiseservice/dto/SmsNotificationRequest.java:67-71 | a number is valid exactly when it is non-null and matches the mobile pattern |
| SmsRequests.CountDigitsAppend | src/main/java/com/promiseservice/dto/SmsNotificationRequest.java:69 | the digits of a concatenation are the digits of its parts |
| SmsRequests.CountAllDigits | src/main/java/com/promiseservice/dto/SmsNotificationRequest.java:69 | an all-digit string is all digits counted |
| SmsRequests.BodyDigits | src/main/java/com/promiseservice/dto/SmsNotificationRequest.java:69 | the body after the prefix holds the middle group plus 4 digits |
| SmsRequests.BodyPatternDigits | src/main/java/com/promiseservice/dto/SmsNotificationRequest.java:69 | the body after the prefix holds 7 or 8 digits |
| SmsRequests.ValidNumberDigitCount | src/main/java/com/promiseservice/dto/SmsNotificationRequest.java:67-71 | every accepted number carries 10 or 11 digits |
| SmsRequests.DashedSampleAccepted | src/main/java/com/promiseservice/dto/SmsNotificationRequest.java:67-71 | a dashed mobile number is accepted |
| SmsRequests.PlainSampleAccepted | src/main/java/com/promiseservice/dto/SmsNotificationRequest.java:67-71 | an undashed mobile number is accepted |
| SmsRequests.LandlineRefused | src/main/java/com/promiseservice/dto/SmsNotificationRequest.java:67-71 | a Seoul landline number is refused |
| SmsService.PhoneNumbersFromUserIds | src/main/java/com/promiseservice/service/SmsService.java:167-188 | at most one number per id, none blank, and exactly the usable numbers of the users found |
| SmsService.FailureReasonCases | src/main/java/com/promiseservice/service/SmsService.java:100-128 | a malformed number fails as malformed; a well-formed one is sent exactly when the gateway answers status "success" for that send, and otherwise fails as a gateway failure |
| SmsService.ReasonsOfSnoc | src/main/java/com/promiseservice/service/SmsService.java:105-119 | recording one more failed pass adds or overwrites exactly its number's reason |
| SmsService.ReasonsOf | src/main/java/com/promiseservice/service/SmsService.java:97-119 | the reasons are keyed by exactly the failed numbers, and each number's reason is the one of its last failed pass |
| SmsService.SendOne | src/main/java/com/promiseservice/service/SmsService.java:100-128 | the reason of one pass, and only a well-formed number is posted, with the request's message, type, sender name and meeting id |
| SmsService.SendSmsToPhoneNumbers | src/main/java/com/promiseservice/service/SmsService.java:92-136 | each pass consults the gateway afresh; the sent and failed lists are the passes that succeeded and failed, in order; together they hold every input number once per occurrence; the total is the input length; exactly the well-formed numbers are posted, in order; each failed number has its last reason |
| SmsService.SendEach | src/main/java/com/promiseservice/service/SmsService.java:99-128 | the loop builds exactly those lists, the reason map and the posted payloads |
| SmsService.SendSmsToUsers | src/main/java/com/promiseservice/service/SmsService.java:61-85 | a null id list throws (its size is read before the try block); no usable number gives an empty response and posts nothing; otherwise the response and posts are those of sending to the numbers found |
| SmsService.UrgentRequest | src/main/java/com/promiseservice/service/SmsService.java:147-156 | the urgent request is of URGENT type, prefixes the message with "[긴급] " and names the urgent sender |
| SmsService.UrgentMessageLength | src/main/java/com/promiseservice/dto/SmsNotificationRequest.java:79-82 | the urgent prefix uses five of the 90 characters, so the message itself must stay within 85 |
| SmsService.SendUrgentSms | src/main/java/com/promiseservice/service/SmsService.java:147-158 | a null id list throws; otherwise the response is that of sending the urgent request to the numbers found, and every post carries the prefixed message, URGENT type, the urgent sender and the meeting id |
| SmsService.CreateFailureResponse | src/main/java/com/promiseservice/service/SmsService.java:249-259 | every recipient failed with the same reason and nothing succeeded |
| SmsService.PhoneNumbersInIdOrder | src/main/java/com/promiseservice/service/SmsService.java:167-188 | the numbers are exactly the ids with a usable number, kept in id order and mapped to that number |
| SmsService.EveryPassCountedOnce | src/main/java/com/promiseservice/service/SmsService.java:99-128 | the sent and failed lists together are the input numbers as a multiset, and their sizes add up to the input length |
| SmsService.SameNumberTwice | src/main/java/com/promiseservice/service/SmsService.java:99-128 | a number listed twice, accepted on the first send and refused on the second, is in both the sent and the failed list, with a gateway-failure reason |
| SmsService.AllRefusedIsFailureResponse | src/main/java/com/promiseservice/service/SmsService.java:92-136 | when the gateway refuses every send of well-formed numbers, the response equals the failure response with the gateway-failure reason |
| NotificationService.UserIds | src/main/java/com/promiseservice/service/NotificationService.java:219-221 | the user id of every participant row, in repository order |
| NotificationService.InvitedUserIds | src/main/java/com/promiseservice/service/NotificationService.java:218-224 | exactly the participants' user ids other than the derived host |
| NotificationService.Lift | src/main/java/com/promiseservice/service/NotificationService.java:192-209 | the ids in order, each present |
| NotificationService.StatusChangeRecipients | src/main/java/com/promiseservice/service/NotificationService.java:192-209 | the derived host (null when there are no rows) comes first, then every invited user in order |
| NotificationService.RecipientsHostOnce | src/main/java/com/promiseservice/service/NotificationService.java:192-209 | the host appears only in front; a meeting with rows lists every participant; a meeting without rows lists a single null |
| NotificationService.TitlesDistinct | src/main/java/com/promiseservice/service/NotificationService.java:233-244 | two statuses share a title exactly when they are equal; CANCELLED has the cancellation title |
| NotificationService.NotificationContent | src/main/java/com/promiseservice/service/NotificationService.java:257-272 | the content starts with the header of title, both statuses, time and place, and is longer than it exactly when the reason is non-blank, which then follows on a reason line |
| NotificationService.ImportantIffNotWaiting | src/main/java/com/promiseservice/service/NotificationService.java:346-351 | a change is important exactly when the new status is CONFIRMED, COMPLETED or CANCELLED, that is anything but WAITING |
| NotificationService.WithShortReason | src/main/java/com/promiseservice/service/NotificationService.java:423-426 | the text is kept as a prefix and the reason is appended, in its brackets, exactly when it is non-blank and the text so far is under 70 characters |
| NotificationService.StatusChangeSms | src/main/java/com/promiseservice/service/NotificationService.java:396-428 | the text starts with the alert tag, the title, the status phrase and the short time |
| NotificationService.CancellationSms | src/main/java/com/promiseservice/service/NotificationService.java:438-452 | the text starts with the urgent tag, the title, the cancellation phrase and the short time |
| NotificationService.LongTitleDropsReason | src/main/java/com/promiseservice/service/NotificationService.java:423-449 | with a title of 70 characters or more no reason is ever appended to either SMS |
| NotificationService.NewNotificationRequest | src/main/java/com/promiseservice/service/NotificationService.java:285-295 | a HIGH-priority request carrying exactly the given recipients, title, content and kind |
| NotificationService.SendNotification | src/main/java/com/promiseservice/service/NotificationService.java:305-338 | a reply is returned unchanged; a null reply is the standard response with every recipient notified; a thrown call is the standard response with every recipient failed |
| NotificationService.StatusChangeSmsRequest | src/main/java/com/promiseservice/service/NotificationService.java:363-390 | the SMS is URGENT exactly for CANCELLED and goes to the same recipients with the status-change text |
| NotificationService.StatusChangeNotification | src/main/java/com/promiseservice/service/NotificationService.java:61-100 | a push goes to the status-change recipients with the status title and the status name as kind; an SMS goes too exactly when SMS is enabled and the status is not WAITING, urgent exactly for CANCELLED |
| NotificationService.CreatedNotification | src/main/java/com/promiseservice/service/NotificationService.java:107-145 | no SMS; a push is sent exactly when there are invited users, to exactly them, as an invitation, never to a null id |
| NotificationService.CancellationContent | src/main/java/com/promiseservice/service/NotificationService.java:160-161 | the content ends with the reason, or "사유 없음" when none is given |
| NotificationService.CancelledNotification | src/main/java/com/promiseservice/service/NotificationService.java:151-185 | a cancellation push goes to the status-change recipients; an urgent SMS with the cancellation text follows exactly when SMS is enabled |
| NotificationService.FallbackResponsesAccountForEveryone | src/main/java/com/promiseservice/service/NotificationService.java:305-338 | without a server reply every recipient is in exactly one list, the counts add up to the recipients, no reasons are given, and the message is the single success or failure clause (empty for no recipients) |
| JsonText.ReplaceChar | src/main/java/com/promiseservice/client/KakaoClient.java:217-221 | after replacing a character by a text free of it, the character no longer occurs, and nothing new but the replacement's characters appears |
| JsonText.EscapeChar | src/main/java/com/promiseservice/client/KakaoClient.java:216-222 | an ordinary character stays itself; backslash, quote, newline, carriage return and tab become a backslash and one letter |
| JsonText.ReplaceAppend | src/main/java/com/promiseservice/client/KakaoClient.java:217-221 | replacing distributes over concatenation |
| JsonText.EscapeJsonSingle | src/main/java/com/promiseservice/client/KakaoClient.java:216-222 | the five chained replacements escape a single character exactly once, never re-escaping the backslash they introduce |
| JsonText.EscapeJsonAppend | src/main/java/com/promiseservice/client/KakaoClient.java:216-222 | escaping distributes over concatenation |
| JsonText.EscapeJsonIsPerChar | src/main/java/com/promiseservice/client/KakaoClient.java:216-222 | the chained replacements equal escaping character by character |
| JsonText.UnescapeEscapeJson | src/main/java/com/promiseservice/client/KakaoClient.java:216-222 | unescaping an escaped text gives the text back, so escaping loses nothing |
| JsonText.EscapeJsonWellEscaped | src/main/java/com/promiseservice/client/KakaoClient.java:216-222 | every backslash of an escaped text starts one of the five escape pairs and every quote is escaped |
| JsonText.NoRawControl | src/main/java/com/promiseservice/client/KakaoClient.java:216-222 | an escaped text holds no raw newline, carriage return or tab |
| JsonText.PlainTextUnchanged | src/main/java/com/promiseservice/client/KakaoClient.java:216-222 | a text without the five special characters is not changed |
| TemplatePayloads.NewPayload | src/main/java/com/promiseservice/model/dto/TemplatePayload.java:32-37 | the four-argument constructor keeps its fields and has no title or description |
| TemplatePayloads.NewFullPayload | src/main/java/com/promiseservice/model/dto/TemplatePayload.java:50-58 | the six-argument constructor keeps all six fields |
| TemplatePayloads.ToSimpleText | src/main/java/com/promiseservice/model/dto/TemplatePayload.java:78-90 | the text starts with the inviter and the invitation phrase, then the title line when a title is set (else the date line), contains the date and place lines, and ends with the link line when a link is set (else the place line) |
| TemplatePayloads.TitleLineIsInserted | src/main/java/com/promiseservice/model/dto/TemplatePayload.java:81-83 | setting a title inserts exactly its line after the heading and leaves the rest of the text as it was |
| KakaoClient.ObjectJson | src/main/java/com/promiseservice/client/KakaoClient.java:181-210 | the rendering is always a brace-delimited object |
| KakaoClient.ValueJson | src/main/java/com/promiseservice/client/KakaoClient.java:193-200 | a value renders exactly when it is not null (a null value throws) |
| KakaoClient.MembersJsonJoins | src/main/java/com/promiseservice/client/KakaoClient.java:184-204 | a map without null values renders as its key-value pairs in iteration order, comma-separated |
| KakaoClient.ObjectJsonIsJoinedPairs | src/main/java/com/promiseservice/client/KakaoClient.java:181-210 | a map without null values renders as its pairs joined by commas inside braces |
| KakaoClient.NullValueGivesEmptyObject | src/main/java/com/promiseservice/client/KakaoClient.java:206-209 | a null value anywhere makes the whole rendering "{}" |
| KakaoClient.TemplateText | src/main/java/com/promiseservice/client/KakaoClient.java:153-162 | the message text starts with the party mark, the inviter and the invitation line and ends with the closing line |
| KakaoClient.TitleMarkIffTitle | src/main/java/com/promiseservice/client/KakaoClient.java:156-158 | the title mark appears exactly when the title is non-blank |
| KakaoClient.LinkObject | src/main/java/com/promiseservice/client/KakaoClient.java:168-171 | the link has two entries, web and mobile, both the meeting URL |
| KakaoClient.TemplateObject | src/main/java/com/promiseservice/client/KakaoClient.java:148-175 | a text object with the message text, and a link entry exactly when the URL is non-blank; no null values |
| KakaoClient.PlainStringPair | src/main/java/com/promiseservice/client/KakaoClient.java:184-204 | a two-entry map whose first value has no special characters renders it as it is and escapes only the second |
| KakaoClient.TwoPairs | src/main/java/com/promiseservice/client/KakaoClient.java:184-204 | a two-entry map without nulls renders as its two pairs joined by a comma |
| KakaoClient.PartialExcludesCompleteFailure | src/main/java/com/promiseservice/client/KakaoClient.java:246-256 | no result is both a partial success and a complete failure |
| KakaoClient.Delivered | src/main/java/com/promiseservice/client/KakaoClient.java:57-72 | at most one success per entry |
| KakaoClient.SendToMemo | src/main/java/com/promiseservice/client/KakaoClient.java:45-93 | the sent count is the number of deliveries, the total the number of entries, success means at least one delivery, and the message reports successes and failures |
| KakaoClient.SendOutcomeClassified | src/main/java/com/promiseservice/client/KakaoClient.java:76-81 | a result is a complete failure exactly when nothing was delivered and a partial success exactly when some but not all entries were |
| KakaoClient.AllDelivered | src/main/java/com/promiseservice/client/KakaoClient.java:57-72 | when every entry is delivered the count is the number of entries |
| KakaoMemoSender.QuotedJson | src/main/java/com/promiseservice/service/KakaoMemoSender.java:173-186 | the result is a quoted string; null becomes the empty string literal; otherwise the quoted part is well escaped and unescapes to the input |
| KakaoMemoSender.NullQuotesAsEmpty | src/main/java/com/promiseservice/service/KakaoMemoSender.java:173-176 | a null input is quoted exactly as the empty text |
| KakaoMemoSender.TemplateDefaults | src/main/java/com/promiseservice/service/KakaoMemoSender.java:149-164 | a null text reads as "메시지" and a null URL as the example address |
| KakaoMemoSender.SendText | src/main/java/com/promiseservice/service/KakaoMemoSender.java:38-83 | the send succeeds exactly when the post returns a 2xx status; an error status or a thrown call is a failure |
| KakaoMemoSender.MarkIffText | src/main/java/com/promiseservice/service/KakaoMemoSender.java:104-114 | a field's marked line contributes its mark exactly when the field is non-blank |
| KakaoMemoSender.MarksOutsideFields | src/main/java/com/promiseservice/service/KakaoMemoSender.java:102-116 | the fixed header and closing of the confirmation carry none of the three marks |
| KakaoMemoSender.ConfirmedLinesIffText | src/main/java/com/promiseservice/service/KakaoMemoSender.java:97-117 | the title, time and place lines appear in the confirmation exactly when the corresponding field is non-blank |
| KakaoMemoSender.ConfirmedUrl | src/main/java/com/promiseservice/service/KakaoMemoSender.java:118 | the detail URL when it is non-blank, the example address otherwise |
| KakaoMemoSender.CreateTextTemplate | src/main/java/com/promiseservice/service/KakaoMemoSender.java:149-164 | the template is the text object header, the quoted, escaped text (or "메시지"), and the web and mobile link slots, both holding the one quoted, escaped URL (or the example address), with nothing else between |
| KakaoMemoSender.SendAppointmentConfirmed | src/main/java/com/promiseservice/service/KakaoMemoSender.java:97-122 | the confirmation posts a text template whose text is the quoted confirmation message and whose web and mobile links are both the detail URL or the example address, and reports success exactly for a 2xx reply |
| KakaoNotifyResponses.GenerateMessage | src/main/java/com/promiseservice/model/dto/KakaoNotifyResponse.java:117-125 | the all-sent text exactly when sent equals total; "sent/total" followed by the fraction suffix when some but not all were sent; the failure text exactly when nothing was sent and that differs from the total |
| KakaoNotifyResponses.Empty | src/main/java/com/promiseservice/model/dto/KakaoNotifyResponse.java:16-23 | the no-argument response has no failures counted, is not a success and has no message |
| KakaoNotifyResponses.NewSummary | src/main/java/com/promiseservice/model/dto/KakaoNotifyResponse.java:32-39 | success exactly when something was sent; counts as given; an empty failure list; the all-sent, some-sent or failure text by the same three cases |
| KakaoNotifyResponses.NewWithFailures | src/main/java/com/promiseservice/model/dto/KakaoNotifyResponse.java:49-55 | success exactly when something was sent; a null failure list becomes empty; the message is the generated one |
| KakaoNotifyResponses.ConstructorsAgreeOnMessage | src/main/java/com/promiseservice/model/dto/KakaoNotifyResponse.java:32-55 | the two constructors write the same message exactly unless some but not all were sent |
| KakaoNotifyResponses.NothingToSendReadsAllSent | src/main/java/com/promiseservice/model/dto/KakaoNotifyResponse.java:32-39 | with nothing to send the message says all were sent, yet the response is neither a success nor a complete failure |
| KakaoNotifyResponses.AddFailure | src/main/java/com/promiseservice/model/dto/KakaoNotifyResponse.java:63-68 | adding a failure appends it (a null list becomes a one-element list) and changes nothing else |
| KakaoNotifyResponses.PartialExcludesComplete | src/main/java/com/promiseservice/model/dto/KakaoNotifyResponse.java:97-109 | no response is both a partial success and a complete failure |
| KakaoNotifyResponses.FailuresMakePartial | src/main/java/com/promiseservice/model/dto/KakaoNotifyResponse.java:97-99 | after adding failures to a summary it is a partial success exactly when something was sent and some failure was added |
| KakaoNotifyResponses.FailedCountAfterAddAll | src/main/java/com/promiseservice/model/dto/KakaoNotifyResponse.java:63-89 | adding n failures raises the failed count by n and keeps the counts |
| KakaoSendResults.Success | src/main/java/com/promiseservice/dto/KakaoSendResult.java:26-28 | a success record is status 200 with result code 0, a success and neither kind of error |
| KakaoSendResults.Failure | src/main/java/com/promiseservice/dto/KakaoSendResult.java:39-41 | a failure record has no result code, is a success exactly for a 2xx status, a token error for 401 and a permission error for 403 |
| KakaoSendResults.ErrorKindsWithoutMessage | src/main/java/com/promiseservice/dto/KakaoSendResult.java:59-73 | without an error message, token and permission errors are exactly 401 and 403, never both |
| KakaoSendResults.NonZeroCodeFails | src/main/java/com/promiseservice/dto/KakaoSendResult.java:49-51 | a non-zero result code is never a success |
| NotificationLogs.SuccessBoundaries | src/main/java/com/promiseservice/entity/NotificationLog.java:103-106 | a log row counts as a success exactly for HTTP statuses 200 through 299; 199, 300 and a missing status are failures |
| NotificationLogs.NonZeroCodeFails | src/main/java/com/promiseservice/entity/NotificationLog.java:103-106 | a row with a non-zero result code is never a success, whatever its HTTP status |
| NotificationLogs.Find | src/main/java/com/promiseservice/repository/NotificationLogRepository.java:57-58 | the `Optional` lookup by (meeting, user, channel, trace id) is empty exactly when no stored row has the key, returns the one row when exactly one has it, and throws an incorrect-result-size error exactly when two or more have it |
| NotificationLogs.LogKakaoSend | src/main/java/com/promiseservice/service/NotificationLogService.java:40-73 | the lookup's error escapes exactly when several rows share the key; an existing row is returned with the store untouched; otherwise a new KAKAO row copied from the result is appended and returned; stores with unique keys never fail and keep unique keys |
| NotificationLogs.LoggedSuccessMatchesResult | src/main/java/com/promiseservice/service/NotificationLogService.java:56-65 | a newly logged row is a success exactly when the API send result it records was one |
| NotificationLogs.LogKakaoSendIdempotent | src/main/java/com/promiseservice/service/NotificationLogService.java:40-73 | logging the same key a second time, with any payload and result, leaves the store unchanged and returns the first row |
| NotificationLogs.FindAppend | src/main/java/com/promiseservice/service/NotificationLogService.java:44-51 | after appending a row the lookup still finds the older row with the key, and finds the new row when it is the first with that key |
| NotificationLogs.LogFailedSend | src/main/java/com/promiseservice/service/NotificationLogService.java:86-104 | a failed send always appends a KAKAO row with status 0, result code -1 and the error as error text; its payload is `{"error":"` then the error text unescaped ("null" for a null error) then `"}`, so for a non-null error the payload holds exactly the stored error text between the delimiters; that row is never a success |
| NotificationLogs.TraceId | src/main/java/com/promiseservice/service/NotificationLogService.java:146-149 | a trace id starts with "mtg-" and ends with a dash and the first eight characters of the random UUID text |
| NotificationLogs.TraceIdSeparatesMeetings | src/main/java/com/promiseservice/service/NotificationLogService.java:146-149 | with the same random part, two meetings share a trace id only if they are the same meeting |
| UserConsents.FeaturesNeedMessageConsent | src/main/java/com/promiseservice/domain/entity/UserConsent.java:63-85 | Kakao features need the message consent explicitly true; an unset message consent allows neither messages nor features |
| UserConsents.CreateDefault | src/main/java/com/promiseservice/domain/entity/UserConsent.java:114-121 | a default consent record has every consent false, so it allows no messages, no friend access and no Kakao features |
| UserConsents.RevokeAllConsents | src/main/java/com/promiseservice/domain/entity/UserConsent.java:127-131 | revoking sets all three consents false, keeps the user and details, and disables Kakao features |
| UserConsents.UpdateTalkMessageConsent | src/main/java/com/promiseservice/domain/entity/UserConsent.java:93-95 | after the update messages may be sent exactly when the new consent is true; nothing else changes |
| UserConsents.UpdateFriendsConsent | src/main/java/com/promiseservice/domain/entity/UserConsent.java:103-105 | after the update friends may be accessed exactly when the new consent is true; nothing else changes |
| UserConsents.GrantingBothEnablesFeatures | src/main/java/com/promiseservice/domain/entity/UserConsent.java:83-121 | from the default record, granting both consents enables Kakao features and granting only the message consent does not |
| KakaoFriendMaps.Deactivate | src/main/java/com/promiseservice/domain/entity/KakaoFriendMap.java:71-94 | a deactivated mapping is never valid and differs from the original only in its active flag |
| KakaoFriendMaps.Create | src/main/java/com/promiseservice/domain/entity/KakaoFriendMap.java:107-118 | a new mapping is active, synced now, carries the given ids and profile, and is valid exactly when its Kakao UUID has non-blank text |
| KakaoFriendMaps.UpdateSyncInfo | src/main/java/com/promiseservice/domain/entity/KakaoFriendMap.java:82-86 | a sync update replaces nickname, image and sync time, leaves validity and every other field unchanged |
| UserIdentities.Of | src/main/java/com/promiseservice/entity/UserIdentity.java:291-297 | a minimal identity carries user, provider and provider user id, with no profile and no tokens |
| UserIdentities.Create | src/main/java/com/promiseservice/entity/UserIdentity.java:262-271 | a created identity is the minimal one plus the given nickname and profile image |
| UserIdentities.UpdateTokens | src/main/java/com/promiseservice/entity/UserIdentity.java:314-318 | the update sets the three token fields and leaves every other field unchanged |
| UserIdentities.UpdateProfile | src/main/java/com/promiseservice/entity/UserIdentity.java:334-337 | the update sets nickname and profile image and leaves every other field unchanged |
| UserIdentities.ExpiryFollowsTokens | src/main/java/com/promiseservice/entity/UserIdentity.java:314-356 | after a token update the identity is expired exactly when the new expiry is set and earlier than now; a profile update does not change expiry |
| UserIdentities.KakaoNameIgnoresCase | src/main/java/com/promiseservice/entity/UserIdentity.java:373-375 | the string provider names "kakao" and "Kakao" both count as Kakao, and a missing provider does not |
| UserIdentities.ProviderVersionsAgree | src/main/java/com/promiseservice/model/entity/UserIdentity.java:150-152 | the enum-typed identity's Kakao test agrees with the string-typed identity's case-insensitive name test |
| FriendRequests.NewRequest | src/main/java/com/promiseservice/entity/FriendRequest.java:59-64 | a new friend request is pending, unprocessed and carries the given sender, receiver and message |
| FriendRequests.Accept | src/main/java/com/promiseservice/entity/FriendRequest.java:71-74 | accepting makes the request final and accepted, stamped now, with its parties and message unchanged |
| FriendRequests.Reject | src/main/java/com/promiseservice/entity/FriendRequest.java:80-83 | rejecting makes the request final and rejected, stamped now, with its parties and message unchanged |
| FriendRequests.Cancel | src/main/java/com/promiseservice/entity/FriendRequest.java:89-92 | cancelling records REJECTED, never CANCELLED, stamped now, with its parties and message unchanged |
| FriendRequests.CancelIsReject | src/main/java/com/promiseservice/entity/FriendRequest.java:80-92 | cancelling and rejecting produce the same request |
| FriendRequests.CreatePlain | src/main/java/com/promiseservice/model/entity/FriendRequest.java:95-101 | the simpler friend request starts pending between the given requester and addressee |
| FriendRequests.AcceptPlain | src/main/java/com/promiseservice/model/entity/FriendRequest.java:79-81 | accepting the simpler request sets it accepted and keeps its parties |
| FriendRequests.RejectPlain | src/main/java/com/promiseservice/model/entity/FriendRequest.java:87-89 | rejecting the simpler request sets it rejected and keeps its parties |
| FriendRequests.LastTransitionWins | src/main/java/com/promiseservice/model/entity/FriendRequest.java:79-89 | the simpler request has no guard against re-deciding: the last of accept and reject decides its status |
| Friendships.Create | src/main/java/com/promiseservice/entity/Friendship.java:93-99 | a new friendship carries both users and always has a status: the given one, or ACCEPTED (active) when none is given |
| Friendships.BlockedExcludesActive | src/main/java/com/promiseservice/entity/Friendship.java:105-115 | no friendship is both blocked and active, and a pending or unset one is neither |
| Friendships.UpdateStatus | src/main/java/com/promiseservice/entity/Friendship.java:85-87 | the update sets the given status and keeps both users |
| NotificationLogs.DuplicateKeyThrows | src/main/java/com/promiseservice/service/NotificationLogService.java:40-104 | two failed sends logged under one trace id leave two rows with the same key, after which logging a send under that key throws |
| KakaoNotifyService.ValidateBasicRequirements | src/main/java/com/promiseservice/service/KakaoNotifyService.java:288-304 | a missing inviter id fails first, then a missing meeting id, both as illegal arguments; with both present the check passes exactly when the inviter's stored consent allows Kakao features, and fails as an illegal state otherwise |
| KakaoNotifyService.BuildTemplatePayload | src/main/java/com/promiseservice/service/KakaoNotifyService.java:92-124 | the payload fails only when the user lookup throws; otherwise it always has a place (the meeting's when non-blank, else "장소 미정"), the detail URL base + "/meetings/" + id, the inviter's name ("익명" without a user), the formatted date, title and description |
| KakaoNotifyService.PayloadValidWithNamedInviter | src/main/java/com/promiseservice/service/KakaoNotifyService.java:92-124 | with a named inviter and a non-blank date the payload is built and passes the payload's own validity check, whatever the meeting's location |
| KakaoNotifyService.ResolveReceivers | src/main/java/com/promiseservice/service/KakaoNotifyService.java:134-152 | the receivers are the given ids, or the meeting's participants when none are given, filtered in order to those that are not the inviter |
| KakaoNotifyService.InviterExcludedExample | src/main/java/com/promiseservice/service/KakaoNotifyService.java:134-152 | participants 1, 2 and 3 notified by user 1 resolve to exactly 2 and 3, in that order |
| KakaoNotifyService.TokenPairs | src/main/java/com/promiseservice/service/KakaoNotifyService.java:240-257 | every receiver is paired with the one environment token, in order |
| KakaoNotifyService.WithFailure | src/main/java/com/promiseservice/service/KakaoNotifyService.java:172-176 | a summary with one failure keeps its counts, succeeds exactly when something was sent and lists just that failure |
| KakaoNotifyService.SendRealKakaoNotification | src/main/java/com/promiseservice/service/KakaoNotifyService.java:163-209 | no receivers report 0 of 0 with no failures; a missing token fails with the inviter's no-token failure; otherwise the sent count is the client's delivered count over the distinct receivers, with one failure exactly when nothing was delivered; the total is always the receiver count and the response is a complete failure exactly when there were receivers and none was reached |
| KakaoNotifyService.Prepare | src/main/java/com/promiseservice/service/KakaoNotifyService.java:58-67 | the preparation succeeds exactly when `validateBasicRequirements` passes, the meeting exists and the user lookup does not throw, and then yields that meeting with `buildTemplatePayload`'s payload for it; a validation failure is passed on unchanged, a missing meeting fails with "존재하지 않는 약속입니다: " and the id, and a throwing lookup with the template error |
| KakaoNotifyService.ErrorResponse | src/main/java/com/promiseservice/service/KakaoNotifyService.java:75-80 | the catch-all response reports nothing sent, a total of the given receiver count (0 when null), and one failure for the inviter with "전송 중 오류 발생: " and the message |
| KakaoNotifyService.SendKakaoNotification | src/main/java/com/promiseservice/service/KakaoNotifyService.java:54-81 | every preparation failure becomes the error response; otherwise the inviter is not among the resolved receivers and the report is exactly what `sendRealKakaoNotification` reports for them: 0 of 0 with no failure for none, the inviter's no-token failure without a token, else the client's delivered count over the distinct receivers with one failure exactly when nothing was delivered |
| KakaoNotifyService.NoConsentSendsNothing | src/main/java/com/promiseservice/service/KakaoNotifyService.java:288-304 | an inviter without consent fails preparation with the consent error, so the response carries exactly that error for the inviter |
| KakaoNotifyService.ResolveReceiversStable | src/main/java/com/promiseservice/service/KakaoNotifyService.java:134-152 | resolving again with the resolved list as the explicit receivers gives it back unchanged, and a source without the inviter is kept whole |
| UnifiedNotification.SendNotice | src/main/java/com/promiseservice/service/notification/UnifiedNotificationService.java:38-71 | a successful port result is returned unchanged; any other outcome fails with no successes and exactly the recipient as failed, coded ALIMTALK_FAILED for a port failure and UNIFIED_NOTIFICATION_EXCEPTION with the exception's message for a throw |
| UnifiedNotification.SendBulkNotice | src/main/java/com/promiseservice/service/notification/UnifiedNotificationService.java:83-113 | each recipient's send consults the port afresh; the bulk lists are the concatenated success lists of the succeeding notices and failure lists of the failing ones, in recipient order; it succeeds exactly when some recipient succeeded, carries BULK_SEND_PARTIAL_FAILED exactly when it fails, and its message counts the recipients, successes and failures |
| UnifiedNotification.BulkListsEveryRecipient | src/main/java/com/promiseservice/service/notification/UnifiedNotificationService.java:90-98 | every recipient whose notice failed appears in the bulk failure list, and every success recipient of a succeeding notice appears in the bulk success list |
| UnifiedNotification.AllFailedBulk | src/main/java/com/promiseservice/service/notification/UnifiedNotificationService.java:90-110 | when every notice fails, the bulk success list is empty and the failure list is exactly the recipients |
| UnifiedNotification.CreateMeetingVariables | src/main/java/com/promiseservice/service/notification/UnifiedNotificationService.java:150-162 | the variables always hold title, time and location (defaulting to "약속", "시간 미정" and "장소 미정"), hold the reason exactly when it has non-blank text, and hold no other key |
| UnifiedNotification.CreateFallbackText | src/main/java/com/promiseservice/service/notification/UnifiedNotificationService.java:172-205 | the full fallback text: "약속 초대: ", title (or "새로운 약속"), time and place lines for an invitation; title (or "약속"), "이 확정되었습니다." and the two lines for a confirmation; title, the cancelled suffix and the reason line only when a reason is given for a cancellation; otherwise "약속 알림: ", the title and one line per other variable |
| UnifiedNotification.CancelledReasonLineIffReason | src/main/java/com/promiseservice/service/notification/UnifiedNotificationService.java:188-194 | for a title without line breaks, the cancellation text has a line break exactly when a reason is present, and then ends with "\n사유: " and the reason |
| UnifiedNotification.OtherLinesListEach | src/main/java/com/promiseservice/service/notification/UnifiedNotificationService.java:195-202 | the generic text lists every variable other than the title as its own "key: value" line |
| UnifiedNotification.SameRecipientTwice | src/main/java/com/promiseservice/service/notification/UnifiedNotificationService.java:90-110 | a recipient listed twice, accepted on the first send and refused on the second, is in the success list and once in the failure list |
| JwtFilter.ParseLong | src/main/java/com/promiseservice/security/JwtAuthenticationFilter.java:64 | a parsed header value is a signed 64-bit value, and only a non-empty text of digits with an optional leading sign parses |
| JwtFilter.ParseLongOfIntToString | src/main/java/com/promiseservice/security/JwtAuthenticationFilter.java:64 | every 64-bit value's decimal text parses back to that value |
| JwtFilter.TrimOfUntrimmed | src/main/java/com/promiseservice/security/JwtAuthenticationFilter.java:62-64 | trimming a text that neither starts nor ends with a control or space character leaves it unchanged |
| JwtFilter.ForcedUserId | src/main/java/com/promiseservice/security/JwtAuthenticationFilter.java:61-71 | a forced user id exists only for a header with non-blank text, and is then the parse of its trimmed text |
| JwtFilter.ForcedUserIdOfNumber | src/main/java/com/promiseservice/security/JwtAuthenticationFilter.java:61-71 | a header holding a 64-bit value's decimal text forces exactly that user id |
| JwtFilter.DropTrailingEmpty | src/main/java/com/promiseservice/security/JwtAuthenticationFilter.java:159 | the split result is a prefix of the pieces, ends in a non-empty piece (or is empty), and drops only empty pieces |
| JwtFilter.PiecesOfDotFree | src/main/java/com/promiseservice/security/JwtAuthenticationFilter.java:159 | a text without dots splits into itself alone |
| JwtFilter.PiecesAroundDot | src/main/java/com/promiseservice/security/JwtAuthenticationFilter.java:159 | splitting at the first dot gives the dot-free head followed by the pieces of the rest |
| JwtFilter.PiecesOfTrailingDots | src/main/java/com/promiseservice/security/JwtAuthenticationFilter.java:159 | a dot-free text followed by n dots splits into the text and n empty pieces |
| JwtFilter.ThreeSegmentsValid | src/main/java/com/promiseservice/security/JwtAuthenticationFilter.java:150-174 | three dot-separated dot-free segments with a non-empty last one make a valid token, whatever number of trailing dots follow (the split drops them) |
| JwtFilter.DropTrailingLength | src/main/java/com/promiseservice/security/JwtAuthenticationFilter.java:159 | when the last non-empty piece is at index k, the split keeps exactly k + 1 pieces |
| JwtFilter.DotIsNotBlank | src/main/java/com/promiseservice/security/JwtAuthenticationFilter.java:154 | a text containing a dot is not blank |
| JwtFilter.TrailingDotAfterTwoSegmentsInvalid | src/main/java/com/promiseservice/security/JwtAuthenticationFilter.java:150-174 | two segments followed by a dot are not a valid token, because the empty third piece is dropped |
| JwtFilter.FewerThanTwoDotsInvalid | src/main/java/com/promiseservice/security/JwtAuthenticationFilter.java:150-174 | one segment, or two segments joined by a dot, are not valid tokens |
| JwtFilter.HashCode | src/main/java/com/promiseservice/security/JwtAuthenticationFilter.java:190 | the Java string hash is a signed 32-bit value congruent, modulo 2^32, to the wrapping 31-polynomial over the characters |
| JwtFilter.ExtractUserId | src/main/java/com/promiseservice/security/JwtAuthenticationFilter.java:183-200 | the user id lies in 1 through 1000 and is one more than the hash's absolute value modulo 1000 |
| JwtFilter.ExtractUserRole | src/main/java/com/promiseservice/security/JwtAuthenticationFilter.java:209-226 | the role is ADMIN exactly for tokens longer than 200 characters, and USER otherwise |
| JwtFilter.DoFilter | src/main/java/com/promiseservice/security/JwtAuthenticationFilter.java:39-140 | OPTIONS requests are never authenticated; a /api/dev/ request is authenticated only in dev mode, as the user its numeric X-User-Id header names, with role USER; any other authenticated request is on a checked path with a valid "Bearer " token, gets a user id in 1 through 1000 and is ADMIN exactly when the header is longer than 207 characters |
| JwtFilter.AuthenticatedIffValidBearer | src/main/java/com/promiseservice/security/JwtAuthenticationFilter.java:79-140 | outside dev mode, a non-OPTIONS request is authenticated exactly when its path is not bypassed and it carries a valid bearer token |
| JwtFilter.DevModeOnlyAffectsDevPaths | src/main/java/com/promiseservice/security/JwtAuthenticationFilter.java:55-77 | dev mode changes the outcome only for /api/dev/ paths |
| JwtFilter.DevHeaderForcesUser | src/main/java/com/promiseservice/security/JwtAuthenticationFilter.java:55-77 | in dev mode, a /api/dev/ request whose X-User-Id is a 64-bit decimal is authenticated as exactly that user with role USER, whatever its Authorization header |
| ApiClient.MergeHeaders | src/main/resources/static/api.js:21-40 | the sent headers keep every caller header, add at most Authorization and Content-Type, carry "Bearer " and the token exactly when a truthy token is stored, and get the JSON content type only for POST, PUT or PATCH without a truthy caller Content-Type |
| ApiClient.NoContentTypeWithoutBody | src/main/resources/static/api.js:33-37 | a GET, or a request without a method, has a Content-Type only when the caller gave one |
| ApiClient.MethodCaseIgnored | src/main/resources/static/api.js:33 | the method is compared upper-cased, so "post" is treated exactly like "POST" |
| ApiClient.Prefix100 | src/main/resources/static/api.js:68 | the quoted body is the first 100 characters of the error text, or all of it when shorter |
| ApiClient.ErrorMessage | src/main/resources/static/api.js:52-70 | the error message is "HTTP " and the status, then for a JSON body ": message" when the message is truthy and " (error)" when the error is truthy; for any other body ": " and its first 100 characters when it is non-empty |
| ApiClient.UnauthorizedMessageMentions401 | src/main/resources/static/api.js:54-93 | every error message for a 401 response contains "401", so it always reaches the re-login prompt |
| ApiClient.ApiFetch | src/main/resources/static/api.js:17-103 | a 2xx JSON reply resolves with its body and keeps the token; an authentication failure the user confirms clears the token, goes to the login page and resolves to undefined; every other failure rejects with exactly its own message and leaves token and page alone |
| ApiClient.UnauthorizedReplyOffersLogin | src/main/resources/static/api.js:52-101 | a 401 reply logs the user out when they confirm, and otherwise rejects with a message starting "HTTP 401" while keeping the token |
| ApiClient.CancelUrl | src/main/resources/static/api.js:154-159 | the cancel URL is the appointment's cancel path, followed by "?cancelReason=" and the encoded reason exactly when the reason is truthy |
| ApiClient.CancelUrlQueryIffReason | src/main/resources/static/api.js:155 | the cancel URL has a query part exactly when a truthy reason was given |
| ApiClient.Logout | src/main/resources/static/api.js:176-179 | after logout the user is not logged in and the page is the login page |
| ApiClient.PageGuard | src/main/resources/static/api.js:206-215 | a page redirects to the login page exactly when it is not public and no truthy token is stored |
| ApiClient.GuardHasNoLoop | src/main/resources/static/api.js:167-215 | the login page never redirects, and after logout every non-public page redirects to the login page |

## Left out

- Logging (every `log.*` call) is not modelled; it has no effect on results.
- Remote I/O is not modelled. The user service, the SMS gateway post, the Alimtalk port, the Kakao memo post and the notification-service post are each replaced by the outcome they report, passed in as a parameter or an oracle function.
- Concurrency is not modelled: `KakaoClient.sendToMemo`'s `CompletableFuture` becomes the sequential counting loop, and the after-commit event listener is out.
- JPA plumbing is not modelled: transactions, `@PrePersist`/auditing timestamps, the JPQL queries behind repository methods and the configuration classes. Repositories are maps and sequences passed in and returned. The modelled column constraints are the (meeting, user) unique key of `meeting_participants`, the NOT NULL columns of `appointments` and `appointment_participants`, and the VARCHAR lengths of `appointments` (title 200, place 300, recommended place, link and detail URL 500), which `createAppointment` can exceed because it copies an unvalidated request map. The VARCHAR lengths of the other tables (meetings, histories, notification logs, identities) are not modelled: their saves are taken to receive text within its column, and an over-long value that the database would refuse is stored by the model. A refused save is a `DataIntegrityViolationException` without a message, because Hibernate writes the text.
- The clock is a `now` parameter, and `DateTimeFormatter` output is an input string.
- `UUID.randomUUID` is an input string; only the trace id's shape depends on it.
- Floating point is not modelled: the success and failure rates of the response DTOs, `NotificationLogService.calculateSuccessRate`, and the latitude/longitude values of `Appointment`, which `AppointmentController` copies without checking.
- Case-insensitive comparison, `toLowerCase` and `toUpperCase` map only ASCII letters; other characters are left unchanged.
- Integer widths are unbounded, except where the width decides the result: `String.hashCode` wraps at 32 bits, and `Long.valueOf` of the `X-User-Id` header rejects values outside 64 bits.
- `String.hashCode` is computed over characters rather than UTF-16 code units, so characters outside the Basic Multilingual Plane hash differently.
- `Long.parseLong` accepts ASCII digits only.
- Text lengths count characters (Unicode scalar values), not UTF-16 code units. This applies to Java's `String.length()` and `substring` and to JavaScript's `substring`. A character outside the Basic Multilingual Plane, such as an emoji, is one unit in the model and two in the code, so a text holding one reaches each length threshold later in the model than in the code. The affected thresholds are:
  - the 70-character rule that appends the reason to status-change and cancellation texts (`NotificationService.java:423` and `:447`; `NotificationService.WithShortReason`, `NotificationService.LongTitleDropsReason`);
  - the 500-character cut of `markNotificationFailed` (`Appointments.TruncateError`);
  - the 500-character invite message of `MeetingValidator.isValidInviteRequest`;
  - the 90-character SMS message check (`SmsNotificationRequest.java:81`);
  - the 200-character token threshold of `JwtFilter.ExtractUserRole`;
  - the 100-character body prefix of `api.js` (`ApiClient.Prefix100`).
- HashMap iteration order is a parameter, in `createFallbackText`'s default branch and in `KakaoClient`'s JSON writer. `KakaoNotifyService`'s receiver-to-token map is its list of distinct receivers.
- `UnifiedNotificationService.sendNotice` is modelled for a non-null recipient only. With a null `to`, `List.of(to)` at lines 57 and 68 throws `NullPointerException` on every path except the port's success; the throw in the catch block escapes the method. A null template code only reaches the port, which is an oracle.
- `UnifiedNotificationService.checkChannelStatus` and the health checks of `SmsService` and `NotificationService` are not modelled; they only query remote services.
- Inside `KakaoNotifyService.sendRealKakaoNotification`, two branches are not modelled because they cannot happen: the empty-token-map branch and the catch. The token map holds every receiver whenever the token exists, and no modelled step throws.
- A null element in a receiver id list is not modelled: ids are plain integers.
- `KakaoFriendMap.isActive` is a `boolean` field and is never null in the model.
- `KakaoNotifyService.checkKakaoInfo` always answers true and is left out. `FriendService.areFriends` is an oracle parameter.
- The Kakao test token comes from the environment and is an optional-string parameter.
- The read-only repository queries are not modelled; each only returns what the repository holds:
  - `ParticipantService`: `getParticipants` through `getParticipantStats`;
  - `MeetingService.getMeetingsByHost` and `getMeetingsByParticipant`;
  - `MeetingStatusService.getStatusHistory` and `getMeetingsByStatus`;
  - `MeetingSearchService.getRecentMeetings`;
  - `AppointmentController.getMyHostedAppointments` and `getMyParticipatedAppointments`;
  - `NotificationLogService`'s three lookups and `getRecentFailures`.
- `NotificationService.sendSmsOnlyNotification` is not modelled; it only wraps `SmsService.sendSmsToUsers`, which is modelled.
- The catch inside the `ParticipantService.inviteParticipants` loop is not modelled, because the model's repositories do not throw.
- `KakaoMemoSender.handleKakaoApiError` only logs. `KakaoMemoSender.sendTestMessage` embeds the current time in its text.
- Several files do not compile against the classes shown: the `dto/ParticipantResponse` and `StatusHistoryResponse` mappers and `model/dto/MeetingResponse`. They are not modelled. `MeetingValidator` also reads getters that the request DTO shown lacks; it is modelled over request records that hold exactly the fields it reads.
- Test methods that call methods which do not exist are not reflected in the model.
- Three more sources do not compile as written; the model repairs each as follows.
  - `MeetingService.createMeeting` calls `setHostId` (line 41), but the domain `Meeting` has no host field and derives the host from its participants (`getHostId`, line 104). The model drops the setter. The host row saved next is the meeting's first participant, so the derived host is the creator.
  - The same method fills each participant row only through `setMeeting` (lines 54 and 71). The `meeting_id` column, however, is mapped by the plain `meetingId` field (`MeetingParticipant.java:36-37`), and the association is not insertable (line 43), so as written each save would insert a null `meeting_id`. The model assumes `setMeetingId(savedMeeting.getId())`, which `ParticipantService` calls at line 89: every row it creates carries the new meeting's id.
  - `MeetingSearchService` imports `model.entity.Meeting.MeetingStatus` (line 4), a type that does not exist. The model assumes the four statuses of the domain enum.
  - `NotificationLogService` calls `NotificationLog.builder()` (lines 56 and 87), but the `entity.NotificationLog` it imports has no `@Builder`. The model assumes a builder that sets exactly the fields in the chain.
- MeetingSearchService.SelectSearch: the `IllegalArgumentException` for an unknown status omits the enum's class name from its message, because the enum class imported at `MeetingSearchService.java:4` does not exist.
- NotificationLogs.Find: the `IncorrectResultSizeDataAccessException` for several rows under one key carries no message, because the text is Spring's.
- The SMS payload of `sendSingleSms` omits the configured sender number (`from`) and the API key header; both are configuration.
- `api.js` talks to the browser through `fetch`, `localStorage`, `confirm`, `location`, `console` and `encodeURIComponent`; each is a parameter or an oracle. A parsed JSON body keeps only its `message` and `error` properties, each as an optional string.
- JwtFilter.ThreeSegmentsValid: states only that three dot-free segments are a valid token; the converse (every valid token has this shape) is proved only for the one- and two-segment cases.

=== FILE: api_client.dfy ===
/**
 * The browser helper `api.js`: `apiFetch` attaches the stored token,
 * defaults the content type, turns HTTP failures into error messages and
 * offers a re-login on authentication failures; the page guard sends
 * signed-out visitors to the login page. Local storage, `fetch`, `confirm`,
 * `location` and `encodeURIComponent` are inputs and outputs of the
 * functions below.
 */
module ApiClient {
  import opened Wrappers
  import opened Text

  /** A JavaScript string is truthy when it is present and non-empty. */
  predicate Truthy(s: Option<string>)
  {
    s.Some? && s.value != ""
  }

  const AuthorizationKey := "Authorization"
  const ContentTypeKey := "Content-Type"
  const JsonContentType := "application/json"
  const LoginPage := "/login.html"

  /** A JavaScript property read: undefined (`None`) for a missing key. */
  function Lookup(m: map<string, string>, key: string): Option<string>
  {
    if key in m then Some(m[key]) else None
  }

  /** The methods that get a JSON content type by default, compared upper-cased. */
  predicate SendsBody(httpMethod: Option<string>)
  {
    Truthy(httpMethod) && Upper(httpMethod.value) in {"POST", "PUT", "PATCH"}
  }

  /**
   * The headers `apiFetch` sends: a copy of the caller's headers (none when
   * they are absent), the stored token as a bearer Authorization when it is
   * truthy, and a JSON Content-Type for POST, PUT or PATCH when the caller
   * gave no truthy one.
   */
  function MergeHeaders(callerHeaders: Option<map<string, string>>, token: Option<string>,
                        httpMethod: Option<string>): (h: map<string, string>)
    ensures forall k :: k in callerHeaders.GetOr(map[]) ==> k in h
    ensures forall k :: k in h ==> k in callerHeaders.GetOr(map[]) || k == AuthorizationKey || k == ContentTypeKey
    ensures forall k :: k in h && k != AuthorizationKey && k != ContentTypeKey ==> h[k] == callerHeaders.GetOr(map[])[k]
    ensures Truthy(token) ==> Lookup(h, AuthorizationKey) == Some(BearerOf(token.value))
    ensures !Truthy(token) ==> Lookup(h, AuthorizationKey) == Lookup(callerHeaders.GetOr(map[]), AuthorizationKey)
    ensures SendsBody(httpMethod) && !Truthy(Lookup(callerHeaders.GetOr(map[]), ContentTypeKey)) ==>
              Lookup(h, ContentTypeKey) == Some(JsonContentType)
    ensures !(SendsBody(httpMethod) && !Truthy(Lookup(callerHeaders.GetOr(map[]), ContentTypeKey))) ==>
              Lookup(h, ContentTypeKey) == Lookup(callerHeaders.GetOr(map[]), ContentTypeKey)
  {
    var copied := callerHeaders.GetOr(map[]);
    var withToken := if Truthy(token) then copied[AuthorizationKey := BearerOf(token.value)] else copied;
    if SendsBody(httpMethod) && !Truthy(Lookup(withToken, ContentTypeKey)) then withToken[ContentTypeKey := JsonContentType]
    else withToken
  }

  function BearerOf(token: string): string
  {
    "Bearer " + token
  }

  /** A GET (or a request without a method) never gets a Content-Type it did not ask for. */
  lemma NoContentTypeWithoutBody(callerHeaders: Option<map<string, string>>, token: Option<string>)
    ensures var h := MergeHeaders(callerHeaders, token, Some("GET"));
            ContentTypeKey in h <==> ContentTypeKey in callerHeaders.GetOr(map[])
    ensures var h := MergeHeaders(callerHeaders, token, None);
            ContentTypeKey in h <==> ContentTypeKey in callerHeaders.GetOr(map[])
  {
    assert Upper("GET") == "GET";
  }

  /** A lower-case "post" gets the JSON default just like "POST". */
  lemma MethodCaseIgnored(callerHeaders: Option<map<string, string>>, token: Option<string>)
    ensures MergeHeaders(callerHeaders, token, Some("post")) == MergeHeaders(callerHeaders, token, Some("POST"))
  {
    assert Upper("post") == "POST";
    assert Upper("POST") == "POST";
  }

  /**
   * What `JSON.parse` makes of an error body: not JSON (with the parser's
   * message), `null`, or another value, of which only the truthy `message`
   * and `error` properties matter, in their template-string rendering.
   */
  datatype JsonParse =
    | NotJson(syntaxMessage: string)
    | JsonNull
    | JsonValue(message: Option<string>, error: Option<string>)

  /** `String.substring(0, 100)`. */
  function Prefix100(s: string): (p: string)
    ensures |p| == Min(100, |s|) && p == s[..|p|]
  {
    if |s| <= 100 then s else s[..100]
  }

  /** What a JSON error body adds: ": <message>" and " (<error>)", each when truthy. */
  function JsonDetail(message: Option<string>, error: Option<string>): (d: string)
    ensures Truthy(message) ==> StartsWith(d, ": " + message.value)
    ensures Truthy(error) ==> EndsWith(d, " (" + error.value + ")")
    ensures d == "" <==> !Truthy(message) && !Truthy(error)
  {
    var first := if Truthy(message) then ": " + message.value else "";
    var second := if Truthy(error) then " (" + error.value + ")" else "";
    ConcatEnds(first, second);
    first + second
  }

  /** What any other body adds: ": " and its first 100 characters, when it is non-empty. */
  function BodyDetail(bodyText: string): (d: string)
    ensures d == "" <==> bodyText == ""
    ensures bodyText != "" ==> d == ": " + Prefix100(bodyText)
  {
    if bodyText != "" then ": " + Prefix100(bodyText) else ""
  }

  /**
   * The message of the error thrown for a non-2xx response: "HTTP <status>",
   * then ": <message>" and " (<error>)" for a JSON body with those
   * properties truthy; for a body that does not parse, or parses to `null`
   * (whose property read throws), ": " and the first 100 characters of a
   * non-empty body.
   */
  function ErrorMessage(status: int, bodyText: string, parsed: JsonParse): (m: string)
    ensures StartsWith(m, "HTTP " + IntToString(status))
    ensures parsed.JsonValue? && !Truthy(parsed.message) && !Truthy(parsed.error) ==> m == "HTTP " + IntToString(status)
    ensures !parsed.JsonValue? ==> (m == "HTTP " + IntToString(status) <==> bodyText == "")
    ensures !parsed.JsonValue? && bodyText != "" ==> EndsWith(m, ": " + Prefix100(bodyText))
    ensures parsed.JsonValue? && Truthy(parsed.message) ==>
              StartsWith(m, "HTTP " + IntToString(status) + ": " + parsed.message.value)
    ensures parsed.JsonValue? && Truthy(parsed.error) ==> EndsWith(m, " (" + parsed.error.value + ")")
    ensures parsed.JsonValue? ==>
              m == "HTTP " + IntToString(status)
                   + (if Truthy(parsed.message) then ": " + parsed.message.value else "")
                   + (if Truthy(parsed.error) then " (" + parsed.error.value + ")" else "")
    ensures !parsed.JsonValue? ==>
              m == "HTTP " + IntToString(status) + (if bodyText != "" then ": " + Prefix100(bodyText) else "")
  {
    var head := "HTTP " + IntToString(status);
    match parsed
    case JsonValue(message, error) =>
      var rest := JsonDetail(message, error);
      ConcatEnds(head, rest);
      StartsWithExtended(head, rest, ": " + message.GetOr(""));
      EndsWithExtended(head, rest, " (" + error.GetOr("") + ")");
      assert head + ": " + message.GetOr("") == head + (": " + message.GetOr(""));
      head + rest
    case _ =>
      var rest := BodyDetail(bodyText);
      ConcatEnds(head, rest);
      head + rest
  }

  /** Every error for a 401 response mentions 401, so it always reaches the re-login prompt. */
  lemma UnauthorizedMessageMentions401(bodyText: string, parsed: JsonParse)
    ensures IsAuthFailure(ErrorMessage(401, bodyText, parsed))
  {
    var m := ErrorMessage(401, bodyText, parsed);
    assert IntToString(401) == "401" by {
      assert NatToString(401) == NatToString(40) + ['1'];
      assert NatToString(40) == NatToString(4) + ['0'];
    }
    assert m[5..8] == "401";
    OccursContains(m, "401", 5);
  }

  /** The failure messages that offer a new login. */
  predicate IsAuthFailure(message: string)
  {
    Contains(message, "401") || Contains(message, "Unauthorized")
  }

  /** What `fetch` produced: a network failure with its message, or a response. */
  datatype Reply =
    | NetworkFailure(message: string)
    | Answered(status: int, bodyText: string, parsed: JsonParse)

  /** How the call settles: with the parsed body, with `undefined` after a redirect, or rejected. */
  datatype Outcome = Resolved(body: JsonParse) | ResolvedUndefined | Rejected(message: string)

  /** The settled call together with the stored token and the page navigated to, if any. */
  datatype FetchEffect = FetchEffect(outcome: Outcome, storedToken: Option<string>, navigateTo: Option<string>)

  /** `response.ok`. */
  predicate IsOk(status: int)
  {
    200 <= status <= 299
  }

  /** The message of the error the body of `apiFetch` throws, if any. */
  function FailureMessage(reply: Reply): Option<string>
  {
    match reply
    case NetworkFailure(message) => Some(message)
    case Answered(status, bodyText, parsed) =>
      if !IsOk(status) then Some(ErrorMessage(status, bodyText, parsed))
      else if parsed.NotJson? then Some(parsed.syntaxMessage)
      else None
  }

  /**
   * `apiFetch` after the request: a 2xx JSON reply resolves with the body;
   * any thrown error is rethrown, except that an authentication failure the
   * user confirms clears the token, goes to the login page and resolves to
   * `undefined`. `confirmed` is the user's answer to the prompt.
   */
  function ApiFetch(storedToken: Option<string>, reply: Reply, confirmed: bool): (e: FetchEffect)
    ensures FailureMessage(reply).None? ==> e == FetchEffect(Resolved(reply.parsed), storedToken, None)
    ensures e.outcome.ResolvedUndefined? <==>
              FailureMessage(reply).Some? && IsAuthFailure(FailureMessage(reply).value) && confirmed
    ensures e.outcome.ResolvedUndefined? ==> e.storedToken.None? && e.navigateTo == Some(LoginPage)
    ensures !e.outcome.ResolvedUndefined? ==> e.storedToken == storedToken && e.navigateTo.None?
    ensures e.outcome.Rejected? ==> Some(e.outcome.message) == FailureMessage(reply)
    ensures FailureMessage(reply).Some? && !(IsAuthFailure(FailureMessage(reply).value) && confirmed) ==>
              e.outcome == Rejected(FailureMessage(reply).value)
  {
    var failure := FailureMessage(reply);
    if failure.None? then FetchEffect(Resolved(reply.parsed), storedToken, None)
    else if IsAuthFailure(failure.value) && confirmed then FetchEffect(ResolvedUndefined, None, Some(LoginPage))
    else FetchEffect(Rejected(failure.value), storedToken, None)
  }

  /** A 401 reply either rejects with a message naming the status (token kept) or, if confirmed, logs the user out. */
  lemma UnauthorizedReplyOffersLogin(storedToken: Option<string>, bodyText: string, parsed: JsonParse, confirmed: bool)
    ensures var e := ApiFetch(storedToken, Answered(401, bodyText, parsed), confirmed);
            if confirmed then e.outcome.ResolvedUndefined? && !IsLoggedIn(e.storedToken)
            else e.outcome.Rejected? && StartsWith(e.outcome.message, "HTTP 401") && e.storedToken == storedToken
  {
    UnauthorizedMessageMentions401(bodyText, parsed);
    assert IntToString(401) == "401" by {
      assert NatToString(401) == NatToString(40) + ['1'];
      assert NatToString(40) == NatToString(4) + ['0'];
    }
  }

  /**
   * `cancelAppointment`'s URL: the reason, URI-encoded, is appended as the
   * `cancelReason` query parameter exactly when it is truthy.
   */
  function CancelUrl(appointmentId: int, cancelReason: Option<string>, encode: string -> string): (url: string)
    ensures StartsWith(url, CancelPath(appointmentId))
    ensures !Truthy(cancelReason) ==> url == CancelPath(appointmentId)
    ensures Truthy(cancelReason) ==> url == CancelPath(appointmentId) + "?cancelReason=" + encode(cancelReason.value)
  {
    var path := CancelPath(appointmentId);
    if Truthy(cancelReason) then
      var url := path + "?cancelReason=" + encode(cancelReason.value);
      assert url == path + ("?cancelReason=" + encode(cancelReason.value));
      StartsWithConcat(path, "?cancelReason=" + encode(cancelReason.value));
      url
    else
      StartsWithConcat(path, "");
      assert path + "" == path;
      path
  }

  function CancelPath(appointmentId: int): string
  {
    "/api/appointments/" + IntToString(appointmentId) + "/cancel"
  }

  /** The URL has a query part exactly when a truthy reason was given. */
  lemma CancelUrlQueryIffReason(appointmentId: int, cancelReason: Option<string>, encode: string -> string)
    ensures '?' in CancelUrl(appointmentId, cancelReason, encode) <==> Truthy(cancelReason)
  {
    var path := CancelPath(appointmentId);
    IntToStringChars(appointmentId);
    assert '?' !in path;
    if Truthy(cancelReason) {
      assert CancelUrl(appointmentId, cancelReason, encode)[|path|] == '?';
    }
  }

  /** `isLoggedIn`: a truthy token is stored. */
  predicate IsLoggedIn(storedToken: Option<string>)
  {
    Truthy(storedToken)
  }

  /** `logout`: removes the token and navigates to the login page. */
  function Logout(storedToken: Option<string>): (effect: (Option<string>, string))
    ensures !IsLoggedIn(effect.0) && effect.1 == LoginPage
  {
    (None, LoginPage)
  }

  const PublicPaths := ["/login.html", "/login-done.html", "/"]

  /** The page guard on load: the page to go to, if any. */
  function PageGuard(path: string, storedToken: Option<string>): (redirect: Option<string>)
    ensures redirect.Some? <==> path !in PublicPaths && !IsLoggedIn(storedToken)
    ensures redirect.Some? ==> redirect.value == LoginPage
  {
    if path !in PublicPaths && !IsLoggedIn(storedToken) then Some(LoginPage) else None
  }

  /** The guard never redirects away from the page it redirects to, and after logout every other page redirects. */
  lemma GuardHasNoLoop(storedToken: Option<string>, path: string)
    ensures PageGuard(LoginPage, storedToken).None?
    ensures path !in PublicPaths ==> PageGuard(path, Logout(storedToken).0) == Some(LoginPage)
  {
  }
}

=== FILE: appointment.dfy ===
/**
 * The `Appointment` and `AppointmentParticipant` entities: an appointment
 * with its timing predicates, and a participant row with its answer state
 * and notification status. Instants are epoch milliseconds.
 */
module Appointments {
  import opened Wrappers
  import opened AppointmentStatuses
  import opened ParticipantStates
  import opened NotifyStatuses
  import Seqs

  type Millis = int

  /** The fields of an appointment the logic reads (coordinates are left out). */
  datatype Appointment = Appointment(
    id: int,
    maxParticipants: Option<int>,
    recommendedPlace: Option<string>,
    title: Option<string>,
    place: Option<string>,
    startAt: Option<Millis>,
    remindAt: Option<Millis>,
    linkUrl: Option<string>,
    sent: bool,
    status: AppointmentStatus,
    hostUserId: Option<int>,
    detailUrl: Option<string>)

  /** A new appointment: not sent, DRAFT, every optional field null. */
  function NewAppointment(id: int): (a: Appointment)
    ensures !a.sent && a.status == Draft && a.hostUserId.None? && a.maxParticipants.None?
  {
    Appointment(id, None, None, None, None, None, None, None, false, Draft, None, None)
  }

  /** `isRemindTimeDue`: a reminder time is set and lies strictly before `now`. */
  predicate IsRemindTimeDue(a: Appointment, now: Millis)
  {
    a.remindAt.Some? && a.remindAt.value < now
  }

  /** `isPastAppointment`: a start time is set and lies strictly before `now`. */
  predicate IsPastAppointment(a: Appointment, now: Millis)
  {
    a.startAt.Some? && a.startAt.value < now
  }

  /** `markAsSent`: sets the flag and touches nothing else. */
  function MarkAsSent(a: Appointment): (r: Appointment)
    ensures r.sent && r == a.(sent := true)
  {
    a.(sent := true)
  }

  /** Marking twice is marking once. */
  lemma MarkAsSentIdempotent(a: Appointment)
    ensures MarkAsSent(MarkAsSent(a)) == MarkAsSent(a)
  {
  }

  /** Java's `long` division, which truncates toward zero (Dafny's `/` is Euclidean). */
  function TruncDiv(x: int, d: int): (q: int)
    requires d > 0
    ensures x >= 0 ==> 0 <= q * d <= x < q * d + d
    ensures x < 0 ==> q * d - d < x <= q * d <= 0
  {
    if x >= 0 then
      DivBounds(x, d);
      x / d
    else
      DivBounds(-x, d);
      -((-x) / d)
  }

  lemma DivBounds(x: int, d: int)
    requires x >= 0 && d > 0
    ensures 0 <= (x / d) * d <= x < (x / d) * d + d
  {
    assert x == (x / d) * d + x % d;
    assert 0 <= x / d;
  }

  /**
   * `getMinutesUntilAppointment`: whole minutes between `now` and the start,
   * truncated toward zero; 0 without a start time.
   */
  function MinutesUntilAppointment(a: Appointment, now: Millis): (m: int)
    ensures a.startAt.None? ==> m == 0
    ensures a.startAt.Some? ==> var diff := a.startAt.value - now;
                                (diff >= 0 ==> 0 <= m * 60000 <= diff < m * 60000 + 60000)
                                && (diff < 0 ==> m * 60000 - 60000 < diff <= m * 60000 <= 0)
  {
    if a.startAt.None? then 0 else TruncDiv(a.startAt.value - now, 1000 * 60)
  }

  /** A past appointment has a non-positive minute count; one more than a minute away a positive one. */
  lemma MinutesSign(a: Appointment, now: Millis)
    ensures IsPastAppointment(a, now) ==> MinutesUntilAppointment(a, now) <= 0
    ensures a.startAt.Some? && a.startAt.value - now >= 60000 ==> MinutesUntilAppointment(a, now) >= 1
    ensures a.startAt.Some? && now - a.startAt.value >= 60000 ==> MinutesUntilAppointment(a, now) <= -1
  {
    if a.startAt.Some? {
      var m := MinutesUntilAppointment(a, now);
      var diff := a.startAt.value - now;
      if diff >= 60000 {
        assert m * 60000 > 0;
      }
      if diff <= -60000 {
        assert m * 60000 < 0;
      }
    }
  }

  // The participant row.

  /**
   * An appointment participant. The four fields `validateRequiredFields`
   * checks are nullable here, as they are on the Java object.
   */
  datatype Participant = Participant(
    appointmentId: Option<int>,
    userId: Option<int>,
    kakaoId: Option<int>,
    state: Option<ParticipantState>,
    notifyStatus: Option<NotifyStatus>,
    notifiedAt: Option<Millis>,
    notifyError: Option<string>)

  /** A new row: INVITED and PENDING, as the field initialisers say. */
  function NewParticipant(appointmentId: Option<int>, userId: Option<int>, kakaoId: Option<int>): (p: Participant)
    ensures p.state == Some(Invited) && p.notifyStatus == Some(NotifyStatuses.Pending)
    ensures p.notifiedAt.None? && p.notifyError.None?
  {
    Participant(appointmentId, userId, kakaoId, Some(Invited), Some(NotifyStatuses.Pending), None, None)
  }

  /**
   * `changeState`: allowed iff the current state may change to the new one.
   * A null current state throws on the call; a null new state is refused,
   * and formatting the refusal message then throws on the null.
   */
  function ChangeState(p: Participant, newState: Option<ParticipantState>): (r: Result<Participant>)
    ensures r.Ok? <==> p.state.Some? && newState.Some? && p.state.value.CanChangeTo(newState.value)
    ensures r.Ok? ==> r.value == p.(state := newState)
    ensures p.state.Some? && newState.Some? && r.Err? ==> r.error.kind == IllegalState
  {
    if p.state.None? then NullDeref()
    else if newState.None? then NullDeref()
    else if !p.state.value.CanChangeTo(newState.value) then
      Fail(IllegalState, "상태 변경 불가: " + p.state.value.Description() + " → " + newState.value.Description())
    else Ok(p.(state := newState))
  }

  /** `markNotificationSent`: SENT, stamped `now`, previous error cleared. */
  function MarkNotificationSent(p: Participant, now: Millis): (r: Participant)
    ensures r.notifyStatus == Some(Sent) && r.notifiedAt == Some(now) && r.notifyError.None?
    ensures r.state == p.state && r.appointmentId == p.appointmentId && r.userId == p.userId
  {
    p.(notifyStatus := Some(Sent), notifiedAt := Some(now), notifyError := None)
  }

  const MaxErrorLength := 500

  /**
   * The stored error text: the message itself up to 500 characters,
   * otherwise its first 500 characters followed by "...".
   */
  function TruncateError(message: Option<string>): (r: Option<string>)
    ensures r.None? <==> message.None?
    ensures message.Some? && |message.value| <= MaxErrorLength ==> r == message
    ensures message.Some? && |message.value| > MaxErrorLength ==>
              |r.value| == MaxErrorLength + 3 && r.value[..MaxErrorLength] == message.value[..MaxErrorLength]
              && r.value[MaxErrorLength..] == "..."
  {
    if message.Some? && |message.value| > MaxErrorLength then Some(message.value[..MaxErrorLength] + "...")
    else message
  }

  /** A stored error never exceeds 503 characters, and storing it again changes nothing. */
  lemma TruncateErrorIdempotent(message: Option<string>)
    ensures TruncateError(message).Some? ==> |TruncateError(message).value| <= MaxErrorLength + 3
    ensures TruncateError(TruncateError(message)) == TruncateError(message)
  {
    if message.Some? && |message.value| > MaxErrorLength {
      var t := TruncateError(message).value;
      assert t[..MaxErrorLength] + "..." == t;
    }
  }

  /**
   * `markNotificationFailed`: SENT and PENDING are not failures and are
   * refused with nothing changed; any other status (null included, which
   * passes both comparisons) is stored with the truncated message.
   */
  function MarkNotificationFailed(p: Participant, status: Option<NotifyStatus>, errorMessage: Option<string>)
    : (r: Result<Participant>)
    ensures r.Ok? <==> status != Some(Sent) && status != Some(NotifyStatuses.Pending)
    ensures r.Err? ==> r.error.kind == IllegalArgument
    ensures r.Ok? ==> r.value == p.(notifyStatus := status, notifyError := TruncateError(errorMessage))
  {
    if status == Some(Sent) || status == Some(NotifyStatuses.Pending) then
      Fail(IllegalArgument, "실패 상태가 아닙니다: " + (if status == Some(Sent) then "SENT" else "PENDING"))
    else Ok(p.(notifyStatus := status, notifyError := TruncateError(errorMessage)))
  }

  /**
   * `canRetryNotification`: the notify status is retryable and the state
   * receives notifications; either being null throws.
   */
  function CanRetryNotification(p: Participant): (r: Result<bool>)
    ensures r.Ok? <==> p.notifyStatus.Some? && p.state.Some?
    ensures r.Ok? ==> (r.value <==> p.notifyStatus.value.IsRetryable() && p.state.value == Accepted)
  {
    if p.notifyStatus.None? || p.state.None? then NullDeref()
    else Ok(p.notifyStatus.value.IsRetryable() && p.state.value.ShouldReceiveNotifications())
  }

  /** A notification just sent is never retried. */
  lemma NoRetryAfterSent(p: Participant, now: Millis)
    requires p.state.Some?
    ensures CanRetryNotification(MarkNotificationSent(p, now)) == Ok(false)
  {
  }

  /** `validateRequiredFields`: the first null among the four required fields throws. */
  function ValidateRequiredFields(p: Participant): (r: Result<()>)
    ensures r.Ok? <==> p.appointmentId.Some? && p.kakaoId.Some? && p.state.Some? && p.notifyStatus.Some?
    ensures r.Err? ==> r.error.kind == IllegalState
    ensures p.appointmentId.None? ==> r == Fail(IllegalState, "약속 ID는 필수입니다")
  {
    if p.appointmentId.None? then Fail(IllegalState, "약속 ID는 필수입니다")
    else if p.kakaoId.None? then Fail(IllegalState, "카카오 사용자 ID는 필수입니다")
    else if p.state.None? then Fail(IllegalState, "참여자 상태는 필수입니다")
    else if p.notifyStatus.None? then Fail(IllegalState, "알림 상태는 필수입니다")
    else Ok(())
  }

  /**
   * The appointment repositories: appointments by id, and participant rows
   * in insertion order.
   */
  datatype AppointmentStore = AppointmentStore(appointments: map<int, Appointment>, participants: seq<Participant>)

  /** The rows of appointment `appointmentId` (`findByAppointmentId`). */
  function RowsOf(ps: seq<Participant>, appointmentId: int): (r: seq<Participant>)
    ensures |r| <= |ps|
    ensures forall p :: p in r <==> p in ps && p.appointmentId == Some(appointmentId)
  {
    Seqs.Filter(ps, InAppointment(appointmentId))
  }

  /** Appending a row of the appointment adds exactly one to its rows. */
  lemma RowsOfAppendOwn(ps: seq<Participant>, p: Participant, appointmentId: int)
    requires p.appointmentId == Some(appointmentId)
    ensures |RowsOf(ps + [p], appointmentId)| == |RowsOf(ps, appointmentId)| + 1
  {
    Seqs.FilterAppend(ps, [p], InAppointment(appointmentId));
    assert [p][1..] == [];
  }

  /** The row filter of `findByAppointmentId`. */
  function InAppointment(appointmentId: int): Participant -> bool
  {
    (p: Participant) => p.appointmentId == Some(appointmentId)
  }

  /** A nullable VARCHAR(n) column: null, or text of at most n characters. */
  predicate FitsColumn(text: Option<string>, n: nat)
  {
    text.Some? ==> |text.value| <= n
  }

  /**
   * The column constraints of `appointments` a handler can break: `title`
   * and `start_at` are NOT NULL, and `title` (200), `place` (300),
   * `recommended_place`, `link_url` and `detail_url` (500 each) are
   * VARCHARs of bounded length. `status` and `sent` always hold a value,
   * and `@PrePersist` fills the timestamps.
   */
  predicate AppointmentRowComplete(a: Appointment)
  {
    && a.title.Some? && a.startAt.Some?
    && FitsColumn(a.title, 200) && FitsColumn(a.place, 300)
    && FitsColumn(a.recommendedPlace, 500) && FitsColumn(a.linkUrl, 500) && FitsColumn(a.detailUrl, 500)
  }

  /** The NOT NULL columns of `appointment_participants`: appointment id, Kakao id, state and notification status. */
  predicate ParticipantRowComplete(p: Participant)
  {
    p.appointmentId.Some? && p.kakaoId.Some? && p.state.Some? && p.notifyStatus.Some?
  }

  /**
   * `appointmentRepository.save` of a new appointment under its generated
   * id: the insert is refused when a NOT NULL column is null or a text
   * is longer than its column.
   */
  function SaveAppointment(store: AppointmentStore, a: Appointment): (r: Result<AppointmentStore>)
    requires a.id !in store.appointments
    ensures r.Ok? <==> AppointmentRowComplete(a)
    ensures r.Err? ==> r.error.kind == DataIntegrityViolation
    ensures r.Ok? ==> a.id in r.value.appointments && r.value.appointments[a.id] == a
                      && r.value.participants == store.participants
                      && forall id :: id != a.id ==>
                           (id in r.value.appointments <==> id in store.appointments)
    ensures r.Ok? ==> forall id :: id in store.appointments ==> r.value.appointments[id] == store.appointments[id]
  {
    if AppointmentRowComplete(a) then Ok(store.(appointments := store.appointments[a.id := a]))
    else Err(Exception(DataIntegrityViolation, None))
  }

  /**
   * `appointmentParticipantRepository.save` of a new row: appended, or
   * refused when a NOT NULL column is null.
   */
  function SaveParticipant(store: AppointmentStore, p: Participant): (r: Result<AppointmentStore>)
    ensures r.Ok? <==> ParticipantRowComplete(p)
    ensures r.Err? ==> r.error.kind == DataIntegrityViolation
    ensures r.Ok? ==> r.value.appointments == store.appointments
                      && |r.value.participants| == |store.participants| + 1
                      && r.value.participants[..|store.participants|] == store.participants
                      && r.value.participants[|store.participants|] == p
  {
    if ParticipantRowComplete(p) then Ok(store.(participants := store.participants + [p]))
    else Err(Exception(DataIntegrityViolation, None))
  }

  /**
   * The column constraints of `appointment_participants` and the entity's
   * own `validateRequiredFields` accept the same rows; a row with its
   * appointment id but no Kakao id is refused by both, with the Kakao-id
   * message from the entity.
   */
  lemma RowCompleteIffRequiredFields(p: Participant)
    ensures ParticipantRowComplete(p) <==> ValidateRequiredFields(p).Ok?
    ensures ParticipantRowComplete(p) <==> SaveParticipant(AppointmentStore(map[], []), p).Ok?
    ensures p.appointmentId.Some? && p.kakaoId.None? ==>
              ValidateRequiredFields(p) == Fail(IllegalState, "카카오 사용자 ID는 필수입니다")
  {
  }
}

=== FILE: appointment_service.dfy ===
/**
 * `AppointmentNotifyService`: confirming and cancelling an appointment and
 * answering an appointment invitation. The notification loops of
 * `AppointmentNotifyService` only log, so every visited participant counts as a success.
 */
module AppointmentNotifyService {
  import opened Wrappers
  import opened Text
  import opened AppointmentStatuses
  import opened ParticipantStates
  import opened Appointments
  import Seqs

  const AlreadyConfirmedMessage := "이미 확정된 약속입니다."
  const Forbidden := "FORBIDDEN:"
  const ConfirmForbiddenText := " 약속을 확정할 권한이 없습니다. 호스트만 확정할 수 있습니다."
  const CancelForbiddenText := " 약속을 취소할 권한이 없습니다. 호스트만 취소할 수 있습니다."

  function NotFoundMessage(appointmentId: int): string
  {
    "약속을 찾을 수 없습니다: " + IntToString(appointmentId)
  }

  /** The host check: it applies only when both the caller and the stored host are known. */
  predicate HostMismatch(a: Appointment, hostUserId: Option<int>)
  {
    hostUserId.Some? && a.hostUserId.Some? && a.hostUserId.value != hostUserId.value
  }

  /** The rows of the appointment in state ACCEPTED (`findByAppointmentIdAndState`). */
  function AcceptedRows(ps: seq<Participant>, appointmentId: int): (r: seq<Participant>)
    ensures forall p :: p in r <==> p in ps && p.appointmentId == Some(appointmentId) && p.state == Some(Accepted)
  {
    Seqs.Filter(ps, (p: Participant) => p.appointmentId == Some(appointmentId) && p.state == Some(Accepted))
  }

  function SendReport(prefix: string, successCount: nat, failureCount: nat): string
  {
    prefix + " 알림 발송: 성공 " + IntToString(successCount) + "건, 실패 " + IntToString(failureCount) + "건"
  }

  /**
   * `confirmAndNotify`: an unknown appointment and a caller who is not the
   * host are refused; an appointment already CONFIRMED is reported and left
   * alone; otherwise it becomes CONFIRMED and every ACCEPTED participant is
   * counted as notified.
   */
  function ConfirmAndNotify(store: AppointmentStore, appointmentId: int, hostUserId: Option<int>)
    : (r: Result<(AppointmentStore, string)>)
    ensures appointmentId !in store.appointments ==> r == Fail(IllegalArgument, NotFoundMessage(appointmentId))
    ensures r.Ok? <==> appointmentId in store.appointments && !HostMismatch(store.appointments[appointmentId], hostUserId)
    ensures r.Err? && appointmentId in store.appointments ==>
              r.error.kind == Runtime && r.error.message.Some? && StartsWith(r.error.message.value, "FORBIDDEN:")
    ensures r.Ok? && store.appointments[appointmentId].status == Confirmed ==>
              r.value == (store, AlreadyConfirmedMessage)
    ensures r.Ok? && store.appointments[appointmentId].status != Confirmed ==>
              && r.value.0.appointments == store.appointments[appointmentId := store.appointments[appointmentId].(status := Confirmed)]
              && r.value.0.participants == store.participants
              && r.value.1 == SendReport("약속이 확정되었습니다.", |AcceptedRows(store.participants, appointmentId)|, 0)
  {
    if appointmentId !in store.appointments then Fail(IllegalArgument, NotFoundMessage(appointmentId))
    else
      var a := store.appointments[appointmentId];
      if HostMismatch(a, hostUserId) then
        StartsWithConcat(Forbidden, ConfirmForbiddenText);
        Fail(Runtime, Forbidden + ConfirmForbiddenText)
      else if a.status == Confirmed then Ok((store, AlreadyConfirmedMessage))
      else
        var s := store.(appointments := store.appointments[appointmentId := a.(status := Confirmed)]);
        Ok((s, SendReport("약속이 확정되었습니다.", |AcceptedRows(store.participants, appointmentId)|, 0)))
  }

  /** Confirming a second time changes nothing and reports the appointment as already confirmed. */
  lemma ConfirmIsIdempotent(store: AppointmentStore, appointmentId: int, hostUserId: Option<int>)
    requires ConfirmAndNotify(store, appointmentId, hostUserId).Ok?
    ensures var s := ConfirmAndNotify(store, appointmentId, hostUserId).value.0;
            && s.appointments[appointmentId].status == Confirmed
            && ConfirmAndNotify(s, appointmentId, hostUserId) == Ok((s, AlreadyConfirmedMessage))
  {
  }

  /**
   * `cancelAppointment`: the same two refusals; then the appointment is
   * CANCELED whatever its status was and every participant row is counted.
   */
  function CancelAppointment(store: AppointmentStore, appointmentId: int, hostUserId: Option<int>)
    : (r: Result<(AppointmentStore, string)>)
    ensures appointmentId !in store.appointments ==> r == Fail(IllegalArgument, NotFoundMessage(appointmentId))
    ensures r.Ok? <==> appointmentId in store.appointments && !HostMismatch(store.appointments[appointmentId], hostUserId)
    ensures r.Ok? ==>
              && r.value.0.appointments == store.appointments[appointmentId := store.appointments[appointmentId].(status := Canceled)]
              && r.value.0.participants == store.participants
              && r.value.1 == SendReport("약속이 취소되었습니다.", |RowsOf(store.participants, appointmentId)|, 0)
  {
    if appointmentId !in store.appointments then Fail(IllegalArgument, NotFoundMessage(appointmentId))
    else
      var a := store.appointments[appointmentId];
      if HostMismatch(a, hostUserId) then
        Fail(Runtime, Forbidden + CancelForbiddenText)
      else
        var s := store.(appointments := store.appointments[appointmentId := a.(status := Canceled)]);
        Ok((s, SendReport("약속이 취소되었습니다.", |RowsOf(store.participants, appointmentId)|, 0)))
  }

  /** A cancelled appointment is no longer active, and cancelling it again gives the same store. */
  lemma CancelIsFinal(store: AppointmentStore, appointmentId: int, hostUserId: Option<int>)
    requires CancelAppointment(store, appointmentId, hostUserId).Ok?
    ensures var s := CancelAppointment(store, appointmentId, hostUserId).value.0;
            && !s.appointments[appointmentId].status.IsActive()
            && CancelAppointment(s, appointmentId, hostUserId).Ok?
            && CancelAppointment(s, appointmentId, hostUserId).value.0 == s
  {
  }

  /** The index of the row of `userId` in appointment `appointmentId`, if any. */
  function FindRow(ps: seq<Participant>, appointmentId: int, userId: int): (r: Option<nat>)
    ensures r.Some? ==> r.value < |ps| && ps[r.value].appointmentId == Some(appointmentId)
                        && ps[r.value].userId == Some(userId)
    ensures r.Some? ==> forall k :: 0 <= k < r.value ==>
                          !(ps[k].appointmentId == Some(appointmentId) && ps[k].userId == Some(userId))
    ensures r.None? <==> forall i :: 0 <= i < |ps| ==>
                           !(ps[i].appointmentId == Some(appointmentId) && ps[i].userId == Some(userId))
  {
    if ps == [] then None
    else if ps[0].appointmentId == Some(appointmentId) && ps[0].userId == Some(userId) then Some(0)
    else
      match FindRow(ps[1..], appointmentId, userId)
      case Some(i) => Some(i + 1)
      case None => None
  }

  /**
   * `respondToInvitation`: the row must exist and still be INVITED; it then
   * becomes ACCEPTED or DECLINED and nothing else changes.
   */
  function RespondToInvitation(store: AppointmentStore, appointmentId: int, userId: int, accept: bool)
    : (r: Result<(AppointmentStore, string)>)
    ensures r.Ok? <==> FindRow(store.participants, appointmentId, userId).Some?
                       && store.participants[FindRow(store.participants, appointmentId, userId).value].state == Some(Invited)
    ensures r.Err? ==> r.error.kind == IllegalArgument
    ensures r.Ok? ==>
      var i := FindRow(store.participants, appointmentId, userId).value;
      && r.value.0 == store.(participants := store.participants[i := store.participants[i].(
                                                state := Some(if accept then Accepted else Declined))])
      && r.value.1 == (if accept then "약속 참여를 수락했습니다." else "약속 참여를 거절했습니다.")
  {
    match FindRow(store.participants, appointmentId, userId)
    case None => Fail(IllegalArgument, "참여자 정보를 찾을 수 없습니다.")
    case Some(i) =>
      var p := store.participants[i];
      if p.state != Some(Invited) then Fail(IllegalArgument, "이미 응답한 초대입니다.")
      else
        var q := p.(state := Some(if accept then Accepted else Declined));
        Ok((store.(participants := store.participants[i := q]),
            if accept then "약속 참여를 수락했습니다." else "약속 참여를 거절했습니다."))
  }

  /** An invitation is answered once: a second answer is refused, and the first was an allowed state change. */
  lemma AnswerOnlyOnce(store: AppointmentStore, appointmentId: int, userId: int, accept: bool, again: bool)
    requires RespondToInvitation(store, appointmentId, userId, accept).Ok?
    ensures RespondToInvitation(RespondToInvitation(store, appointmentId, userId, accept).value.0,
                                appointmentId, userId, again).Err?
    ensures Invited.CanChangeTo(if accept then Accepted else Declined)
  {
    var i := FindRow(store.participants, appointmentId, userId).value;
    var s := RespondToInvitation(store, appointmentId, userId, accept).value.0;
    assert s.participants[i].appointmentId == Some(appointmentId) && s.participants[i].userId == Some(userId);
  }
}

/**
 * The decision logic of `AppointmentController`: creating an appointment
 * and inviting a friend, as the HTTP status and message each path
 * returns. Every exception inside the handlers surfaces as 500.
 */
module AppointmentController {
  import opened Wrappers
  import opened AppointmentStatuses
  import opened ParticipantStates
  import opened NotifyStatuses
  import opened Appointments
  import Seqs

  /** The status, success flag and message of a handler's JSON body. */
  datatype Reply = Reply(status: int, success: bool, message: string)

  const LoginRequired := Reply(401, false, "로그인이 필요합니다.")

  /** The request fields `createAppointment` reads. */
  datatype AppointmentData = AppointmentData(
    title: Option<string>,
    place: Option<string>,
    recommendedPlace: Option<string>,
    maxParticipants: Option<int>,
    startAt: Option<string>,
    detailUrl: Option<string>)

  const CreateFailed := Reply(500, false, "약속 생성 중 오류가 발생했습니다.")
  const Created := Reply(200, true, "약속이 생성되었습니다.")

  /** The DRAFT appointment `createAppointment` fills from the request and the caller. */
  function DraftOf(newId: int, currentUserId: Option<int>, data: AppointmentData, startAt: Option<Millis>): Appointment
  {
    NewAppointment(newId).(title := data.title, place := data.place,
                           recommendedPlace := data.recommendedPlace, hostUserId := currentUserId,
                           status := Draft, maxParticipants := data.maxParticipants,
                           startAt := startAt, detailUrl := data.detailUrl)
  }

  /** The host's row: ACCEPTED and PENDING. The handler never calls `setKakaoId`, so the Kakao id is null. */
  function HostRow(newId: int, currentUserId: Option<int>): Participant
  {
    Participant(Some(newId), currentUserId, None, Some(Accepted), Some(NotifyStatuses.Pending), None, None)
  }

  /**
   * Whether `createAppointment` gets as far as storing the appointment: a
   * caller, a title and a readable start time, and every text within its
   * column's length.
   */
  predicate AppointmentKept(currentUserId: Option<int>, data: AppointmentData, parseInstant: string -> Option<Millis>)
  {
    && currentUserId.Some? && data.title.Some? && data.startAt.Some? && parseInstant(data.startAt.value).Some?
    && Appointments.FitsColumn(data.title, 200) && Appointments.FitsColumn(data.place, 300)
    && Appointments.FitsColumn(data.recommendedPlace, 500) && Appointments.FitsColumn(data.detailUrl, 500)
  }

  /**
   * `createAppointment`: without a signed-in user, 401 and nothing saved.
   * Otherwise a DRAFT appointment hosted by the caller is saved under the
   * generated id `newId`, then the host's participant row. A start time
   * `parseInstant` cannot read throws before any save. The appointment
   * save is refused without a title or a start time (both NOT NULL) or
   * with a text longer than its column (title 200, place 300, recommended
   * place and detail URL 500); the
   * host row is always refused, because its NOT NULL Kakao id is never
   * set. Every one of these throws answers 500, and the handler is not
   * transactional, so an appointment saved before the refused host row
   * stays stored. As written, the handler therefore never answers 200.
   */
  function CreateAppointment(store: AppointmentStore, currentUserId: Option<int>, data: AppointmentData,
                             newId: int, parseInstant: string -> Option<Millis>): (r: (AppointmentStore, Reply))
    requires newId !in store.appointments
    ensures currentUserId.None? ==> r == (store, LoginRequired)
    ensures currentUserId.Some? ==> r.1 == CreateFailed
    ensures r.1.status != 200
    ensures !AppointmentKept(currentUserId, data, parseInstant) ==> r.0 == store
    ensures AppointmentKept(currentUserId, data, parseInstant) ==>
              && r.0.participants == store.participants
              && newId in r.0.appointments
              && r.0.appointments == store.appointments[newId := r.0.appointments[newId]]
              && var a := r.0.appointments[newId];
                 && a.id == newId && a.status == Draft && a.hostUserId == currentUserId && !a.sent
                 && a.title == data.title && a.place == data.place && a.recommendedPlace == data.recommendedPlace
                 && a.maxParticipants == data.maxParticipants && a.startAt == parseInstant(data.startAt.value)
                 && a.detailUrl == data.detailUrl && a.remindAt.None? && a.linkUrl.None?
  {
    if currentUserId.None? then (store, LoginRequired)
    else if data.startAt.Some? && parseInstant(data.startAt.value).None? then (store, CreateFailed)
    else
      var startAt := if data.startAt.Some? then parseInstant(data.startAt.value) else None;
      match SaveAppointment(store, DraftOf(newId, currentUserId, data, startAt))
      case Err(_) => (store, CreateFailed)
      case Ok(saved) =>
        match SaveParticipant(saved, HostRow(newId, currentUserId))
        case Err(_) => (saved, CreateFailed)
        case Ok(both) => assert false; (both, Created)
  }

  /**
   * An appointment `createAppointment` keeps is hosted by its creator but
   * has no participant row. Its creator passes `inviteFriend`'s host guard,
   * and inviting a friend while the maximum (if set) is positive reaches
   * the refused save and answers 500.
   */
  lemma {:induction false} CreatedAppointmentHasNoRows(store: AppointmentStore, currentUserId: Option<int>,
                                                       data: AppointmentData, newId: int,
                                                       parseInstant: string -> Option<Millis>,
                                                       friendUserId: int, areFriends: (int, int) -> bool)
    requires newId !in store.appointments && RowsOf(store.participants, newId) == []
    requires AppointmentKept(currentUserId, data, parseInstant)
    ensures var s := CreateAppointment(store, currentUserId, data, newId, parseInstant).0;
            && s.appointments[newId].hostUserId == currentUserId
            && RowsOf(s.participants, newId) == []
    ensures var s := CreateAppointment(store, currentUserId, data, newId, parseInstant).0;
            InviteFriend(s, newId, Some(friendUserId), currentUserId, areFriends).1 != NotHost
    ensures var s := CreateAppointment(store, currentUserId, data, newId, parseInstant).0;
            areFriends(currentUserId.value, friendUserId)
            && (data.maxParticipants.None? || data.maxParticipants.value > 0)
            ==> InviteFriend(s, newId, Some(friendUserId), currentUserId, areFriends) == (s, ServerError)
  {
    var s := CreateAppointment(store, currentUserId, data, newId, parseInstant).0;
    assert s.participants == store.participants;
  }

  /** Whether a row for (appointment, user) exists (`existsByAppointmentIdAndUserId`). */
  predicate AlreadyInvited(ps: seq<Participant>, appointmentId: int, userId: int)
  {
    exists i :: 0 <= i < |ps| && ps[i].appointmentId == Some(appointmentId) && ps[i].userId == Some(userId)
  }

  const ServerError := Reply(500, false, "초대 중 오류가 발생했습니다.")
  const NotHost := Reply(403, false, "호스트만 참여자를 초대할 수 있습니다.")
  const NotFriends := Reply(403, false, "친구만 초대할 수 있습니다.")
  const Duplicate := Reply(400, false, "이미 초대된 참여자입니다.")
  const Full := Reply(400, false, "최대 참여 인원을 초과했습니다.")

  /** The capacity guard: a maximum is set and the rows so far (host included) already reach it. */
  predicate AtCapacity(ps: seq<Participant>, appointmentId: int, maxParticipants: Option<int>)
  {
    maxParticipants.Some? && |RowsOf(ps, appointmentId)| >= maxParticipants.value
  }

  /**
   * `inviteFriend`: the guards in the order the handler applies them. An
   * unknown appointment, a null stored host and a null friend id all throw
   * inside the handler and answer 500. The row saved after the guards has
   * no Kakao id, so its save is refused and also answers 500: as written,
   * no invitation is ever stored.
   */
  function InviteFriend(store: AppointmentStore, appointmentId: int, friendUserId: Option<int>,
                        currentUserId: Option<int>, areFriends: (int, int) -> bool): (r: (AppointmentStore, Reply))
    ensures r.0 == store && r.1.status != 200
    ensures currentUserId.None? ==> r.1 == LoginRequired
    ensures currentUserId.Some? && appointmentId !in store.appointments ==> r.1 == ServerError
  {
    if currentUserId.None? then (store, LoginRequired)
    else if appointmentId !in store.appointments then (store, ServerError)
    else
      var a := store.appointments[appointmentId];
      if a.hostUserId.None? then (store, ServerError)
      else if a.hostUserId.value != currentUserId.value then (store, NotHost)
      else if friendUserId.None? then (store, ServerError)
      else if !areFriends(currentUserId.value, friendUserId.value) then (store, NotFriends)
      else if AlreadyInvited(store.participants, appointmentId, friendUserId.value) then (store, Duplicate)
      else if AtCapacity(store.participants, appointmentId, a.maxParticipants) then (store, Full)
      else
        match SaveParticipant(store, NewParticipant(Some(appointmentId), friendUserId, None))
        case Err(_) => (store, ServerError)
        case Ok(s) => assert false; (s, Reply(200, true, "친구를 초대했습니다."))
  }

  /** A request by the appointment's host that names a friend (the handler's inputs are all present). */
  predicate HostRequest(store: AppointmentStore, appointmentId: int, friendUserId: Option<int>, currentUserId: Option<int>)
  {
    && currentUserId.Some? && friendUserId.Some? && appointmentId in store.appointments
    && store.appointments[appointmentId].hostUserId == currentUserId
  }

  /** Every guard of `inviteFriend` passes: a host request for a friend not yet invited, with room left. */
  predicate GuardsPass(store: AppointmentStore, appointmentId: int, friendUserId: Option<int>,
                       currentUserId: Option<int>, areFriends: (int, int) -> bool)
  {
    && HostRequest(store, appointmentId, friendUserId, currentUserId)
    && areFriends(currentUserId.value, friendUserId.value)
    && !AlreadyInvited(store.participants, appointmentId, friendUserId.value)
    && !AtCapacity(store.participants, appointmentId, store.appointments[appointmentId].maxParticipants)
  }

  /**
   * For a host request, the invitation reaches the save (and its 500)
   * exactly when every guard passes; otherwise the first failing guard
   * answers 403 or 400. The store never changes.
   */
  lemma InviteReachesSaveIffGuardsPass(store: AppointmentStore, appointmentId: int, friendUserId: Option<int>,
                                       currentUserId: Option<int>, areFriends: (int, int) -> bool)
    ensures var r := InviteFriend(store, appointmentId, friendUserId, currentUserId, areFriends);
            GuardsPass(store, appointmentId, friendUserId, currentUserId, areFriends) ==> r == (store, ServerError)
    ensures var r := InviteFriend(store, appointmentId, friendUserId, currentUserId, areFriends);
            HostRequest(store, appointmentId, friendUserId, currentUserId) ==>
              && (r.1 == ServerError <==> GuardsPass(store, appointmentId, friendUserId, currentUserId, areFriends))
              && (!areFriends(currentUserId.value, friendUserId.value) ==> r.1 == NotFriends)
              && (areFriends(currentUserId.value, friendUserId.value) ==>
                    AlreadyInvited(store.participants, appointmentId, friendUserId.value) ==> r.1 == Duplicate)
  {
  }

  /**
   * The guard order: a caller who is not the host is refused with 403 even
   * when the friend is already invited and the appointment is full.
   */
  lemma HostGuardComesFirst(store: AppointmentStore, appointmentId: int, friendUserId: Option<int>,
                            currentUserId: Option<int>, areFriends: (int, int) -> bool)
    requires appointmentId in store.appointments
    requires currentUserId.Some? && store.appointments[appointmentId].hostUserId.Some?
    requires store.appointments[appointmentId].hostUserId != currentUserId
    ensures InviteFriend(store, appointmentId, friendUserId, currentUserId, areFriends).1 == NotHost
  {
  }

  /**
   * `inviteFriend` keeps an appointment's rows within its maximum. The
   * first clause is a corollary of `InviteFriend` never changing the
   * store; the second is the capacity guard itself, which answers `Full`
   * to a host request for a new friend once the rows reach the maximum.
   */
  lemma InviteRespectsCapacity(store: AppointmentStore, appointmentId: int, friendUserId: Option<int>,
                               currentUserId: Option<int>, areFriends: (int, int) -> bool)
    requires appointmentId in store.appointments
    requires store.appointments[appointmentId].maxParticipants.Some?
    requires |RowsOf(store.participants, appointmentId)| <= store.appointments[appointmentId].maxParticipants.value
    ensures var s := InviteFriend(store, appointmentId, friendUserId, currentUserId, areFriends).0;
            |RowsOf(s.participants, appointmentId)| <= store.appointments[appointmentId].maxParticipants.value
    ensures (&& HostRequest(store, appointmentId, friendUserId, currentUserId)
             && |RowsOf(store.participants, appointmentId)| == store.appointments[appointmentId].maxParticipants.value
             && areFriends(currentUserId.value, friendUserId.value)
             && !AlreadyInvited(store.participants, appointmentId, friendUserId.value))
            ==> InviteFriend(store, appointmentId, friendUserId, currentUserId, areFriends).1 == Full
  {
  }
}

=== FILE: domain_meeting.dfy ===
/**
 * The `domain.entity` meeting and participant. This meeting has no host
 * column: its host is the participant invited first (earliest invitation
 * time, the first such participant on a tie).
 */
module DomainMeeting {
  import opened Wrappers
  import opened MeetingStatuses

  datatype Participant = Participant(
    meetingId: int,
    userId: int,
    response: ResponseStatus,
    joinedAt: Option<Time>,
    invitedAt: Time)

  datatype Meeting = Meeting(
    id: int,
    title: string,
    description: Option<string>,
    meetingTime: Time,
    maxParticipants: Option<int>,
    status: MeetingStatus,
    locationName: Option<string>,
    locationAddress: Option<string>,
    locationCoordinates: Option<string>,
    participants: seq<Participant>)

  /** A freshly saved participant row: invited, not joined, invited at `now`. */
  function NewParticipant(meetingId: int, userId: int, now: Time): (p: Participant)
    ensures p.response == Invited && !HasActuallyJoined(p)
    ensures p.meetingId == meetingId && p.userId == userId && p.invitedAt == now
  {
    Participant(meetingId, userId, Invited, None, now)
  }

  /**
   * The index `Stream.min` picks over invitation times: the reduction keeps
   * the earlier element whenever the comparison is not positive.
   */
  function EarliestIndex(ps: seq<Participant>): (i: nat)
    requires |ps| > 0
    ensures i < |ps|
    ensures forall j :: 0 <= j < |ps| ==> ps[i].invitedAt <= ps[j].invitedAt
    ensures forall j :: 0 <= j < i ==> ps[j].invitedAt > ps[i].invitedAt
  {
    if |ps| == 1 then 0
    else
      var i := EarliestIndex(ps[..|ps| - 1]);
      if ps[i].invitedAt <= ps[|ps| - 1].invitedAt then i else |ps| - 1
  }

  /**
   * `getHostId`: the user invited first, or null for a meeting without
   * participants. Among rows invited at the same earliest instant the first
   * listed one wins.
   */
  function HostId(m: Meeting): (r: Option<int>)
    ensures r.None? <==> |m.participants| == 0
    ensures r.Some? ==> r.value == m.participants[EarliestIndex(m.participants)].userId
    ensures r.Some? ==> exists i :: 0 <= i < |m.participants| && m.participants[i].userId == r.value
                          && (forall j :: 0 <= j < |m.participants| ==> m.participants[i].invitedAt <= m.participants[j].invitedAt)
                          && (forall j :: 0 <= j < i ==> m.participants[j].invitedAt > m.participants[i].invitedAt)
  {
    if |m.participants| == 0 then None
    else Some(m.participants[EarliestIndex(m.participants)].userId)
  }

  /** `isHost`: the derived host exists and is `userId`. */
  predicate IsHost(m: Meeting, userId: int)
  {
    HostId(m) == Some(userId)
  }

  /** Whoever is invited no later than everybody else and listed first is the host. */
  lemma HostIsFirstEarliest(m: Meeting)
    requires |m.participants| > 0
    requires forall j :: 0 <= j < |m.participants| ==> m.participants[0].invitedAt <= m.participants[j].invitedAt
    ensures IsHost(m, m.participants[0].userId)
  {
  }

  /** Adding a participant invited no earlier than the rest does not move the host. */
  lemma HostStableUnderLaterInvite(m: Meeting, p: Participant)
    requires |m.participants| > 0
    requires forall j :: 0 <= j < |m.participants| ==> m.participants[j].invitedAt <= p.invitedAt
    ensures HostId(m.(participants := m.participants + [p])) == HostId(m)
  {
    var ps := m.participants + [p];
    assert ps[..|ps| - 1] == m.participants;
  }

  /** The number of participants who answered ACCEPTED. */
  function AcceptedCount(ps: seq<Participant>): (n: nat)
    ensures n <= |ps|
    ensures n == 0 <==> forall i :: 0 <= i < |ps| ==> ps[i].response != Accepted
  {
    if ps == [] then 0
    else AcceptedCount(ps[..|ps| - 1]) + (if ps[|ps| - 1].response == Accepted then 1 else 0)
  }

  lemma {:induction false} AcceptedCountAppend(a: seq<Participant>, b: seq<Participant>)
    ensures AcceptedCount(a + b) == AcceptedCount(a) + AcceptedCount(b)
    decreases |b|
  {
    if b != [] {
      assert (a + b)[..|a + b| - 1] == a + b[..|b| - 1];
      AcceptedCountAppend(a, b[..|b| - 1]);
    } else {
      assert a + b == a;
    }
  }

  /** Replacing one participant moves the accepted count by the change in that one answer. */
  lemma AcceptedCountUpdate(ps: seq<Participant>, i: nat, p: Participant)
    requires i < |ps|
    ensures AcceptedCount(ps[i := p]) + (if ps[i].response == Accepted then 1 else 0)
         == AcceptedCount(ps) + (if p.response == Accepted then 1 else 0)
  {
    assert ps == ps[..i] + [ps[i]] + ps[i + 1..];
    assert ps[i := p] == ps[..i] + [p] + ps[i + 1..];
    AcceptedCountAppend(ps[..i] + [ps[i]], ps[i + 1..]);
    AcceptedCountAppend(ps[..i], [ps[i]]);
    AcceptedCountAppend(ps[..i] + [p], ps[i + 1..]);
    AcceptedCountAppend(ps[..i], [p]);
  }

  /** `getCurrentParticipantCount`. */
  function CurrentParticipantCount(m: Meeting): nat
  {
    AcceptedCount(m.participants)
  }

  /**
   * `isMaxParticipantsReached`: unboxing a null maximum throws, which is
   * the `None` here.
   */
  function IsMaxParticipantsReached(m: Meeting): (r: Option<bool>)
    ensures r.None? <==> m.maxParticipants.None?
    ensures r.Some? ==> (r.value <==> m.maxParticipants.value <= AcceptedCount(m.participants))
  {
    if m.maxParticipants.None? then None
    else Some(AcceptedCount(m.participants) >= m.maxParticipants.value)
  }

  /** `hasActuallyJoined`. */
  predicate HasActuallyJoined(p: Participant)
  {
    p.joinedAt.Some?
  }

  /** `updateResponse` (no null check in this package). */
  function UpdateResponse(p: Participant, response: ResponseStatus, now: Time): (q: Participant)
    ensures q.response == response
    ensures HasActuallyJoined(q) <==> response == Accepted
    ensures HasActuallyJoined(p) && response == Accepted ==> q.joinedAt == p.joinedAt
    ensures q.meetingId == p.meetingId && q.userId == p.userId && q.invitedAt == p.invitedAt
  {
    p.(response := response, joinedAt := JoinedAtAfter(response, p.joinedAt, now))
  }

  /** Index of the participant row for `userId`, if any (`findByMeetingIdAndUserId`). */
  function FindParticipant(ps: seq<Participant>, userId: int): (r: Option<nat>)
    ensures r.Some? ==> r.value < |ps| && ps[r.value].userId == userId
    ensures r.None? <==> forall i :: 0 <= i < |ps| ==> ps[i].userId != userId
  {
    if ps == [] then None
    else if ps[0].userId == userId then Some(0)
    else
      match FindParticipant(ps[1..], userId)
      case Some(i) => Some(i + 1)
      case None => None
  }

  predicate IsParticipant(m: Meeting, userId: int)
  {
    FindParticipant(m.participants, userId).Some?
  }
}

/**
 * The repositories behind the meeting services: meetings by id (each
 * holding its participant rows) and the append-only history log.
 */
module MeetingRepository {
  import DomainMeeting
  import History

  datatype Store = Store(meetings: map<int, DomainMeeting.Meeting>, history: seq<History.Entry>)
}

=== FILE: entities.dfy ===
/**
 * `UserConsent`: a user's Kakao consents. The flags are nullable `Boolean`s,
 * and a null flag reads as not given.
 */
module UserConsents {
  import opened Wrappers

  datatype UserConsent = UserConsent(
    userId: Option<int>,
    talkMessageConsent: Option<bool>,
    friendsConsent: Option<bool>,
    marketingConsent: Option<bool>,
    consentDetails: Option<string>)

  /** A nullable flag that is set and true. */
  predicate Given(flag: Option<bool>)
  {
    flag == Some(true)
  }

  /** `canSendKakaoMessage`. */
  predicate CanSendKakaoMessage(c: UserConsent)
  {
    Given(c.talkMessageConsent)
  }

  /** `canAccessKakaoFriends`. */
  predicate CanAccessKakaoFriends(c: UserConsent)
  {
    Given(c.friendsConsent)
  }

  /** `canUseKakaoFeatures`: both the message and the friends consent. */
  predicate CanUseKakaoFeatures(c: UserConsent)
  {
    CanSendKakaoMessage(c) && CanAccessKakaoFriends(c)
  }

  /** Kakao features need the message consent; a null flag counts as refused. */
  lemma FeaturesNeedMessageConsent(c: UserConsent)
    ensures CanUseKakaoFeatures(c) ==> c.talkMessageConsent == Some(true)
    ensures c.talkMessageConsent.None? ==> !CanSendKakaoMessage(c) && !CanUseKakaoFeatures(c)
  {
  }

  /** `createDefault`: every consent false, so Kakao features cannot be used. */
  function CreateDefault(userId: Option<int>): (c: UserConsent)
    ensures c.userId == userId
    ensures c.talkMessageConsent == Some(false) && c.friendsConsent == Some(false) && c.marketingConsent == Some(false)
    ensures !CanSendKakaoMessage(c) && !CanAccessKakaoFriends(c) && !CanUseKakaoFeatures(c)
  {
    UserConsent(userId, Some(false), Some(false), Some(false), None)
  }

  /** `revokeAllConsents`: the three flags false, the user and details kept. */
  function RevokeAllConsents(c: UserConsent): (c': UserConsent)
    ensures c'.talkMessageConsent == Some(false) && c'.friendsConsent == Some(false) && c'.marketingConsent == Some(false)
    ensures c'.userId == c.userId && c'.consentDetails == c.consentDetails
    ensures !CanUseKakaoFeatures(c')
  {
    c.(talkMessageConsent := Some(false), friendsConsent := Some(false), marketingConsent := Some(false))
  }

  /** `updateTalkMessageConsent`: only the message flag changes. */
  function UpdateTalkMessageConsent(c: UserConsent, consent: bool): (c': UserConsent)
    ensures CanSendKakaoMessage(c') <==> consent
    ensures c'.(talkMessageConsent := c.talkMessageConsent) == c
  {
    c.(talkMessageConsent := Some(consent))
  }

  /** `updateFriendsConsent`: only the friends flag changes. */
  function UpdateFriendsConsent(c: UserConsent, consent: bool): (c': UserConsent)
    ensures CanAccessKakaoFriends(c') <==> consent
    ensures c'.(friendsConsent := c.friendsConsent) == c
  {
    c.(friendsConsent := Some(consent))
  }

  /** Granting both consents to a default record makes Kakao features usable. */
  lemma GrantingBothEnablesFeatures(userId: Option<int>)
    ensures CanUseKakaoFeatures(UpdateFriendsConsent(UpdateTalkMessageConsent(CreateDefault(userId), true), true))
    ensures !CanUseKakaoFeatures(UpdateTalkMessageConsent(CreateDefault(userId), true))
  {
  }
}

/**
 * `KakaoFriendMap`: one user's Kakao friend, identified by the friend's
 * Kakao UUID. Times are integers.
 */
module KakaoFriendMaps {
  import opened Wrappers
  import opened Text

  datatype FriendMap = FriendMap(
    userId: int,
    friendUserId: int,
    kakaoUuid: Option<string>,
    kakaoNickname: Option<string>,
    kakaoProfileImage: Option<string>,
    isActive: bool,
    lastSyncedAt: Option<int>)

  /** `isValidMapping`: active, with a non-blank UUID. */
  predicate IsValidMapping(m: FriendMap)
  {
    m.isActive && HasText(m.kakaoUuid)
  }

  /** `deactivate`: the mapping is no longer valid; only the active flag changes. */
  function Deactivate(m: FriendMap): (m': FriendMap)
    ensures !IsValidMapping(m')
    ensures m'.(isActive := m.isActive) == m
  {
    m.(isActive := false)
  }

  /** `create`: an active mapping synced at `now`, valid iff its UUID has text. */
  function Create(userId: int, friendUserId: int, kakaoUuid: Option<string>, nickname: Option<string>,
                  profileImage: Option<string>, now: int): (m: FriendMap)
    ensures m.isActive && m.lastSyncedAt == Some(now)
    ensures m.userId == userId && m.friendUserId == friendUserId && m.kakaoUuid == kakaoUuid
    ensures m.kakaoNickname == nickname && m.kakaoProfileImage == profileImage
    ensures IsValidMapping(m) <==> HasText(kakaoUuid)
  {
    FriendMap(userId, friendUserId, kakaoUuid, nickname, profileImage, true, Some(now))
  }

  /** `updateSyncInfo`: nickname, image and sync time change; validity does not. */
  function UpdateSyncInfo(m: FriendMap, nickname: Option<string>, profileImage: Option<string>, now: int): (m': FriendMap)
    ensures IsValidMapping(m') <==> IsValidMapping(m)
    ensures m'.kakaoNickname == nickname && m'.kakaoProfileImage == profileImage && m'.lastSyncedAt == Some(now)
    ensures m'.(kakaoNickname := m.kakaoNickname, kakaoProfileImage := m.kakaoProfileImage,
                lastSyncedAt := m.lastSyncedAt) == m
  {
    m.(kakaoNickname := nickname, kakaoProfileImage := profileImage, lastSyncedAt := Some(now))
  }
}

/**
 * The two `UserIdentity` entities: an OAuth login of a user. The `entity`
 * package stores the provider as a string and the `model.entity` package
 * as the `Provider` enum, so the record is generic in the provider's type.
 */
module UserIdentities {
  import opened Wrappers
  import opened Text
  import opened Providers

  datatype Identity<P> = Identity(
    userId: Option<int>,
    provider: P,
    providerUserId: Option<string>,
    nickname: Option<string>,
    profileImageUrl: Option<string>,
    accessToken: Option<string>,
    refreshToken: Option<string>,
    tokenExpiresAt: Option<int>)

  /** `of`: no profile and no tokens. */
  function Of<P>(userId: Option<int>, provider: P, providerUserId: Option<string>): (i: Identity<P>)
    ensures i.userId == userId && i.provider == provider && i.providerUserId == providerUserId
    ensures i.nickname.None? && i.profileImageUrl.None?
    ensures i.accessToken.None? && i.refreshToken.None? && i.tokenExpiresAt.None?
  {
    Identity(userId, provider, providerUserId, None, None, None, None, None)
  }

  /** `create`: `of` plus the nickname and image. */
  function Create<P>(userId: Option<int>, provider: P, providerUserId: Option<string>,
                     nickname: Option<string>, profileImageUrl: Option<string>): (i: Identity<P>)
    ensures i == Of(userId, provider, providerUserId).(nickname := nickname, profileImageUrl := profileImageUrl)
  {
    Identity(userId, provider, providerUserId, nickname, profileImageUrl, None, None, None)
  }

  /** `updateTokens`: exactly the three token fields change. */
  function UpdateTokens<P>(i: Identity<P>, accessToken: Option<string>, refreshToken: Option<string>,
                           expiresAt: Option<int>): (i': Identity<P>)
    ensures i'.accessToken == accessToken && i'.refreshToken == refreshToken && i'.tokenExpiresAt == expiresAt
    ensures i'.(accessToken := i.accessToken, refreshToken := i.refreshToken, tokenExpiresAt := i.tokenExpiresAt) == i
  {
    i.(accessToken := accessToken, refreshToken := refreshToken, tokenExpiresAt := expiresAt)
  }

  /** `updateProfile`: exactly the nickname and image change. */
  function UpdateProfile<P>(i: Identity<P>, nickname: Option<string>, profileImageUrl: Option<string>): (i': Identity<P>)
    ensures i'.nickname == nickname && i'.profileImageUrl == profileImageUrl
    ensures i'.(nickname := i.nickname, profileImageUrl := i.profileImageUrl) == i
  {
    i.(nickname := nickname, profileImageUrl := profileImageUrl)
  }

  /** `isTokenExpired`: an expiry is set and lies strictly before `now`. */
  predicate IsTokenExpired<P>(i: Identity<P>, now: int)
  {
    i.tokenExpiresAt.Some? && i.tokenExpiresAt.value < now
  }

  /** Updating the tokens decides expiry by the new expiry alone; a profile update leaves it as it was. */
  lemma ExpiryFollowsTokens<P>(i: Identity<P>, a: Option<string>, r: Option<string>, e: Option<int>,
                               n: Option<string>, img: Option<string>, now: int)
    ensures IsTokenExpired(UpdateTokens(i, a, r, e), now) <==> e.Some? && e.value < now
    ensures IsTokenExpired(UpdateProfile(i, n, img), now) <==> IsTokenExpired(i, now)
  {
  }

  /** `isKakaoUser` of the `entity` package: the provider string equals "KAKAO" ignoring case; null is not. */
  predicate IsKakaoUserByName(i: Identity<Option<string>>)
  {
    i.provider.Some? && EqualsIgnoreCase("KAKAO", i.provider.value)
  }

  /** `isKakaoUser` of the `model.entity` package: the provider is `KAKAO`. */
  predicate IsKakaoUser(i: Identity<Option<Provider>>)
  {
    i.provider == Some(Kakao)
  }

  /** Any letter case of "kakao" is a Kakao user; a null provider is not. */
  lemma KakaoNameIgnoresCase(i: Identity<Option<string>>)
    ensures i.provider == Some("kakao") ==> IsKakaoUserByName(i)
    ensures i.provider == Some("Kakao") ==> IsKakaoUserByName(i)
    ensures i.provider.None? ==> !IsKakaoUserByName(i)
  {
  }

  /** The two packages agree when the stored string is the enum's name. */
  lemma ProviderVersionsAgree(p: Provider)
    ensures p == Kakao <==> EqualsIgnoreCase("KAKAO", p.Value())
  {
    if p != Kakao {
      var v := p.Value();
      assert UpperChar(v[0]) != UpperChar("KAKAO"[0]) || |v| != 5;
    }
  }
}

/**
 * The two `FriendRequest` entities. Both use the `FriendRequestStatus` enum;
 * neither guards its transitions.
 */
module FriendRequests {
  import opened Wrappers
  import opened FriendRequestStatuses

  /** The `entity` package's request: from, to, a message, and the processing time. */
  datatype Request = Request(
    fromUserId: Option<int>,
    toUserId: Option<int>,
    status: FriendRequestStatus,
    message: Option<string>,
    processedAt: Option<int>)

  /** The constructor: PENDING with the given parties and message, not processed. */
  function NewRequest(fromUserId: Option<int>, toUserId: Option<int>, message: Option<string>): (r: Request)
    ensures r.status == Pending && r.status.IsPending() && r.processedAt.None?
    ensures r.fromUserId == fromUserId && r.toUserId == toUserId && r.message == message
  {
    Request(fromUserId, toUserId, Pending, message, None)
  }

  /** `accept`: ACCEPTED, processed at `now`. */
  function Accept(r: Request, now: int): (r': Request)
    ensures r'.status == Accepted && r'.status.IsFinal() && r'.processedAt == Some(now)
    ensures r'.fromUserId == r.fromUserId && r'.toUserId == r.toUserId && r'.message == r.message
  {
    r.(status := Accepted, processedAt := Some(now))
  }

  /** `reject`: REJECTED, processed at `now`. */
  function Reject(r: Request, now: int): (r': Request)
    ensures r'.status == Rejected && r'.status.IsFinal() && r'.processedAt == Some(now)
    ensures r'.fromUserId == r.fromUserId && r'.toUserId == r.toUserId && r'.message == r.message
  {
    r.(status := Rejected, processedAt := Some(now))
  }

  /** `cancel`: REJECTED as well, never CANCELLED. */
  function Cancel(r: Request, now: int): (r': Request)
    ensures r'.status == Rejected && r'.status != Cancelled && r'.processedAt == Some(now)
    ensures r'.fromUserId == r.fromUserId && r'.toUserId == r.toUserId && r'.message == r.message
  {
    r.(status := Rejected, processedAt := Some(now))
  }

  /** Cancelling and rejecting cannot be told apart afterwards. */
  lemma CancelIsReject(r: Request, now: int)
    ensures Cancel(r, now) == Reject(r, now)
  {
  }

  /** The `model.entity` package's request: requester and addressee only. */
  datatype PlainRequest = PlainRequest(requesterId: Option<int>, addresseeId: Option<int>, status: FriendRequestStatus)

  /** `create`: PENDING with the given parties. */
  function CreatePlain(requesterId: Option<int>, addresseeId: Option<int>): (r: PlainRequest)
    ensures r.status == Pending && r.requesterId == requesterId && r.addresseeId == addresseeId
  {
    PlainRequest(requesterId, addresseeId, Pending)
  }

  /** `accept`: ACCEPTED, whatever the status was. */
  function AcceptPlain(r: PlainRequest): (r': PlainRequest)
    ensures r'.status == Accepted && r'.requesterId == r.requesterId && r'.addresseeId == r.addresseeId
  {
    r.(status := Accepted)
  }

  /** `reject`: REJECTED, whatever the status was. */
  function RejectPlain(r: PlainRequest): (r': PlainRequest)
    ensures r'.status == Rejected && r'.requesterId == r.requesterId && r'.addresseeId == r.addresseeId
  {
    r.(status := Rejected)
  }

  /** Transitions are unguarded: a rejected request can still be accepted, and the last call wins. */
  lemma LastTransitionWins(r: PlainRequest)
    ensures AcceptPlain(RejectPlain(r)).status == Accepted
    ensures RejectPlain(AcceptPlain(r)).status == Rejected
    ensures AcceptPlain(RejectPlain(r)) == AcceptPlain(r)
  {
  }
}

/**
 * `Friendship`: the `entity` and `model.entity` packages declare the same
 * class, so one model serves both.
 */
module Friendships {
  import opened Wrappers
  import opened FriendshipStatuses

  datatype Friendship = Friendship(userId: Option<int>, friendId: Option<int>, status: Option<FriendshipStatus>)

  /** `create`: a null status is stored as ACCEPTED. */
  function Create(userId: Option<int>, friendId: Option<int>, status: Option<FriendshipStatus>): (f: Friendship)
    ensures f.userId == userId && f.friendId == friendId
    ensures f.status.Some?
    ensures status.Some? ==> f.status == status
    ensures status.None? ==> IsActive(f)
  {
    Friendship(userId, friendId, Some(status.GetOr(Accepted)))
  }

  /** `isBlocked`: the status is BLOCKED. */
  predicate IsBlocked(f: Friendship)
  {
    f.status == Some(Blocked)
  }

  /** `isActive`: the status is ACCEPTED. */
  predicate IsActive(f: Friendship)
  {
    f.status == Some(Accepted)
  }

  /** Never blocked and active at once; PENDING and null are neither. */
  lemma BlockedExcludesActive(f: Friendship)
    ensures !(IsBlocked(f) && IsActive(f))
    ensures f.status == Some(Pending) || f.status.None? ==> !IsBlocked(f) && !IsActive(f)
  {
  }

  /** `updateStatus`: only the status changes. */
  function UpdateStatus(f: Friendship, status: Option<FriendshipStatus>): (f': Friendship)
    ensures f'.status == status && f'.userId == f.userId && f'.friendId == f.friendId
  {
    f.(status := status)
  }
}

=== FILE: entity_meeting.dfy ===
/**
 * The `entity` package meeting and participant: this meeting stores its
 * host id, and its mutators validate their arguments and throw on bad input.
 */
module EntityMeeting {
  import opened Wrappers
  import opened Text
  import opened MeetingStatuses
  import History

  datatype Participant = Participant(
    meetingId: int,
    userId: int,
    meetingRef: Option<int>,
    response: ResponseStatus,
    joinedAt: Option<Time>)

  datatype Meeting = Meeting(
    title: string,
    description: Option<string>,
    meetingTime: Option<Time>,
    maxParticipants: Option<int>,
    status: MeetingStatus,
    hostId: Option<int>,
    locationName: Option<string>,
    locationAddress: Option<string>,
    locationCoordinates: Option<string>,
    participants: seq<Participant>,
    history: seq<History.Entry>)

  /** `isHost`. */
  predicate IsHost(m: Meeting, userId: int)
  {
    m.hostId == Some(userId)
  }

  /**
   * `updateMeetingInfo`: a blank or missing title, a missing time or a time
   * in the past is rejected; otherwise title (trimmed), description and time
   * are replaced and nothing else changes.
   */
  function UpdateMeetingInfo(m: Meeting, title: Option<string>, description: Option<string>,
                             meetingTime: Option<Time>, now: Time): (r: Result<Meeting>)
    ensures r.Ok? <==> HasText(title) && meetingTime.Some? && meetingTime.value >= now
    ensures r.Err? ==> r.error.kind == IllegalArgument
    ensures r.Ok? ==> r.value == m.(title := Trim(title.value), description := description, meetingTime := meetingTime)
  {
    if title.None? || IsBlank(title.value) then Fail(IllegalArgument, "약속 제목은 필수 입력값입니다")
    else if meetingTime.None? then Fail(IllegalArgument, "약속 시간은 필수 입력값입니다")
    else if meetingTime.value < now then Fail(IllegalArgument, "약속 시간은 현재 시간 이후여야 합니다")
    else Ok(m.(title := Trim(title.value), description := description, meetingTime := meetingTime))
  }

  /** A successful update leaves a non-blank title with no surrounding white space. */
  lemma UpdatedTitleIsTrimmedText(m: Meeting, title: Option<string>, description: Option<string>,
                                  meetingTime: Option<Time>, now: Time)
    requires UpdateMeetingInfo(m, title, description, meetingTime, now).Ok?
    ensures var t := UpdateMeetingInfo(m, title, description, meetingTime, now).value.title;
            t != [] && Trim(t) == t
  {
    TrimIdempotent(title.value);
  }

  /**
   * `updateStatus`: null is rejected, and a final status never goes back to
   * a non-final one; every other change, including final to final, is applied.
   */
  function UpdateStatus(m: Meeting, newStatus: Option<MeetingStatus>): (r: Result<Meeting>)
    ensures r.Ok? <==> newStatus.Some? && (m.status.IsFinal() ==> newStatus.value.IsFinal())
    ensures newStatus.None? ==> r.Err? && r.error.kind == IllegalArgument
    ensures newStatus.Some? && r.Err? ==> r.error.kind == IllegalState
    ensures r.Ok? ==> r.value == m.(status := newStatus.value)
  {
    if newStatus.None? then Fail(IllegalArgument, "약속 상태는 null일 수 없습니다")
    else if m.status.IsFinal() && !newStatus.value.IsFinal() then Fail(IllegalState, "완료된 약속의 상태는 되돌릴 수 없습니다")
    else Ok(m.(status := newStatus.value))
  }

  /** Once final, a meeting stays final whatever sequence of updates is applied. */
  lemma {:induction false} FinalStatusIsAbsorbing(m: Meeting, updates: seq<Option<MeetingStatus>>)
    requires m.status.IsFinal()
    ensures ApplyStatusUpdates(m, updates).status.IsFinal()
    decreases |updates|
  {
    if updates != [] {
      var r := UpdateStatus(m, updates[0]);
      if r.Ok? {
        FinalStatusIsAbsorbing(r.value, updates[1..]);
      } else {
        FinalStatusIsAbsorbing(m, updates[1..]);
      }
    }
  }

  /** Applies status updates in order, skipping the ones that throw. */
  function ApplyStatusUpdates(m: Meeting, updates: seq<Option<MeetingStatus>>): Meeting
    decreases |updates|
  {
    if updates == [] then m
    else
      var r := UpdateStatus(m, updates[0]);
      ApplyStatusUpdates(if r.Ok? then r.value else m, updates[1..])
  }

  /** `isValidJsonCoordinates`: trimmed, it starts with `{` and ends with `}`. */
  predicate IsValidJsonCoordinates(coordinates: string)
  {
    StartsWith(Trim(coordinates), "{") && EndsWith(Trim(coordinates), "}")
  }

  /**
   * `updateLocation`: coordinates that are present and not blank must look
   * like a JSON object; then all three location fields are replaced.
   */
  function UpdateLocation(m: Meeting, name: Option<string>, address: Option<string>,
                          coordinates: Option<string>): (r: Result<Meeting>)
    ensures r.Ok? <==> !HasText(coordinates) || IsValidJsonCoordinates(coordinates.value)
    ensures r.Err? ==> r.error.kind == IllegalArgument
    ensures r.Ok? ==> r.value == m.(locationName := name, locationAddress := address, locationCoordinates := coordinates)
  {
    if HasText(coordinates) && !IsValidJsonCoordinates(coordinates.value) then
      Fail(IllegalArgument, "좌표 정보는 올바른 JSON 형식이어야 합니다")
    else
      Ok(m.(locationName := name, locationAddress := address, locationCoordinates := coordinates))
  }

  /** Valid coordinates have at least the two braces, the first non-space character is `{` and the last `}`. */
  lemma ValidCoordinatesShape(c: string)
    requires IsValidJsonCoordinates(c)
    ensures |Trim(c)| >= 1 && Trim(c)[0] == '{' && Trim(c)[|Trim(c)| - 1] == '}'
  {
  }

  /** `getCurrentParticipantCount`: participants who answered ACCEPTED. */
  function CurrentParticipantCount(ps: seq<Participant>): (n: nat)
    ensures n <= |ps|
    ensures n == |ps| <==> forall i :: 0 <= i < |ps| ==> ps[i].response == Accepted
  {
    if ps == [] then 0
    else CurrentParticipantCount(ps[1..]) + (if ps[0].response == Accepted then 1 else 0)
  }

  /** `isMaxParticipantsReached`; unboxing a null maximum throws. */
  function IsMaxParticipantsReached(m: Meeting): (r: Option<bool>)
    ensures r.None? <==> m.maxParticipants.None?
    ensures r.Some? ==> (r.value <==> CurrentParticipantCount(m.participants) >= m.maxParticipants.value)
  {
    if m.maxParticipants.None? then None
    else Some(CurrentParticipantCount(m.participants) >= m.maxParticipants.value)
  }

  /** `isPastMeeting`: a missing time is never in the past. */
  predicate IsPastMeeting(m: Meeting, now: Time)
  {
    m.meetingTime.Some? && m.meetingTime.value < now
  }

  /**
   * `Meeting.create`: title (not blank), time and host are required; the
   * maximum defaults to 10; the meeting starts WAITING with no participants
   * and no history.
   */
  function Create(title: Option<string>, description: Option<string>, meetingTime: Option<Time>,
                  maxParticipants: Option<int>, hostId: Option<int>, locationName: Option<string>,
                  locationAddress: Option<string>, locationCoordinates: Option<string>): (r: Result<Meeting>)
    ensures r.Ok? <==> HasText(title) && meetingTime.Some? && hostId.Some?
    ensures r.Err? ==> r.error.kind == IllegalArgument
    ensures r.Ok? ==> r.value.status == Waiting && r.value.participants == [] && r.value.history == []
    ensures r.Ok? ==> r.value.title == Trim(title.value) && r.value.hostId == hostId
                      && r.value.meetingTime == meetingTime && r.value.description == description
    ensures r.Ok? ==> r.value.maxParticipants == Some(maxParticipants.GetOr(10))
    ensures r.Ok? ==> r.value.locationName == locationName && r.value.locationAddress == locationAddress
                      && r.value.locationCoordinates == locationCoordinates
  {
    if title.None? || IsBlank(title.value) then Fail(IllegalArgument, "약속 제목은 필수입니다")
    else if meetingTime.None? then Fail(IllegalArgument, "약속 시간은 필수입니다")
    else if hostId.None? then Fail(IllegalArgument, "방장 ID는 필수입니다")
    else Ok(Meeting(Trim(title.value), description, meetingTime,
                    Some(if maxParticipants.Some? then maxParticipants.value else 10),
                    Waiting, hostId, locationName, locationAddress, locationCoordinates, [], []))
  }

  /** `createBasic`. */
  function CreateBasic(title: Option<string>, meetingTime: Option<Time>, hostId: Option<int>): (r: Result<Meeting>)
    ensures r.Ok? <==> HasText(title) && meetingTime.Some? && hostId.Some?
    ensures r.Ok? ==> r.value.maxParticipants == Some(10) && r.value.description.None?
                      && r.value.locationName.None? && r.value.locationCoordinates.None?
  {
    Create(title, None, meetingTime, None, hostId, None, None, None)
  }

  /** A created meeting is hosted by the given host and is not yet full. */
  lemma CreatedMeetingIsHostedAndOpen(title: Option<string>, meetingTime: Option<Time>, hostId: Option<int>)
    requires CreateBasic(title, meetingTime, hostId).Ok?
    ensures IsHost(CreateBasic(title, meetingTime, hostId).value, hostId.value)
    ensures IsMaxParticipantsReached(CreateBasic(title, meetingTime, hostId).value) == Some(false)
  {
  }

  // The entity participant.

  /** `hasActuallyJoined`. */
  predicate HasActuallyJoined(p: Participant)
  {
    p.joinedAt.Some?
  }

  /** `updateResponse`: null is rejected; otherwise the answer and the join time follow it. */
  function UpdateResponse(p: Participant, response: Option<ResponseStatus>, now: Time): (r: Result<Participant>)
    ensures r.Ok? <==> response.Some?
    ensures r.Err? ==> r.error.kind == IllegalArgument
    ensures r.Ok? ==> r.value.response == response.value
                      && (HasActuallyJoined(r.value) <==> response.value == Accepted)
                      && (HasActuallyJoined(p) && response.value == Accepted ==> r.value.joinedAt == p.joinedAt)
                      && r.value.userId == p.userId && r.value.meetingId == p.meetingId
  {
    if response.None? then Fail(IllegalArgument, "응답 상태는 null일 수 없습니다")
    else Ok(p.(response := response.value, joinedAt := JoinedAtAfter(response.value, p.joinedAt, now)))
  }

  /** `MeetingParticipant.create`: both ids are required; a null answer means INVITED. */
  function CreateParticipant(meetingId: Option<int>, userId: Option<int>, meetingRef: Option<int>,
                             response: Option<ResponseStatus>): (r: Result<Participant>)
    ensures r.Ok? <==> meetingId.Some? && userId.Some?
    ensures r.Err? ==> r.error.kind == IllegalArgument
    ensures r.Ok? ==> r.value.meetingId == meetingId.value && r.value.userId == userId.value
                      && r.value.meetingRef == meetingRef && !HasActuallyJoined(r.value)
                      && r.value.response == response.GetOr(Invited)
  {
    if meetingId.None? then Fail(IllegalArgument, "약속 ID는 필수입니다")
    else if userId.None? then Fail(IllegalArgument, "사용자 ID는 필수입니다")
    else Ok(Participant(meetingId.value, userId.value, meetingRef,
                        if response.Some? then response.value else Invited, None))
  }

  /** `createInvited`: an INVITED row with no meeting reference. */
  function CreateInvited(meetingId: Option<int>, userId: Option<int>): (r: Result<Participant>)
    ensures r.Ok? <==> meetingId.Some? && userId.Some?
    ensures r.Ok? ==> r.value.response == Invited && r.value.meetingRef.None?
  {
    CreateParticipant(meetingId, userId, None, Some(Invited))
  }
}

=== FILE: enums.dfy ===
/**
 * The status enums of the `enums` package. Each enum is a datatype whose
 * predicates are members; the lemmas state how the predicate families of
 * one enum relate to each other.
 */

/** `AppointmentStatus`: the life cycle of an appointment. */
module AppointmentStatuses {
  datatype AppointmentStatus = Draft | Pending | Confirmed | Canceled
  {
    function Description(): string
    {
      match this
      case Draft => "초안"
      case Pending => "대기중"
      case Confirmed => "확정"
      case Canceled => "취소"
    }

    predicate IsEditable() { this == Draft || this == Pending }
    predicate CanInviteParticipants() { this == Draft || this == Pending }
    predicate CanSendConfirmationNotification() { this == Confirmed }
    predicate CanSendCancellationNotification() { this == Canceled }
    predicate IsActive() { this != Canceled }
    predicate IsCompleted() { this == Confirmed || this == Canceled }
  }

  /**
   * Editing and inviting are allowed in the same statuses, completion is
   * the complement of both, and no status sends both notifications.
   */
  lemma AppointmentStatusPredicates(s: AppointmentStatus)
    ensures s.IsEditable() <==> s.CanInviteParticipants()
    ensures s.IsCompleted() <==> !s.IsEditable()
    ensures s.IsActive() <==> s != Canceled
    ensures !(s.CanSendConfirmationNotification() && s.CanSendCancellationNotification())
    ensures s.CanSendConfirmationNotification() || s.CanSendCancellationNotification() ==> s.IsCompleted()
  {
  }
}

/** `ParticipantState`: an appointment participant's answer. */
module ParticipantStates {
  datatype ParticipantState = Invited | Accepted | Declined
  {
    function Description(): string
    {
      match this
      case Invited => "초대됨"
      case Accepted => "수락"
      case Declined => "거절"
    }

    predicate HasResponded() { this == Accepted || this == Declined }
    predicate IsParticipating() { this == Accepted }
    predicate ShouldReceiveNotifications() { this == Accepted }
    predicate NeedsReminder() { this == Invited }

    /** `canChangeTo`, branch by branch as written. */
    predicate CanChangeTo(next: ParticipantState)
    {
      if this == Invited then next == Accepted || next == Declined
      else if this == Accepted || this == Declined then next == Accepted || next == Declined
      else false
    }
  }

  /**
   * Whatever the current state, a change is allowed exactly towards an
   * answer, so nobody is ever put back to INVITED.
   */
  lemma CanChangeToIsAnswer(s: ParticipantState, next: ParticipantState)
    ensures s.CanChangeTo(next) <==> next.HasResponded()
    ensures !s.CanChangeTo(Invited)
  {
  }

  /** Answered and needing a reminder are complements; participating and being notified coincide. */
  lemma ParticipantStatePredicates(s: ParticipantState)
    ensures s.HasResponded() <==> !s.NeedsReminder()
    ensures s.IsParticipating() <==> s.ShouldReceiveNotifications()
    ensures s.IsParticipating() <==> s == Accepted
    ensures s.IsParticipating() ==> s.HasResponded()
  {
  }
}

/** `NotifyStatus`: the outcome of notifying one participant. */
module NotifyStatuses {
  datatype NotifyStatus = Pending | Sent | NeedsConsent | TokenExpired | Failed
  {
    function Description(): string
    {
      match this
      case Pending => "대기"
      case Sent => "전송완료"
      case NeedsConsent => "동의필요"
      case TokenExpired => "토큰만료"
      case Failed => "전송실패"
    }

    predicate IsRetryable() { this == Pending || this == TokenExpired || this == Failed }
    predicate IsSuccessful() { this == Sent }
    predicate RequiresUserAction() { this == NeedsConsent }
  }

  /**
   * Every status is exactly one of successful, retryable or waiting for the
   * user's consent.
   */
  lemma NotifyStatusPredicates(s: NotifyStatus)
    ensures !(s.IsSuccessful() && s.IsRetryable())
    ensures s.RequiresUserAction() <==> !s.IsSuccessful() && !s.IsRetryable()
    ensures s.IsRetryable() ==> !s.RequiresUserAction()
  {
  }
}

/** `FriendRequestStatus`. */
module FriendRequestStatuses {
  datatype FriendRequestStatus = Pending | Accepted | Rejected | Cancelled
  {
    function DisplayName(): string
    {
      match this
      case Pending => "대기 중"
      case Accepted => "수락"
      case Rejected => "거부"
      case Cancelled => "취소"
    }

    predicate IsPending() { this == Pending }
    predicate IsFinal() { this == Accepted || this == Rejected || this == Cancelled }
  }

  /** Every status is exactly one of pending and final, and the display names tell them apart. */
  lemma FriendRequestStatusPredicates(s: FriendRequestStatus, t: FriendRequestStatus)
    ensures s.IsPending() != s.IsFinal()
    ensures s.DisplayName() == t.DisplayName() <==> s == t
    ensures Cancelled.DisplayName() == "취소"
  {
  }
}

/** `FriendshipStatus`. */
module FriendshipStatuses {
  datatype FriendshipStatus = Pending | Accepted | Blocked
}

/** The `enums` package's six-valued `MeetingStatus`. */
module LifecycleStatuses {
  datatype MeetingStatus = Inviting | Pending | Confirmed | InProgress | Completed | Cancelled
  {
    function DisplayName(): string
    {
      match this
      case Inviting => "초대 중"
      case Pending => "대기 중"
      case Confirmed => "확정"
      case InProgress => "진행 중"
      case Completed => "완료"
      case Cancelled => "취소"
    }

    predicate IsInvitingPhase() { this == Inviting || this == Pending }
    predicate IsConfirmed() { this == Confirmed || this == InProgress || this == Completed }
    predicate IsActive() { this == Inviting || this == Pending || this == Confirmed || this == InProgress }
    predicate IsFinal() { this == Completed || this == Cancelled }
  }

  /**
   * Active and final are complements; the inviting phase is active and
   * never confirmed; COMPLETED is confirmed and final, IN_PROGRESS confirmed
   * and active.
   */
  lemma LifecycleStatusPredicates(s: MeetingStatus)
    ensures s.IsActive() <==> !s.IsFinal()
    ensures s.IsInvitingPhase() ==> s.IsActive() && !s.IsConfirmed()
    ensures Completed.IsConfirmed() && Completed.IsFinal()
    ensures InProgress.IsConfirmed() && InProgress.IsActive()
  {
  }
}

/** `ParticipantStatus`. */
module ParticipantStatuses {
  datatype ParticipantStatus = Invited | Accepted | Declined | Joined | Left
  {
    function DisplayName(): string
    {
      match this
      case Invited => "초대됨"
      case Accepted => "수락"
      case Declined => "거부"
      case Joined => "참가"
      case Left => "나감"
    }

    predicate IsInvited() { this == Invited }
    predicate HasResponded() { this == Accepted || this == Declined }
    predicate CanParticipate() { this == Accepted || this == Joined }
    predicate IsFinal() { this == Joined || this == Left || this == Declined }
  }

  /**
   * INVITED is the only status satisfying none of the other three
   * predicates, and it satisfies `isInvited` alone.
   */
  lemma ParticipantStatusPredicates(s: ParticipantStatus)
    ensures s.IsInvited() <==> !s.HasResponded() && !s.CanParticipate() && !s.IsFinal()
    ensures s.HasResponded() && s.IsFinal() <==> s == Declined
    ensures s.CanParticipate() && s.IsFinal() <==> s == Joined
  {
  }
}

/** `PreferredTransport`. */
module Transports {
  datatype PreferredTransport = PublicTransport | Car | Bicycle | Walking | Motorcycle | Taxi | Other
  {
    function DisplayName(): string
    {
      match this
      case PublicTransport => "대중교통"
      case Car => "자동차"
      case Bicycle => "자전거"
      case Walking => "도보"
      case Motorcycle => "오토바이"
      case Taxi => "택시"
      case Other => "기타"
    }

    predicate IsPublicTransport() { this == PublicTransport }
    predicate IsPersonalTransport() { this == Car || this == Bicycle || this == Motorcycle }
    predicate IsEcoFriendly() { this == PublicTransport || this == Bicycle || this == Walking }
  }

  /**
   * Public transport is eco-friendly and not personal; BICYCLE is the one
   * mode that is both personal and eco-friendly; TAXI and OTHER are none.
   */
  lemma TransportPredicates(t: PreferredTransport)
    ensures t.IsPublicTransport() ==> t.IsEcoFriendly() && !t.IsPersonalTransport()
    ensures t.IsPersonalTransport() && t.IsEcoFriendly() <==> t == Bicycle
    ensures !t.IsPublicTransport() && !t.IsPersonalTransport() && !t.IsEcoFriendly() <==> t == Taxi || t == Other
  {
  }
}

/** `Provider`: the OAuth providers, whose value is their upper-case name. */
module Providers {
  datatype Provider = Kakao | Google | Naver | Apple
  {
    function Value(): string
    {
      match this
      case Kakao => "KAKAO"
      case Google => "GOOGLE"
      case Naver => "NAVER"
      case Apple => "APPLE"
    }
  }
}

=== FILE: exception_handler.dfy ===
/**
 * `GlobalExceptionHandler`: how an exception escaping a controller becomes
 * an HTTP response. Runtime exceptions are classified by their message text,
 * so the lemmas below state which HTTP status each service message reaches.
 */
module GlobalExceptionHandler {
  import opened Wrappers
  import opened Text
  import MeetingStatusService
  import ParticipantService

  /** The response body map: `code`, `message` and `status`. */
  datatype Body = Body(code: string, message: string, status: int)

  /** A response entity: the HTTP status and its body. */
  datatype Response = Response(httpStatus: int, body: Body)

  const PermissionPhrase := "권한이 없습니다"
  const PermissionShortPhrase := "권한 없음"
  const NotFoundPhrase := "찾을 수 없습니다"
  const MissingPhrase := "존재하지 않습니다"
  const DefaultServerMessage := "서버 내부 오류가 발생했습니다"

  predicate IsPermissionMessage(m: string)
  {
    Contains(m, PermissionPhrase) || Contains(m, PermissionShortPhrase)
  }

  predicate IsNotFoundMessage(m: string)
  {
    Contains(m, NotFoundPhrase) || Contains(m, MissingPhrase)
  }

  /**
   * `handleRuntimeException`: a permission phrase gives 403, otherwise a
   * not-found phrase gives 404, otherwise (a null message included) 500
   * with the message or the default text. The body's status always equals
   * the HTTP status.
   */
  function HandleRuntimeException(e: Exception): (r: Response)
    ensures r.httpStatus == r.body.status
    ensures r.httpStatus == 403 <==> e.message.Some? && IsPermissionMessage(e.message.value)
    ensures r.httpStatus == 404 <==> e.message.Some? && !IsPermissionMessage(e.message.value)
                                     && IsNotFoundMessage(e.message.value)
    ensures r.httpStatus in {403, 404, 500}
    ensures r.body.code == (if r.httpStatus == 403 then "FORBIDDEN"
                            else if r.httpStatus == 404 then "NOT_FOUND" else "INTERNAL_SERVER_ERROR")
    ensures r.body.message == e.message.GetOr(DefaultServerMessage)
  {
    var message := e.message;
    if message.Some? && IsPermissionMessage(message.value) then
      Response(403, Body("FORBIDDEN", message.value, 403))
    else if message.Some? && IsNotFoundMessage(message.value) then
      Response(404, Body("NOT_FOUND", message.value, 404))
    else
      Response(500, Body("INTERNAL_SERVER_ERROR", if message.Some? then message.value else DefaultServerMessage, 500))
  }

  /**
   * `handleForbidden`: 403 with the exception's message. `Map.of` refuses
   * a null value, so a message-less exception makes the handler throw.
   */
  function HandleForbidden(message: Option<string>): (r: Result<Response>)
    ensures r.Ok? <==> message.Some?
    ensures r.Ok? ==> r.value.httpStatus == 403 == r.value.body.status && r.value.body.message == message.value
  {
    if message.None? then NullDeref() else Ok(Response(403, Body("FORBIDDEN", message.value, 403)))
  }

  /** `handleNotFound`: 404 with the exception's message; a null message makes `Map.of` throw. */
  function HandleNotFound(message: Option<string>): (r: Result<Response>)
    ensures r.Ok? <==> message.Some?
    ensures r.Ok? ==> r.value.httpStatus == 404 == r.value.body.status && r.value.body.message == message.value
  {
    if message.None? then NullDeref() else Ok(Response(404, Body("NOT_FOUND", message.value, 404)))
  }

  /** `handleBadRequest`: 400 with a fixed message, whatever failed. */
  function HandleBadRequest(): (r: Response)
    ensures r.httpStatus == 400 == r.body.status && r.body.message == "validation failed"
  {
    Response(400, Body("BAD_REQUEST", "validation failed", 400))
  }

  // Which services' messages reach which status.

  /** A string contains itself. */
  lemma ContainsSelf(s: string)
    ensures Contains(s, s)
  {
    assert s[..|s|] == s;
  }

  /** A message ending in a phrase contains it. */
  lemma ContainsSuffix(a: string, phrase: string)
    ensures Contains(a + phrase, phrase)
  {
    ContainsSelf(phrase);
    ContainsInConcat(a, phrase, phrase);
  }

  /** A message in which the first character of none of the four phrases occurs reaches 500. */
  lemma NoPhraseCharIsServerError(m: string)
    requires forall i :: 0 <= i < |m| ==> m[i] != '권' && m[i] != '찾' && m[i] != '존'
    ensures HandleRuntimeException(Exception(Runtime, Some(m))).httpStatus == 500
  {
    AbsentFirstCharNotContained(m, PermissionPhrase);
    AbsentFirstCharNotContained(m, PermissionShortPhrase);
    AbsentFirstCharNotContained(m, NotFoundPhrase);
    AbsentFirstCharNotContained(m, MissingPhrase);
  }

  /** The host checks of the status and participant services answer 403. */
  lemma PermissionMessagesAreForbidden()
    ensures HandleRuntimeException(Exception(Runtime, Some(MeetingStatusService.NotHostMessage))).httpStatus == 403
    ensures HandleRuntimeException(Exception(Runtime, Some(ParticipantService.NoInvitePermissionMessage))).httpStatus == 403
    ensures HandleRuntimeException(Exception(Runtime, Some(ParticipantService.NoRemovePermissionMessage))).httpStatus == 403
  {
    ContainsSuffix("약속 상태 변경 ", PermissionPhrase);
    assert MeetingStatusService.NotHostMessage == "약속 상태 변경 " + PermissionPhrase;
    ContainsSuffix("참여자 초대 ", PermissionPhrase);
    assert ParticipantService.NoInvitePermissionMessage == "참여자 초대 " + PermissionPhrase;
    ContainsSuffix("참여자 제거 ", PermissionPhrase);
    assert ParticipantService.NoRemovePermissionMessage == "참여자 제거 " + PermissionPhrase;
  }

  /** A message without the character that opens both permission phrases contains neither. */
  lemma NoPermissionChar(m: string)
    requires forall i :: 0 <= i < |m| ==> m[i] != '권'
    ensures !IsPermissionMessage(m)
  {
    assert PermissionPhrase[0] == '권' && PermissionShortPhrase[0] == '권';
    AbsentFirstCharNotContained(m, PermissionPhrase);
    AbsentFirstCharNotContained(m, PermissionShortPhrase);
  }

  /** A not-found message in which no permission phrase can start reaches 404. */
  lemma NoPermissionCharIsNotFound(m: string)
    requires Contains(m, NotFoundPhrase)
    requires forall i :: 0 <= i < |m| ==> m[i] != '권'
    ensures HandleRuntimeException(Exception(Runtime, Some(m))).httpStatus == 404
  {
    NoPermissionChar(m);
  }

  /** A missing meeting, whatever its id, answers 404. */
  lemma MeetingNotFoundIsNotFound(meetingId: int)
    ensures HandleRuntimeException(Exception(Runtime, Some(MeetingStatusService.NotFoundMessage(meetingId)))).httpStatus == 404
  {
    var head := "약속을 " + NotFoundPhrase;
    var digits := IntToString(meetingId);
    var m := MeetingStatusService.NotFoundMessage(meetingId);
    assert m == head + (": " + digits);
    ContainsSuffix("약속을 ", NotFoundPhrase);
    ContainsInConcat(head, ": " + digits, NotFoundPhrase);
    IntToStringChars(meetingId);
    forall i | 0 <= i < |m|
      ensures m[i] != '권'
    {
      if i >= |head| + 2 {
        assert m[i] == digits[i - |head| - 2];
      }
    }
    NoPermissionCharIsNotFound(m);
  }

  /** A missing participant row answers 404. */
  lemma ParticipantNotFoundIsNotFound()
    ensures HandleRuntimeException(Exception(Runtime, Some(ParticipantService.ParticipantNotFoundMessage))).httpStatus == 404
  {
    ContainsSuffix("참여자 정보를 ", NotFoundPhrase);
    assert ParticipantService.ParticipantNotFoundMessage == "참여자 정보를 " + NotFoundPhrase;
    NoPermissionCharIsNotFound(ParticipantService.ParticipantNotFoundMessage);
  }

  /** Removing the host is refused with a message that reaches 500. */
  lemma HostNotRemovableIsServerError()
    ensures HandleRuntimeException(Exception(Runtime, Some(ParticipantService.HostNotRemovableMessage))).httpStatus == 500
  {
    NoPhraseCharIsServerError(ParticipantService.HostNotRemovableMessage);
  }

  /** Exceeding the capacity is a "cannot" message and reaches 500, not 400. */
  lemma TooManyIsServerError()
    ensures HandleRuntimeException(Exception(Runtime, Some(ParticipantService.TooManyMessage))).httpStatus == 500
  {
    NoPhraseCharIsServerError(ParticipantService.TooManyMessage);
  }

  /** A change to the current status is refused with a message that reaches 500. */
  lemma SameStatusIsServerError()
    ensures HandleRuntimeException(Exception(Runtime, Some(MeetingStatusService.SameStatusMessage))).httpStatus == 500
  {
    NoPhraseCharIsServerError(MeetingStatusService.SameStatusMessage);
  }
}

=== FILE: invite_outcomes.dfy ===
/**
 * The three outcomes of inviting one requested user, and the lists of
 * requested ids sorted by outcome.
 */
module InviteOutcomes {
  datatype InviteOutcome = NewlyInvited | AlreadyInvited | FailedToInvite

  /** The ids among the first `n` whose outcome is `o`, in request order. */
  function Select(ids: seq<int>, outs: seq<InviteOutcome>, o: InviteOutcome, n: nat): (r: seq<int>)
    requires n <= |ids| == |outs|
  {
    if n == 0 then [] else Select(ids, outs, o, n - 1) + (if outs[n - 1] == o then [ids[n - 1]] else [])
  }

  lemma SelectNext(ids: seq<int>, outs: seq<InviteOutcome>, o: InviteOutcome, i: nat)
    requires i < |ids| == |outs|
    ensures Select(ids, outs, o, i + 1) == Select(ids, outs, o, i) + (if outs[i] == o then [ids[i]] else [])
  {
  }

  /** The contribution of the `i`-th id to the list of outcome `o`. */
  function Added(ids: seq<int>, outs: seq<InviteOutcome>, o: InviteOutcome, i: nat): multiset<int>
    requires i < |ids| == |outs|
  {
    if outs[i] == o then multiset{ids[i]} else multiset{}
  }

  lemma SelectStep(ids: seq<int>, outs: seq<InviteOutcome>, o: InviteOutcome, n: nat)
    requires 0 < n <= |ids| == |outs|
    ensures multiset(Select(ids, outs, o, n)) == multiset(Select(ids, outs, o, n - 1)) + Added(ids, outs, o, n - 1)
  {
  }

  lemma AddedPartition(ids: seq<int>, outs: seq<InviteOutcome>, i: nat)
    requires i < |ids| == |outs|
    ensures Added(ids, outs, NewlyInvited, i) + Added(ids, outs, AlreadyInvited, i) + Added(ids, outs, FailedToInvite, i)
            == multiset{ids[i]}
  {
  }

  lemma StepSum(a: multiset<int>, b: multiset<int>, c: multiset<int>, x: multiset<int>, y: multiset<int>,
                 z: multiset<int>, before: multiset<int>, e: int)
    requires a + b + c == before && x + y + z == multiset{e}
    ensures (a + x) + (b + y) + (c + z) == before + multiset{e}
  {
    assert (a + x) + (b + y) + (c + z) == (a + b + c) + (x + y + z);
  }

  /** The three lists of the first `n` ids, taken together. */
  function Buckets(ids: seq<int>, outs: seq<InviteOutcome>, n: nat): multiset<int>
    requires n <= |ids| == |outs|
  {
    multiset(Select(ids, outs, NewlyInvited, n)) + multiset(Select(ids, outs, AlreadyInvited, n))
    + multiset(Select(ids, outs, FailedToInvite, n))
  }

  lemma BucketsStep(ids: seq<int>, outs: seq<InviteOutcome>, n: nat)
    requires 0 < n <= |ids| == |outs|
    ensures Buckets(ids, outs, n) == Buckets(ids, outs, n - 1) + multiset{ids[n - 1]}
  {
    var a, b, c := multiset(Select(ids, outs, NewlyInvited, n - 1)), multiset(Select(ids, outs, AlreadyInvited, n - 1)),
                   multiset(Select(ids, outs, FailedToInvite, n - 1));
    var x, y, z := Added(ids, outs, NewlyInvited, n - 1), Added(ids, outs, AlreadyInvited, n - 1),
                   Added(ids, outs, FailedToInvite, n - 1);
    SelectStep(ids, outs, NewlyInvited, n);
    SelectStep(ids, outs, AlreadyInvited, n);
    SelectStep(ids, outs, FailedToInvite, n);
    AddedPartition(ids, outs, n - 1);
    StepSum(a, b, c, x, y, z, Buckets(ids, outs, n - 1), ids[n - 1]);
  }

  lemma PrefixStep(ids: seq<int>, n: nat)
    requires 0 < n <= |ids|
    ensures multiset(ids[..n]) == multiset(ids[..n - 1]) + multiset{ids[n - 1]}
  {
    assert ids[..n] == ids[..n - 1] + [ids[n - 1]];
  }

  /** The three lists of the first `n` ids together hold exactly those ids. */
  lemma {:induction false} SelectPartition(ids: seq<int>, outs: seq<InviteOutcome>, n: nat)
    requires n <= |ids| == |outs|
    ensures multiset(Select(ids, outs, NewlyInvited, n)) + multiset(Select(ids, outs, AlreadyInvited, n))
            + multiset(Select(ids, outs, FailedToInvite, n)) == multiset(ids[..n])
  {
    if n > 0 {
      SelectPartition(ids, outs, n - 1);
      BucketsStep(ids, outs, n);
      PrefixStep(ids, n);
    }
  }
}

=== FILE: json_text.dfy ===
/**
 * The hand-written JSON string escaping shared by `KakaoClient.escapeJson`
 * and `KakaoMemoSender.jsonEscape`: five chained `String.replace` calls that
 * escape the backslash first and then the quote, line feed, carriage return
 * and tab. This is a subset of the string escapes of section 7 of RFC 8259;
 * the other control characters are passed through unescaped.
 */
module JsonText {

  /** `String.replace` with a one-character target: every occurrence of `c` becomes `rep`. */
  function ReplaceChar(s: string, c: char, rep: string): (r: string)
    ensures c !in rep ==> c !in r
    ensures forall x :: x in r ==> x in s || x in rep
  {
    if s == [] then []
    else (if s[0] == c then rep else [s[0]]) + ReplaceChar(s[1..], c, rep)
  }

  /** The five replacements, in the order `escapeJson` and `jsonEscape` chain them. */
  function EscapeJson(text: string): string
  {
    var a := ReplaceChar(text, '\\', "\\\\");
    var b := ReplaceChar(a, '"', "\\\"");
    var c := ReplaceChar(b, '\n', "\\n");
    var d := ReplaceChar(c, '\r', "\\r");
    ReplaceChar(d, '\t', "\\t")
  }

  /** The escape of one character, read off section 7 of RFC 8259 for the five characters escaped here. */
  function EscapeChar(x: char): (r: string)
    ensures |r| == 1 <==> x !in "\\\"\n\r\t"
    ensures |r| == 1 ==> r == [x]
    ensures |r| != 1 ==> |r| == 2 && r[0] == '\\' && r[1] in "\\\"nrt"
  {
    match x
    case '\\' => "\\\\"
    case '"' => "\\\""
    case '\n' => "\\n"
    case '\r' => "\\r"
    case '\t' => "\\t"
    case _ => [x]
  }

  /** The reference definition: each character escaped on its own, left to right. */
  function EscapeEach(s: string): string
  {
    if s == [] then [] else EscapeChar(s[0]) + EscapeEach(s[1..])
  }

  lemma {:induction false} ReplaceAppend(a: string, b: string, c: char, rep: string)
    ensures ReplaceChar(a + b, c, rep) == ReplaceChar(a, c, rep) + ReplaceChar(b, c, rep)
  {
    if a == [] {
      assert a + b == b;
    } else {
      assert (a + b)[1..] == a[1..] + b;
      ReplaceAppend(a[1..], b, c, rep);
    }
  }

  lemma ReplaceSingle(x: char, c: char, rep: string)
    ensures ReplaceChar([x], c, rep) == if x == c then rep else [x]
  {
    assert [x][1..] == [];
  }

  lemma ReplacePair(x: char, y: char, c: char, rep: string)
    ensures ReplaceChar([x, y], c, rep) == (if x == c then rep else [x]) + (if y == c then rep else [y])
  {
    assert [x, y] == [x] + [y];
    ReplaceAppend([x], [y], c, rep);
    ReplaceSingle(x, c, rep);
    ReplaceSingle(y, c, rep);
  }

  /** The chain applied to one character is that character's escape. */
  lemma EscapeJsonSingle(x: char)
    ensures EscapeJson([x]) == EscapeChar(x)
  {
    var a := ReplaceChar([x], '\\', "\\\\");
    ReplaceSingle(x, '\\', "\\\\");
    if x == '\\' {
      ReplacePair('\\', '\\', '"', "\\\"");
      ReplacePair('\\', '\\', '\n', "\\n");
      ReplacePair('\\', '\\', '\r', "\\r");
      ReplacePair('\\', '\\', '\t', "\\t");
    } else {
      ReplaceSingle(x, '"', "\\\"");
      if x == '"' {
        ReplacePair('\\', '"', '\n', "\\n");
        ReplacePair('\\', '"', '\r', "\\r");
        ReplacePair('\\', '"', '\t', "\\t");
      } else {
        ReplaceSingle(x, '\n', "\\n");
        if x == '\n' {
          ReplacePair('\\', 'n', '\r', "\\r");
          ReplacePair('\\', 'n', '\t', "\\t");
        } else {
          ReplaceSingle(x, '\r', "\\r");
          if x == '\r' {
            ReplacePair('\\', 'r', '\t', "\\t");
          } else {
            ReplaceSingle(x, '\t', "\\t");
          }
        }
      }
    }
  }

  /** Every replacement distributes over concatenation, so the whole chain does. */
  lemma EscapeJsonAppend(a: string, b: string)
    ensures EscapeJson(a + b) == EscapeJson(a) + EscapeJson(b)
  {
    var a1, b1 := ReplaceChar(a, '\\', "\\\\"), ReplaceChar(b, '\\', "\\\\");
    ReplaceAppend(a, b, '\\', "\\\\");
    var a2, b2 := ReplaceChar(a1, '"', "\\\""), ReplaceChar(b1, '"', "\\\"");
    ReplaceAppend(a1, b1, '"', "\\\"");
    var a3, b3 := ReplaceChar(a2, '\n', "\\n"), ReplaceChar(b2, '\n', "\\n");
    ReplaceAppend(a2, b2, '\n', "\\n");
    var a4, b4 := ReplaceChar(a3, '\r', "\\r"), ReplaceChar(b3, '\r', "\\r");
    ReplaceAppend(a3, b3, '\r', "\\r");
    ReplaceAppend(a4, b4, '\t', "\\t");
  }

  /** The chained replacements escape character by character. */
  lemma {:induction false} EscapeJsonIsPerChar(s: string)
    ensures EscapeJson(s) == EscapeEach(s)
  {
    if s != [] {
      assert s == [s[0]] + s[1..];
      EscapeJsonAppend([s[0]], s[1..]);
      EscapeJsonSingle(s[0]);
      EscapeJsonIsPerChar(s[1..]);
    }
  }

  /** The character a two-character escape `\x` stands for. */
  function UnescapeCode(x: char): char
  {
    match x
    case 'n' => '\n'
    case 'r' => '\r'
    case 't' => '\t'
    case _ => x
  }

  /** Decodes the escapes of a JSON string body: `\x` is read as one character. */
  function Unescape(s: string): string
  {
    if s == [] then []
    else if s[0] == '\\' && |s| >= 2 then [UnescapeCode(s[1])] + Unescape(s[2..])
    else [s[0]] + Unescape(s[1..])
  }

  /** A JSON string body with these escapes: a backslash always starts one of the five escapes, and no quote, LF, CR or TAB stands raw. */
  predicate WellEscaped(s: string)
  {
    if s == [] then true
    else if s[0] == '\\' then |s| >= 2 && s[1] in "\\\"nrt" && WellEscaped(s[2..])
    else s[0] !in "\"\n\r\t" && WellEscaped(s[1..])
  }

  lemma UnescapeAfterChar(x: char, rest: string)
    ensures Unescape(EscapeChar(x) + rest) == [x] + Unescape(rest)
  {
    var e := EscapeChar(x);
    if |e| == 2 {
      assert (e + rest)[2..] == rest;
    } else {
      assert (e + rest)[1..] == rest;
    }
  }

  lemma WellEscapedAfterChar(x: char, rest: string)
    requires WellEscaped(rest)
    ensures WellEscaped(EscapeChar(x) + rest)
  {
    var e := EscapeChar(x);
    if |e| == 2 {
      assert (e + rest)[2..] == rest;
    } else {
      assert (e + rest)[1..] == rest;
    }
  }

  /** Decoding the escaped text gives the original text back. */
  lemma {:induction false} UnescapeEscapeJson(s: string)
    ensures Unescape(EscapeJson(s)) == s
  {
    EscapeJsonIsPerChar(s);
    UnescapeEscapeEach(s);
  }

  lemma {:induction false} UnescapeEscapeEach(s: string)
    ensures Unescape(EscapeEach(s)) == s
  {
    if s != [] {
      UnescapeEscapeEach(s[1..]);
      UnescapeAfterChar(s[0], EscapeEach(s[1..]));
      assert [s[0]] + s[1..] == s;
    }
  }

  /** The escaped text is a well-formed string body: nothing in it can end the literal or break the line. */
  lemma {:induction false} EscapeJsonWellEscaped(s: string)
    ensures WellEscaped(EscapeJson(s))
  {
    EscapeJsonIsPerChar(s);
    EscapeEachWellEscaped(s);
  }

  lemma {:induction false} EscapeEachWellEscaped(s: string)
    ensures WellEscaped(EscapeEach(s))
  {
    if s != [] {
      EscapeEachWellEscaped(s[1..]);
      WellEscapedAfterChar(s[0], EscapeEach(s[1..]));
    }
  }

  /** The escaped text holds no raw line feed, carriage return or tab. */
  lemma NoRawControl(s: string)
    ensures '\n' !in EscapeJson(s) && '\r' !in EscapeJson(s) && '\t' !in EscapeJson(s)
  {
    var a := ReplaceChar(s, '\\', "\\\\");
    var b := ReplaceChar(a, '"', "\\\"");
    var c := ReplaceChar(b, '\n', "\\n");
    var d := ReplaceChar(c, '\r', "\\r");
    assert '\n' !in c;
    assert '\n' !in d && '\r' !in d;
  }

  /** Text without the five special characters is left as it is. */
  lemma {:induction false} PlainTextUnchanged(s: string)
    requires forall i :: 0 <= i < |s| ==> s[i] !in "\\\"\n\r\t"
    ensures EscapeJson(s) == s
  {
    EscapeJsonIsPerChar(s);
    PlainEscapeEach(s);
  }

  lemma {:induction false} PlainEscapeEach(s: string)
    requires forall i :: 0 <= i < |s| ==> s[i] !in "\\\"\n\r\t"
    ensures EscapeEach(s) == s
  {
    if s != [] {
      PlainEscapeEach(s[1..]);
      assert [s[0]] + s[1..] == s;
    }
  }
}

=== FILE: jwt_filter.dfy ===
/**
 * `JwtAuthenticationFilter`: decides, for each request, which user
 * attributes (if any) are set before the chain continues. The chain always
 * continues, so the filter's whole effect is the `Attributes` it sets.
 */
module JwtFilter {
  import opened Wrappers
  import opened Text

  const LongMin := -0x8000_0000_0000_0000
  const LongMax := 0x7FFF_FFFF_FFFF_FFFF

  /** The parts of a request the filter reads. The method and URI are never null. */
  datatype Request = Request(
    httpMethod: string,
    uri: string,
    xUserId: Option<string>,
    authorization: Option<string>)

  /** The request attributes `userId`, `userRole` and `authenticated = true`. */
  datatype Attributes = Attributes(userId: int, userRole: string)

  const DevPrefix := "/api/dev/"
  const KakaoTestPrefix := "/api/kakao/test/"
  const NotificationsPrefix := "/api/notifications/"
  const BearerPrefix := "Bearer "

  // Long.parseLong

  predicate IsSign(c: char)
  {
    c == '-' || c == '+'
  }

  /**
   * `Long.valueOf` on decimal text: an optional sign, then at least one
   * digit, with the value inside the range of a `long`; anything else is a
   * `NumberFormatException`, modelled as `None`.
   */
  function ParseLong(s: string): (r: Option<int>)
    ensures r.Some? ==> LongMin <= r.value <= LongMax
    ensures r.Some? ==> |s| > 0 && (IsDigit(s[0]) || IsSign(s[0]))
    ensures r.Some? ==> forall i :: 0 < i < |s| ==> IsDigit(s[i])
  {
    if s == [] then None
    else
      var negative := s[0] == '-';
      var digits := if IsSign(s[0]) then s[1..] else s;
      if digits == [] || !AllDigits(digits) then None
      else
        var magnitude: int := DigitsValue(digits);
        var v := if negative then -magnitude else magnitude;
        if LongMin <= v <= LongMax then Some(v) else None
  }

  /** Parsing the decimal form of any `long` gives it back. */
  lemma ParseLongOfIntToString(n: int)
    requires LongMin <= n <= LongMax
    ensures ParseLong(IntToString(n)) == Some(n)
  {
    if n >= 0 {
      DigitsValueOfNatToString(n);
    } else {
      var s := IntToString(n);
      assert s[1..] == NatToString(-n);
      DigitsValueOfNatToString(-n);
    }
  }

  /** A string that starts and ends with a visible character is its own trim. */
  lemma TrimOfUntrimmed(s: string)
    requires s != [] && !IsTrimmable(s[0]) && !IsTrimmable(s[|s| - 1])
    ensures Trim(s) == s
  {
    TrimStartOfUntrimmed(s);
  }

  /**
   * The dev-mode `X-User-Id` header: present and non-blank, and its trimmed
   * text a `long`.
   */
  function ForcedUserId(header: Option<string>): (r: Option<int>)
    ensures r.Some? ==> HasText(header) && ParseLong(Trim(header.value)) == r
    ensures HasText(header) ==> r == ParseLong(Trim(header.value))
  {
    if HasText(header) then ParseLong(Trim(header.value)) else None
  }

  /** The header carrying the decimal form of any `long` forces that user id. */
  lemma ForcedUserIdOfNumber(n: int)
    requires LongMin <= n <= LongMax
    ensures ForcedUserId(Some(IntToString(n))) == Some(n)
  {
    var s := IntToString(n);
    IntToStringChars(n);
    TrimOfUntrimmed(s);
    ParseLongOfIntToString(n);
  }

  // String.split("\\.")

  /** Every piece between dots, empty pieces included: one more than the number of dots. */
  function Pieces(s: string): (ps: seq<string>)
    ensures |ps| >= 1
  {
    if s == [] then [""]
    else if s[0] == '.' then [""] + Pieces(s[1..])
    else
      var rest := Pieces(s[1..]);
      [[s[0]] + rest[0]] + rest[1..]
  }

  /** The list without its trailing empty strings. */
  function DropTrailingEmpty(ps: seq<string>): (r: seq<string>)
    ensures |r| <= |ps| && r == ps[..|r|]
    ensures r == [] || r[|r| - 1] != ""
    ensures forall i :: |r| <= i < |ps| ==> ps[i] == ""
  {
    if ps == [] then []
    else if ps[|ps| - 1] == "" then DropTrailingEmpty(ps[..|ps| - 1])
    else ps
  }

  /**
   * `String.split("\\.")`: the whole input when it has no dot, otherwise the
   * pieces without the trailing empty ones (a leading empty piece stays).
   */
  function JavaSplit(s: string): seq<string>
  {
    if '.' !in s then [s] else DropTrailingEmpty(Pieces(s))
  }

  /** `isValidToken`: not blank, and three parts after splitting on dots. */
  predicate IsValidToken(token: string)
  {
    !IsBlank(token) && |JavaSplit(token)| == 3
  }

  /** A dot-free string is a single piece. */
  lemma {:induction false} PiecesOfDotFree(s: string)
    requires '.' !in s
    ensures Pieces(s) == [s]
  {
    if s != [] {
      assert '.' !in s[1..];
      PiecesOfDotFree(s[1..]);
      assert [s[0]] + s[1..] == s;
    }
  }

  /** A dot separates the pieces of the text before it from those after it. */
  lemma {:induction false} PiecesAroundDot(a: string, b: string)
    requires '.' !in a
    ensures Pieces(a + "." + b) == [a] + Pieces(b)
  {
    if a == [] {
      assert a + "." + b == ['.'] + b;
      assert (['.'] + b)[1..] == b;
    } else {
      assert (a + "." + b)[1..] == a[1..] + "." + b;
      assert '.' !in a[1..];
      PiecesAroundDot(a[1..], b);
      assert [a[0]] + a[1..] == a;
    }
  }

  /** `n` dots. */
  function Dots(n: nat): (s: string)
    ensures |s| == n && forall i :: 0 <= i < n ==> s[i] == '.'
  {
    if n == 0 then "" else "." + Dots(n - 1)
  }

  /** A dot-free part followed by n dots splits into that part and n empty pieces. */
  lemma {:induction false} PiecesOfTrailingDots(c: string, n: nat)
    requires '.' !in c
    ensures |Pieces(c + Dots(n))| == n + 1
    ensures Pieces(c + Dots(n))[0] == c
    ensures forall i :: 1 <= i <= n ==> Pieces(c + Dots(n))[i] == ""
    decreases n
  {
    if n == 0 {
      assert c + Dots(0) == c;
      PiecesOfDotFree(c);
    } else {
      assert c + Dots(n) == c + "." + ("" + Dots(n - 1));
      PiecesAroundDot(c, "" + Dots(n - 1));
      PiecesOfTrailingDots("", n - 1);
    }
  }

  /**
   * Three dot-free segments, the last non-empty, separated by two dots and
   * followed by any number of dots, make a valid token: empty first or
   * middle segments and trailing dots pass.
   */
  lemma ThreeSegmentsValid(a: string, b: string, c: string, n: nat)
    requires '.' !in a && '.' !in b && '.' !in c && c != ""
    ensures IsValidToken(a + "." + b + "." + c + Dots(n))
  {
    var t := a + "." + b + "." + c + Dots(n);
    ThreePieces(a, b, c, n);
    DropTrailingLength(Pieces(t), 2);
    assert t[|a|] == '.';
    DotIsNotBlank(t, |a|);
  }

  /** The pieces of two dot-joined segments and a last one with trailing dots. */
  lemma ThreePieces(a: string, b: string, c: string, n: nat)
    requires '.' !in a && '.' !in b && '.' !in c
    ensures var ps := Pieces(a + "." + b + "." + c + Dots(n));
            |ps| == n + 3 && ps[2] == c && forall i :: 2 < i < |ps| ==> ps[i] == ""
  {
    var t := a + "." + b + "." + c + Dots(n);
    var tail := c + Dots(n);
    assert t == a + "." + (b + "." + tail);
    PiecesAroundDot(a, b + "." + tail);
    PiecesAroundDot(b, tail);
    PiecesOfTrailingDots(c, n);
    var ps := Pieces(t);
    assert ps == [a] + ([b] + Pieces(tail));
    assert forall i :: 2 <= i < |ps| ==> ps[i] == Pieces(tail)[i - 2];
  }

  /** Dropping trailing empties keeps everything up to the last non-empty piece. */
  lemma DropTrailingLength(ps: seq<string>, k: nat)
    requires k < |ps| && ps[k] != ""
    requires forall i :: k < i < |ps| ==> ps[i] == ""
    ensures |DropTrailingEmpty(ps)| == k + 1
  {
  }

  /** A string with a dot is not blank. */
  lemma DotIsNotBlank(t: string, k: nat)
    requires k < |t| && t[k] == '.'
    ensures !IsBlank(t)
  {
    BlankIffAllTrimmable(t);
  }

  /** Two dot-free segments followed by a dot are not a valid token: the trailing empty part is dropped. */
  lemma TrailingDotAfterTwoSegmentsInvalid(a: string, b: string)
    requires '.' !in a && '.' !in b
    ensures !IsValidToken(a + "." + b + ".")
  {
    var t := a + "." + b + ".";
    assert t == a + "." + (b + "." + "");
    PiecesAroundDot(a, b + "." + "");
    PiecesAroundDot(b, "");
    assert t[|a|] == '.';
    assert |Pieces(t)| == 3 && Pieces(t)[2] == "";
  }

  /** A token with at most one dot is never valid. */
  lemma FewerThanTwoDotsInvalid(a: string, b: string)
    requires '.' !in a && '.' !in b
    ensures !IsValidToken(a)
    ensures !IsValidToken(a + "." + b)
  {
    PiecesAroundDot(a, b);
    PiecesOfDotFree(b);
    assert (a + "." + b)[|a|] == '.';
  }

  // Java String.hashCode

  const TwoTo32 := 0x1_0000_0000
  const TwoTo31 := 0x8000_0000

  /** `String.hashCode` as an unsigned 32-bit residue: h = 31 * h + c, wrapping. */
  function HashResidue(s: string): (h: nat)
    ensures h < TwoTo32
  {
    if s == [] then 0
    else (31 * HashResidue(s[..|s| - 1]) + s[|s| - 1] as int) % TwoTo32
  }

  /** `String.hashCode`: the residue read as a signed 32-bit `int`. */
  function HashCode(s: string): (h: int)
    ensures -TwoTo31 <= h < TwoTo31
    ensures h % TwoTo32 == HashResidue(s)
  {
    var u := HashResidue(s);
    if u >= TwoTo31 then u - TwoTo32 else u
  }

  function Abs(x: int): nat
  {
    if x < 0 then -x else x
  }

  /** `extractUserIdFromToken`: |hashCode| mod 1000, plus one. */
  function ExtractUserId(token: string): (id: int)
    ensures 1 <= id <= 1000
    ensures (id - 1) % 1000 == Abs(HashCode(token)) % 1000
  {
    Abs(HashCode(token)) % 1000 + 1
  }

  /** `extractUserRoleFromToken`: ADMIN for tokens longer than 200 characters. */
  function ExtractUserRole(token: string): (role: string)
    ensures role == "ADMIN" <==> |token| > 200
    ensures role == "ADMIN" || role == "USER"
  {
    if |token| > 200 then "ADMIN" else "USER"
  }

  // doFilter

  /** One of the paths the filter lets through without looking at the token. */
  predicate IsBypassed(uri: string)
  {
    StartsWith(uri, DevPrefix) || StartsWith(uri, KakaoTestPrefix) || StartsWith(uri, NotificationsPrefix)
  }

  /**
   * `doFilter`: the attributes set on the request. OPTIONS requests and the
   * bypassed paths set nothing, except that in dev mode a `/api/dev/`
   * request with a numeric `X-User-Id` header is authenticated as that
   * user; other requests are authenticated from a valid bearer token.
   */
  function DoFilter(req: Request, devMode: bool): (attrs: Option<Attributes>)
    ensures EqualsIgnoreCase("OPTIONS", req.httpMethod) ==> attrs.None?
    ensures attrs.Some? && StartsWith(req.uri, DevPrefix) ==>
              devMode && ForcedUserId(req.xUserId) == Some(attrs.value.userId) && attrs.value.userRole == "USER"
    ensures attrs.Some? && !StartsWith(req.uri, DevPrefix) ==>
              !IsBypassed(req.uri)
              && req.authorization.Some? && StartsWith(req.authorization.value, BearerPrefix)
              && IsValidToken(req.authorization.value[7..])
              && 1 <= attrs.value.userId <= 1000
              && (attrs.value.userRole == "ADMIN" <==> |req.authorization.value| > 207)
  {
    if EqualsIgnoreCase("OPTIONS", req.httpMethod) then None
    else if StartsWith(req.uri, DevPrefix) then
      if !devMode then None
      else
        var forced := ForcedUserId(req.xUserId);
        if forced.Some? then Some(Attributes(forced.value, "USER")) else None
    else if StartsWith(req.uri, KakaoTestPrefix) || StartsWith(req.uri, NotificationsPrefix) then None
    else if req.authorization.None? || !StartsWith(req.authorization.value, BearerPrefix) then None
    else
      var token := req.authorization.value[7..];
      if IsValidToken(token) then Some(Attributes(ExtractUserId(token), ExtractUserRole(token)))
      else None
  }

  /** Outside dev mode, a request is authenticated exactly when it carries a valid bearer token on a checked path. */
  lemma AuthenticatedIffValidBearer(req: Request)
    requires !EqualsIgnoreCase("OPTIONS", req.httpMethod)
    ensures DoFilter(req, false).Some? <==>
              !IsBypassed(req.uri)
              && req.authorization.Some? && StartsWith(req.authorization.value, BearerPrefix)
              && IsValidToken(req.authorization.value[7..])
  {
  }

  /** Dev mode changes nothing outside `/api/dev/`. */
  lemma DevModeOnlyAffectsDevPaths(req: Request)
    requires !StartsWith(req.uri, DevPrefix)
    ensures DoFilter(req, true) == DoFilter(req, false)
  {
  }

  /** In dev mode, a `/api/dev/` request whose header is a `long` is authenticated as that user. */
  lemma DevHeaderForcesUser(verb: string, uri: string, n: int, authorization: Option<string>)
    requires !EqualsIgnoreCase("OPTIONS", verb) && StartsWith(uri, DevPrefix)
    requires LongMin <= n <= LongMax
    ensures DoFilter(Request(verb, uri, Some(IntToString(n)), authorization), true)
            == Some(Attributes(n, "USER"))
  {
    ForcedUserIdOfNumber(n);
  }
}

=== FILE: kakao_client.dfy ===
/**
 * `KakaoClient`: builds the "text" message template of an invitation,
 * renders it with a hand-written JSON writer, and sends it to every
 * participant's own chat, counting the successes. The HTTP call of each
 * send is an oracle `delivered(userId, token)`; `sendToMemo` already turns
 * every failure of that call (a non-2xx status or any exception) into
 * `false`.
 */
module KakaoClient {
  import opened Wrappers
  import opened Text
  import opened JsonText
  import opened TemplatePayloads

  /**
   * A value of `KakaoClient`'s `Map<String, Object>` tree: a string, a nested
   * map, any other object (written through its `toString`), or null.
   */
  datatype Json =
    | JString(s: string)
    | JObject(members: Members)
    | JOther(text: string)
    | JNull

  /** The map's entries in its iteration order (a `HashMap`'s order is not specified). */
  datatype Members = Nil | Cons(key: string, value: Json, rest: Members)

  /**
   * `convertToJson`: "{", the comma-separated `"key":value` pairs, "}". A
   * null value makes `toString` throw, and the catch makes the whole map
   * "{}"; a nested map is written by its own call, with its own catch.
   */
  function ObjectJson(ms: Members): (r: string)
    ensures |r| >= 2 && r[0] == '{' && r[|r| - 1] == '}'
  {
    var body := MembersJson(ms, true);
    if body.None? then "{}" else "{" + body.value + "}"
  }

  /** The pairs of `ms`, each preceded by a comma unless it is the first; None when a value is null. */
  function MembersJson(ms: Members, first: bool): Option<string>
  {
    match ms
    case Nil => Some("")
    case Cons(k, v, rest) =>
      var value := ValueJson(v);
      var tail := MembersJson(rest, false);
      if value.None? || tail.None? then None
      else Some((if first then "" else ",") + PairText(k, value.value) + tail.value)
  }

  /** A string is quoted and escaped, a map recurses, anything else is its quoted `toString`. */
  function ValueJson(v: Json): (r: Option<string>)
    ensures r.Some? <==> !v.JNull?
  {
    match v
    case JString(s) => Some("\"" + EscapeJson(s) + "\"")
    case JObject(ms) => Some(ObjectJson(ms))
    case JOther(t) => Some("\"" + t + "\"")
    case JNull => None
  }

  function PairText(key: string, valueText: string): string
  {
    "\"" + key + "\":" + valueText
  }

  // An independent reading of the writer: the list of pairs, joined by commas.

  function Size(ms: Members): nat
  {
    if ms.Nil? then 0 else 1 + Size(ms.rest)
  }

  predicate NoNullValue(ms: Members)
  {
    ms.Cons? ==> !ms.value.JNull? && NoNullValue(ms.rest)
  }

  /** The pairs of a null-free map, each written as `"key":value`, one per entry. */
  function Pairs(ms: Members): (r: seq<string>)
    requires NoNullValue(ms)
    ensures |r| == Size(ms)
  {
    match ms
    case Nil => []
    case Cons(k, v, rest) => [PairText(k, ValueJson(v).value)] + Pairs(rest)
  }

  /** `String.join(",", parts)`. */
  function JoinCommas(parts: seq<string>): string
  {
    if parts == [] then ""
    else if |parts| == 1 then parts[0]
    else parts[0] + "," + JoinCommas(parts[1..])
  }

  lemma {:induction false} MembersJsonJoins(ms: Members, first: bool)
    requires NoNullValue(ms)
    ensures MembersJson(ms, first).Some?
    ensures MembersJson(ms, first).value
            == (if first || ms.Nil? then "" else ",") + JoinCommas(Pairs(ms))
  {
    match ms
    case Nil =>
    case Cons(k, v, rest) =>
      MembersJsonJoins(rest, false);
      var pair := PairText(k, ValueJson(v).value);
      var lead: string := if first then "" else ",";
      var tail := (if rest.Nil? then "" else ",") + JoinCommas(Pairs(rest));
      assert MembersJson(ms, first) == Some(lead + pair + MembersJson(rest, false).value);
      assert Pairs(ms) == [pair] + Pairs(rest);
      assert Pairs(rest) == [] <==> rest.Nil?;
      JoinCommasCons(pair, Pairs(rest));
      assert JoinCommas(Pairs(ms)) == pair + tail;
      Regroup(lead, pair, tail);
      assert MembersJson(ms, first).value == lead + JoinCommas(Pairs(ms));
  }

  /** String concatenation regrouped to the right. */
  lemma Regroup(a: string, b: string, c: string)
    ensures a + b + c == a + (b + c)
  {
  }

  /** Joining one more part in front adds it and, unless it is alone, a comma. */
  lemma JoinCommasCons(part: string, parts: seq<string>)
    ensures JoinCommas([part] + parts) == part + (if parts == [] then "" else ",") + JoinCommas(parts)
  {
    assert ([part] + parts)[1..] == parts;
  }

  /** A map without null values is written as its pairs, one per entry, joined by commas. */
  lemma ObjectJsonIsJoinedPairs(ms: Members)
    requires NoNullValue(ms)
    ensures ObjectJson(ms) == "{" + JoinCommas(Pairs(ms)) + "}"
  {
    MembersJsonJoins(ms, true);
  }

  /** A null value among the entries makes the writer fall back to "{}". */
  lemma {:induction false} NullValueGivesEmptyObject(ms: Members)
    requires !NoNullValue(ms)
    ensures MembersJson(ms, true).None? && MembersJson(ms, false).None?
    ensures ObjectJson(ms) == "{}"
  {
    match ms
    case Cons(k, v, rest) =>
      if !v.JNull? {
        NullValueGivesEmptyObject(rest);
      }
  }

  // The invitation template.

  const Party := "🎉 "
  const InvitationLine := "님의 약속 초대\n\n"
  const TitleMark := '📋'
  const TimeMark := '🕒'
  const PlaceMark := '📍'
  const ClosingLine := "약속 준비 완료! 😊"

  /** The header line, a title line iff the title has text, the date and place lines and the closing line. */
  function TemplateText(p: TemplatePayload): (r: string)
    ensures StartsWith(r, Party + Appended(p.inviter) + InvitationLine)
    ensures EndsWith(r, ClosingLine)
  {
    var head := Party + Appended(p.inviter) + InvitationLine;
    var title := if HasText(p.title) then [TitleMark, ' '] + p.title.value + "\n" else "";
    var lines := [TimeMark, ' '] + Appended(p.date) + "\n" + [PlaceMark, ' '] + Appended(p.place) + "\n\n";
    PiecesFacts(head, title, lines, [], ClosingLine);
    head + title + (lines + []) + ClosingLine
  }

  /**
   * The title mark appears in the text iff the title has text, provided
   * none of the payload's strings carries that mark itself.
   */
  lemma TitleMarkIffTitle(p: TemplatePayload)
    requires TitleMark !in Appended(p.inviter) && TitleMark !in Appended(p.date) && TitleMark !in Appended(p.place)
    requires p.title.Some? ==> TitleMark !in p.title.value
    ensures TitleMark in TemplateText(p) <==> HasText(p.title)
  {
    var head := Party + Appended(p.inviter) + InvitationLine;
    var title := if HasText(p.title) then [TitleMark, ' '] + p.title.value + "\n" else "";
    var lines := [TimeMark, ' '] + Appended(p.date) + "\n" + [PlaceMark, ' '] + Appended(p.place) + "\n\n";
    assert TemplateText(p) == head + title + (lines + []) + ClosingLine;
    assert TitleMark !in head && TitleMark !in lines && TitleMark !in ClosingLine;
    assert HasText(p.title) ==> title[0] == TitleMark;
  }

  /** The link of the template: both URLs are the meeting URL. */
  function LinkObject(url: string): (ms: Members)
    ensures ms.Cons? && ms.rest.Cons? && ms.rest.rest.Nil?
    ensures ms.value == ms.rest.value == JString(url)
  {
    Cons("web_url", JString(url), Cons("mobile_web_url", JString(url), Nil))
  }

  /**
   * `createTemplateObject`: `object_type` "text", the text, and a link
   * entry iff the meeting URL has text (put in this order; a `HashMap` may
   * iterate them in another).
   */
  function TemplateObject(p: TemplatePayload): (ms: Members)
    ensures ms.Cons? && ms.key == "object_type" && ms.value == JString("text")
    ensures ms.rest.Cons? && ms.rest.key == "text" && ms.rest.value == JString(TemplateText(p))
    ensures ms.rest.rest.Cons? <==> HasText(p.meetingUrl)
    ensures ms.rest.rest.Cons? ==>
              ms.rest.rest.key == "link" && ms.rest.rest.value == JObject(LinkObject(p.meetingUrl.value))
              && ms.rest.rest.rest.Nil?
    ensures NoNullValue(ms)
  {
    var link := if HasText(p.meetingUrl) then Cons("link", JObject(LinkObject(p.meetingUrl.value)), Nil) else Nil;
    assert NoNullValue(link);
    Cons("object_type", JString("text"), Cons("text", JString(TemplateText(p)), link))
  }

  /** A map of a plain string and any string: their pairs, the first value as it is and the second escaped. */
  lemma PlainStringPair(k1: string, plain: string, k2: string, t: string)
    requires forall i :: 0 <= i < |plain| ==> plain[i] !in "\\\"\n\r\t"
    ensures ObjectJson(Cons(k1, JString(plain), Cons(k2, JString(t), Nil)))
            == "{" + PairText(k1, "\"" + plain + "\"") + "," + PairText(k2, "\"" + EscapeJson(t) + "\"") + "}"
  {
    PlainTextUnchanged(plain);
    TwoPairs(k1, JString(plain), k2, JString(t));
  }

  /** A two-entry map without nulls is its two pairs, joined by a comma. */
  lemma TwoPairs(k1: string, v1: Json, k2: string, v2: Json)
    requires !v1.JNull? && !v2.JNull?
    ensures ObjectJson(Cons(k1, v1, Cons(k2, v2, Nil)))
            == "{" + PairText(k1, ValueJson(v1).value) + "," + PairText(k2, ValueJson(v2).value) + "}"
  {
    var ms := Cons(k1, v1, Cons(k2, v2, Nil));
    ObjectJsonIsJoinedPairs(ms);
    var p1, p2 := PairText(k1, ValueJson(v1).value), PairText(k2, ValueJson(v2).value);
    assert Pairs(ms) == [p1] + [p2];
    JoinCommasCons(p1, [p2]);
  }

  // Sending to every participant's own chat.

  /** `KakaoClient.KakaoSendResult`. */
  datatype SendResult = SendResult(success: bool, sentCount: int, totalCount: int, message: string)

  predicate IsPartialSuccess(r: SendResult)
  {
    r.success && r.sentCount > 0 && r.sentCount < r.totalCount
  }

  predicate IsCompleteFailure(r: SendResult)
  {
    !r.success || r.sentCount == 0
  }

  /** No result is both a partial success and a complete failure. */
  lemma PartialExcludesCompleteFailure(r: SendResult)
    ensures !(IsPartialSuccess(r) && IsCompleteFailure(r))
  {
  }

  /** The number of entries the oracle delivers. */
  function Delivered(tokens: seq<(int, string)>, delivered: (int, string) -> bool): (n: nat)
    ensures n <= |tokens|
  {
    if tokens == [] then 0
    else Delivered(tokens[..|tokens| - 1], delivered)
         + (if delivered(tokens[|tokens| - 1].0, tokens[|tokens| - 1].1) then 1 else 0)
  }

  function SummaryMessage(successes: nat, failures: nat): string
  {
    "전송 완료 - 성공: " + NatToString(successes) + ", 실패: " + NatToString(failures)
  }

  /**
   * `sendToMemo`: one send per (userId, token) entry; each counts as a
   * success or as a failure. The result succeeds iff at least one send did,
   * and its total is the number of entries.
   */
  method SendToMemo(tokens: seq<(int, string)>, delivered: (int, string) -> bool) returns (r: SendResult)
    ensures r.sentCount == Delivered(tokens, delivered) && r.totalCount == |tokens|
    ensures r.success <==> r.sentCount > 0
    ensures r.message == SummaryMessage(r.sentCount, |tokens| - r.sentCount)
  {
    var successCount: nat := 0;
    var failureCount: nat := 0;
    var i := 0;
    while i < |tokens|
      invariant 0 <= i <= |tokens|
      invariant successCount == Delivered(tokens[..i], delivered)
      invariant successCount + failureCount == i
    {
      assert tokens[..i + 1][..i] == tokens[..i];
      if delivered(tokens[i].0, tokens[i].1) {
        successCount := successCount + 1;
      } else {
        failureCount := failureCount + 1;
      }
      i := i + 1;
    }
    assert tokens[..|tokens|] == tokens;
    r := SendResult(successCount > 0, successCount, |tokens|, SummaryMessage(successCount, failureCount));
  }

  /** Sending is a complete failure iff nothing was delivered, and a partial success iff some but not all was. */
  lemma SendOutcomeClassified(tokens: seq<(int, string)>, delivered: (int, string) -> bool, r: SendResult)
    requires r.sentCount == Delivered(tokens, delivered) && r.totalCount == |tokens|
    requires r.success <==> r.sentCount > 0
    ensures IsCompleteFailure(r) <==> Delivered(tokens, delivered) == 0
    ensures IsPartialSuccess(r) <==> 0 < Delivered(tokens, delivered) < |tokens|
  {
  }

  /** Every entry delivered: the send is neither partial nor a failure. */
  lemma {:induction false} AllDelivered(tokens: seq<(int, string)>, delivered: (int, string) -> bool)
    requires forall i :: 0 <= i < |tokens| ==> delivered(tokens[i].0, tokens[i].1)
    ensures Delivered(tokens, delivered) == |tokens|
  {
    if tokens != [] {
      AllDelivered(tokens[..|tokens| - 1], delivered);
    }
  }
}

=== FILE: kakao_dto.dfy ===
/**
 * `KakaoNotifyResponse`: the counters, failure list and message returned by
 * a Kakao notification request. The list and the message are nullable
 * (the no-argument constructor leaves both null).
 */
module KakaoNotifyResponses {
  import opened Wrappers
  import opened Text

  /** One failed delivery: the user (nullable) and the reason. */
  datatype Failure = Failure(userId: Option<int>, reason: Option<string>)

  datatype Response = Response(
    success: bool,
    sentCount: int,
    totalCount: int,
    failed: Option<seq<Failure>>,
    message: Option<string>)

  const AllSent := "모든 메시지가 성공적으로 전송되었습니다"
  const SomeSent := "일부 메시지가 전송되었습니다"
  const NoneSent := "메시지 전송에 실패했습니다"
  const FractionSuffix := " 메시지가 전송되었습니다"

  /** `String.format("%d/%d 메시지가 전송되었습니다", sent, total)`. */
  function Fraction(sent: int, total: int): string
  {
    IntToString(sent) + "/" + IntToString(total) + FractionSuffix
  }

  lemma SlashInFraction(sent: int, total: int)
    ensures '/' in Fraction(sent, total)
  {
    assert Fraction(sent, total)[|IntToString(sent)|] == '/';
  }

  lemma FixedMessagesHaveNoSlash()
    ensures '/' !in AllSent && '/' !in NoneSent && '/' !in SomeSent
  {
  }

  /**
   * `generateMessage`: the fraction form is chosen exactly when some but
   * not all messages were sent; equal counts (even 0 of 0) read as all sent.
   */
  function GenerateMessage(sent: int, total: int): (m: string)
    ensures '/' in m <==> 0 < sent && sent != total
    ensures m == AllSent <==> sent == total
    ensures m == NoneSent <==> sent != total && sent <= 0
    ensures 0 < sent && sent != total ==> m == Fraction(sent, total)
  {
    FixedMessagesHaveNoSlash();
    SlashInFraction(sent, total);
    if sent == total then AllSent
    else if sent > 0 then Fraction(sent, total)
    else NoneSent
  }

  /** The no-argument constructor: nothing set, both references null. */
  function Empty(): (r: Response)
    ensures GetFailedCount(r) == 0 && !r.success && r.message.None?
  {
    Response(false, 0, 0, None, None)
  }

  /**
   * The two-argument constructor: success iff something was sent, an empty
   * failure list, and the all-sent, some-sent or nothing-sent message.
   */
  function NewSummary(sent: int, total: int): (r: Response)
    ensures r.success <==> sent > 0
    ensures r.sentCount == sent && r.totalCount == total
    ensures r.failed == Some([]) && GetFailedCount(r) == 0
    ensures r.message.Some?
    ensures r.message.value == AllSent <==> sent == total
    ensures r.message.value == SomeSent <==> sent != total && sent > 0
    ensures r.message.value == NoneSent <==> sent != total && sent <= 0
  {
    var message := if sent == total then AllSent else if sent > 0 then SomeSent else NoneSent;
    Response(sent > 0, sent, total, Some([]), Some(message))
  }

  /**
   * The three-argument constructor: a null list becomes the empty list,
   * and the message is generated.
   */
  function NewWithFailures(sent: int, total: int, failed: Option<seq<Failure>>): (r: Response)
    ensures r.success <==> sent > 0
    ensures r.sentCount == sent && r.totalCount == total
    ensures r.failed == Some(failed.GetOr([]))
    ensures GetFailedCount(r) == if failed.Some? then |failed.value| else 0
    ensures r.message == Some(GenerateMessage(sent, total))
  {
    Response(sent > 0, sent, total, Some(failed.GetOr([])), Some(GenerateMessage(sent, total)))
  }

  /** The two constructors write the same message except when some but not all were sent. */
  lemma ConstructorsAgreeOnMessage(sent: int, total: int, failed: Option<seq<Failure>>)
    ensures NewSummary(sent, total).message == NewWithFailures(sent, total, failed).message
            <==> !(0 < sent && sent != total)
  {
    if 0 < sent && sent != total {
      assert '/' in GenerateMessage(sent, total);
      FixedMessagesHaveNoSlash();
    }
  }

  /** Nothing to send reads as "all sent", yet the response is not a success. */
  lemma NothingToSendReadsAllSent()
    ensures NewSummary(0, 0).message == Some(AllSent) && !NewSummary(0, 0).success
    ensures !IsCompleteFailure(NewSummary(0, 0))
  {
  }

  /** `getFailedCount`: the list's size, 0 for a null list. */
  function GetFailedCount(r: Response): nat
  {
    if r.failed.Some? then |r.failed.value| else 0
  }

  /** `addFailure`: a null list is first replaced by an empty one, then the failure is appended. */
  function AddFailure(r: Response, f: Failure): (r': Response)
    ensures GetFailedCount(r') == GetFailedCount(r) + 1
    ensures r'.failed.Some? && r'.failed.value == r.failed.GetOr([]) + [f]
    ensures r'.success == r.success && r'.sentCount == r.sentCount
    ensures r'.totalCount == r.totalCount && r'.message == r.message
  {
    r.(failed := Some(r.failed.GetOr([]) + [f]))
  }

  /** `isPartialSuccess`: something was sent and something is recorded as failed. */
  predicate IsPartialSuccess(r: Response)
  {
    r.sentCount > 0 && GetFailedCount(r) > 0
  }

  /** `isCompleteFailure`: nothing was sent to a non-empty audience. */
  predicate IsCompleteFailure(r: Response)
  {
    r.sentCount == 0 && r.totalCount > 0
  }

  /** A response is never both a partial success and a complete failure. */
  lemma PartialExcludesComplete(r: Response)
    ensures !(IsPartialSuccess(r) && IsCompleteFailure(r))
  {
  }

  /**
   * A summary with sent > 0 becomes a partial success exactly once a
   * failure is added, and stays one after every further failure.
   */
  lemma {:induction false} FailuresMakePartial(sent: int, total: int, fs: seq<Failure>)
    ensures IsPartialSuccess(AddAll(NewSummary(sent, total), fs)) <==> sent > 0 && |fs| > 0
  {
    FailedCountAfterAddAll(NewSummary(sent, total), fs);
  }

  /** Applies `addFailure` for each failure in order. */
  function AddAll(r: Response, fs: seq<Failure>): Response
    decreases |fs|
  {
    if fs == [] then r else AddAll(AddFailure(r, fs[0]), fs[1..])
  }

  lemma {:induction false} FailedCountAfterAddAll(r: Response, fs: seq<Failure>)
    ensures GetFailedCount(AddAll(r, fs)) == GetFailedCount(r) + |fs|
    ensures AddAll(r, fs).sentCount == r.sentCount && AddAll(r, fs).totalCount == r.totalCount
    decreases |fs|
  {
    if fs != [] {
      FailedCountAfterAddAll(AddFailure(r, fs[0]), fs[1..]);
    }
  }
}

/**
 * `KakaoSendResult`: the outcome of one Kakao API call. The status is a
 * primitive int; the result code, raw response and error message may be null.
 */
module KakaoSendResults {
  import opened Wrappers
  import opened Text

  datatype SendRecord = SendRecord(
    httpStatus: int,
    resultCode: Option<int>,
    rawResponse: Option<string>,
    errorMessage: Option<string>)

  /** `isSuccess`: a 2xx status and a null or zero result code. */
  predicate IsSuccess(r: SendRecord)
  {
    200 <= r.httpStatus < 300 && (r.resultCode.None? || r.resultCode.value == 0)
  }

  /** `isTokenError`: 401, or an error message mentioning "token". */
  predicate IsTokenError(r: SendRecord)
  {
    r.httpStatus == 401 || (r.errorMessage.Some? && Contains(r.errorMessage.value, "token"))
  }

  /** `isPermissionError`: 403, or an error message mentioning "scope" or "permission". */
  predicate IsPermissionError(r: SendRecord)
  {
    r.httpStatus == 403
    || (r.errorMessage.Some? && (Contains(r.errorMessage.value, "scope") || Contains(r.errorMessage.value, "permission")))
  }

  /** `success(raw)`: status 200 and result code 0, so a success and neither kind of error. */
  function Success(raw: Option<string>): (r: SendRecord)
    ensures IsSuccess(r) && !IsTokenError(r) && !IsPermissionError(r)
    ensures r.httpStatus == 200 && r.resultCode == Some(0)
    ensures r.rawResponse == raw && r.errorMessage.None?
  {
    SendRecord(200, Some(0), raw, None)
  }

  /** `failure(status, raw, error)`: no result code, so it is a success iff its status is 2xx. */
  function Failure(status: int, raw: Option<string>, error: Option<string>): (r: SendRecord)
    ensures r.resultCode.None?
    ensures IsSuccess(r) <==> 200 <= status < 300
    ensures status == 401 ==> IsTokenError(r)
    ensures status == 403 ==> IsPermissionError(r)
    ensures r.httpStatus == status && r.rawResponse == raw && r.errorMessage == error
  {
    SendRecord(status, None, raw, error)
  }

  /** Without an error message, the error kinds are read off the status alone. */
  lemma ErrorKindsWithoutMessage(r: SendRecord)
    requires r.errorMessage.None?
    ensures IsTokenError(r) <==> r.httpStatus == 401
    ensures IsPermissionError(r) <==> r.httpStatus == 403
    ensures !(IsTokenError(r) && IsPermissionError(r))
  {
  }

  /** A 2xx status with a non-zero result code is not a success. */
  lemma NonZeroCodeFails(r: SendRecord)
    requires r.resultCode.Some? && r.resultCode.value != 0
    ensures !IsSuccess(r)
  {
  }
}

=== FILE: kakao_memo_sender.dfy ===
/**
 * `KakaoMemoSender`: sends a plain text memo to the caller's own chat.
 * The template is a JSON text block whose three values are written by
 * `jsonEscape`; the HTTP call is the oracle reply `PostReply`.
 */
module KakaoMemoSender {
  import opened Wrappers
  import opened Text
  import opened JsonText

  const DefaultText := "메시지"
  const DefaultUrl := "https://example.com"

  /** `jsonEscape`: a quoted, escaped string; null becomes the empty string literal. */
  function QuotedJson(input: Option<string>): (r: string)
    ensures |r| >= 2 && r[0] == '"' && r[|r| - 1] == '"'
    ensures input.None? ==> r == "\"\""
    ensures input.Some? ==> Unescape(r[1..|r| - 1]) == input.value && WellEscaped(r[1..|r| - 1])
  {
    if input.None? then "\"\""
    else
      var escaped := EscapeJson(input.value);
      var r := "\"" + escaped + "\"";
      assert r[1..|r| - 1] == escaped;
      UnescapeEscapeJson(input.value);
      EscapeJsonWellEscaped(input.value);
      r
  }

  /** Null and the empty string are written alike. */
  lemma NullQuotesAsEmpty()
    ensures QuotedJson(None) == QuotedJson(Some(""))
  {
  }

  /** The text block of `createTextTemplate`, with its three `%s` slots filled. */
  function TextBlock(text: string, webUrl: string, mobileUrl: string): string
  {
    TemplateHead + text + WebUrlKey + webUrl + MobileUrlKey + mobileUrl + TemplateTail
  }

  const TemplateHead := "{\n  \"object_type\": \"text\",\n  \"text\": "
  const WebUrlKey := ",\n  \"link\": {\n    \"web_url\": "
  const MobileUrlKey := ",\n    \"mobile_web_url\": "
  const TemplateTail := "\n  }\n}\n"

  /**
   * The block is pinned down by its two ends: the text and web URL slots
   * follow the fixed head, the mobile URL slot precedes the fixed tail, and
   * nothing else lies between them.
   */
  lemma TextBlockEnds(text: string, webUrl: string, mobileUrl: string)
    ensures StartsWith(TextBlock(text, webUrl, mobileUrl), TemplateHead + text + WebUrlKey + webUrl)
    ensures EndsWith(TextBlock(text, webUrl, mobileUrl), MobileUrlKey + mobileUrl + TemplateTail)
    ensures |TextBlock(text, webUrl, mobileUrl)|
            == |TemplateHead + text + WebUrlKey + webUrl| + |MobileUrlKey + mobileUrl + TemplateTail|
  {
    var front := TemplateHead + text + WebUrlKey + webUrl;
    var back := MobileUrlKey + mobileUrl + TemplateTail;
    assert TextBlock(text, webUrl, mobileUrl) == front + back;
    StartsWithConcat(front, back);
    EndsWithConcat(front, back);
  }

  /**
   * `createTextTemplate`: the text (or "메시지") and the URL (or the
   * example address), each written by `jsonEscape`; the one quoted URL
   * fills both the web and the mobile link slot.
   */
  function CreateTextTemplate(text: Option<string>, url: Option<string>): (t: string)
    ensures var safeUrl := QuotedJson(Some(url.GetOr(DefaultUrl)));
            StartsWith(t, TemplateHead + QuotedJson(Some(text.GetOr(DefaultText))) + WebUrlKey + safeUrl)
            && EndsWith(t, MobileUrlKey + safeUrl + TemplateTail)
            && |t| == |TemplateHead + QuotedJson(Some(text.GetOr(DefaultText))) + WebUrlKey + safeUrl|
                      + |MobileUrlKey + safeUrl + TemplateTail|
  {
    var safeText := QuotedJson(Some(if text.Some? then text.value else DefaultText));
    var safeUrl := QuotedJson(Some(if url.Some? then url.value else DefaultUrl));
    TextBlockEnds(safeText, safeUrl, safeUrl);
    TextBlock(safeText, safeUrl, safeUrl)
  }

  /** A null text or URL is the same as passing its default. */
  lemma TemplateDefaults(text: Option<string>, url: Option<string>)
    ensures CreateTextTemplate(None, url) == CreateTextTemplate(Some(DefaultText), url)
    ensures CreateTextTemplate(text, None) == CreateTextTemplate(text, Some(DefaultUrl))
  {
  }

  /** The reply of the memo endpoint: an HTTP status, or an exception. */
  datatype PostReply = Posted(status: int) | PostThrew

  /** `sendText`: true iff the post answered 2xx; every exception is caught and gives false. */
  function SendText(reply: PostReply): (sent: bool)
    ensures sent <==> reply.Posted? && 200 <= reply.status < 300
  {
    match reply
    case Posted(status) => 200 <= status < 300
    case PostThrew => false
  }

  const ConfirmedHeader := "🎉 약속이 확정되었습니다!\n\n"
  const ConfirmedClosing := "\n약속 준비 완료! 😊"
  const TitleMark := '📋'
  const TimeMark := '🕒'
  const PlaceMark := '📍'

  /** One optional line: the mark, the value and a line feed, iff the value has text. */
  function MarkedLine(mark: char, value: Option<string>): string
  {
    if HasText(value) then [mark, ' '] + value.value + "\n" else ""
  }

  /**
   * The message of `sendAppointmentConfirmed`: the header, the title,
   * time and place lines for the fields with text, and the closing line.
   */
  function ConfirmedMessage(title: Option<string>, startAt: Option<string>, place: Option<string>): string
  {
    ConfirmedHeader + MarkedLine(TitleMark, title) + MarkedLine(TimeMark, startAt)
    + MarkedLine(PlaceMark, place) + ConfirmedClosing
  }

  /** A mark appears in its line iff the value has text, when the value does not carry the mark itself. */
  lemma MarkIffText(mark: char, value: Option<string>)
    requires value.Some? ==> mark !in value.value
    ensures mark in MarkedLine(mark, value) <==> HasText(value)
  {
  }

  /** A field that carries none of the three marks. */
  predicate Unmarked(v: Option<string>)
  {
    v.Some? ==> TitleMark !in v.value && TimeMark !in v.value && PlaceMark !in v.value
  }

  lemma MarkInParts(m: char, h: string, a: string, b: string, c: string, z: string)
    requires m !in h && m !in z
    ensures m in h + a + b + c + z <==> m in a || m in b || m in c
  {
  }

  lemma MarksOutsideFields()
    ensures TitleMark !in ConfirmedHeader && TimeMark !in ConfirmedHeader && PlaceMark !in ConfirmedHeader
    ensures TitleMark !in ConfirmedClosing && TimeMark !in ConfirmedClosing && PlaceMark !in ConfirmedClosing
  {
  }

  /**
   * Each of the three marks appears in the message iff its field has text,
   * provided no field carries a mark.
   */
  lemma ConfirmedLinesIffText(title: Option<string>, startAt: Option<string>, place: Option<string>)
    requires Unmarked(title) && Unmarked(startAt) && Unmarked(place)
    ensures TitleMark in ConfirmedMessage(title, startAt, place) <==> HasText(title)
    ensures TimeMark in ConfirmedMessage(title, startAt, place) <==> HasText(startAt)
    ensures PlaceMark in ConfirmedMessage(title, startAt, place) <==> HasText(place)
  {
    var a, b, c := MarkedLine(TitleMark, title), MarkedLine(TimeMark, startAt), MarkedLine(PlaceMark, place);
    MarksOutsideFields();
    MarkIffText(TitleMark, title);
    MarkIffText(TimeMark, startAt);
    MarkIffText(PlaceMark, place);
    assert TitleMark !in b && TitleMark !in c;
    assert TimeMark !in a && TimeMark !in c;
    assert PlaceMark !in a && PlaceMark !in b;
    MarkInParts(TitleMark, ConfirmedHeader, a, b, c, ConfirmedClosing);
    MarkInParts(TimeMark, ConfirmedHeader, a, b, c, ConfirmedClosing);
    MarkInParts(PlaceMark, ConfirmedHeader, a, b, c, ConfirmedClosing);
  }

  /** The link of `sendAppointmentConfirmed`: the detail URL if it has text, the example address otherwise. */
  function ConfirmedUrl(detailUrl: Option<string>): (url: string)
    ensures HasText(detailUrl) ==> url == detailUrl.value
    ensures !HasText(detailUrl) ==> url == DefaultUrl
  {
    if HasText(detailUrl) then detailUrl.value else DefaultUrl
  }

  /** `sendAppointmentConfirmed`: the template it posts, and whether the post succeeded. */
  function SendAppointmentConfirmed(title: Option<string>, startAt: Option<string>, place: Option<string>,
                                    detailUrl: Option<string>, reply: PostReply): (r: (string, bool))
    ensures StartsWith(r.0, TemplateHead + QuotedJson(Some(ConfirmedMessage(title, startAt, place)))
                            + WebUrlKey + QuotedJson(Some(ConfirmedUrl(detailUrl))))
    ensures EndsWith(r.0, MobileUrlKey + QuotedJson(Some(ConfirmedUrl(detailUrl))) + TemplateTail)
    ensures r.1 <==> reply.Posted? && 200 <= reply.status < 300
  {
    (CreateTextTemplate(Some(ConfirmedMessage(title, startAt, place)), Some(ConfirmedUrl(detailUrl))), SendText(reply))
  }
}

=== FILE: kakao_notify_service.dfy ===
/**
 * `KakaoNotifyService`: validates the inviter, builds the invitation
 * payload, resolves the receivers and sends through `KakaoClient`, turning
 * every failure into a response instead of an exception. The meeting and
 * consent repositories are maps; the user lookup, the date formatter, the
 * environment token and each delivery are inputs.
 */
module KakaoNotifyService {
  import opened Wrappers
  import opened Text
  import opened Seqs
  import opened DomainMeeting
  import opened MeetingStatuses
  import opened TemplatePayloads
  import opened UserConsents
  import R = KakaoNotifyResponses
  import KakaoClient

  const InviterRequired := "발송자 ID는 필수입니다"
  const MeetingRequired := "약속 ID는 필수입니다"
  const NoConsent := "발송자가 카카오 기능 사용에 동의하지 않았습니다"
  const MeetingMissing := "존재하지 않는 약속입니다: "
  const TemplateFailed := "메시지 템플릿 생성에 실패했습니다"
  const Anonymous := "익명"
  const PlaceUndecided := "장소 미정"
  const MeetingsPath := "/meetings/"
  const SendError := "전송 중 오류 발생: "
  const NoAccessToken := "카카오 액세스 토큰이 없습니다. 카카오 로그인이 필요합니다."

  /** `checkUserConsent`: a stored consent that allows the Kakao features; no record means no. */
  predicate CheckUserConsent(consents: map<int, UserConsent>, userId: int)
  {
    userId in consents && CanUseKakaoFeatures(consents[userId])
  }

  /**
   * `validateBasicRequirements`: the inviter id, then the meeting id, must
   * be present, and the inviter must have consented.
   */
  function ValidateBasicRequirements(inviterId: Option<int>, meetingId: Option<int>,
                                     consents: map<int, UserConsent>): (r: Result<()>)
    ensures inviterId.None? ==> r == Fail(IllegalArgument, InviterRequired)
    ensures inviterId.Some? && meetingId.None? ==> r == Fail(IllegalArgument, MeetingRequired)
    ensures inviterId.Some? && meetingId.Some? ==>
              (r.Ok? <==> CheckUserConsent(consents, inviterId.value))
              && (r.Err? ==> r == Fail(IllegalState, NoConsent))
  {
    if inviterId.None? then Fail(IllegalArgument, InviterRequired)
    else if meetingId.None? then Fail(IllegalArgument, MeetingRequired)
    else if !CheckUserConsent(consents, inviterId.value) then Fail(IllegalState, NoConsent)
    else Ok(())
  }

  /** What the user service answers for the inviter: a user (whose name may be null), no user, or an exception. */
  datatype UserLookup = UserFound(name: Option<string>) | NoUser | LookupThrew

  /**
   * `buildTemplatePayload`: the inviter's name ("익명" without a user), the
   * formatted date, the place ("장소 미정" when blank), the detail URL
   * base + "/meetings/" + id, the title and the description. A failing
   * lookup becomes the template-creation error.
   */
  function BuildTemplatePayload(meeting: Meeting, user: UserLookup, formattedDate: string,
                                appBaseUrl: string): (r: Result<TemplatePayload>)
    ensures user.LookupThrew? <==> r.Err?
    ensures r.Err? ==> r == Fail(Runtime, TemplateFailed)
    ensures r.Ok? ==> HasText(r.value.place)
    ensures r.Ok? && HasText(meeting.locationName) ==> r.value.place == meeting.locationName
    ensures r.Ok? && !HasText(meeting.locationName) ==> r.value.place == Some(PlaceUndecided)
    ensures r.Ok? ==> r.value.meetingUrl == Some(appBaseUrl + MeetingsPath + IntToString(meeting.id))
    ensures r.Ok? && user.NoUser? ==> r.value.inviter == Some(Anonymous)
    ensures r.Ok? && user.UserFound? ==> r.value.inviter == user.name
    ensures r.Ok? ==> r.value.date == Some(formattedDate) && r.value.title == Some(meeting.title)
                      && r.value.description == meeting.description
  {
    if user.LookupThrew? then Fail(Runtime, TemplateFailed)
    else
      var inviterName := if user.UserFound? then user.name else Some(Anonymous);
      assert !IsBlank(PlaceUndecided) by { assert PlaceUndecided[0] == '장'; }
      var place := if HasText(meeting.locationName) then meeting.locationName else Some(PlaceUndecided);
      var meetingUrl := appBaseUrl + MeetingsPath + IntToString(meeting.id);
      Ok(NewFullPayload(inviterName, Some(formattedDate), place, Some(meetingUrl),
                        Some(meeting.title), meeting.description))
  }

  /** With a named user and a non-blank date the payload is valid, whatever the meeting's location. */
  lemma PayloadValidWithNamedInviter(meeting: Meeting, name: string, formattedDate: string, appBaseUrl: string)
    requires !IsBlank(name) && !IsBlank(formattedDate)
    ensures BuildTemplatePayload(meeting, UserFound(Some(name)), formattedDate, appBaseUrl).Ok?
    ensures IsValid(BuildTemplatePayload(meeting, UserFound(Some(name)), formattedDate, appBaseUrl).value)
  {
  }

  /** The user ids of the participant rows, in repository order. */
  function ParticipantUserIds(ps: seq<Participant>): (ids: seq<int>)
    ensures |ids| == |ps| && forall i :: 0 <= i < |ps| ==> ids[i] == ps[i].userId
  {
    if ps == [] then [] else [ps[0].userId] + ParticipantUserIds(ps[1..])
  }

  /**
   * `resolveReceivers`: the given ids (copied) or, when none are given, the
   * meeting's participants; every occurrence of the inviter is removed
   * (a null inviter equals no id, so nothing is removed).
   */
  function ResolveReceivers(inviterId: Option<int>, participants: seq<Participant>,
                            receiverIds: Option<seq<int>>): (targets: seq<int>)
    ensures inviterId.Some? ==> inviterId.value !in targets
    ensures targets == Filter(ReceiverSource(participants, receiverIds), NotInviter(inviterId))
    ensures forall x :: x in targets <==> x in ReceiverSource(participants, receiverIds) && inviterId != Some(x)
  {
    var source := if receiverIds.None? || receiverIds.value == [] then ParticipantUserIds(participants)
                  else receiverIds.value;
    if inviterId.Some? then
      RemoveAllIsFilter(source, inviterId.value, NotInviter(inviterId));
      RemoveAll(source, inviterId.value)
    else
      FilterAll(source, NotInviter(inviterId));
      source
  }

  /** The list receivers are drawn from: the given ids when non-empty, otherwise the meeting's participants. */
  function ReceiverSource(participants: seq<Participant>, receiverIds: Option<seq<int>>): seq<int>
  {
    if receiverIds.None? || receiverIds.value == [] then ParticipantUserIds(participants) else receiverIds.value
  }

  /** Whether an id is kept: it is not the inviter (a null inviter equals no id). */
  function NotInviter(inviterId: Option<int>): int -> bool
  {
    x => inviterId != Some(x)
  }

  /**
   * Resolving is stable: passing the resolved list back as the explicit
   * receivers yields it unchanged, and a source without the inviter is
   * kept whole, in order.
   */
  lemma {:induction false} ResolveReceiversStable(inviterId: Option<int>, participants: seq<Participant>,
                                                  receiverIds: Option<seq<int>>)
    ensures var targets := ResolveReceivers(inviterId, participants, receiverIds);
            targets != [] ==> ResolveReceivers(inviterId, participants, Some(targets)) == targets
    ensures (inviterId.None? || inviterId.value !in ReceiverSource(participants, receiverIds)) ==>
              ResolveReceivers(inviterId, participants, receiverIds) == ReceiverSource(participants, receiverIds)
  {
    var source := ReceiverSource(participants, receiverIds);
    var targets := ResolveReceivers(inviterId, participants, receiverIds);
    FilterAll(targets, NotInviter(inviterId));
    if inviterId.None? || inviterId.value !in source {
      FilterAll(source, NotInviter(inviterId));
    }
  }

  /** Participants {1, 2, 3} notified by user 1 resolve to exactly 2 and 3, in order. */
  lemma InviterExcludedExample(m: int, t: Time)
    ensures ResolveReceivers(Some(1), [NewParticipant(m, 1, t), NewParticipant(m, 2, t), NewParticipant(m, 3, t)], None)
            == [2, 3]
  {
    var ps := [NewParticipant(m, 1, t), NewParticipant(m, 2, t), NewParticipant(m, 3, t)];
    var ids := ParticipantUserIds(ps);
    assert ids == [1, 2, 3];
    RemoveAllStep([1, 2, 3], 1);
    RemoveAllStep([2, 3], 1);
    RemoveAllStep([3], 1);
    assert [1, 2, 3][1..] == [2, 3] && [2, 3][1..] == [3] && [3][1..] == [];
  }

  /** The token map: every distinct receiver paired with the one environment token. */
  function TokenPairs(ids: seq<int>, token: string): (pairs: seq<(int, string)>)
    ensures |pairs| == |ids| && forall i :: 0 <= i < |ids| ==> pairs[i] == (ids[i], token)
  {
    if ids == [] then [] else [(ids[0], token)] + TokenPairs(ids[1..], token)
  }

  /** The summary response with one failure appended. */
  function WithFailure(sent: int, total: int, userId: Option<int>, reason: string): (r: R.Response)
    ensures r.sentCount == sent && r.totalCount == total && (r.success <==> sent > 0)
    ensures r.failed == Some([R.Failure(userId, Some(reason))])
  {
    var f := R.Failure(userId, Some(reason));
    assert [] + [f] == [f];
    R.AddFailure(R.NewSummary(sent, total), f)
  }

  /**
   * The report of a send to `targets`: every receiver is counted; nothing
   * is sent to no receivers; without an environment token the inviter gets
   * the no-token failure; otherwise the client's delivered count over the
   * distinct receivers, with one failure exactly when nothing was delivered.
   */
  predicate ReportsDelivery(r: R.Response, inviterId: Option<int>, targets: seq<int>, envToken: Option<string>,
                            delivered: (int, string) -> bool)
  {
    && r.totalCount == |targets| && 0 <= r.sentCount <= r.totalCount
    && (r.success <==> r.sentCount > 0)
    && (targets == [] ==> r.sentCount == 0 && R.GetFailedCount(r) == 0)
    && (targets != [] && !HasText(envToken) ==>
          r.sentCount == 0 && r.failed == Some([R.Failure(inviterId, Some(NoAccessToken))]))
    && (targets != [] && HasText(envToken) ==>
          r.sentCount == KakaoClient.Delivered(TokenPairs(Distinct(targets), envToken.value), delivered)
          && R.GetFailedCount(r) == (if r.sentCount == 0 then 1 else 0))
  }

  /**
   * `sendRealKakaoNotification`: nothing to do for no receivers; a missing
   * environment token fails every receiver; otherwise every distinct
   * receiver gets the token and the client's count is reported against the
   * number of receivers, with the client's message as a failure when
   * nothing was delivered.
   */
  method SendRealKakaoNotification(inviterId: Option<int>, targets: seq<int>, envToken: Option<string>,
                                   delivered: (int, string) -> bool) returns (r: R.Response)
    ensures ReportsDelivery(r, inviterId, targets, envToken, delivered)
    ensures R.IsCompleteFailure(r) <==> targets != [] && r.sentCount == 0
  {
    if targets == [] {
      return R.NewSummary(0, 0);
    }
    if !HasText(envToken) {
      return WithFailure(0, |targets|, inviterId, NoAccessToken);
    }
    var tokens := TokenPairs(Distinct(targets), envToken.value);
    var result := KakaoClient.SendToMemo(tokens, delivered);
    r := R.NewSummary(result.sentCount, |targets|);
    if !result.success {
      r := R.AddFailure(r, R.Failure(None, Some(result.message)));
    }
  }

  /** Steps 1 to 3 of `sendKakaoNotification`: validation, the meeting lookup and the payload. */
  function Prepare(inviterId: Option<int>, meetingId: Option<int>, meetings: map<int, Meeting>,
                   consents: map<int, UserConsent>, user: UserLookup, formattedDate: string,
                   appBaseUrl: string): (r: Result<(Meeting, TemplatePayload)>)
    ensures r.Ok? ==> inviterId.Some? && meetingId.Some? && meetingId.value in meetings
                      && CheckUserConsent(consents, inviterId.value) && !user.LookupThrew?
    ensures r.Ok? <==> && ValidateBasicRequirements(inviterId, meetingId, consents).Ok?
                       && meetingId.value in meetings && !user.LookupThrew?
    ensures r.Ok? ==> && r.value.0 == meetings[meetingId.value]
                      && Ok(r.value.1) == BuildTemplatePayload(meetings[meetingId.value], user, formattedDate, appBaseUrl)
    ensures ValidateBasicRequirements(inviterId, meetingId, consents).Err? ==>
              r == Err(ValidateBasicRequirements(inviterId, meetingId, consents).error)
    ensures (ValidateBasicRequirements(inviterId, meetingId, consents).Ok? && meetingId.value in meetings
             && user.LookupThrew?) ==> r == Fail(Runtime, TemplateFailed)
    ensures inviterId.Some? && meetingId.Some? && CheckUserConsent(consents, inviterId.value)
            && meetingId.value !in meetings ==>
              r == Fail(IllegalArgument, MeetingMissing + IntToString(meetingId.value))
  {
    var _ :- ValidateBasicRequirements(inviterId, meetingId, consents);
    if meetingId.value !in meetings then Fail(IllegalArgument, MeetingMissing + IntToString(meetingId.value))
    else
      var meeting := meetings[meetingId.value];
      var payload :- BuildTemplatePayload(meeting, user, formattedDate, appBaseUrl);
      Ok((meeting, payload))
  }

  /** The response of the catch-all handler: nothing sent, one failure for the inviter. */
  function ErrorResponse(inviterId: Option<int>, receiverIds: Option<seq<int>>, e: Exception): (r: R.Response)
    ensures r.sentCount == 0 && !r.success
    ensures r.totalCount == if receiverIds.Some? then |receiverIds.value| else 0
    ensures r.failed == Some([R.Failure(inviterId, Some(SendError + Appended(e.message)))])
  {
    WithFailure(0, if receiverIds.Some? then |receiverIds.value| else 0, inviterId, SendError + Appended(e.message))
  }

  /**
   * `sendKakaoNotification`: never throws. A failure before sending gives
   * the error response; otherwise the resolved receivers (never the
   * inviter) are sent to, and the report is `sendRealKakaoNotification`'s
   * for them.
   */
  method SendKakaoNotification(inviterId: Option<int>, meetingId: Option<int>, receiverIds: Option<seq<int>>,
                               meetings: map<int, Meeting>, consents: map<int, UserConsent>,
                               user: UserLookup, formattedDate: string, appBaseUrl: string,
                               envToken: Option<string>, delivered: (int, string) -> bool)
    returns (r: R.Response)
    ensures var p := Prepare(inviterId, meetingId, meetings, consents, user, formattedDate, appBaseUrl);
            p.Err? ==> r == ErrorResponse(inviterId, receiverIds, p.error)
    ensures var p := Prepare(inviterId, meetingId, meetings, consents, user, formattedDate, appBaseUrl);
            p.Ok? ==>
              var targets := ResolveReceivers(inviterId, p.value.0.participants, receiverIds);
              && ReportsDelivery(r, inviterId, targets, envToken, delivered)
              && (R.IsCompleteFailure(r) <==> targets != [] && r.sentCount == 0)
              && inviterId.value !in targets
    ensures r.success <==> r.sentCount > 0
  {
    var prepared := Prepare(inviterId, meetingId, meetings, consents, user, formattedDate, appBaseUrl);
    if prepared.Err? {
      return ErrorResponse(inviterId, receiverIds, prepared.error);
    }
    var targets := ResolveReceivers(inviterId, prepared.value.0.participants, receiverIds);
    r := SendRealKakaoNotification(inviterId, targets, envToken, delivered);
  }

  /** Without consent nothing is sent, whatever the receivers. */
  lemma NoConsentSendsNothing(inviterId: int, meetingId: Option<int>, receiverIds: Option<seq<int>>,
                              meetings: map<int, Meeting>, consents: map<int, UserConsent>,
                              user: UserLookup, formattedDate: string, appBaseUrl: string)
    requires meetingId.Some? && !CheckUserConsent(consents, inviterId)
    ensures Prepare(Some(inviterId), meetingId, meetings, consents, user, formattedDate, appBaseUrl)
            == Fail(IllegalState, NoConsent)
    ensures ErrorResponse(Some(inviterId), receiverIds, Exception(IllegalState, Some(NoConsent))).failed
            == Some([R.Failure(Some(inviterId), Some(SendError + NoConsent))])
  {
  }
}

=== FILE: meeting_search.dfy ===
/**
 * `MeetingSearchService`: which search a request selects, how a result
 * list becomes a page, how the sort is chosen, how many filters a summary
 * reports, and the popular-meetings ranking. Repository queries are
 * oracles; a meeting is its id (the persistence context hands out one
 * object per row, so `distinct` compares ids).
 */
module MeetingSearchService {
  import opened Wrappers
  import opened Text
  import opened MeetingStatuses
  import Seqs

  /** The fields of `MeetingSearchRequest` the service reads. */
  datatype SearchRequest = SearchRequest(
    keyword: Option<string>,
    status: Option<string>,
    startTime: Option<Time>,
    endTime: Option<Time>,
    locationName: Option<string>,
    participantUserIds: Option<seq<int>>,
    sortBy: Option<string>,
    sortOrder: Option<string>,
    page: Option<int>,
    size: Option<int>)

  /** A request with only the field initialisers applied. */
  function DefaultRequest(): (r: SearchRequest)
    ensures r.sortBy == Some("meetingTime") && r.sortOrder == Some("ASC")
    ensures r.page == Some(0) && r.size == Some(20)
    ensures AppliedFilters(r) == 0
  {
    SearchRequest(None, None, None, None, None, None, Some("meetingTime"), Some("ASC"), Some(0), Some(20))
  }

  /** The query `executeSearch` runs. */
  datatype SearchMode =
    | ByStatus(status: MeetingStatus)
    | ByKeyword(keyword: string)
    | ByTimeRange(start: Time, end: Time)
    | ByLocation(locationName: string)
    | ByParticipants(userIds: seq<int>)
    | AllMeetings

  predicate HasBasicFilter(r: SearchRequest)
  {
    r.keyword.Some? || r.status.Some? || r.startTime.Some? || r.endTime.Some?
  }

  predicate HasParticipantFilter(r: SearchRequest)
  {
    r.participantUserIds.Some? && r.participantUserIds.value != []
  }

  /**
   * `executeSearch` with `searchWithBasicFilters` and `searchByTimeRange`:
   * basic filters first (status over keyword over time range), then the
   * location, then a non-empty participant list, else every meeting. A
   * status that names no constant after upper-casing throws. A missing
   * start is `now`; a missing end is one month after the start, which
   * `plusOneMonth` computes.
   */
  function SelectSearch(r: SearchRequest, now: Time, plusOneMonth: Time -> Time): (m: Result<SearchMode>)
    ensures r.status.Some? ==>
              (m.Ok? <==> ParseMeetingStatus(Upper(r.status.value)).Some?)
              && (m.Ok? ==> m.value.ByStatus? && m.value.status.Name() == Upper(r.status.value))
    ensures m.Err? ==> m.error.kind == IllegalArgument
    ensures m.Ok? && m.value.ByKeyword? ==> r.status.None? && r.keyword == Some(m.value.keyword)
    ensures m.Ok? && m.value.ByTimeRange? ==>
              r.status.None? && r.keyword.None? && (r.startTime.Some? || r.endTime.Some?)
              && m.value.start == r.startTime.GetOr(now)
              && m.value.end == (if r.endTime.Some? then r.endTime.value else plusOneMonth(m.value.start))
    ensures m.Ok? && m.value.ByLocation? ==> !HasBasicFilter(r) && r.locationName == Some(m.value.locationName)
    ensures m.Ok? && m.value.ByParticipants? ==>
              !HasBasicFilter(r) && r.locationName.None? && r.participantUserIds == Some(m.value.userIds)
              && m.value.userIds != []
    ensures m.Ok? && m.value.AllMeetings? <==> !HasBasicFilter(r) && r.locationName.None? && !HasParticipantFilter(r)
  {
    if HasBasicFilter(r) then
      if r.status.Some? then
        match ParseMeetingStatus(Upper(r.status.value))
        case None => Fail(IllegalArgument, "No enum constant " + Upper(r.status.value))
        case Some(s) => Ok(ByStatus(s))
      else if r.keyword.Some? then Ok(ByKeyword(r.keyword.value))
      else
        var start := if r.startTime.Some? then r.startTime.value else now;
        Ok(ByTimeRange(start, if r.endTime.Some? then r.endTime.value else plusOneMonth(start)))
    else if r.locationName.Some? then Ok(ByLocation(r.locationName.value))
    else if HasParticipantFilter(r) then Ok(ByParticipants(r.participantUserIds.value))
    else Ok(AllMeetings)
  }

  /** `createSearchSummary`'s count of the criteria present; an empty participant list does not count. */
  function AppliedFilters(r: SearchRequest): (n: nat)
    ensures n <= 6
    ensures n == 0 <==> !HasBasicFilter(r) && r.locationName.None? && !HasParticipantFilter(r)
  {
    (if r.keyword.Some? then 1 else 0) + (if r.status.Some? then 1 else 0)
    + (if r.startTime.Some? then 1 else 0) + (if r.endTime.Some? then 1 else 0)
    + (if r.locationName.Some? then 1 else 0) + (if HasParticipantFilter(r) then 1 else 0)
  }

  /** The unfiltered search runs exactly when the summary reports no filter. */
  lemma AllMeetingsIffNoFilter(r: SearchRequest, now: Time, plusOneMonth: Time -> Time)
    ensures SelectSearch(r, now, plusOneMonth) == Ok(AllMeetings) <==> AppliedFilters(r) == 0
  {
  }

  // Pages.

  /** A Spring `Page`: the content and the size of the whole list. */
  datatype Page<T> = Page(content: seq<T>, totalElements: nat)

  /**
   * `createPageFromList`: `subList(offset, min(offset + size, n))` with the
   * whole size as total; an offset past the end makes `subList` throw.
   */
  function PageFromList<T>(xs: seq<T>, offset: nat, size: nat): (r: Result<Page<T>>)
    ensures r.Ok? <==> offset <= |xs|
    ensures r.Err? ==> r.error.kind == IllegalArgument
    ensures r.Ok? ==> r.value.totalElements == |xs|
                      && |r.value.content| == Min(size, |xs| - offset)
                      && forall k :: 0 <= k < |r.value.content| ==> r.value.content[k] == xs[offset + k]
  {
    if offset > |xs| then Fail(IllegalArgument, "fromIndex > toIndex")
    else Ok(Page(xs[offset..Min(offset + size, |xs|)], |xs|))
  }

  /** Two adjacent pages together are the page spanning both. */
  lemma AdjacentPagesConcatenate<T>(xs: seq<T>, offset: nat, s: nat, t: nat)
    requires offset + s <= |xs|
    ensures PageFromList(xs, offset, s).Ok? && PageFromList(xs, offset + s, t).Ok?
    ensures PageFromList(xs, offset, s).value.content + PageFromList(xs, offset + s, t).value.content
            == PageFromList(xs, offset, s + t).value.content
  {
    var a := PageFromList(xs, offset, s).value.content;
    var b := PageFromList(xs, offset + s, t).value.content;
    var c := PageFromList(xs, offset, s + t).value.content;
    assert |a + b| == |c|;
    forall k | 0 <= k < |c|
      ensures (a + b)[k] == c[k]
    {
      if k >= |a| {
        assert (a + b)[k] == b[k - |a|];
      }
    }
  }

  /**
   * `PageRequest.of`: a negative page or a size below one throws; the
   * offset is page times size.
   */
  function PageOffset(page: int, size: int): (r: Result<nat>)
    ensures r.Ok? <==> page >= 0 && size >= 1
    ensures r.Ok? ==> r.value == page * size && (page > 0 ==> r.value >= size)
  {
    if page < 0 then Fail(IllegalArgument, "Page index must not be less than zero")
    else if size < 1 then Fail(IllegalArgument, "Page size must not be less than one")
    else
      assert page > 0 ==> page * size >= size by {
        if page > 0 { assert page * size == (page - 1) * size + size; }
      }
      Ok(page * size)
  }

  // Sorting.

  datatype Direction = Asc | Desc

  datatype SortSpec = SortSpec(direction: Direction, property: string)

  /**
   * `createSort`: DESC iff the order is "DESC" in any case (a null order is
   * ascending); the property is title or createdAt by the lower-cased
   * `sortBy`, and meetingTime for anything else. A null `sortBy` throws.
   */
  function CreateSort(sortBy: Option<string>, sortOrder: Option<string>): (r: Result<SortSpec>)
    ensures r.Ok? <==> sortBy.Some?
    ensures r.Ok? ==> (r.value.direction == Desc <==> sortOrder.Some? && EqualsIgnoreCase(sortOrder.value, "DESC"))
    ensures r.Ok? ==> r.value.property in {"title", "createdAt", "meetingTime"}
    ensures r.Ok? ==> (r.value.property == "title" <==> Lower(sortBy.value) == "title")
    ensures r.Ok? ==> (r.value.property == "createdAt" <==> Lower(sortBy.value) == "createdat")
  {
    if sortBy.None? then NullDeref()
    else
      var direction := if sortOrder.Some? && EqualsIgnoreCase(sortOrder.value, "DESC") then Desc else Asc;
      var key := Lower(sortBy.value);
      if key == "title" then Ok(SortSpec(direction, "title"))
      else if key == "createdat" then Ok(SortSpec(direction, "createdAt"))
      else Ok(SortSpec(direction, "meetingTime"))
  }

  lemma LowerOfUpperChar(c: char)
    ensures LowerChar(UpperChar(c)) == LowerChar(c)
  {
  }

  /** Case-insensitively equal names lower-case alike. */
  lemma LowerRespectsIgnoreCase(a: string, b: string)
    requires EqualsIgnoreCase(a, b)
    ensures Lower(a) == Lower(b)
  {
    forall i | 0 <= i < |a|
      ensures Lower(a)[i] == Lower(b)[i]
    {
      LowerOfUpperChar(a[i]);
      LowerOfUpperChar(b[i]);
    }
  }

  /** The sort chosen does not depend on the letter case of either argument. */
  lemma SortIgnoresCase(by1: string, by2: string, order1: string, order2: string)
    requires EqualsIgnoreCase(by1, by2) && EqualsIgnoreCase(order1, order2)
    ensures CreateSort(Some(by1), Some(order1)) == CreateSort(Some(by2), Some(order2))
  {
    LowerRespectsIgnoreCase(by1, by2);
    EqualsIgnoreCaseIffUpperEqual(order1, order2);
    EqualsIgnoreCaseIffUpperEqual(order1, "DESC");
    EqualsIgnoreCaseIffUpperEqual(order2, "DESC");
  }

  // Participant search.

  /**
   * `searchByParticipants`: every meeting of every listed user, in order,
   * each meeting once.
   */
  function SearchByParticipants(userIds: seq<int>, meetingsOf: int -> seq<int>): (r: seq<int>)
    ensures Seqs.NoDuplicates(r)
    ensures forall m :: m in r <==> exists k :: 0 <= k < |userIds| && m in meetingsOf(userIds[k])
  {
    Seqs.Distinct(Seqs.FlatMap(userIds, meetingsOf))
  }

  /** A single user's meeting list without repeats comes back as it is. */
  lemma SingleParticipantSearch(userId: int, meetingsOf: int -> seq<int>)
    requires Seqs.NoDuplicates(meetingsOf(userId))
    ensures SearchByParticipants([userId], meetingsOf) == meetingsOf(userId)
  {
    assert [userId][1..] == [];
    assert Seqs.FlatMap([userId], meetingsOf) == meetingsOf(userId) + Seqs.FlatMap([], meetingsOf);
    assert meetingsOf(userId) + [] == meetingsOf(userId);
    Seqs.DistinctOfNoDuplicates(meetingsOf(userId));
  }

  // Popular meetings.

  /** The fields of a meeting the ranking reads. */
  datatype MeetingRow = MeetingRow(id: int, hostId: Option<int>)

  /** `MeetingSummaryResponse.from(meeting, participantCount, isHost)`, reduced to its inputs. */
  datatype Summary = Summary(meeting: MeetingRow, participantCount: nat, isHost: bool)

  function ParticipantKey(countOf: int -> nat): MeetingRow -> int
  {
    (m: MeetingRow) => countOf(m.id)
  }

  /**
   * The meetings by descending participant count, cut at `limit`; a
   * negative limit makes `Stream.limit` throw.
   */
  function TopByParticipants(meetings: seq<MeetingRow>, limit: int, countOf: int -> nat): (r: Result<seq<MeetingRow>>)
    ensures r.Ok? <==> limit >= 0
    ensures r.Ok? ==> |r.value| == Min(limit, |meetings|)
    ensures r.Ok? ==> Seqs.NonIncreasing(r.value, ParticipantKey(countOf))
    ensures r.Ok? ==> multiset(r.value) <= multiset(meetings)
    ensures r.Ok? ==> forall m, k :: m in multiset(meetings) - multiset(r.value) && 0 <= k < |r.value|
                        ==> countOf(m.id) <= countOf(r.value[k].id)
  {
    if limit < 0 then Fail(IllegalArgument, "maxSize must not be negative")
    else
      var sorted := Seqs.SortDescending(meetings, ParticipantKey(countOf));
      var n := Min(limit, |meetings|);
      TopSplit(sorted, n, ParticipantKey(countOf));
      Ok(sorted[..n])
  }

  /** Cutting a non-increasing sequence leaves the greatest keys in front. */
  lemma TopSplit<T>(sorted: seq<T>, n: nat, key: T -> int)
    requires n <= |sorted| && Seqs.NonIncreasing(sorted, key)
    ensures Seqs.NonIncreasing(sorted[..n], key)
    ensures multiset(sorted[..n]) <= multiset(sorted)
    ensures forall m, k :: m in multiset(sorted) - multiset(sorted[..n]) && 0 <= k < n
              ==> key(m) <= key(sorted[..n][k])
  {
    assert sorted == sorted[..n] + sorted[n..];
    assert multiset(sorted) - multiset(sorted[..n]) == multiset(sorted[n..]);
    forall m, k | m in multiset(sorted[n..]) && 0 <= k < n
      ensures key(m) <= key(sorted[..n][k])
    {
      var j :| 0 <= j < |sorted[n..]| && sorted[n..][j] == m;
      assert sorted[n + j] == m;
    }
  }

  predicate AllHaveHost(rows: seq<MeetingRow>)
  {
    forall k :: 0 <= k < |rows| ==> rows[k].hostId.Some?
  }

  /** The summaries of ranked meetings, host flag by `Long.equals`. */
  function Summarize(top: seq<MeetingRow>, currentUserId: Option<int>, countOf: int -> nat): (r: seq<Summary>)
    ensures |r| == |top|
    ensures forall k :: 0 <= k < |r| ==>
              r[k].meeting == top[k] && r[k].participantCount == countOf(top[k].id)
              && (r[k].isHost <==> currentUserId.Some? && top[k].hostId == currentUserId)
  {
    seq(|top|, k requires 0 <= k < |top| =>
      Summary(top[k], countOf(top[k].id), currentUserId.Some? && top[k].hostId == currentUserId))
  }

  /**
   * `getPopularMeetings`: the top meetings with their counts, each marked
   * host iff its host id equals the caller's (`Long.equals(null)` is
   * false); a selected meeting without a host id throws.
   */
  function PopularMeetings(meetings: seq<MeetingRow>, limit: int, currentUserId: Option<int>, countOf: int -> nat)
    : (r: Result<seq<Summary>>)
    ensures r.Ok? <==> limit >= 0 && AllHaveHost(TopByParticipants(meetings, limit, countOf).value)
    ensures r.Ok? ==> r.value == Summarize(TopByParticipants(meetings, limit, countOf).value, currentUserId, countOf)
  {
    var top :- TopByParticipants(meetings, limit, countOf);
    if !AllHaveHost(top) then NullDeref()
    else Ok(Summarize(top, currentUserId, countOf))
  }

  /**
   * The ranking is non-increasing in participant count, and nobody left out
   * has more participants than anybody shown.
   */
  lemma PopularMeetingsRanked(meetings: seq<MeetingRow>, limit: int, currentUserId: Option<int>, countOf: int -> nat)
    requires PopularMeetings(meetings, limit, currentUserId, countOf).Ok?
    ensures var r := PopularMeetings(meetings, limit, currentUserId, countOf).value;
            |r| == Min(limit, |meetings|)
            && (forall i, j :: 0 <= i < j < |r| ==> r[i].participantCount >= r[j].participantCount)
            && (forall m, k :: m in meetings && 0 <= k < |r| && countOf(m.id) > r[k].participantCount
                  ==> m in multiset(seq(|r|, i requires 0 <= i < |r| => r[i].meeting)))
  {
    var top := TopByParticipants(meetings, limit, countOf).value;
    SummariesKeepRanking(meetings, top, currentUserId, countOf);
  }

  /** Summaries of a ranked selection are ranked by their counts, and the selection is what they show. */
  lemma SummariesKeepRanking(meetings: seq<MeetingRow>, top: seq<MeetingRow>, currentUserId: Option<int>, countOf: int -> nat)
    requires Seqs.NonIncreasing(top, ParticipantKey(countOf))
    requires forall m, k :: m in multiset(meetings) - multiset(top) && 0 <= k < |top|
               ==> countOf(m.id) <= countOf(top[k].id)
    ensures var r := Summarize(top, currentUserId, countOf);
            && (forall i, j :: 0 <= i < j < |r| ==> r[i].participantCount >= r[j].participantCount)
            && (forall m, k :: m in meetings && 0 <= k < |r| && countOf(m.id) > r[k].participantCount
                  ==> m in multiset(seq(|r|, i requires 0 <= i < |r| => r[i].meeting)))
  {
    var r := Summarize(top, currentUserId, countOf);
    var shown := seq(|r|, i requires 0 <= i < |r| => r[i].meeting);
    assert shown == top;
    forall i, j | 0 <= i < j < |r|
      ensures r[i].participantCount >= r[j].participantCount
    {
      assert ParticipantKey(countOf)(top[i]) >= ParticipantKey(countOf)(top[j]);
    }
    forall m, k | m in meetings && 0 <= k < |r| && countOf(m.id) > r[k].participantCount
      ensures m in multiset(shown)
    {
      assert m in multiset(meetings);
    }
  }
}

=== FILE: meeting_service.dfy ===
/**
 * `MeetingService`: creating a meeting with its host and invitees, the
 * unvalidated status update, and deletion.
 */
module MeetingService {
  import opened Wrappers
  import Seqs
  import opened Text
  import opened MeetingStatuses
  import DomainMeeting
  import History
  import opened MeetingRepository
  import MeetingStatusService

  /** The fields of `dto.MeetingCreateRequest` the service copies. */
  datatype CreateRequest = CreateRequest(
    title: string,
    description: Option<string>,
    meetingTime: Time,
    maxParticipants: Option<int>,
    locationName: Option<string>,
    locationAddress: Option<string>,
    locationCoordinates: Option<string>,
    participantUserIds: Option<seq<int>>)

  /** The invitee ids the loop visits: none for a null list. */
  function RequestedInvitees(request: CreateRequest): seq<int>
  {
    if request.participantUserIds.Some? then request.participantUserIds.value else []
  }

  function NotHost(hostId: int): int -> bool
  {
    id => id != hostId
  }

  function InvitedRow(meetingId: int, now: Time): int -> DomainMeeting.Participant
  {
    id => DomainMeeting.NewParticipant(meetingId, id, now)
  }

  /**
   * Every listed id other than the host is a user, has no row yet (`saved`
   * are the ids already given a row) and is not listed earlier.
   */
  ghost predicate AllInvitable(ids: seq<int>, hostId: int, userExists: int -> bool, saved: set<int>)
  {
    forall i :: 0 <= i < |ids| && ids[i] != hostId ==>
      userExists(ids[i]) && ids[i] !in saved && forall j :: 0 <= j < i ==> ids[j] != ids[i]
  }

  /**
   * Why the id at `i` stops the loop: it is not a user (the service's
   * RuntimeException), or it already has a row and the save breaks the
   * (meeting, user) unique constraint of `meeting_participant`.
   */
  ghost predicate StopsAt(ids: seq<int>, i: nat, hostId: int, userExists: int -> bool, saved: set<int>, e: Exception)
    requires i < |ids|
  {
    ids[i] != hostId
    && ((!userExists(ids[i]) && e == Exception(Runtime, Some(UnknownUserMessage(ids[i]))))
        || (userExists(ids[i]) && e == Exception(DataIntegrityViolation, None)
            && (ids[i] in saved || exists j :: 0 <= j < i && ids[j] == ids[i])))
  }

  function UnknownUserMessage(userId: int): string
  {
    "존재하지 않는 사용자입니다: " + IntToString(userId)
  }

  /**
   * The invitee rows of `createMeeting`: one INVITED row per listed id other
   * than the host, in order. The loop stops at the first such id that is
   * not a user (a RuntimeException) or that already has a row: each row is
   * inserted as it is saved, so a repeated id breaks the unique constraint.
   */
  function InviteeRows(ids: seq<int>, hostId: int, meetingId: int, userExists: int -> bool, now: Time)
    : (r: Result<seq<DomainMeeting.Participant>>)
    ensures r.Ok? <==> AllInvitable(ids, hostId, userExists, {})
    ensures r.Ok? ==> r.value == Seqs.Map(Seqs.Filter(ids, NotHost(hostId)), InvitedRow(meetingId, now))
    ensures r.Err? ==> exists i :: 0 <= i < |ids| && StopsAt(ids, i, hostId, userExists, {}, r.error)
  {
    InviteeRowsAfter(ids, hostId, meetingId, userExists, now, {})
  }

  /** The loop from some point on, with `saved` the non-host ids given a row so far. */
  function InviteeRowsAfter(ids: seq<int>, hostId: int, meetingId: int, userExists: int -> bool, now: Time,
                            saved: set<int>): (r: Result<seq<DomainMeeting.Participant>>)
    ensures r.Ok? <==> AllInvitable(ids, hostId, userExists, saved)
    ensures r.Ok? ==> r.value == Seqs.Map(Seqs.Filter(ids, NotHost(hostId)), InvitedRow(meetingId, now))
    ensures r.Err? ==> exists i :: 0 <= i < |ids| && StopsAt(ids, i, hostId, userExists, saved, r.error)
  {
    if ids == [] then Ok([])
    else if ids[0] == hostId then
      var r := InviteeRowsAfter(ids[1..], hostId, meetingId, userExists, now, saved);
      SkipHostStep(ids, hostId, meetingId, userExists, now, saved, r);
      r
    else if !userExists(ids[0]) then
      assert StopsAt(ids, 0, hostId, userExists, saved, Exception(Runtime, Some(UnknownUserMessage(ids[0]))));
      Fail(Runtime, UnknownUserMessage(ids[0]))
    else if ids[0] in saved then
      assert StopsAt(ids, 0, hostId, userExists, saved, Exception(DataIntegrityViolation, None));
      Err(Exception(DataIntegrityViolation, None))
    else
      var rest := InviteeRowsAfter(ids[1..], hostId, meetingId, userExists, now, saved + {ids[0]});
      SaveStep(ids, hostId, meetingId, userExists, now, saved, rest);
      if rest.Err? then rest
      else Ok([DomainMeeting.NewParticipant(meetingId, ids[0], now)] + rest.value)
  }

  /** Skipping the host's own id changes nothing. */
  lemma SkipHostStep(ids: seq<int>, hostId: int, meetingId: int, userExists: int -> bool, now: Time,
                     saved: set<int>, r: Result<seq<DomainMeeting.Participant>>)
    requires ids != [] && ids[0] == hostId
    requires r.Ok? <==> AllInvitable(ids[1..], hostId, userExists, saved)
    requires r.Ok? ==> r.value == Seqs.Map(Seqs.Filter(ids[1..], NotHost(hostId)), InvitedRow(meetingId, now))
    requires r.Err? ==> exists i :: 0 <= i < |ids[1..]| && StopsAt(ids[1..], i, hostId, userExists, saved, r.error)
    ensures r.Ok? <==> AllInvitable(ids, hostId, userExists, saved)
    ensures r.Ok? ==> r.value == Seqs.Map(Seqs.Filter(ids, NotHost(hostId)), InvitedRow(meetingId, now))
    ensures r.Err? ==> exists i :: 0 <= i < |ids| && StopsAt(ids, i, hostId, userExists, saved, r.error)
  {
    var tail := ids[1..];
    assert forall i :: 1 <= i < |ids| ==> ids[i] == tail[i - 1];
    if r.Err? {
      var i :| 0 <= i < |tail| && StopsAt(tail, i, hostId, userExists, saved, r.error);
      if exists j :: 0 <= j < i && tail[j] == tail[i] {
        var j :| 0 <= j < i && tail[j] == tail[i];
        assert ids[j + 1] == ids[i + 1];
      }
      assert StopsAt(ids, i + 1, hostId, userExists, saved, r.error);
    }
    AllInvitableSkip(ids, hostId, userExists, saved);
  }

  lemma AllInvitableSkip(ids: seq<int>, hostId: int, userExists: int -> bool, saved: set<int>)
    requires ids != [] && ids[0] == hostId
    ensures AllInvitable(ids, hostId, userExists, saved) <==> AllInvitable(ids[1..], hostId, userExists, saved)
  {
    var tail := ids[1..];
    assert forall i :: 1 <= i < |ids| ==> ids[i] == tail[i - 1];
    if AllInvitable(ids, hostId, userExists, saved) {
      forall i | 0 <= i < |tail| && tail[i] != hostId
        ensures userExists(tail[i]) && tail[i] !in saved && forall j :: 0 <= j < i ==> tail[j] != tail[i]
      {
        assert ids[i + 1] == tail[i];
        assert forall j :: 0 <= j < i ==> tail[j] == ids[j + 1];
      }
    }
    if AllInvitable(tail, hostId, userExists, saved) {
      forall i | 0 <= i < |ids| && ids[i] != hostId
        ensures userExists(ids[i]) && ids[i] !in saved && forall j :: 0 <= j < i ==> ids[j] != ids[i]
      {
        assert ids[i] == tail[i - 1];
        assert forall j :: 1 <= j < i ==> ids[j] == tail[j - 1];
      }
    }
  }

  /** Saving a row for a new, existing, non-host first id and then running the rest. */
  lemma SaveStep(ids: seq<int>, hostId: int, meetingId: int, userExists: int -> bool, now: Time,
                 saved: set<int>, rest: Result<seq<DomainMeeting.Participant>>)
    requires ids != [] && ids[0] != hostId && userExists(ids[0]) && ids[0] !in saved
    requires rest.Ok? <==> AllInvitable(ids[1..], hostId, userExists, saved + {ids[0]})
    requires rest.Ok? ==> rest.value == Seqs.Map(Seqs.Filter(ids[1..], NotHost(hostId)), InvitedRow(meetingId, now))
    requires rest.Err? ==> exists i :: 0 <= i < |ids[1..]| && StopsAt(ids[1..], i, hostId, userExists, saved + {ids[0]}, rest.error)
    ensures rest.Ok? <==> AllInvitable(ids, hostId, userExists, saved)
    ensures rest.Ok? ==> [DomainMeeting.NewParticipant(meetingId, ids[0], now)] + rest.value
                         == Seqs.Map(Seqs.Filter(ids, NotHost(hostId)), InvitedRow(meetingId, now))
    ensures rest.Err? ==> exists i :: 0 <= i < |ids| && StopsAt(ids, i, hostId, userExists, saved, rest.error)
  {
    var tail := ids[1..];
    assert forall i :: 1 <= i < |ids| ==> ids[i] == tail[i - 1];
    if rest.Err? {
      var i :| 0 <= i < |tail| && StopsAt(tail, i, hostId, userExists, saved + {ids[0]}, rest.error);
      if exists j :: 0 <= j < i && tail[j] == tail[i] {
        var j :| 0 <= j < i && tail[j] == tail[i];
        assert ids[j + 1] == ids[i + 1];
      } else if tail[i] == ids[0] {
        assert ids[0] == ids[i + 1];
      }
      assert StopsAt(ids, i + 1, hostId, userExists, saved, rest.error);
    } else {
      Seqs.MapCons(ids[0], Seqs.Filter(tail, NotHost(hostId)), InvitedRow(meetingId, now));
    }
    AllInvitableSave(ids, hostId, userExists, saved);
  }

  lemma AllInvitableSave(ids: seq<int>, hostId: int, userExists: int -> bool, saved: set<int>)
    requires ids != [] && ids[0] != hostId && userExists(ids[0]) && ids[0] !in saved
    ensures AllInvitable(ids, hostId, userExists, saved) <==> AllInvitable(ids[1..], hostId, userExists, saved + {ids[0]})
  {
    var tail := ids[1..];
    assert forall i :: 1 <= i < |ids| ==> ids[i] == tail[i - 1];
    if AllInvitable(ids, hostId, userExists, saved) {
      forall i | 0 <= i < |tail| && tail[i] != hostId
        ensures userExists(tail[i]) && tail[i] !in saved + {ids[0]} && forall j :: 0 <= j < i ==> tail[j] != tail[i]
      {
        assert ids[i + 1] == tail[i];
        assert ids[0] != ids[i + 1];
        assert forall j :: 0 <= j < i ==> tail[j] == ids[j + 1];
      }
    }
    if AllInvitable(tail, hostId, userExists, saved + {ids[0]}) {
      forall i | 0 <= i < |ids| && ids[i] != hostId
        ensures userExists(ids[i]) && ids[i] !in saved && forall j :: 0 <= j < i ==> ids[j] != ids[i]
      {
        if i > 0 {
          assert ids[i] == tail[i - 1];
          assert forall j :: 1 <= j < i ==> ids[j] == tail[j - 1];
        }
      }
    }
  }

  /**
   * `createMeeting`: the meeting is saved with the request's fields, the
   * host is saved as an ACCEPTED participant who joined `now`, every other
   * listed user is saved as INVITED, and one CREATED entry is logged. An
   * unknown invitee rolls the whole creation back.
   */
  function CreateMeeting(store: Store, request: CreateRequest, hostId: int, newId: int,
                         userExists: int -> bool, now: Time): (r: Result<(Store, int)>)
    requires newId !in store.meetings
    ensures r.Ok? <==> AllInvitable(RequestedInvitees(request), hostId, userExists, {})
    ensures r.Err? ==> InviteeRows(RequestedInvitees(request), hostId, newId, userExists, now).Err?
                       && r.error == InviteeRows(RequestedInvitees(request), hostId, newId, userExists, now).error
    ensures r.Ok? ==>
      var (s, id) := r.value;
      && id == newId && s.meetings.Keys == store.meetings.Keys + {newId}
      && (forall k :: k in store.meetings ==> s.meetings[k] == store.meetings[k])
      && s.history == store.history + [History.Entry(newId, hostId, History.Created, Some("약속방 생성: " + request.title))]
      && var m := s.meetings[newId];
         && m.status == Waiting && m.title == request.title && m.meetingTime == request.meetingTime
         && m.maxParticipants == request.maxParticipants && m.description == request.description
         && m.locationName == request.locationName && m.locationAddress == request.locationAddress
         && m.locationCoordinates == request.locationCoordinates
         && |m.participants| >= 1
         && m.participants[0] == DomainMeeting.Participant(newId, hostId, Accepted, Some(now), now)
         && m.participants[1..] == Seqs.Map(Seqs.Filter(RequestedInvitees(request), NotHost(hostId)), InvitedRow(newId, now))
  {
    var invitees :- InviteeRows(RequestedInvitees(request), hostId, newId, userExists, now);
    var host := DomainMeeting.Participant(newId, hostId, Accepted, Some(now), now);
    var m := DomainMeeting.Meeting(newId, request.title, request.description, request.meetingTime,
                                   request.maxParticipants, Waiting, request.locationName,
                                   request.locationAddress, request.locationCoordinates, [host] + invitees);
    var entry := History.Entry(newId, hostId, History.Created, Some("약속방 생성: " + request.title));
    Ok((Store(store.meetings[newId := m], store.history + [entry]), newId))
  }

  /**
   * The host saved by `createMeeting` is the meeting's derived host: every
   * row is invited at the same instant and the host's row comes first.
   */
  lemma CreatedMeetingIsHostedByCreator(store: Store, request: CreateRequest, hostId: int, newId: int,
                                        userExists: int -> bool, now: Time)
    requires newId !in store.meetings
    requires CreateMeeting(store, request, hostId, newId, userExists, now).Ok?
    ensures var (s, id) := CreateMeeting(store, request, hostId, newId, userExists, now).value;
            DomainMeeting.IsHost(s.meetings[id], hostId)
  {
    var (s, id) := CreateMeeting(store, request, hostId, newId, userExists, now).value;
    var invitees := InviteeRows(RequestedInvitees(request), hostId, newId, userExists, now).value;
    FirstOfSameInstantIsHost(s.meetings[id], invitees, newId, now);
  }

  /** A row saved at `now` ahead of invitee rows all saved at `now` is the host's. */
  lemma FirstOfSameInstantIsHost(m: DomainMeeting.Meeting, invitees: seq<DomainMeeting.Participant>, meetingId: int, now: Time)
    requires |m.participants| > 0 && m.participants == [m.participants[0]] + invitees
    requires m.participants[0].invitedAt == now
    requires forall k :: 0 <= k < |invitees| ==> invitees[k] == DomainMeeting.NewParticipant(meetingId, invitees[k].userId, now)
    ensures DomainMeeting.IsHost(m, m.participants[0].userId)
  {
    forall j | 0 <= j < |m.participants|
      ensures m.participants[0].invitedAt <= m.participants[j].invitedAt
    {
      if j > 0 {
        assert m.participants[j] == invitees[j - 1];
      }
    }
    DomainMeeting.HostIsFirstEarliest(m);
  }

  /** With two existing invitees the creation saves three participant rows and one history entry. */
  lemma CreateWithTwoInvitees(store: Store, newId: int, now: Time)
    requires newId !in store.meetings
    ensures var request := CreateRequest("저녁 약속", None, now + 60, Some(10), None, None, None, Some([456, 789]));
            var r := CreateMeeting(store, request, 123, newId, (u: int) => true, now);
            && r.Ok?
            && |r.value.0.meetings[newId].participants| == 3
            && |r.value.0.history| == |store.history| + 1
  {
    var request := CreateRequest("저녁 약속", None, now + 60, Some(10), None, None, None, Some([456, 789]));
    var ids := [456, 789];
    assert ids[1..] == [789];
    assert [789][1..] == [];
    var known := (u: int) => true;
    assert known(456) && known(789);
    assert [789][0] == 789 && ids[0] == 456;
    assert InviteeRows([], 123, newId, known, now) == Ok([]);
    assert |InviteeRows([789], 123, newId, known, now).value| == 1;
    assert |InviteeRows(ids, 123, newId, known, now).value| == 2;
  }

  /**
   * `updateMeetingStatus` of this service: only the host check guards it;
   * any status is set and an UPDATED entry is logged.
   */
  function UpdateMeetingStatus(store: Store, meetingId: int, status: MeetingStatus, userId: int): (r: Result<Store>)
    ensures meetingId !in store.meetings ==> r == Fail(Runtime, MeetingStatusService.NotFoundMessage(meetingId))
    ensures r.Ok? <==> meetingId in store.meetings && DomainMeeting.IsHost(store.meetings[meetingId], userId)
    ensures r.Ok? ==>
      && r.value.meetings == store.meetings[meetingId := store.meetings[meetingId].(status := status)]
      && r.value.history == store.history + [History.Entry(meetingId, userId, History.Updated, Some("약속 상태 변경: " + status.Name()))]
  {
    if meetingId !in store.meetings then Fail(Runtime, MeetingStatusService.NotFoundMessage(meetingId))
    else
      var m := store.meetings[meetingId];
      var _ :- MeetingStatusService.CheckHost(m, userId, "약속 상태 변경 권한이 없습니다");
      Ok(Store(store.meetings[meetingId := m.(status := status)],
               store.history + [History.Entry(meetingId, userId, History.Updated, Some("약속 상태 변경: " + status.Name()))]))
  }

  /**
   * Unlike the status service, this update lets the host move a COMPLETED
   * meeting back to WAITING.
   */
  lemma UnvalidatedUpdateReopensCompleted(store: Store, meetingId: int, userId: int, now: Time)
    requires meetingId in store.meetings && store.meetings[meetingId].status == Completed
    requires DomainMeeting.IsHost(store.meetings[meetingId], userId)
    ensures UpdateMeetingStatus(store, meetingId, Waiting, userId).Ok?
    ensures UpdateMeetingStatus(store, meetingId, Waiting, userId).value.meetings[meetingId].status == Waiting
    ensures MeetingStatusService.UpdateMeetingStatus(store, meetingId, Some("WAITING"), None, userId, now).Err?
  {
  }

  /** `deleteMeeting`: the host's deletion logs a CANCELLED entry and removes the meeting. */
  function DeleteMeeting(store: Store, meetingId: int, userId: int): (r: Result<Store>)
    ensures meetingId !in store.meetings ==> r == Fail(Runtime, MeetingStatusService.NotFoundMessage(meetingId))
    ensures r.Ok? <==> meetingId in store.meetings && DomainMeeting.IsHost(store.meetings[meetingId], userId)
    ensures r.Ok? ==>
      && r.value.meetings == store.meetings - {meetingId}
      && meetingId !in r.value.meetings
      && r.value.history == store.history + [History.Entry(meetingId, userId, History.CancelledAction, Some("약속 삭제"))]
  {
    if meetingId !in store.meetings then Fail(Runtime, MeetingStatusService.NotFoundMessage(meetingId))
    else
      var m := store.meetings[meetingId];
      var _ :- MeetingStatusService.CheckHost(m, userId, "약속 삭제 권한이 없습니다");
      Ok(Store(store.meetings - {meetingId},
               store.history + [History.Entry(meetingId, userId, History.CancelledAction, Some("약속 삭제"))]))
  }

  /** `getMeeting`: the stored meeting, or the not-found RuntimeException. */
  function GetMeeting(store: Store, meetingId: int): (r: Result<DomainMeeting.Meeting>)
    ensures r.Ok? <==> meetingId in store.meetings
    ensures r.Ok? ==> r.value == store.meetings[meetingId]
    ensures r.Err? ==> r.error == Exception(Runtime, Some(MeetingStatusService.NotFoundMessage(meetingId)))
  {
    if meetingId in store.meetings then Ok(store.meetings[meetingId])
    else Fail(Runtime, MeetingStatusService.NotFoundMessage(meetingId))
  }

  /**
   * After a successful creation the new id reads back as a WAITING meeting
   * with the request's title, time and host row, and every other meeting
   * reads back as before.
   */
  lemma CreateThenGet(store: Store, request: CreateRequest, hostId: int, newId: int,
                      userExists: int -> bool, now: Time)
    requires newId !in store.meetings
    requires CreateMeeting(store, request, hostId, newId, userExists, now).Ok?
    ensures var s := CreateMeeting(store, request, hostId, newId, userExists, now).value.0;
            && GetMeeting(s, newId).Ok?
            && GetMeeting(s, newId).value.id == newId
            && GetMeeting(s, newId).value.title == request.title
            && GetMeeting(s, newId).value.meetingTime == request.meetingTime
            && GetMeeting(s, newId).value.status == Waiting
            && GetMeeting(s, newId).value.participants[0] == DomainMeeting.Participant(newId, hostId, Accepted, Some(now), now)
            && forall k :: k != newId ==> GetMeeting(s, k) == GetMeeting(store, k)
  {
    var s := CreateMeeting(store, request, hostId, newId, userExists, now).value.0;
    forall k | k != newId
      ensures GetMeeting(s, k) == GetMeeting(store, k)
    {
      assert k in s.meetings <==> k in store.meetings;
    }
  }

  /** After a successful deletion the id is not found, and every other meeting reads back as before. */
  lemma DeleteThenGet(store: Store, meetingId: int, userId: int)
    requires DeleteMeeting(store, meetingId, userId).Ok?
    ensures var s := DeleteMeeting(store, meetingId, userId).value;
            && GetMeeting(s, meetingId) == Fail(Runtime, MeetingStatusService.NotFoundMessage(meetingId))
            && forall k :: k != meetingId ==> GetMeeting(s, k) == GetMeeting(store, k)
  {
  }

  /**
   * An invitee listed twice: the first save inserts the row and the second
   * breaks the unique constraint, so the whole creation fails.
   */
  lemma CreateWithRepeatedInviteeFails(store: Store, newId: int, now: Time)
    requires newId !in store.meetings
    ensures var request := CreateRequest("저녁 약속", None, now + 60, Some(10), None, None, None, Some([456, 456]));
            var r := CreateMeeting(store, request, 123, newId, (u: int) => true, now);
            r.Err? && r.error == Exception(DataIntegrityViolation, None)
  {
    var known := (u: int) => true;
    var ids := [456, 456];
    assert ids[1..] == [456];
    assert InviteeRowsAfter([456], 123, newId, known, now, {456}) == Err(Exception(DataIntegrityViolation, None));
  }
}

=== FILE: meeting_status.dfy ===
/**
 * The meeting and participant-response enumerations. The `entity` and the
 * `domain.entity` packages each declare a `MeetingStatus` and a
 * `ResponseStatus` with the same constants and the same display names;
 * they are one datatype each here, carrying the predicates of both.
 */
module MeetingStatuses {
  import opened Wrappers

  type Time = int

  datatype MeetingStatus = Waiting | Confirmed | Completed | Cancelled
  {
    /** `Enum.name()`. */
    function Name(): string
    {
      match this
      case Waiting => "WAITING"
      case Confirmed => "CONFIRMED"
      case Completed => "COMPLETED"
      case Cancelled => "CANCELLED"
    }

    function DisplayName(): string
    {
      match this
      case Waiting => "대기 중"
      case Confirmed => "확정"
      case Completed => "완료"
      case Cancelled => "취소"
    }

    predicate IsEditable()
    {
      this == Waiting || this == Confirmed
    }

    predicate IsFinal()
    {
      this == Completed || this == Cancelled
    }
  }

  /** `MeetingStatus.valueOf`: the constant with exactly that name, if any. */
  function ParseMeetingStatus(name: string): (r: Option<MeetingStatus>)
    ensures r.Some? ==> r.value.Name() == name
    ensures r.None? ==> forall s: MeetingStatus :: s.Name() != name
  {
    if name == "WAITING" then Some(Waiting)
    else if name == "CONFIRMED" then Some(Confirmed)
    else if name == "COMPLETED" then Some(Completed)
    else if name == "CANCELLED" then Some(Cancelled)
    else None
  }

  /** `valueOf(s.name()) == s`. */
  lemma ParseMeetingStatusName(s: MeetingStatus)
    ensures ParseMeetingStatus(s.Name()) == Some(s)
  {
  }

  /** Every status is exactly one of editable and final. */
  lemma EditableIffNotFinal(s: MeetingStatus)
    ensures s.IsEditable() <==> !s.IsFinal()
  {
  }

  /** The display names tell the statuses apart. */
  lemma MeetingDisplayNamesDistinct(s: MeetingStatus, t: MeetingStatus)
    requires s.DisplayName() == t.DisplayName()
    ensures s == t
  {
  }

  datatype ResponseStatus = Invited | Accepted | Rejected
  {
    function Name(): string
    {
      match this
      case Invited => "INVITED"
      case Accepted => "ACCEPTED"
      case Rejected => "REJECTED"
    }

    function DisplayName(): string
    {
      match this
      case Invited => "초대됨"
      case Accepted => "참여"
      case Rejected => "거부"
    }

    predicate IsFinal()
    {
      this == Accepted || this == Rejected
    }

    predicate IsPositive()
    {
      this == Accepted
    }
  }

  /** A final response is either the positive one or a rejection; only an invitation is open. */
  lemma ResponseFinality(r: ResponseStatus)
    ensures r.IsFinal() <==> r != Invited
    ensures r.IsPositive() ==> r.IsFinal()
  {
  }

  /**
   * The join time a participant keeps after answering `response`:
   * accepting records `now` unless a join time is already recorded;
   * rejecting or returning to invited clears it.
   */
  function JoinedAtAfter(response: ResponseStatus, joinedAt: Option<Time>, now: Time): (r: Option<Time>)
    ensures r.Some? <==> response == Accepted
    ensures response == Accepted && joinedAt.Some? ==> r == joinedAt
    ensures response == Accepted && joinedAt.None? ==> r == Some(now)
  {
    match response
    case Accepted => if joinedAt.None? then Some(now) else joinedAt
    case _ => None
  }

  /** Accepting twice keeps the first join time. */
  lemma JoinedAtAfterAcceptIdempotent(joinedAt: Option<Time>, t1: Time, t2: Time)
    ensures JoinedAtAfter(Accepted, JoinedAtAfter(Accepted, joinedAt, t1), t2)
         == JoinedAtAfter(Accepted, joinedAt, t1)
  {
  }
}

/** The meeting history log shared by the meeting services. */
module History {
  import opened Wrappers

  datatype ActionType =
    | Created
    | Joined
    | Declined
    | CompletedAction
    | CancelledAction
    | Updated
    | StatusChanged
    | ConfirmedAction

  datatype Entry = Entry(meetingId: int, userId: int, action: ActionType, details: Option<string>)
}

=== FILE: meeting_status_service.dfy ===
/**
 * The meeting status state machine of `MeetingStatusService`: who may
 * change a status, which changes are permitted, and the history entries a
 * permitted change records.
 */
module MeetingStatusService {
  import opened Wrappers
  import opened Text
  import opened MeetingStatuses
  import DomainMeeting
  import History
  import opened MeetingRepository

  const NotHostMessage := "약속 상태 변경 권한이 없습니다"
  const SameStatusMessage := "현재와 동일한 상태로 변경할 수 없습니다"

  function NotFoundMessage(meetingId: int): string
  {
    "약속을 찾을 수 없습니다: " + IntToString(meetingId)
  }

  /** `isValidStatusTransition`: the transition table. */
  predicate IsValidStatusTransition(current: MeetingStatus, next: MeetingStatus)
  {
    match current
    case Waiting => next == Confirmed || next == Cancelled
    case Confirmed => next == Completed || next == Cancelled
    case Completed => false
    case Cancelled => next == Waiting
  }

  /**
   * The shape of the table: no status moves to itself, COMPLETED is
   * terminal, every other status has a way out, and a meeting reaches
   * COMPLETED only from CONFIRMED.
   */
  lemma TransitionTableShape(current: MeetingStatus, next: MeetingStatus)
    ensures IsValidStatusTransition(current, next) ==> current != next
    ensures current == Completed ==> !IsValidStatusTransition(current, next)
    ensures current != Completed ==> exists n :: IsValidStatusTransition(current, n)
    ensures next == Completed && IsValidStatusTransition(current, next) ==> current == Confirmed
  {
    if current != Completed {
      var n := match current
        case Waiting => Confirmed
        case Confirmed => Completed
        case _ => Waiting;
      assert IsValidStatusTransition(current, n);
    }
  }

  /**
   * When a change is permitted, stated without the order of the checks:
   * the table allows it, confirming needs two accepted participants and a
   * meeting time not in the past, completing needs a meeting time not in
   * the future.
   */
  predicate Permitted(current: MeetingStatus, next: MeetingStatus, acceptedCount: nat,
                      meetingTime: Time, now: Time)
  {
    && IsValidStatusTransition(current, next)
    && (next == Confirmed ==> acceptedCount >= 2 && meetingTime >= now)
    && (next == Completed ==> meetingTime <= now)
  }

  /**
   * `validateStatusTransition`: the message of the exception thrown, if any.
   * The checks run in `validateStatusTransition`'s order: same status, then the
   * target-specific checks, then the table.
   */
  function TransitionError(current: MeetingStatus, next: MeetingStatus, acceptedCount: nat,
                           meetingTime: Time, now: Time): (r: Option<string>)
    ensures r.None? <==> Permitted(current, next, acceptedCount, meetingTime, now)
    ensures current == next ==> r == Some(SameStatusMessage)
  {
    if current == next then Some(SameStatusMessage)
    else if next == Confirmed && acceptedCount < 2 then
      Some("최소 2명 이상의 참여자가 필요합니다 (현재: " + IntToString(acceptedCount) + "명)")
    else if next == Confirmed && meetingTime < now then Some("과거 시간의 약속은 확정할 수 없습니다")
    else if next == Completed && meetingTime > now then Some("아직 약속 시간이 되지 않았습니다")
    else if next == Completed && current != Confirmed then Some("확정된 약속만 완료 상태로 변경할 수 있습니다")
    else if next == Cancelled && current == Completed then Some("이미 완료된 약속은 취소할 수 없습니다")
    else if !IsValidStatusTransition(current, next) then
      Some("유효하지 않은 상태 변경입니다: " + current.Name() + " → " + next.Name())
    else None
  }

  /**
   * The service lets a cancelled meeting go back to WAITING, a change the
   * `entity` meeting's own `updateStatus` refuses (final to non-final).
   */
  lemma CancelledMeetingCanReopen(acceptedCount: nat, meetingTime: Time, now: Time)
    ensures Permitted(Cancelled, Waiting, acceptedCount, meetingTime, now)
    ensures Cancelled.IsFinal() && !Waiting.IsFinal()
  {
  }

  /** The details text of the STATUS_CHANGED entry. */
  function ChangeDetails(previous: MeetingStatus, next: MeetingStatus, reason: Option<string>): string
  {
    "상태 변경: " + previous.Name() + " → " + next.Name()
    + (if reason.Some? then " (사유: " + reason.value + ")" else "")
  }

  /** `handleStatusSpecificActions`: the extra entry a change to `next` records. */
  function StatusSpecificEntries(meetingId: int, next: MeetingStatus, userId: int): (r: seq<History.Entry>)
    ensures |r| <= 1
    ensures r == [] <==> next == Waiting
    ensures |r| == 1 ==> r[0].meetingId == meetingId && r[0].userId == userId
  {
    match next
    case Confirmed => [History.Entry(meetingId, userId, History.ConfirmedAction, Some("약속 확정됨"))]
    case Cancelled => [History.Entry(meetingId, userId, History.CancelledAction, Some("약속 취소됨"))]
    case Completed => [History.Entry(meetingId, userId, History.CompletedAction, Some("약속 완료됨"))]
    case Waiting => []
  }

  /** What `updateMeetingStatus` reports (`MeetingStatusResponse.from`). */
  datatype StatusChange = StatusChange(
    meeting: DomainMeeting.Meeting,
    previous: MeetingStatus,
    reason: Option<string>,
    changedBy: int)

  /**
   * `Meeting.MeetingStatus.valueOf` on the request's status text: a null
   * text throws `NullPointerException`, an unknown name throws
   * `IllegalArgumentException` whose message is `Enum.valueOf`'s, naming the
   * enum by its canonical name.
   */
  function ParseRequestedStatus(status: Option<string>): (r: Result<MeetingStatus>)
    ensures r.Ok? <==> status.Some? && ParseMeetingStatus(status.value).Some?
    ensures r.Ok? ==> r.value.Name() == status.value
    ensures status.None? ==> r.Err? && r.error.kind == NullPointer
    ensures status.Some? && r.Err? ==> r == Fail(IllegalArgument, UnknownStatusPrefix + status.value)
  {
    if status.None? then NullDeref()
    else match ParseMeetingStatus(status.value)
      case Some(s) => Ok(s)
      case None => Fail(IllegalArgument, UnknownStatusPrefix + status.value)
  }

  /** `Enum.valueOf`'s message for `com.promiseservice.domain.entity.Meeting.MeetingStatus`, before the name. */
  const UnknownStatusPrefix := "No enum constant com.promiseservice.domain.entity.Meeting.MeetingStatus."


  /** Whether `userId` is the meeting's host, with `getHostId().equals` throwing on a null host. */
  function CheckHost(m: DomainMeeting.Meeting, userId: int, message: string): (r: Result<()>)
    ensures r.Ok? <==> DomainMeeting.IsHost(m, userId)
    ensures DomainMeeting.HostId(m).None? ==> r.Err? && r.error.kind == NullPointer
    ensures DomainMeeting.HostId(m).Some? && r.Err? ==> r.error == Exception(Runtime, Some(message))
  {
    match DomainMeeting.HostId(m)
    case None => NullDeref()
    case Some(h) => if h == userId then Ok(()) else Fail(Runtime, message)
  }

  /**
   * `updateMeetingStatus`: the meeting must exist, the caller must be its
   * host, the requested name must be a status, and the change must pass
   * `validateStatusTransition`; then the status is set and a STATUS_CHANGED
   * entry, followed by the status-specific entry, is appended to the history.
   */
  function UpdateMeetingStatus(store: Store, meetingId: int, requestedStatus: Option<string>,
                               reason: Option<string>, userId: int, now: Time): (r: Result<(Store, StatusChange)>)
    ensures meetingId !in store.meetings ==> r == Fail(Runtime, NotFoundMessage(meetingId))
    ensures meetingId in store.meetings && !DomainMeeting.IsHost(store.meetings[meetingId], userId) ==> r.Err?
    ensures r.Ok? <==>
      && meetingId in store.meetings
      && DomainMeeting.IsHost(store.meetings[meetingId], userId)
      && requestedStatus.Some? && ParseMeetingStatus(requestedStatus.value).Some?
      && var m := store.meetings[meetingId];
         Permitted(m.status, ParseMeetingStatus(requestedStatus.value).value,
                   DomainMeeting.AcceptedCount(m.participants), m.meetingTime, now)
    ensures r.Ok? ==>
      var m := store.meetings[meetingId];
      var next := ParseMeetingStatus(requestedStatus.value).value;
      var (s, change) := r.value;
      && s.meetings == store.meetings[meetingId := m.(status := next)]
      && s.history == store.history
         + [History.Entry(meetingId, userId, History.StatusChanged, Some(ChangeDetails(m.status, next, reason)))]
         + StatusSpecificEntries(meetingId, next, userId)
      && change == StatusChange(m.(status := next), m.status, reason, userId)
  {
    if meetingId !in store.meetings then Fail(Runtime, NotFoundMessage(meetingId))
    else
      var m := store.meetings[meetingId];
      var _ :- CheckHost(m, userId, NotHostMessage);
      var next :- ParseRequestedStatus(requestedStatus);
      match TransitionError(m.status, next, DomainMeeting.AcceptedCount(m.participants), m.meetingTime, now)
      case Some(message) => Fail(Runtime, message)
      case None =>
        var updated := m.(status := next);
        var entry := History.Entry(meetingId, userId, History.StatusChanged, Some(ChangeDetails(m.status, next, reason)));
        Ok((Store(store.meetings[meetingId := updated],
                  store.history + [entry] + StatusSpecificEntries(meetingId, next, userId)),
            StatusChange(updated, m.status, reason, userId)))
  }

  /** A successful change always moves to a different status and never leaves COMPLETED. */
  lemma UpdateChangesStatus(store: Store, meetingId: int, requestedStatus: Option<string>,
                            reason: Option<string>, userId: int, now: Time)
    requires UpdateMeetingStatus(store, meetingId, requestedStatus, reason, userId, now).Ok?
    ensures var (s, change) := UpdateMeetingStatus(store, meetingId, requestedStatus, reason, userId, now).value;
            && change.previous != s.meetings[meetingId].status
            && change.previous != Completed
            && |s.history| == |store.history| + (if s.meetings[meetingId].status == Waiting then 1 else 2)
  {
    var m := store.meetings[meetingId];
    var next := ParseMeetingStatus(requestedStatus.value).value;
    TransitionTableShape(m.status, next);
  }

  // Status statistics.

  datatype StatusStatistics = StatusStatistics(waiting: nat, confirmed: nat, completed: nat, cancelled: nat, total: nat)

  /** `countByStatus` over the meeting rows. */
  function CountByStatus(statuses: seq<MeetingStatus>, status: MeetingStatus): (n: nat)
    ensures n <= |statuses|
  {
    if statuses == [] then 0
    else CountByStatus(statuses[1..], status) + (if statuses[0] == status then 1 else 0)
  }

  /** `getStatusStatistics`: the four counts and their sum. */
  function GetStatusStatistics(statuses: seq<MeetingStatus>): (r: StatusStatistics)
    ensures r.total == r.waiting + r.confirmed + r.completed + r.cancelled
  {
    var w := CountByStatus(statuses, Waiting);
    var cf := CountByStatus(statuses, Confirmed);
    var cp := CountByStatus(statuses, Completed);
    var cn := CountByStatus(statuses, Cancelled);
    StatusStatistics(w, cf, cp, cn, w + cf + cp + cn)
  }

  /** Every meeting has exactly one status, so the total counts every meeting once. */
  lemma {:induction false} StatisticsTotalIsMeetingCount(statuses: seq<MeetingStatus>)
    ensures GetStatusStatistics(statuses).total == |statuses|
  {
    if statuses != [] {
      StatisticsTotalIsMeetingCount(statuses[1..]);
    }
  }
}

=== FILE: notification_log.dfy ===
/**
 * `NotificationLog` and `NotificationLogService`: one row per delivery
 * attempt, kept idempotent per (meeting, user, channel, trace id). The
 * repository is a sequence of rows in insertion order.
 */
module NotificationLogs {
  import opened Wrappers
  import opened Text
  import KakaoSendResults
  import Seqs

  datatype Channel = Kakao | Sms | Email

  datatype LogRow = LogRow(
    meetingId: int,
    userId: int,
    channel: Channel,
    payloadJson: string,
    httpStatus: Option<int>,
    resultCode: Option<int>,
    errorJson: Option<string>,
    traceId: string)

  /** `isSuccess`: a non-null 2xx status and a null or zero result code. */
  predicate IsSuccess(row: LogRow)
  {
    row.httpStatus.Some? && 200 <= row.httpStatus.value < 300
    && (row.resultCode.None? || row.resultCode.value == 0)
  }

  /** The boundaries of the success test: 200 and 299 succeed, 199 and 300 and a null status do not. */
  lemma SuccessBoundaries(row: LogRow)
    requires row.resultCode.None? || row.resultCode == Some(0)
    ensures row.httpStatus == Some(200) ==> IsSuccess(row)
    ensures row.httpStatus == Some(299) ==> IsSuccess(row)
    ensures row.httpStatus == Some(199) ==> !IsSuccess(row)
    ensures row.httpStatus == Some(300) ==> !IsSuccess(row)
    ensures row.httpStatus.None? ==> !IsSuccess(row)
  {
  }

  /** Any non-zero result code fails, even with status 200. */
  lemma NonZeroCodeFails(row: LogRow)
    requires row.resultCode.Some? && row.resultCode.value != 0
    ensures !IsSuccess(row)
  {
  }

  /** The key the repository looks a row up by. */
  predicate HasKey(row: LogRow, meetingId: int, userId: int, channel: Channel, traceId: string)
  {
    row.meetingId == meetingId && row.userId == userId && row.channel == channel && row.traceId == traceId
  }

  /** The rows holding the key, in insertion order. */
  function Matches(store: seq<LogRow>, meetingId: int, userId: int, channel: Channel, traceId: string): seq<LogRow>
  {
    Seqs.Filter(store, row => HasKey(row, meetingId, userId, channel, traceId))
  }

  /**
   * `findByMeetingIdAndUserIdAndChannelAndTraceId`: an `Optional` query, so
   * no row gives empty, one row gives that row, and several rows (nothing
   * in the table forbids them) make Spring throw.
   */
  function Find(store: seq<LogRow>, meetingId: int, userId: int, channel: Channel, traceId: string): (r: Result<Option<LogRow>>)
    ensures r == Ok(None) <==> forall i :: 0 <= i < |store| ==> !HasKey(store[i], meetingId, userId, channel, traceId)
    ensures r.Ok? && r.value.Some? ==>
              r.value.value in store && HasKey(r.value.value, meetingId, userId, channel, traceId)
              && forall i :: 0 <= i < |store| && HasKey(store[i], meetingId, userId, channel, traceId) ==> store[i] == r.value.value
    ensures r.Err? <==> exists i, j :: 0 <= i < j < |store| && HasKey(store[i], meetingId, userId, channel, traceId)
                                       && HasKey(store[j], meetingId, userId, channel, traceId)
    ensures r.Err? ==> r.error.kind == IncorrectResultSize
  {
    var ms := Matches(store, meetingId, userId, channel, traceId);
    MatchesCount(store, meetingId, userId, channel, traceId);
    if |ms| == 0 then Ok(None)
    else if |ms| == 1 then Ok(Some(ms[0]))
    else Err(Exception(IncorrectResultSize, None))
  }

  /** No matching row, one matching row, or two at distinct positions: what `Matches` counts. */
  lemma MatchesCount(store: seq<LogRow>, meetingId: int, userId: int, channel: Channel, traceId: string)
    ensures var ms := Matches(store, meetingId, userId, channel, traceId);
            && (|ms| == 0 <==> forall i :: 0 <= i < |store| ==> !HasKey(store[i], meetingId, userId, channel, traceId))
            && (|ms| == 1 ==> forall i :: 0 <= i < |store| && HasKey(store[i], meetingId, userId, channel, traceId) ==> store[i] == ms[0])
            && (|ms| >= 2 <==> exists i, j :: 0 <= i < j < |store| && HasKey(store[i], meetingId, userId, channel, traceId)
                                              && HasKey(store[j], meetingId, userId, channel, traceId))
  {
    var ms := Matches(store, meetingId, userId, channel, traceId);
    if |ms| > 0 {
      assert ms[0] in ms;
    }
    assert forall i :: 0 <= i < |store| && HasKey(store[i], meetingId, userId, channel, traceId) ==> store[i] in ms;
    Seqs.FilterTwice(store, row => HasKey(row, meetingId, userId, channel, traceId));
  }

  /** No two rows share a (meeting, user, channel, trace id) key. */
  predicate UniqueKeys(store: seq<LogRow>)
  {
    forall i, j :: 0 <= i < j < |store| ==>
      !HasKey(store[j], store[i].meetingId, store[i].userId, store[i].channel, store[i].traceId)
  }

  /** Under unique keys the lookup never throws. */
  lemma UniqueKeysFindOk(store: seq<LogRow>, meetingId: int, userId: int, channel: Channel, traceId: string)
    ensures UniqueKeys(store) ==> Find(store, meetingId, userId, channel, traceId).Ok?
  {
  }

  /** The row `logKakaoSend` builds: channel KAKAO, status, code and error copied from the result. */
  function KakaoRow(meetingId: int, userId: int, payloadJson: string,
                    result: KakaoSendResults.SendRecord, traceId: string): LogRow
  {
    LogRow(meetingId, userId, Kakao, payloadJson, Some(result.httpStatus), result.resultCode,
           result.errorMessage, traceId)
  }

  /**
   * `logKakaoSend`: the row already logged under the key, with nothing
   * inserted; otherwise a new row copied from the result, appended. The
   * lookup's exception (several rows under the key) escapes.
   */
  function LogKakaoSend(store: seq<LogRow>, meetingId: int, userId: int, payloadJson: string,
                        result: KakaoSendResults.SendRecord, traceId: string): (out: Result<(seq<LogRow>, LogRow)>)
    ensures out.Err? <==> Find(store, meetingId, userId, Kakao, traceId).Err?
    ensures out.Err? ==> out.error.kind == IncorrectResultSize
    ensures out.Ok? ==> HasKey(out.value.1, meetingId, userId, Kakao, traceId)
    ensures Find(store, meetingId, userId, Kakao, traceId).Ok? && Find(store, meetingId, userId, Kakao, traceId).value.Some? ==>
              out == Ok((store, Find(store, meetingId, userId, Kakao, traceId).value.value))
    ensures Find(store, meetingId, userId, Kakao, traceId) == Ok(None) ==>
              out.Ok? && out.value.0 == store + [out.value.1]
              && out.value.1 == KakaoRow(meetingId, userId, payloadJson, result, traceId)
              && out.value.1.payloadJson == payloadJson
              && out.value.1.httpStatus == Some(result.httpStatus)
              && out.value.1.resultCode == result.resultCode
              && out.value.1.errorJson == result.errorMessage
    ensures UniqueKeys(store) ==> out.Ok? && UniqueKeys(out.value.0)
  {
    UniqueKeysFindOk(store, meetingId, userId, Kakao, traceId);
    var existing :- Find(store, meetingId, userId, Kakao, traceId);
    if existing.Some? then Ok((store, existing.value))
    else
      var row := KakaoRow(meetingId, userId, payloadJson, result, traceId);
      assert forall i :: 0 <= i < |store| ==> !HasKey(store[i], meetingId, userId, Kakao, traceId);
      Ok((store + [row], row))
  }

  /** A newly logged row is a success exactly when the API result was one. */
  lemma LoggedSuccessMatchesResult(meetingId: int, userId: int, payloadJson: string,
                                   result: KakaoSendResults.SendRecord, traceId: string)
    ensures IsSuccess(KakaoRow(meetingId, userId, payloadJson, result, traceId))
            <==> KakaoSendResults.IsSuccess(result)
  {
  }

  /**
   * Logging the same key twice, whatever the second payload and result,
   * leaves one row and returns the first one, as long as the first call
   * succeeds.
   */
  lemma {:induction false} LogKakaoSendIdempotent(store: seq<LogRow>, meetingId: int, userId: int,
                                                  p1: string, r1: KakaoSendResults.SendRecord,
                                                  p2: string, r2: KakaoSendResults.SendRecord, traceId: string)
    ensures var first := LogKakaoSend(store, meetingId, userId, p1, r1, traceId);
            first.Ok? ==>
              var second := LogKakaoSend(first.value.0, meetingId, userId, p2, r2, traceId);
              second == first
  {
    var first := LogKakaoSend(store, meetingId, userId, p1, r1, traceId);
    if first.Ok? {
      var (s1, row1) := first.value;
      FindAppend(store, row1, meetingId, userId, Kakao, traceId);
    }
  }

  /**
   * Appending a row under a key no row had makes the lookup return it, and
   * appending under any other key leaves the lookup as it was.
   */
  lemma {:induction false} FindAppend(store: seq<LogRow>, row: LogRow, meetingId: int, userId: int,
                                      channel: Channel, traceId: string)
    ensures Find(store, meetingId, userId, channel, traceId).Ok? && Find(store, meetingId, userId, channel, traceId).value.Some?
            && !HasKey(row, meetingId, userId, channel, traceId) ==>
              Find(store + [row], meetingId, userId, channel, traceId) == Find(store, meetingId, userId, channel, traceId)
    ensures Find(store, meetingId, userId, channel, traceId) == Ok(None) && HasKey(row, meetingId, userId, channel, traceId) ==>
              Find(store + [row], meetingId, userId, channel, traceId) == Ok(Some(row))
  {
    var key := (r: LogRow) => HasKey(r, meetingId, userId, channel, traceId);
    Seqs.FilterSnoc(store, row, key);
    assert Matches(store + [row], meetingId, userId, channel, traceId)
           == Matches(store, meetingId, userId, channel, traceId) + (if key(row) then [row] else []);
  }

  /** A second log row under the key (`logFailedSend` never looks first) makes `logKakaoSend` throw. */
  lemma DuplicateKeyThrows(store: seq<LogRow>, meetingId: int, userId: int, traceId: string,
                           e1: Option<string>, e2: Option<string>, payloadJson: string,
                           result: KakaoSendResults.SendRecord)
    ensures var s1 := LogFailedSend(store, meetingId, userId, traceId, e1).0;
            var s2 := LogFailedSend(s1, meetingId, userId, traceId, e2).0;
            LogKakaoSend(s2, meetingId, userId, payloadJson, result, traceId).Err?
  {
    var s1 := LogFailedSend(store, meetingId, userId, traceId, e1).0;
    var s2 := LogFailedSend(s1, meetingId, userId, traceId, e2).0;
    assert HasKey(s2[|store|], meetingId, userId, Kakao, traceId);
    assert HasKey(s2[|store| + 1], meetingId, userId, Kakao, traceId);
  }

  /** The opening of the failure payload, up to the error text. */
  const ErrorPayloadHead := "{\"error\":\""

  /**
   * `logFailedSend`: always appends a KAKAO row with status 0, result code
   * -1, the error as the error text and `{"error":"<error>"}` as payload
   * (the error is concatenated unescaped; null writes "null").
   */
  function LogFailedSend(store: seq<LogRow>, meetingId: int, userId: int, traceId: string,
                         errorMessage: Option<string>): (out: (seq<LogRow>, LogRow))
    ensures out.0 == store + [out.1]
    ensures HasKey(out.1, meetingId, userId, Kakao, traceId)
    ensures out.1.httpStatus == Some(0) && out.1.resultCode == Some(-1) && out.1.errorJson == errorMessage
    ensures StartsWith(out.1.payloadJson, ErrorPayloadHead) && EndsWith(out.1.payloadJson, "\"}")
    ensures |out.1.payloadJson| == |ErrorPayloadHead| + |Appended(errorMessage)| + 2
    ensures out.1.payloadJson[|ErrorPayloadHead|..|out.1.payloadJson| - 2] == Appended(errorMessage)
    ensures errorMessage.Some? ==>
              out.1.payloadJson[|ErrorPayloadHead|..|out.1.payloadJson| - 2] == out.1.errorJson.value
    ensures !IsSuccess(out.1)
  {
    var payload := ErrorPayloadHead + Appended(errorMessage) + "\"}";
    assert payload[..|ErrorPayloadHead|] == ErrorPayloadHead;
    assert payload[|payload| - 2..] == "\"}";
    assert payload[|ErrorPayloadHead|..|payload| - 2] == Appended(errorMessage);
    var row := LogRow(meetingId, userId, Kakao, payload, Some(0), Some(-1), errorMessage, traceId);
    (store + [row], row)
  }

  /** `String.format("%d", meetingId)` of a nullable `Long`: null writes "null". */
  function FormatLong(n: Option<int>): string
  {
    if n.Some? then IntToString(n.value) else "null"
  }

  /**
   * `generateTraceId`: "mtg-", the meeting id, "-" and the first eight
   * characters of the random UUID text (passed in).
   */
  function TraceId(meetingId: Option<int>, uuid: string): (t: string)
    requires |uuid| >= 8
    ensures StartsWith(t, "mtg-")
    ensures |t| >= 4 + 1 + 1 + 8 && t[|t| - 9] == '-' && t[|t| - 8..] == uuid[..8]
  {
    var t := "mtg-" + FormatLong(meetingId) + "-" + uuid[..8];
    assert t[..4] == "mtg-";
    t
  }

  /** With the same random part, distinct meetings get distinct trace ids. */
  lemma TraceIdSeparatesMeetings(a: int, b: int, uuid: string)
    requires |uuid| >= 8
    requires TraceId(Some(a), uuid) == TraceId(Some(b), uuid)
    ensures a == b
  {
    var t := TraceId(Some(a), uuid);
    var sa, sb := IntToString(a), IntToString(b);
    assert t == "mtg-" + sa + "-" + uuid[..8];
    assert t == "mtg-" + sb + "-" + uuid[..8];
    assert |sa| == |sb|;
    assert sa == t[4..4 + |sa|];
    assert sb == t[4..4 + |sb|];
    IntToStringInjective(a, b);
  }
}

=== FILE: notification_response.dfy ===
/**
 * `NotificationResponse` and `SmsNotificationResponse`: the outcome of a
 * send, built from the recipients that succeeded and those that failed.
 * The two classes differ only in their element type (user ids or phone
 * numbers) and in the word their summary message uses, so they are one
 * generic record here with the word as a parameter.
 */
module NotificationResponses {
  import opened Wrappers
  import opened Text

  datatype Response<T(==)> = Response(
    successfullyNotified: seq<T>,
    failedToNotify: seq<T>,
    failureReasons: Option<map<T, Option<string>>>,
    message: string,
    totalRecipients: nat,
    successCount: nat,
    failureCount: nat)

  /** The word of the push-notification response's summary. */
  const PushLabel := "알림"
  /** The word of the SMS response's summary. */
  const SmsLabel := "SMS"
  const Separator := ", "

  function SuccessClause(word: string, n: nat): string
  {
    "성공적으로 전송된 " + word + ": " + NatToString(n) + "건"
  }

  function FailureClause(word: string, n: nat): string
  {
    "전송 실패한 " + word + ": " + NatToString(n) + "건"
  }

  /**
   * The two-list constructor: the counters are the list sizes, and the
   * message names the successes, then the failures, each only when its
   * list is non-empty. No failure reasons are recorded yet.
   */
  function NewResponse<T(==)>(word: string, succeeded: seq<T>, failed: seq<T>): (r: Response<T>)
    ensures r.successfullyNotified == succeeded && r.failedToNotify == failed
    ensures r.totalRecipients == r.successCount + r.failureCount
    ensures r.successCount == |succeeded| && r.failureCount == |failed|
    ensures r.failureReasons.None?
    ensures r.message == "" <==> succeeded == [] && failed == []
    ensures succeeded != [] ==> StartsWith(r.message, SuccessClause(word, |succeeded|))
    ensures failed != [] ==> EndsWith(r.message, FailureClause(word, |failed|))
  {
    var head := if succeeded != [] then SuccessClause(word, |succeeded|) else "";
    var message :=
      if failed == [] then head
      else (if head != "" then head + Separator else "") + FailureClause(word, |failed|);
    StartsWithConcat(head, Separator + FailureClause(word, |failed|));
    assert head + Separator + FailureClause(word, |failed|) == head + (Separator + FailureClause(word, |failed|));
    Response(succeeded, failed, None, message, |succeeded| + |failed|, |succeeded|, |failed|)
  }

  /** The setter the services call after construction; nothing else changes. */
  function WithFailureReasons<T(==)>(r: Response<T>, reasons: map<T, Option<string>>): (q: Response<T>)
    ensures q.failureReasons == Some(reasons)
    ensures q.(failureReasons := r.failureReasons) == r
  {
    r.(failureReasons := Some(reasons))
  }

  // Why the separator appears exactly when both lists are non-empty.

  /** A decimal rendering holds no comma. */
  lemma NoCommaInDigits(n: nat)
    ensures ',' !in NatToString(n)
  {
    var d := NatToString(n);
    forall i | 0 <= i < |d|
      ensures d[i] != ','
    {
      assert IsDigit(d[i]);
    }
  }

  /** With a comma-free word, neither clause holds a comma. */
  lemma NoCommaInClauses(word: string, n: nat)
    requires ',' !in word
    ensures ',' !in SuccessClause(word, n) && ',' !in FailureClause(word, n)
  {
    NoCommaInDigits(n);
  }

  /** A comma-free string does not contain the separator. */
  lemma CommaFreeLacksSeparator(s: string)
    requires ',' !in s
    ensures !Contains(s, Separator)
  {
    forall i | 0 <= i < |s|
      ensures s[i] != Separator[0]
    {
      assert s[i] in s;
    }
    AbsentFirstCharNotContained(s, Separator);
  }

  /**
   * The summary contains the separator iff both lists are non-empty, and
   * then it is the success clause, the separator and the failure clause in
   * that order.
   */
  lemma SeparatorIffBoth<T>(word: string, succeeded: seq<T>, failed: seq<T>)
    requires ',' !in word
    ensures Contains(NewResponse(word, succeeded, failed).message, Separator) <==> succeeded != [] && failed != []
    ensures succeeded != [] && failed != [] ==>
              NewResponse(word, succeeded, failed).message
              == SuccessClause(word, |succeeded|) + Separator + FailureClause(word, |failed|)
  {
    var m := NewResponse(word, succeeded, failed).message;
    if succeeded != [] && failed != [] {
      JoinedClausesHaveSeparator(SuccessClause(word, |succeeded|), FailureClause(word, |failed|));
    } else {
      if succeeded != [] {
        assert m == SuccessClause(word, |succeeded|);
        NoCommaInClauses(word, |succeeded|);
      } else if failed != [] {
        assert m == FailureClause(word, |failed|);
        NoCommaInClauses(word, |failed|);
      }
      CommaFreeLacksSeparator(m);
    }
  }

  lemma JoinedClausesHaveSeparator(sc: string, fc: string)
    ensures Contains(sc + Separator + fc, Separator)
  {
    assert sc + Separator + fc == sc + (Separator + fc);
    StartsWithConcat(Separator, fc);
    ContainsInConcat(sc, Separator + fc, Separator);
  }

  /** The SMS response's summary: the separator law with the word "SMS". */
  lemma SmsSeparatorIffBoth(succeeded: seq<string>, failed: seq<string>)
    ensures Contains(NewResponse(SmsLabel, succeeded, failed).message, Separator) <==> succeeded != [] && failed != []
    ensures succeeded != [] && failed != [] ==>
              NewResponse(SmsLabel, succeeded, failed).message
              == SuccessClause(SmsLabel, |succeeded|) + Separator + FailureClause(SmsLabel, |failed|)
  {
    SeparatorIffBoth(SmsLabel, succeeded, failed);
  }

  /** Both responses' words are comma-free, so the separator law holds for both. */
  lemma LabelsAreCommaFree()
    ensures ',' !in PushLabel && ',' !in SmsLabel
  {
  }
}

=== FILE: notification_service.dfy ===
/**
 * `NotificationService`: who is told about a meeting event, with what
 * title and text, and what the push and SMS requests look like. The push
 * server's reply is an oracle argument; the participant rows the
 * repository returns for a meeting are the meeting's own participant list.
 * Formatted times are inputs (`longTime` is the "MM월 dd일 HH:mm" form,
 * `shortTime` the "MM/dd HH:mm" form).
 */
module NotificationService {
  import opened Wrappers
  import opened Text
  import opened MeetingStatuses
  import DomainMeeting
  import Seqs
  import opened NotificationResponses
  import SmsRequests
  import SmsService

  /** The push request; recipients may hold a null host id. */
  datatype NotificationRequest = NotificationRequest(
    recipientUserIds: seq<Option<int>>,
    title: string,
    content: string,
    kind: string,
    meetingId: int,
    priority: string)

  type PushResponse = Response<Option<int>>

  /** What the push server does with a request. */
  datatype PushReply = PushThrew | PushNull | PushReplied(response: PushResponse)

  /** What one notification event sends: at most one push request and at most one SMS request. */
  datatype Dispatch = Dispatch(
    push: Option<NotificationRequest>,
    pushResult: Option<PushResponse>,
    sms: Option<SmsRequests.SmsRequest>)

  const InvitationTitle := "새로운 약속 초대"
  const CancelledTitle := "약속이 취소되었습니다"
  const InvitationKind := "MEETING_INVITATION"
  const CancelledKind := "MEETING_CANCELLED"
  const HighPriority := "HIGH"
  const NoReason := "사유 없음"
  const SmsReasonLimit := 70

  // Recipients.

  /** The user ids of the meeting's participant rows, in repository order. */
  function UserIds(m: DomainMeeting.Meeting): (ids: seq<int>)
    ensures |ids| == |m.participants|
    ensures forall k :: 0 <= k < |ids| ==> ids[k] == m.participants[k].userId
  {
    seq(|m.participants|, k requires 0 <= k < |m.participants| => m.participants[k].userId)
  }

  /** The filter `!userId.equals(hostId)`: with a null host every id passes. */
  function NotHost(host: Option<int>): int -> bool
  {
    (u: int) => host != Some(u)
  }

  /** `getInvitedUserIds`: the participants other than the host, in repository order. */
  function InvitedUserIds(m: DomainMeeting.Meeting): (r: seq<int>)
    ensures forall u :: u in r <==> u in UserIds(m) && DomainMeeting.HostId(m) != Some(u)
  {
    Seqs.Filter(UserIds(m), NotHost(DomainMeeting.HostId(m)))
  }

  function Lift(ids: seq<int>): (r: seq<Option<int>>)
    ensures |r| == |ids| && forall k :: 0 <= k < |ids| ==> r[k] == Some(ids[k])
  {
    seq(|ids|, k requires 0 <= k < |ids| => Some(ids[k]))
  }

  /** `getNotificationRecipients`: the host first, then every other participant. */
  function StatusChangeRecipients(m: DomainMeeting.Meeting): (r: seq<Option<int>>)
    ensures |r| >= 1 && r[0] == DomainMeeting.HostId(m)
    ensures r[1..] == Lift(InvitedUserIds(m))
  {
    [DomainMeeting.HostId(m)] + Lift(InvitedUserIds(m))
  }

  /**
   * The host is named once, at the front, and the recipients are exactly
   * the meeting's participants; a meeting without participants yields the
   * single null id its missing host contributes.
   */
  lemma RecipientsHostOnce(m: DomainMeeting.Meeting)
    ensures forall k :: 1 <= k < |StatusChangeRecipients(m)| ==> StatusChangeRecipients(m)[k] != StatusChangeRecipients(m)[0]
    ensures m.participants != [] ==>
              forall u :: Some(u) in StatusChangeRecipients(m) <==> u in UserIds(m)
    ensures m.participants == [] ==> StatusChangeRecipients(m) == [None]
  {
    var r := StatusChangeRecipients(m);
    var host := DomainMeeting.HostId(m);
    var invited := InvitedUserIds(m);
    forall k | 1 <= k < |r|
      ensures r[k] != r[0]
    {
      assert r[k] == Some(invited[k - 1]);
      assert invited[k - 1] in invited;
    }
    if m.participants != [] {
      var ids := UserIds(m);
      var i :| 0 <= i < |m.participants| && m.participants[i].userId == host.value;
      assert ids[i] == host.value;
      forall u
        ensures Some(u) in r <==> u in ids
      {
        if u in invited {
          var k :| 0 <= k < |invited| && invited[k] == u;
          assert r[k + 1] == Some(u);
        }
        if Some(u) in r && Some(u) != host {
          var k :| 0 <= k < |r| && r[k] == Some(u);
          assert u == invited[k - 1];
        }
      }
    } else {
      assert UserIds(m) == [];
    }
  }

  // Titles and texts.

  /** `createNotificationTitle`. */
  function NotificationTitle(s: MeetingStatus): string
  {
    match s
    case Confirmed => "약속이 확정되었습니다! 🎉"
    case Completed => "약속이 완료되었습니다"
    case Cancelled => CancelledTitle
    case _ => "약속 상태가 변경되었습니다"
  }

  /** Each status has its own title, and a cancellation reads the same however it is announced. */
  lemma TitlesDistinct(s: MeetingStatus, t: MeetingStatus)
    ensures NotificationTitle(s) == NotificationTitle(t) <==> s == t
    ensures NotificationTitle(Cancelled) == CancelledTitle
  {
  }

  /** The four fixed lines of the status-change text. */
  function ContentHeader(title: string, previous: MeetingStatus, next: MeetingStatus, longTime: string,
                         location: Option<string>): string
  {
    "'" + title + "' 약속의 상태가 변경되었습니다.\n"
    + "변경: " + previous.DisplayName() + " → " + next.DisplayName() + "\n"
    + "시간: " + longTime + "\n"
    + "장소: " + Appended(location) + "\n"
  }

  /** `createNotificationContent`: the header, then a reason line iff the reason has text. */
  function NotificationContent(m: DomainMeeting.Meeting, previous: MeetingStatus, next: MeetingStatus,
                               reason: Option<string>, longTime: string): (r: string)
    ensures StartsWith(r, ContentHeader(m.title, previous, next, longTime, m.locationName))
    ensures HasText(reason) <==> |r| > |ContentHeader(m.title, previous, next, longTime, m.locationName)|
    ensures HasText(reason) ==>
              r[|ContentHeader(m.title, previous, next, longTime, m.locationName)|..] == "사유: " + reason.value
  {
    var header := ContentHeader(m.title, previous, next, longTime, m.locationName);
    var r := header + (if HasText(reason) then "사유: " + reason.value else "");
    assert r[..|header|] == header;
    r
  }

  /** `isImportantStatusChange`. */
  predicate IsImportantStatusChange(s: MeetingStatus)
  {
    s == Confirmed || s == Completed || s == Cancelled
  }

  /** Every status but WAITING is important: the confirmed one and the two final ones. */
  lemma ImportantIffNotWaiting(s: MeetingStatus)
    ensures IsImportantStatusChange(s) <==> s != Waiting
    ensures IsImportantStatusChange(s) <==> s == Confirmed || s.IsFinal()
  {
  }

  /** The SMS type of a status change. */
  function SmsType(s: MeetingStatus): string
  {
    if s == Cancelled then SmsRequests.Urgent else SmsRequests.Normal
  }

  function StatusPhrase(s: MeetingStatus): string
  {
    match s
    case Confirmed => " 약속이 확정되었습니다! "
    case Completed => " 약속이 완료되었습니다. "
    case Cancelled => " 약속이 취소되었습니다. "
    case _ => " 상태가 변경되었습니다. "
  }

  /** The reason is appended only when it has text and the text so far is under 70 characters. */
  function WithShortReason(base: string, reason: Option<string>, open: string, close: string): (r: string)
    ensures StartsWith(r, base)
    ensures r != base <==> HasText(reason) && |base| < SmsReasonLimit
    ensures r != base ==> r == base + open + reason.value + close
  {
    if HasText(reason) && |base| < SmsReasonLimit then
      StartsWithConcat(base, open + reason.value + close);
      assert base + open + reason.value + close == base + (open + reason.value + close);
      base + open + reason.value + close
    else base
  }

  /** `createSmsContentForStatusChange`. */
  function StatusChangeSms(m: DomainMeeting.Meeting, next: MeetingStatus, reason: Option<string>, shortTime: string)
    : (r: string)
    ensures StartsWith(r, "[약속알림] " + m.title + StatusPhrase(next) + shortTime)
  {
    WithShortReason("[약속알림] " + m.title + StatusPhrase(next) + shortTime, reason, " (", ")")
  }

  /** `createSmsContentForCancellation`. */
  function CancellationSms(m: DomainMeeting.Meeting, reason: Option<string>, shortTime: string): (r: string)
    ensures StartsWith(r, "[긴급알림] " + m.title + " 약속이 취소되었습니다. " + shortTime)
  {
    WithShortReason("[긴급알림] " + m.title + " 약속이 취소되었습니다. " + shortTime, reason, " 사유: ", "")
  }

  /** A title that fills the 70-character budget on its own leaves no room for the reason. */
  lemma LongTitleDropsReason(m: DomainMeeting.Meeting, next: MeetingStatus, reason: Option<string>, shortTime: string)
    requires |m.title| >= SmsReasonLimit
    ensures StatusChangeSms(m, next, reason, shortTime) == "[약속알림] " + m.title + StatusPhrase(next) + shortTime
    ensures CancellationSms(m, reason, shortTime) == "[긴급알림] " + m.title + " 약속이 취소되었습니다. " + shortTime
  {
  }

  // Requests and sending.

  /** `createNotificationRequest`: every meeting notification is sent with HIGH priority. */
  function NewNotificationRequest(ids: seq<Option<int>>, title: string, content: string, kind: string, meetingId: int)
    : (r: NotificationRequest)
    ensures r.priority == HighPriority
    ensures r.recipientUserIds == ids && r.title == title && r.content == content && r.kind == kind
  {
    NotificationRequest(ids, title, content, kind, meetingId, HighPriority)
  }

  /**
   * `sendNotification`: the server's reply when there is one; a null reply
   * counts every recipient as reached, and an exception none of them.
   */
  function SendNotification(request: NotificationRequest, reply: PushReply): (r: PushResponse)
    ensures reply.PushReplied? ==> r == reply.response
    ensures reply.PushNull? ==> r.successfullyNotified == request.recipientUserIds && r.failedToNotify == []
    ensures reply.PushThrew? ==> r.successfullyNotified == [] && r.failedToNotify == request.recipientUserIds
    ensures !reply.PushReplied? ==> r.totalRecipients == |request.recipientUserIds|
    ensures reply.PushNull? ==> r == NewResponse(PushLabel, request.recipientUserIds, [])
    ensures reply.PushThrew? ==> r == NewResponse(PushLabel, [], request.recipientUserIds)
  {
    match reply
    case PushReplied(response) => response
    case PushNull => NewResponse(PushLabel, request.recipientUserIds, [])
    case PushThrew => NewResponse(PushLabel, [], request.recipientUserIds)
  }

  /**
   * Without a server reply every recipient lands in exactly one list, and
   * the message is the one clause that list calls for (empty when there
   * are no recipients).
   */
  lemma FallbackResponsesAccountForEveryone(request: NotificationRequest, reply: PushReply)
    requires !reply.PushReplied?
    ensures var r := SendNotification(request, reply);
            && multiset(r.successfullyNotified) + multiset(r.failedToNotify) == multiset(request.recipientUserIds)
            && r.successCount + r.failureCount == |request.recipientUserIds|
            && r.failureReasons.None?
            && r.message == (if request.recipientUserIds == [] then ""
                             else if reply.PushNull? then SuccessClause(PushLabel, |request.recipientUserIds|)
                             else FailureClause(PushLabel, |request.recipientUserIds|))
  {
  }

  /** The SMS request of a status change, as `sendSmsForStatusChange` fills it. */
  function StatusChangeSmsRequest(ids: seq<Option<int>>, m: DomainMeeting.Meeting, next: MeetingStatus,
                                  reason: Option<string>, shortTime: string): (r: SmsRequests.SmsRequest)
    ensures SmsRequests.IsUrgent(r) <==> next == Cancelled
    ensures r.recipientUserIds == Some(ids) && r.senderName == Some("약속알림")
    ensures r.message == Some(StatusChangeSms(m, next, reason, shortTime))
  {
    SmsRequests.NewSmsRequest().(recipientUserIds := Some(ids), message := Some(StatusChangeSms(m, next, reason, shortTime)),
                                 smsType := Some(SmsType(next)), meetingId := Some(m.id), senderName := Some("약속알림"))
  }

  /**
   * `sendMeetingStatusChangeNotification`: a push to the host and the other
   * participants, and an SMS to the same people iff SMS is enabled and the
   * new status is important.
   */
  function StatusChangeNotification(m: DomainMeeting.Meeting, previous: MeetingStatus, next: MeetingStatus,
                                    reason: Option<string>, longTime: string, shortTime: string,
                                    smsEnabled: bool, reply: PushReply): (d: Dispatch)
    ensures d.push.Some? && d.pushResult.Some?
    ensures d.push.value.recipientUserIds == StatusChangeRecipients(m)
    ensures d.push.value.title == NotificationTitle(next) && d.push.value.kind == next.Name()
    ensures d.pushResult.value == SendNotification(d.push.value, reply)
    ensures d.sms.Some? <==> smsEnabled && next != Waiting
    ensures d.sms.Some? ==> d.sms.value.recipientUserIds == Some(StatusChangeRecipients(m))
    ensures d.sms.Some? ==> (SmsRequests.IsUrgent(d.sms.value) <==> next == Cancelled)
  {
    var ids := StatusChangeRecipients(m);
    var request := NewNotificationRequest(ids, NotificationTitle(next),
                                          NotificationContent(m, previous, next, reason, longTime), next.Name(), m.id);
    var sms := if smsEnabled && IsImportantStatusChange(next) then Some(StatusChangeSmsRequest(ids, m, next, reason, shortTime))
               else None;
    Dispatch(Some(request), Some(SendNotification(request, reply)), sms)
  }

  /** The invitation text, `String.format` with a null location printed as "null". */
  function InvitationContent(m: DomainMeeting.Meeting, longTime: string): string
  {
    "'" + m.title + "' 약속에 초대되었습니다. " + longTime + "에 " + Appended(m.locationName) + "에서 만나요!"
  }

  /**
   * `sendMeetingCreatedNotification`: nothing is sent when the host is the
   * only participant; otherwise one invitation push to everybody else.
   */
  function CreatedNotification(m: DomainMeeting.Meeting, longTime: string, reply: PushReply): (d: Dispatch)
    ensures d.sms.None?
    ensures d.push.None? <==> InvitedUserIds(m) == []
    ensures d.push.Some? ==> d.push.value.recipientUserIds == Lift(InvitedUserIds(m))
    ensures d.push.Some? ==> d.push.value.title == InvitationTitle && d.push.value.kind == InvitationKind
    ensures d.push.Some? ==> None !in d.push.value.recipientUserIds
  {
    var ids := InvitedUserIds(m);
    if ids == [] then Dispatch(None, None, None)
    else
      var request := NewNotificationRequest(Lift(ids), InvitationTitle, InvitationContent(m, longTime),
                                            InvitationKind, m.id);
      Dispatch(Some(request), Some(SendNotification(request, reply)), None)
  }

  /** The cancellation text: a null reason reads "사유 없음". */
  function CancellationContent(m: DomainMeeting.Meeting, reason: Option<string>): (r: string)
    ensures EndsWith(r, "사유: " + reason.GetOr(NoReason))
  {
    var tail := "사유: " + reason.GetOr(NoReason);
    var r := "'" + m.title + "' 약속이 취소되었습니다. " + tail;
    assert r[|r| - |tail|..] == tail;
    r
  }

  /**
   * `sendMeetingCancelledNotification`: a push to every participant, and
   * when SMS is enabled an urgent SMS to the same people.
   */
  function CancelledNotification(m: DomainMeeting.Meeting, reason: Option<string>, shortTime: string,
                                 smsEnabled: bool, reply: PushReply): (d: Dispatch)
    ensures d.push.Some? && d.push.value.recipientUserIds == StatusChangeRecipients(m)
    ensures d.push.value.title == CancelledTitle && d.push.value.kind == CancelledKind
    ensures d.sms.Some? <==> smsEnabled
    ensures d.sms.Some? ==> SmsRequests.IsUrgent(d.sms.value)
    ensures d.sms.Some? ==> d.sms.value.message == Some(SmsService.UrgentPrefix + CancellationSms(m, reason, shortTime))
  {
    var ids := StatusChangeRecipients(m);
    var request := NewNotificationRequest(ids, CancelledTitle, CancellationContent(m, reason), CancelledKind, m.id);
    var sms := if smsEnabled then Some(SmsService.UrgentRequest(ids, CancellationSms(m, reason, shortTime), Some(m.id)))
               else None;
    Dispatch(Some(request), Some(SendNotification(request, reply)), sms)
  }
}

=== FILE: participant_service.dfy ===
/**
 * `ParticipantService`: inviting users to a meeting, answering an
 * invitation, and removing a participant.
 */
module ParticipantService {
  import opened Wrappers
  import opened Text
  import opened MeetingStatuses
  import DomainMeeting
  import History
  import opened MeetingRepository
  import MeetingStatusService
  import opened InviteOutcomes

  const NoInvitePermissionMessage := "참여자 초대 권한이 없습니다"
  const TooManyMessage := "최대 참여자 수를 초과할 수 없습니다"
  const ParticipantNotFoundMessage := "참여자 정보를 찾을 수 없습니다"
  const NoRemovePermissionMessage := "참여자 제거 권한이 없습니다"
  const HostNotRemovableMessage := "방장은 제거할 수 없습니다"

  datatype InviteResponse = InviteResponse(
    successfullyInvited: seq<int>,
    alreadyInvited: seq<int>,
    failedToInvite: seq<int>)

  /** A participant row for `userId` exists among `ps`. */
  predicate HasRow(ps: seq<DomainMeeting.Participant>, userId: int)
  {
    DomainMeeting.FindParticipant(ps, userId).Some?
  }

  /**
   * Where the loop puts the `i`-th requested id, stated without the loop:
   * an id that already had a row, or that is a user and was requested
   * earlier, is already invited; an id that is not a user fails; every
   * other id is invited.
   */
  function ExpectedOutcome(rows: seq<DomainMeeting.Participant>, ids: seq<int>, userExists: int -> bool, i: nat): InviteOutcome
    requires i < |ids|
  {
    if HasRow(rows, ids[i]) || (ids[i] in ids[..i] && userExists(ids[i])) then AlreadyInvited
    else if !userExists(ids[i]) then FailedToInvite
    else NewlyInvited
  }

  /** The outcome of every requested id. */
  function Outcomes(rows: seq<DomainMeeting.Participant>, ids: seq<int>, userExists: int -> bool): (outs: seq<InviteOutcome>)
    ensures |outs| == |ids|
    ensures forall k :: 0 <= k < |ids| ==> outs[k] == ExpectedOutcome(rows, ids, userExists, k)
  {
    seq(|ids|, k requires 0 <= k < |ids| => ExpectedOutcome(rows, ids, userExists, k))
  }

  /** The three lists of the invitation answer, computed without the loop. */
  function ExpectedResponse(rows: seq<DomainMeeting.Participant>, ids: seq<int>, userExists: int -> bool): InviteResponse
  {
    var outs := Outcomes(rows, ids, userExists);
    InviteResponse(Select(ids, outs, NewlyInvited, |ids|), Select(ids, outs, AlreadyInvited, |ids|),
                   Select(ids, outs, FailedToInvite, |ids|))
  }

  /** Every requested id lands in exactly one of the three lists. */
  lemma BucketsPartitionRequest(rows: seq<DomainMeeting.Participant>, ids: seq<int>, userExists: int -> bool)
    ensures var r := ExpectedResponse(rows, ids, userExists);
            && multiset(r.successfullyInvited) + multiset(r.alreadyInvited) + multiset(r.failedToInvite) == multiset(ids)
            && |r.successfullyInvited| + |r.alreadyInvited| + |r.failedToInvite| == |ids|
  {
    var r := ExpectedResponse(rows, ids, userExists);
    SelectPartition(ids, Outcomes(rows, ids, userExists), |ids|);
    assert ids[..|ids|] == ids;
    assert |multiset(r.successfullyInvited) + multiset(r.alreadyInvited) + multiset(r.failedToInvite)| == |multiset(ids)|;
  }

  /** The rows appended for the invited ids. */
  function NewRows(meetingId: int, invited: seq<int>, now: Time): (r: seq<DomainMeeting.Participant>)
    ensures |r| == |invited|
    ensures forall k :: 0 <= k < |r| ==> r[k] == DomainMeeting.NewParticipant(meetingId, invited[k], now)
  {
    if invited == [] then [] else NewRows(meetingId, invited[..|invited| - 1], now)
                                    + [DomainMeeting.NewParticipant(meetingId, invited[|invited| - 1], now)]
  }

  /** The UPDATED entries, one per successful invitation. */
  function InviteEntries(meetingId: int, hostId: int, count: nat): (r: seq<History.Entry>)
    ensures |r| == count
    ensures forall k :: 0 <= k < |r| ==> r[k] == History.Entry(meetingId, hostId, History.Updated, None)
  {
    if count == 0 then [] else InviteEntries(meetingId, hostId, count - 1) + [History.Entry(meetingId, hostId, History.Updated, None)]
  }

  /** The ids invited so far are exactly the users without a row that were requested. */
  ghost predicate InvitedSoFar(rows: seq<DomainMeeting.Participant>, ids: seq<int>, userExists: int -> bool,
                               invited: seq<int>, i: nat)
    requires i <= |ids|
  {
    forall x :: x in invited <==> !HasRow(rows, x) && userExists(x) && x in ids[..i]
  }

  /**
   * The guards of `inviteParticipants`: the meeting exists, the caller is
   * its host, and the current row count plus the number requested stays
   * within the maximum (a null maximum throws when unboxed).
   */
  function CheckInvite(store: Store, meetingId: int, ids: seq<int>, hostId: int): (r: Result<DomainMeeting.Meeting>)
    ensures r.Ok? <==> meetingId in store.meetings
                       && DomainMeeting.IsHost(store.meetings[meetingId], hostId)
                       && store.meetings[meetingId].maxParticipants.Some?
                       && |store.meetings[meetingId].participants| + |ids| <= store.meetings[meetingId].maxParticipants.value
    ensures r.Ok? ==> r.value == store.meetings[meetingId]
    ensures meetingId !in store.meetings ==> r == Fail(Runtime, MeetingStatusService.NotFoundMessage(meetingId))
    ensures meetingId in store.meetings && !DomainMeeting.IsHost(store.meetings[meetingId], hostId)
            ==> r == Fail(Runtime, NoInvitePermissionMessage)
  {
    if meetingId !in store.meetings then Fail(Runtime, MeetingStatusService.NotFoundMessage(meetingId))
    else
      var m := store.meetings[meetingId];
      if !DomainMeeting.IsHost(m, hostId) then Fail(Runtime, NoInvitePermissionMessage)
      else if m.maxParticipants.None? then NullDeref()
      else if |m.participants| + |ids| > m.maxParticipants.value then Fail(Runtime, TooManyMessage)
      else Ok(m)
  }

  /**
   * `inviteParticipants`: after the guards, each requested id in turn is
   * reported already invited when it has a row, failed when it is not a
   * user, and otherwise saved as an INVITED row with an UPDATED history
   * entry.
   */
  method InviteParticipants(store: Store, meetingId: int, ids: seq<int>, hostId: int,
                            userExists: int -> bool, now: Time) returns (r: Result<(Store, InviteResponse)>)
    ensures r.Ok? <==> CheckInvite(store, meetingId, ids, hostId).Ok?
    ensures r.Err? ==> r.error == CheckInvite(store, meetingId, ids, hostId).error
    ensures r.Ok? ==>
      var m := store.meetings[meetingId];
      var (s, resp) := r.value;
      && resp == ExpectedResponse(m.participants, ids, userExists)
      && s.meetings == store.meetings[meetingId := m.(participants := m.participants
                                       + NewRows(meetingId, resp.successfullyInvited, now))]
      && s.history == store.history + InviteEntries(meetingId, hostId, |resp.successfullyInvited|)
  {
    var check := CheckInvite(store, meetingId, ids, hostId);
    if check.Err? {
      return Err(check.error);
    }
    var m := check.value;
    var rows, invited, already, failed := InviteLoop(m.participants, ids, userExists, meetingId, now);
    var s := Store(store.meetings[meetingId := m.(participants := rows)],
                   store.history + InviteEntries(meetingId, hostId, |invited|));
    return Ok((s, InviteResponse(invited, already, failed)));
  }

  /** The lists and rows the loop of `inviteParticipants` carries. */
  datatype LoopState = LoopState(
    rows: seq<DomainMeeting.Participant>,
    invited: seq<int>,
    already: seq<int>,
    failed: seq<int>)

  /** One pass of the loop body for `id`. */
  function InviteStep(st: LoopState, id: int, userExists: int -> bool, meetingId: int, now: Time): LoopState
  {
    if HasRow(st.rows, id) then st.(already := st.already + [id])
    else if !userExists(id) then st.(failed := st.failed + [id])
    else st.(rows := st.rows + [DomainMeeting.NewParticipant(meetingId, id, now)], invited := st.invited + [id])
  }

  /** The loop state after the first `i` requested ids. */
  ghost predicate LoopInvariant(rows0: seq<DomainMeeting.Participant>, ids: seq<int>, userExists: int -> bool,
                                meetingId: int, now: Time, outs: seq<InviteOutcome>, st: LoopState, i: nat)
    requires i <= |ids| == |outs|
  {
    && st.rows == rows0 + NewRows(meetingId, st.invited, now)
    && st.invited == Select(ids, outs, NewlyInvited, i)
    && st.already == Select(ids, outs, AlreadyInvited, i)
    && st.failed == Select(ids, outs, FailedToInvite, i)
    && InvitedSoFar(rows0, ids, userExists, st.invited, i)
  }

  lemma StepKeepsInvariant(rows0: seq<DomainMeeting.Participant>, ids: seq<int>, userExists: int -> bool,
                           meetingId: int, now: Time, outs: seq<InviteOutcome>, st: LoopState, i: nat)
    requires outs == Outcomes(rows0, ids, userExists)
    requires i < |ids| && LoopInvariant(rows0, ids, userExists, meetingId, now, outs, st, i)
    ensures LoopInvariant(rows0, ids, userExists, meetingId, now, outs, InviteStep(st, ids[i], userExists, meetingId, now), i + 1)
  {
    var id := ids[i];
    StepAgrees(rows0, ids, userExists, st.invited, meetingId, now, i);
    assert outs[i] == ExpectedOutcome(rows0, ids, userExists, i);
    StepFields(st, id, userExists, meetingId, now);
    SelectNext(ids, outs, NewlyInvited, i);
    SelectNext(ids, outs, AlreadyInvited, i);
    SelectNext(ids, outs, FailedToInvite, i);
    NewRowsAppend(meetingId, st.invited, id, now);
  }

  /** One loop step appends `id` to the list its current outcome names, and a row when it is new. */
  lemma StepFields(st: LoopState, id: int, userExists: int -> bool, meetingId: int, now: Time)
    ensures var st' := InviteStep(st, id, userExists, meetingId, now);
            var o := CurrentOutcome(st.rows, userExists, id);
            && st'.invited == st.invited + (if o == NewlyInvited then [id] else [])
            && st'.already == st.already + (if o == AlreadyInvited then [id] else [])
            && st'.failed == st.failed + (if o == FailedToInvite then [id] else [])
            && st'.rows == st.rows + (if o == NewlyInvited then [DomainMeeting.NewParticipant(meetingId, id, now)] else [])
  {
  }

  lemma NewRowsAppend(meetingId: int, invited: seq<int>, id: int, now: Time)
    ensures NewRows(meetingId, invited + [id], now) == NewRows(meetingId, invited, now) + [DomainMeeting.NewParticipant(meetingId, id, now)]
  {
    assert (invited + [id])[..|invited|] == invited;
  }

  /** The loop of `inviteParticipants` over the requested ids. */
  method InviteLoop(rows0: seq<DomainMeeting.Participant>, ids: seq<int>, userExists: int -> bool,
                    meetingId: int, now: Time)
    returns (rows: seq<DomainMeeting.Participant>, invited: seq<int>, already: seq<int>, failed: seq<int>)
    ensures InviteResponse(invited, already, failed) == ExpectedResponse(rows0, ids, userExists)
    ensures rows == rows0 + NewRows(meetingId, invited, now)
  {
    ghost var outs := Outcomes(rows0, ids, userExists);
    var st := LoopState(rows0, [], [], []);
    var i := 0;
    while i < |ids|
      invariant 0 <= i <= |ids|
      invariant LoopInvariant(rows0, ids, userExists, meetingId, now, outs, st, i)
    {
      StepKeepsInvariant(rows0, ids, userExists, meetingId, now, outs, st, i);
      st := InviteStep(st, ids[i], userExists, meetingId, now);
      i := i + 1;
    }
    rows, invited, already, failed := st.rows, st.invited, st.already, st.failed;
  }

  /** What the loop decides for `id` against the rows it has saved so far. */
  function CurrentOutcome(rows: seq<DomainMeeting.Participant>, userExists: int -> bool, id: int): InviteOutcome
  {
    if HasRow(rows, id) then AlreadyInvited else if !userExists(id) then FailedToInvite else NewlyInvited
  }

  /**
   * One loop step: deciding against the rows saved so far agrees with the
   * loop-free outcome, and the invited list keeps its characterisation.
   */
  lemma StepAgrees(rows0: seq<DomainMeeting.Participant>, ids: seq<int>, userExists: int -> bool,
                   invited: seq<int>, meetingId: int, now: Time, i: nat)
    requires i < |ids| && InvitedSoFar(rows0, ids, userExists, invited, i)
    ensures CurrentOutcome(rows0 + NewRows(meetingId, invited, now), userExists, ids[i])
            == ExpectedOutcome(rows0, ids, userExists, i)
    ensures InvitedSoFar(rows0, ids, userExists,
                         invited + (if ExpectedOutcome(rows0, ids, userExists, i) == NewlyInvited then [ids[i]] else []),
                         i + 1)
  {
    var id := ids[i];
    RowsAfterInvites(rows0, meetingId, invited, now, id);
    assert ids[..i + 1] == ids[..i] + [id];
  }

  /** The loop-free invited list is characterised like the loop's. */
  lemma {:induction false} InvitedSoFarHolds(rows0: seq<DomainMeeting.Participant>, ids: seq<int>,
                                             userExists: int -> bool, n: nat)
    requires n <= |ids|
    ensures InvitedSoFar(rows0, ids, userExists, Select(ids, Outcomes(rows0, ids, userExists), NewlyInvited, n), n)
  {
    if n > 0 {
      InvitedSoFarHolds(rows0, ids, userExists, n - 1);
      StepAgrees(rows0, ids, userExists, Select(ids, Outcomes(rows0, ids, userExists), NewlyInvited, n - 1), 0, 0, n - 1);
    }
  }

  /** A row for `id` exists after the appended invitations exactly when it existed before or `id` was invited. */
  lemma RowsAfterInvites(rows: seq<DomainMeeting.Participant>, meetingId: int, invited: seq<int>, now: Time, id: int)
    ensures HasRow(rows + NewRows(meetingId, invited, now), id) <==> HasRow(rows, id) || id in invited
  {
    var added := NewRows(meetingId, invited, now);
    var all := rows + added;
    if id in invited {
      var k :| 0 <= k < |invited| && invited[k] == id;
      assert all[|rows| + k].userId == id;
    }
    if HasRow(rows, id) {
      var j := DomainMeeting.FindParticipant(rows, id).value;
      assert all[j].userId == id;
    }
    if HasRow(all, id) {
      var j := DomainMeeting.FindParticipant(all, id).value;
      if j >= |rows| {
        assert added[j - |rows|].userId == id;
        assert invited[j - |rows|] == id;
      } else {
        assert rows[j].userId == id;
      }
    }
  }

  /** Participant rows with pairwise different users (the unique (meeting, user) constraint). */
  predicate UniqueUsers(ps: seq<DomainMeeting.Participant>)
  {
    forall i, j :: 0 <= i < j < |ps| ==> ps[i].userId != ps[j].userId
  }

  /** No value occurs twice in `xs`. */
  predicate Distinct(xs: seq<int>)
  {
    forall k, l :: 0 <= k < l < |xs| ==> xs[k] != xs[l]
  }

  /** The invited ids are pairwise different. */
  lemma {:induction false} InvitedAreDistinct(rows: seq<DomainMeeting.Participant>, ids: seq<int>,
                                              userExists: int -> bool, n: nat)
    requires n <= |ids|
    ensures Distinct(Select(ids, Outcomes(rows, ids, userExists), NewlyInvited, n))
  {
    if n > 0 {
      InvitedAreDistinct(rows, ids, userExists, n - 1);
      InvitedSoFarHolds(rows, ids, userExists, n - 1);
      var outs := Outcomes(rows, ids, userExists);
      var b0 := Select(ids, outs, NewlyInvited, n - 1);
      var x := ids[n - 1];
      if outs[n - 1] == NewlyInvited {
        assert Select(ids, outs, NewlyInvited, n) == b0 + [x];
        assert x !in ids[..n - 1];
        assert x !in b0;
        var b := b0 + [x];
        forall k, l | 0 <= k < l < |b|
          ensures b[k] != b[l]
        {
          assert b[k] == b0[k];
          if l == |b0| {
            assert b[l] == x;
            assert b0[k] in b0;
            assert b[k] != b[l];
          } else {
            assert b[l] == b0[l];
            assert b0[k] != b0[l];
          }
        }
      } else {
        assert Select(ids, outs, NewlyInvited, n) == b0;
      }
    }
  }

  /** Inviting never creates a second row for the same user. */
  lemma InvitePreservesUniqueUsers(rows: seq<DomainMeeting.Participant>, ids: seq<int>, userExists: int -> bool,
                                   meetingId: int, now: Time)
    requires UniqueUsers(rows)
    ensures UniqueUsers(rows + NewRows(meetingId, ExpectedResponse(rows, ids, userExists).successfullyInvited, now))
  {
    var b := ExpectedResponse(rows, ids, userExists).successfullyInvited;
    var all := rows + NewRows(meetingId, b, now);
    InvitedAreDistinct(rows, ids, userExists, |ids|);
    InvitedSoFarHolds(rows, ids, userExists, |ids|);
    forall i, j | 0 <= i < j < |all|
      ensures all[i].userId != all[j].userId
    {
      if j >= |rows| && i < |rows| {
        var u := b[j - |rows|];
        assert all[j].userId == u;
        assert u in b;
        assert !HasRow(rows, u);
        assert DomainMeeting.FindParticipant(rows, u).None?;
        assert all[i] == rows[i];
      } else if i >= |rows| {
        assert all[i].userId == b[i - |rows|] && all[j].userId == b[j - |rows|];
      }
    }
  }

  /**
   * `respondToInvitation`: the participant row must exist; answering with
   * the current answer changes nothing; otherwise the answer (and join
   * time) is updated and a JOINED entry (for ACCEPTED) or DECLINED entry is
   * logged.
   */
  function RespondToInvitation(store: Store, meetingId: int, userId: int, response: ResponseStatus, now: Time)
    : (r: Result<Store>)
    ensures r.Ok? <==> meetingId in store.meetings && HasRow(store.meetings[meetingId].participants, userId)
    ensures r.Err? ==> r.error == Exception(Runtime, Some(ParticipantNotFoundMessage))
    ensures r.Ok? ==>
      var m := store.meetings[meetingId];
      var i := DomainMeeting.FindParticipant(m.participants, userId).value;
      if m.participants[i].response == response then r.value == store
      else
        && r.value.meetings == store.meetings[meetingId := m.(participants :=
             m.participants[i := DomainMeeting.UpdateResponse(m.participants[i], response, now)])]
        && r.value.history == store.history
           + [History.Entry(meetingId, userId, if response == Accepted then History.Joined else History.Declined, None)]
  {
    if meetingId !in store.meetings then Fail(Runtime, ParticipantNotFoundMessage)
    else
      var m := store.meetings[meetingId];
      match DomainMeeting.FindParticipant(m.participants, userId)
      case None => Fail(Runtime, ParticipantNotFoundMessage)
      case Some(i) =>
        var p := m.participants[i];
        if p.response == response then Ok(store)
        else
          var updated := m.(participants := m.participants[i := DomainMeeting.UpdateResponse(p, response, now)]);
          var action := if response == Accepted then History.Joined else History.Declined;
          Ok(Store(store.meetings[meetingId := updated], store.history + [History.Entry(meetingId, userId, action, None)]))
  }

  /**
   * Accepting an open invitation raises the meeting's accepted count by one;
   * withdrawing an acceptance lowers it by one.
   */
  lemma RespondMovesAcceptedCount(store: Store, meetingId: int, userId: int, response: ResponseStatus, now: Time)
    requires RespondToInvitation(store, meetingId, userId, response, now).Ok?
    ensures var before := DomainMeeting.AcceptedCount(store.meetings[meetingId].participants);
            var after := DomainMeeting.AcceptedCount(RespondToInvitation(store, meetingId, userId, response, now)
                                                       .value.meetings[meetingId].participants);
            var previous := store.meetings[meetingId].participants[
                         DomainMeeting.FindParticipant(store.meetings[meetingId].participants, userId).value].response;
            && (previous != Accepted && response == Accepted ==> after == before + 1)
            && (previous == Accepted && response != Accepted ==> after + 1 == before)
            && (previous == Accepted || response != Accepted ==> after <= before)
  {
    var m := store.meetings[meetingId];
    var i := DomainMeeting.FindParticipant(m.participants, userId).value;
    if m.participants[i].response != response {
      DomainMeeting.AcceptedCountUpdate(m.participants, i, DomainMeeting.UpdateResponse(m.participants[i], response, now));
    }
  }

  /**
   * `removeParticipant`: the caller must be the host, the host cannot be
   * removed, and the row must exist; an UPDATED entry is logged and the row
   * deleted.
   */
  function RemoveParticipant(store: Store, meetingId: int, participantUserId: int, hostId: int): (r: Result<Store>)
    ensures r.Ok? <==>
      && meetingId in store.meetings
      && DomainMeeting.IsHost(store.meetings[meetingId], hostId)
      && !DomainMeeting.IsHost(store.meetings[meetingId], participantUserId)
      && HasRow(store.meetings[meetingId].participants, participantUserId)
    ensures meetingId in store.meetings && DomainMeeting.IsHost(store.meetings[meetingId], hostId)
            && DomainMeeting.IsHost(store.meetings[meetingId], participantUserId)
            ==> r == Fail(Runtime, HostNotRemovableMessage)
    ensures r.Ok? ==>
      var ps := store.meetings[meetingId].participants;
      var i := DomainMeeting.FindParticipant(ps, participantUserId).value;
      && r.value.meetings == store.meetings[meetingId := store.meetings[meetingId].(participants := ps[..i] + ps[i + 1..])]
      && r.value.history == store.history + [History.Entry(meetingId, hostId, History.Updated, None)]
  {
    if meetingId !in store.meetings then Fail(Runtime, MeetingStatusService.NotFoundMessage(meetingId))
    else
      var m := store.meetings[meetingId];
      if !DomainMeeting.IsHost(m, hostId) then Fail(Runtime, NoRemovePermissionMessage)
      else if DomainMeeting.IsHost(m, participantUserId) then Fail(Runtime, HostNotRemovableMessage)
      else match DomainMeeting.FindParticipant(m.participants, participantUserId)
        case None => Fail(Runtime, ParticipantNotFoundMessage)
        case Some(i) =>
          Ok(Store(store.meetings[meetingId := m.(participants := m.participants[..i] + m.participants[i + 1..])],
                   store.history + [History.Entry(meetingId, hostId, History.Updated, None)]))
  }

  /** Removing a participant leaves the meeting with the same host. */
  lemma RemovalKeepsHost(store: Store, meetingId: int, participantUserId: int, hostId: int)
    requires RemoveParticipant(store, meetingId, participantUserId, hostId).Ok?
    ensures DomainMeeting.IsHost(RemoveParticipant(store, meetingId, participantUserId, hostId).value.meetings[meetingId], hostId)
  {
    var m := store.meetings[meetingId];
    var ps := m.participants;
    var i := DomainMeeting.FindParticipant(ps, participantUserId).value;
    assert ps[DomainMeeting.EarliestIndex(ps)].userId == hostId;
    assert i != DomainMeeting.EarliestIndex(ps);
    RemovalKeepsEarliest(ps, i);
  }

  /** Dropping a row other than the earliest-invited one keeps that row first among the earliest. */
  lemma RemovalKeepsEarliest(ps: seq<DomainMeeting.Participant>, i: nat)
    requires i < |ps| && i != DomainMeeting.EarliestIndex(ps)
    ensures var qs := ps[..i] + ps[i + 1..];
            |qs| > 0 && qs[DomainMeeting.EarliestIndex(qs)] == ps[DomainMeeting.EarliestIndex(ps)]
  {
    var h := DomainMeeting.EarliestIndex(ps);
    var qs := ps[..i] + ps[i + 1..];
    var h' := if h < i then h else h - 1;
    RemovalShift(ps, i);
    assert qs[h'] == ps[h];
    EarliestIsUnique(qs, h');
  }

  /** Where each row of a sequence with one row dropped came from. */
  lemma RemovalShift(ps: seq<DomainMeeting.Participant>, i: nat)
    requires i < |ps|
    ensures var qs := ps[..i] + ps[i + 1..];
            |qs| == |ps| - 1
            && (forall j :: 0 <= j < i ==> qs[j] == ps[j])
            && (forall j :: i <= j < |qs| ==> qs[j] == ps[j + 1])
  {
  }

  /** The first earliest-invited row is the one `Stream.min` picks. */
  lemma EarliestIsUnique(ps: seq<DomainMeeting.Participant>, h: nat)
    requires h < |ps|
    requires forall j :: 0 <= j < |ps| ==> ps[h].invitedAt <= ps[j].invitedAt
    requires forall j :: 0 <= j < h ==> ps[j].invitedAt > ps[h].invitedAt
    ensures DomainMeeting.EarliestIndex(ps) == h
  {
    var e := DomainMeeting.EarliestIndex(ps);
    assert ps[e].invitedAt == ps[h].invitedAt;
  }
}

=== FILE: seqs.dfy ===
/**
 * Filtering and counting over sequences, the shape of the repository
 * queries (`findBy…`, `countBy…`) and of the `Stream` pipelines of the
 * services.
 */
module Seqs {

  /** The elements of `xs` satisfying `p`, in order. */
  function Filter<T(!new)>(xs: seq<T>, p: T -> bool): (r: seq<T>)
    ensures |r| <= |xs|
    ensures forall x :: x in r <==> x in xs && p(x)
    ensures forall k :: 0 <= k < |r| ==> p(r[k])
  {
    if xs == [] then []
    else (if p(xs[0]) then [xs[0]] else []) + Filter(xs[1..], p)
  }

  /** Filtering distributes over concatenation. */
  lemma {:induction false} FilterAppend<T(!new)>(a: seq<T>, b: seq<T>, p: T -> bool)
    ensures Filter(a + b, p) == Filter(a, p) + Filter(b, p)
    decreases |a|
  {
    if a == [] {
      assert a + b == b;
    } else {
      assert (a + b)[1..] == a[1..] + b;
      FilterAppend(a[1..], b, p);
    }
  }

  /** Filtering a sequence extended by one element. */
  lemma FilterSnoc<T(!new)>(xs: seq<T>, x: T, p: T -> bool)
    ensures Filter(xs + [x], p) == Filter(xs, p) + (if p(x) then [x] else [])
  {
    FilterAppend(xs, [x], p);
    assert [x][1..] == [];
  }

  /** `p` and its negation split `xs` by count. */
  lemma {:induction false} FilterComplement<T(!new)>(xs: seq<T>, p: T -> bool, q: T -> bool)
    requires forall x :: q(x) == !p(x)
    ensures |Filter(xs, p)| + |Filter(xs, q)| == |xs|
  {
    if xs != [] {
      FilterComplement(xs[1..], p, q);
    }
  }

  /** At least two elements pass the filter exactly when two distinct positions satisfy `p`. */
  lemma FilterTwice<T(!new)>(xs: seq<T>, p: T -> bool)
    ensures |Filter(xs, p)| >= 2 <==> exists i, j :: 0 <= i < j < |xs| && p(xs[i]) && p(xs[j])
  {
    if |Filter(xs, p)| >= 2 {
      FilterTwiceFound(xs, p);
    }
    if exists i, j :: 0 <= i < j < |xs| && p(xs[i]) && p(xs[j]) {
      var i, j :| 0 <= i < j < |xs| && p(xs[i]) && p(xs[j]);
      FilterTwiceCounted(xs, p, i, j);
    }
  }

  lemma {:induction false} FilterTwiceFound<T(!new)>(xs: seq<T>, p: T -> bool)
    requires |Filter(xs, p)| >= 2
    ensures exists i, j :: 0 <= i < j < |xs| && p(xs[i]) && p(xs[j])
  {
    var tail := xs[1..];
    if p(xs[0]) {
      var f := Filter(tail, p);
      assert f[0] in tail;
      var j :| 0 <= j < |tail| && tail[j] == f[0];
      assert xs[j + 1] == tail[j];
    } else {
      FilterTwiceFound(tail, p);
      var i, j :| 0 <= i < j < |tail| && p(tail[i]) && p(tail[j]);
      assert xs[i + 1] == tail[i] && xs[j + 1] == tail[j];
    }
  }

  lemma {:induction false} FilterTwiceCounted<T(!new)>(xs: seq<T>, p: T -> bool, i: nat, j: nat)
    requires i < j < |xs| && p(xs[i]) && p(xs[j])
    ensures |Filter(xs, p)| >= 2
  {
    var tail := xs[1..];
    assert xs[j] == tail[j - 1];
    if i == 0 {
      assert tail[j - 1] in Filter(tail, p);
    } else {
      assert xs[i] == tail[i - 1];
      FilterTwiceCounted(tail, p, i - 1, j - 1);
    }
  }

  /** Filtering keeps everything when every element satisfies `p`. */
  lemma {:induction false} FilterAll<T(!new)>(xs: seq<T>, p: T -> bool)
    requires forall k :: 0 <= k < |xs| ==> p(xs[k])
    ensures Filter(xs, p) == xs
  {
    if xs != [] {
      FilterAll(xs[1..], p);
      assert xs == [xs[0]] + xs[1..];
    }
  }

  /** Filtering keeps nothing when no element satisfies `p`. */
  lemma {:induction false} FilterNone<T(!new)>(xs: seq<T>, p: T -> bool)
    requires forall k :: 0 <= k < |xs| ==> !p(xs[k])
    ensures Filter(xs, p) == []
  {
    if xs != [] {
      FilterNone(xs[1..], p);
    }
  }

  /** `Stream.map`: the image of every element, in order. */
  function Map<T, U>(xs: seq<T>, f: T -> U): (r: seq<U>)
    ensures |r| == |xs|
    ensures forall k :: 0 <= k < |xs| ==> r[k] == f(xs[k])
  {
    seq(|xs|, k requires 0 <= k < |xs| => f(xs[k]))
  }

  /** Mapping a sequence extended by one element. */
  lemma MapSnoc<T, U>(xs: seq<T>, x: T, f: T -> U)
    ensures Map(xs + [x], f) == Map(xs, f) + [f(x)]
  {
  }

  /** Mapping a sequence prefixed by one element. */
  lemma MapCons<T, U>(x: T, xs: seq<T>, f: T -> U)
    ensures Map([x] + xs, f) == [f(x)] + Map(xs, f)
  {
  }

  /**
   * `p` and its negation split `xs` by occurrence: the images of the two
   * filters together are the images of `xs`, each as often as in `xs`.
   */
  lemma {:induction false} MapFilterPartition<T(!new), U>(xs: seq<T>, p: T -> bool, q: T -> bool, f: T -> U)
    requires forall x :: q(x) == !p(x)
    ensures multiset(Map(Filter(xs, p), f)) + multiset(Map(Filter(xs, q), f)) == multiset(Map(xs, f))
  {
    if xs != [] {
      var x, tail := xs[0], xs[1..];
      MapFilterPartition(tail, p, q, f);
      MapCons(x, tail, f);
      assert multiset(Map(xs, f)) == multiset{f(x)} + multiset(Map(tail, f)) by {
        assert xs == [x] + tail;
      }
      if p(x) {
        assert Filter(xs, p) == [x] + Filter(tail, p);
        assert Filter(xs, q) == Filter(tail, q);
        MapCons(x, Filter(tail, p), f);
        assert multiset(Map(Filter(xs, p), f)) == multiset{f(x)} + multiset(Map(Filter(tail, p), f));
      } else {
        assert Filter(xs, q) == [x] + Filter(tail, q);
        assert Filter(xs, p) == Filter(tail, p);
        MapCons(x, Filter(tail, q), f);
        assert multiset(Map(Filter(xs, q), f)) == multiset{f(x)} + multiset(Map(Filter(tail, q), f));
      }
    }
  }

  /** A non-empty sequence is its prefix followed by its last element. */
  lemma InitLast<T>(xs: seq<T>)
    requires xs != []
    ensures xs[..|xs| - 1] + [xs[|xs| - 1]] == xs
  {
  }

  /** Removes every occurrence of `x` (`List.removeIf(x::equals)`). */
  function RemoveAll<T(==,!new)>(xs: seq<T>, x: T): (r: seq<T>)
    ensures x !in r
    ensures forall y :: y in r <==> y in xs && y != x
    ensures |r| <= |xs|
  {
    Filter(xs, y => y != x)
  }

  /** One step of `RemoveAll`: the head is dropped iff it is the removed value. */
  lemma RemoveAllStep<T(!new)>(xs: seq<T>, x: T)
    requires xs != []
    ensures RemoveAll(xs, x) == (if xs[0] == x then [] else [xs[0]]) + RemoveAll(xs[1..], x)
  {
  }

  /** `RemoveAll` is the filter by any predicate that rejects exactly `x`. */
  lemma {:induction false} RemoveAllIsFilter<T(!new)>(xs: seq<T>, x: T, p: T -> bool)
    requires forall k :: 0 <= k < |xs| ==> p(xs[k]) == (xs[k] != x)
    ensures RemoveAll(xs, x) == Filter(xs, p)
  {
    if xs != [] {
      assert forall k :: 0 <= k < |xs[1..]| ==> xs[1..][k] == xs[k + 1];
      RemoveAllStep(xs, x);
      RemoveAllIsFilter(xs[1..], x, p);
    }
  }

  /** No element occurs twice. */
  predicate NoDuplicates<T(==)>(xs: seq<T>)
  {
    forall i, j :: 0 <= i < j < |xs| ==> xs[i] != xs[j]
  }

  /**
   * `Stream.distinct`: the first occurrence of every element, in order.
   */
  function Distinct<T(==,!new)>(xs: seq<T>): (r: seq<T>)
    ensures NoDuplicates(r)
    ensures forall x :: x in r <==> x in xs
    ensures |r| <= |xs|
    decreases |xs|
  {
    if xs == [] then []
    else
      var r := Distinct(xs[..|xs| - 1]);
      assert forall x :: x in xs <==> x in xs[..|xs| - 1] || x == xs[|xs| - 1];
      if xs[|xs| - 1] in r then r else r + [xs[|xs| - 1]]
  }

  /** A sequence without duplicates is its own `distinct`. */
  lemma {:induction false} DistinctOfNoDuplicates<T(!new)>(xs: seq<T>)
    requires NoDuplicates(xs)
    ensures Distinct(xs) == xs
    decreases |xs|
  {
    if xs != [] {
      var init := xs[..|xs| - 1];
      DistinctOfNoDuplicates(init);
      assert xs[|xs| - 1] !in init;
      assert init + [xs[|xs| - 1]] == xs;
    }
  }

  /** `Stream.flatMap`: the images of the elements, concatenated in order. */
  function FlatMap<T, U(!new)>(xs: seq<T>, f: T -> seq<U>): (r: seq<U>)
    ensures forall y :: y in r <==> exists k :: 0 <= k < |xs| && y in f(xs[k])
  {
    if xs == [] then []
    else
      var rest := FlatMap(xs[1..], f);
      assert forall k :: 1 <= k < |xs| ==> xs[k] == xs[1..][k - 1];
      f(xs[0]) + rest
  }

  /** The keys never increase along `xs`. */
  predicate NonIncreasing<T>(xs: seq<T>, key: T -> int)
  {
    forall i, j :: 0 <= i < j < |xs| ==> key(xs[i]) >= key(xs[j])
  }

  /**
   * Inserts `x` before the first element of `s` whose key is not greater
   * than its own.
   */
  function InsertDescending<T>(x: T, s: seq<T>, key: T -> int): (r: seq<T>)
    ensures multiset(r) == multiset(s) + multiset{x}
  {
    if s == [] then [x]
    else if key(s[0]) > key(x) then
      assert s == [s[0]] + s[1..];
      [s[0]] + InsertDescending(x, s[1..], key)
    else
      [x] + s
  }

  /** Inserting into a non-increasing sequence keeps it non-increasing. */
  lemma {:induction false} InsertKeepsOrder<T>(x: T, s: seq<T>, key: T -> int)
    requires NonIncreasing(s, key)
    ensures NonIncreasing(InsertDescending(x, s, key), key)
  {
    if s == [] {
      assert InsertDescending(x, s, key) == [x];
    } else if key(s[0]) > key(x) {
      var rest := InsertDescending(x, s[1..], key);
      assert NonIncreasing(s[1..], key) by {
        assert forall i :: 0 <= i < |s[1..]| ==> s[1..][i] == s[i + 1];
      }
      InsertKeepsOrder(x, s[1..], key);
      forall j | 0 <= j < |rest|
        ensures key(s[0]) >= key(rest[j])
      {
        assert rest[j] in multiset(rest);
        if rest[j] != x {
          assert rest[j] in multiset(s[1..]);
          HeadBoundsTail(s, key, rest[j]);
        }
      }
      ConsKeepsOrder(s[0], rest, key);
    } else {
      assert forall j :: 0 <= j < |s| ==> key(s[0]) >= key(s[j]);
      ConsKeepsOrder(x, s, key);
    }
  }

  /** A head whose key bounds every key of a non-increasing tail keeps the order. */
  lemma ConsKeepsOrder<T>(h: T, rest: seq<T>, key: T -> int)
    requires NonIncreasing(rest, key)
    requires forall j :: 0 <= j < |rest| ==> key(h) >= key(rest[j])
    ensures NonIncreasing([h] + rest, key)
  {
    var r := [h] + rest;
    assert forall i :: 0 < i < |r| ==> r[i] == rest[i - 1];
  }

  /** The head of a non-increasing sequence has the greatest key. */
  lemma HeadBoundsTail<T>(s: seq<T>, key: T -> int, z: T)
    requires s != [] && NonIncreasing(s, key)
    requires z in s[1..]
    ensures key(s[0]) >= key(z)
  {
    var k :| 0 <= k < |s[1..]| && s[1..][k] == z;
    assert s[k + 1] == z;
  }

  /**
   * A stable sort by descending key (`sorted` with a reversed comparator):
   * insertion sort from the back, so earlier elements stay first among ties.
   */
  function SortDescending<T>(xs: seq<T>, key: T -> int): (r: seq<T>)
    ensures multiset(r) == multiset(xs)
    ensures NonIncreasing(r, key)
    ensures |r| == |xs|
  {
    if xs == [] then []
    else
      var rest := SortDescending(xs[1..], key);
      assert xs == [xs[0]] + xs[1..];
      InsertKeepsOrder(xs[0], rest, key);
      InsertDescending(xs[0], rest, key)
  }
}

=== FILE: sms.dfy ===
/**
 * `SmsNotificationRequest`: the SMS request record and its three checks.
 * `isValidPhoneNumber` checks the number with a regular expression; here it
 * is a hand-written recogniser, proved to accept exactly the strings the
 * expression describes.
 */
module SmsRequests {
  import opened Wrappers
  import opened Text

  datatype SmsRequest = SmsRequest(
    recipientUserIds: Option<seq<Option<int>>>,
    phoneNumbers: Option<seq<string>>,
    message: Option<string>,
    smsType: Option<string>,
    meetingId: Option<int>,
    senderName: Option<string>)

  const DefaultSenderName := "PromiseService"
  const MaxMessageLength := 90
  const Urgent := "URGENT"
  const Normal := "NORMAL"

  /** A new request: every field null except the sender name's initialiser. */
  function NewSmsRequest(): (r: SmsRequest)
    ensures r.senderName == Some(DefaultSenderName)
    ensures r.recipientUserIds.None? && r.message.None? && r.smsType.None? && r.meetingId.None?
  {
    SmsRequest(None, None, None, None, None, Some(DefaultSenderName))
  }

  /** `isMessageLengthValid`: a message of at most 90 characters. */
  predicate IsMessageLengthValid(r: SmsRequest)
  {
    r.message.Some? && |r.message.value| <= MaxMessageLength
  }

  /** `isUrgent`: the type is exactly "URGENT" (a case-sensitive comparison). */
  predicate IsUrgent(r: SmsRequest)
  {
    r.smsType == Some(Urgent)
  }

  // The pattern `^(010|011|016|017|018|019)-?\d{3,4}-?\d{4}$`, read literally.

  predicate IsMobilePrefix(s: string)
  {
    s == "010" || s == "011" || s == "016" || s == "017" || s == "018" || s == "019"
  }

  /** `\d{mid}`, then an optional dash, then `\d{4}`, over the whole of `t`. */
  predicate BodyShape(t: string, mid: nat, dash: bool)
  {
    var b := if dash then 1 else 0;
    && |t| == mid + b + 4
    && AllDigits(t[..mid])
    && (dash ==> t[mid] == '-')
    && AllDigits(t[mid + b..])
  }

  /** `\d{3,4}-?\d{4}`: the four ways the part after the prefix can be written. */
  predicate BodyPattern(t: string)
  {
    BodyShape(t, 3, false) || BodyShape(t, 3, true) || BodyShape(t, 4, false) || BodyShape(t, 4, true)
  }

  /** The whole pattern: a mobile prefix, an optional dash, then the body. */
  predicate MatchesPattern(s: string)
  {
    && |s| >= 3
    && IsMobilePrefix(s[..3])
    && (BodyPattern(s[3..]) || (|s| > 3 && s[3] == '-' && BodyPattern(s[4..])))
  }

  // The recogniser: one left-to-right pass with no backtracking.

  /** The number of leading digits of `t`. */
  function DigitRun(t: string): (g: nat)
    ensures g <= |t| && AllDigits(t[..g])
    ensures g < |t| ==> !IsDigit(t[g])
  {
    if t != [] && IsDigit(t[0]) then
      var g := 1 + DigitRun(t[1..]);
      assert t[..g] == [t[0]] + t[1..][..g - 1];
      g
    else 0
  }

  /**
   * After the prefix and its optional dash: a run of 7 or 8 digits, or a
   * run of 3 or 4 digits, a dash and exactly 4 digits.
   */
  predicate RecogniseBody(t: string)
  {
    var g := DigitRun(t);
    if g == |t| then g == 7 || g == 8
    else (g == 3 || g == 4) && t[g] == '-' && |t| == g + 5 && AllDigits(t[g + 1..])
  }

  predicate Recognise(s: string)
  {
    && |s| >= 3
    && IsMobilePrefix(s[..3])
    && RecogniseBody(if |s| > 3 && s[3] == '-' then s[4..] else s[3..])
  }

  /** A run of digits ends at the first non-digit. */
  lemma {:induction false} DigitRunAt(t: string, k: nat)
    requires k <= |t| && AllDigits(t[..k])
    requires k < |t| ==> !IsDigit(t[k])
    ensures DigitRun(t) == k
    decreases k
  {
    if k > 0 {
      assert t[..k][0] == t[0];
      assert t[1..][..k - 1] == t[..k][1..];
      DigitRunAt(t[1..], k - 1);
    }
  }

  /** The recogniser's body test agrees with the pattern's body. */
  lemma RecogniseBodyIffPattern(t: string)
    ensures RecogniseBody(t) <==> BodyPattern(t)
  {
    var g := DigitRun(t);
    if RecogniseBody(t) {
      if g == |t| {
        assert t[..g] == t;
        if g == 7 {
          assert t[..3] == t[..g][..3] && t[3..] == t[..g][3..];
          assert BodyShape(t, 3, false);
        } else {
          assert t[..4] == t[..g][..4] && t[4..] == t[..g][4..];
          assert BodyShape(t, 4, false);
        }
      } else if g == 3 {
        assert BodyShape(t, 3, true);
      } else {
        assert BodyShape(t, 4, true);
      }
    }
    if BodyPattern(t) {
      if BodyShape(t, 3, false) {
        assert forall i :: 0 <= i < |t| ==> (i < 3 ==> t[i] == t[..3][i]) && (i >= 3 ==> t[i] == t[3..][i - 3]);
        assert t[..7] == t;
        DigitRunAt(t, 7);
      } else if BodyShape(t, 4, false) {
        assert forall i :: 0 <= i < |t| ==> (i < 4 ==> t[i] == t[..4][i]) && (i >= 4 ==> t[i] == t[4..][i - 4]);
        assert t[..8] == t;
        DigitRunAt(t, 8);
      } else if BodyShape(t, 3, true) {
        DigitRunAt(t, 3);
      } else {
        DigitRunAt(t, 4);
      }
    }
  }

  /** The recogniser accepts exactly the strings the pattern matches. */
  lemma RecogniseIffPattern(s: string)
    ensures Recognise(s) <==> MatchesPattern(s)
  {
    if |s| >= 3 {
      RecogniseBodyIffPattern(s[3..]);
      if |s| > 3 && s[3] == '-' {
        RecogniseBodyIffPattern(s[4..]);
        var t := s[3..];
        assert t[0] == '-';
        assert |t| >= 3 ==> t[..3][0] == '-';
        assert |t| >= 4 ==> t[..4][0] == '-';
      }
    }
  }

  /** `isValidPhoneNumber`: a null number is invalid; otherwise the recogniser decides. */
  predicate IsValidPhoneNumber(phone: Option<string>)
  {
    phone.Some? && Recognise(phone.value)
  }

  /** The check accepts exactly the non-null strings the pattern matches. */
  lemma PhoneCheckMatchesPattern(phone: Option<string>)
    ensures IsValidPhoneNumber(phone) <==> phone.Some? && MatchesPattern(phone.value)
  {
    if phone.Some? {
      RecogniseIffPattern(phone.value);
    }
  }

  // Every accepted number carries 10 or 11 digits.

  function CountDigits(s: string): nat
  {
    if s == [] then 0 else (if IsDigit(s[0]) then 1 else 0) + CountDigits(s[1..])
  }

  lemma {:induction false} CountDigitsAppend(a: string, b: string)
    ensures CountDigits(a + b) == CountDigits(a) + CountDigits(b)
  {
    if a == [] {
      assert a + b == b;
    } else {
      var ab := a + b;
      assert ab[0] == a[0] && ab[1..] == a[1..] + b;
      assert CountDigits(ab) == (if IsDigit(ab[0]) then 1 else 0) + CountDigits(ab[1..]);
      CountDigitsAppend(a[1..], b);
    }
  }

  lemma {:induction false} CountAllDigits(s: string)
    requires AllDigits(s)
    ensures CountDigits(s) == |s|
  {
    if s != [] {
      assert IsDigit(s[0]);
      CountAllDigits(s[1..]);
    }
  }

  /** The body of the pattern holds 7 or 8 digits. */
  lemma BodyDigits(t: string, mid: nat, dash: bool)
    requires BodyShape(t, mid, dash)
    ensures CountDigits(t) == mid + 4
  {
    var b := if dash then 1 else 0;
    assert t == t[..mid] + t[mid..mid + b] + t[mid + b..];
    CountDigitsAppend(t[..mid] + t[mid..mid + b], t[mid + b..]);
    CountDigitsAppend(t[..mid], t[mid..mid + b]);
    CountAllDigits(t[..mid]);
    CountAllDigits(t[mid + b..]);
    if dash {
      assert t[mid..mid + b] == ['-'];
      assert CountDigits(['-']) == 0;
    } else {
      assert t[mid..mid + b] == [];
    }
  }

  lemma BodyPatternDigits(t: string)
    requires BodyPattern(t)
    ensures CountDigits(t) == 7 || CountDigits(t) == 8
  {
    if BodyShape(t, 3, false) {
      BodyDigits(t, 3, false);
    } else if BodyShape(t, 3, true) {
      BodyDigits(t, 3, true);
    } else if BodyShape(t, 4, false) {
      BodyDigits(t, 4, false);
    } else {
      BodyDigits(t, 4, true);
    }
  }

  /** Every number the check accepts has 10 or 11 digits. */
  lemma ValidNumberDigitCount(s: string)
    requires IsValidPhoneNumber(Some(s))
    ensures CountDigits(s) == 10 || CountDigits(s) == 11
  {
    PhoneCheckMatchesPattern(Some(s));
    var prefix := s[..3];
    assert AllDigits(prefix);
    CountAllDigits(prefix);
    if BodyPattern(s[3..]) {
      assert s == prefix + s[3..];
      CountDigitsAppend(prefix, s[3..]);
      BodyPatternDigits(s[3..]);
    } else {
      assert s == prefix + [s[3]] + s[4..];
      CountDigitsAppend(prefix + [s[3]], s[4..]);
      CountDigitsAppend(prefix, [s[3]]);
      assert CountDigits([s[3]]) == 0;
      BodyPatternDigits(s[4..]);
    }
  }

  /** The dashed form of a mobile number is accepted. */
  lemma DashedSampleAccepted()
    ensures IsValidPhoneNumber(Some("010-1234-5678"))
  {
    var s := "010-1234-5678";
    assert s[..3] == "010" && s[3] == '-';
    var t := s[4..];
    assert t[..4] == "1234" && t[4] == '-' && t[5..] == "5678";
    DigitRunAt(t, 4);
  }

  /** The plain form of a mobile number is accepted. */
  lemma PlainSampleAccepted()
    ensures IsValidPhoneNumber(Some("01012345678"))
  {
    var s := "01012345678";
    assert s[..3] == "010" && s[3] != '-';
    var t := s[3..];
    assert t[..8] == t == "12345678";
    DigitRunAt(t, 8);
  }

  /** A landline number is refused. */
  lemma LandlineRefused()
    ensures !IsValidPhoneNumber(Some("02-1234-5678"))
  {
    assert "02-1234-5678"[..3] == "02-";
  }
}

/**
 * `SmsService`: phone lookup by user id, the per-number send loop, urgent
 * messages and the failure response. The user service and the SMS gateway
 * are oracles.
 */
module SmsService {
  import opened Wrappers
  import opened Text
  import opened SmsRequests
  import opened NotificationResponses
  import Seqs

  type SmsResponse = Response<string>

  /** What the user service returns for an id. */
  datatype UserLookup = LookupThrew | NoUser | UserFound(phoneNumber: Option<string>)

  /** What the SMS gateway returns: an exception, or a reply map that may be null. */
  datatype GatewayReply = GatewayThrew | GatewayReplied(body: Option<map<string, string>>)

  const MalformedReason := "잘못된 전화번호 형식"
  const GatewayFailureReason := "SMS 서비스 전송 실패"
  const UrgentPrefix := "[긴급] "
  const UrgentSenderName := "PromiseService 긴급알림"

  /** The phone number a lookup yields when it is present and not blank. */
  function UsablePhone(l: UserLookup): Option<string>
  {
    if l.UserFound? && HasText(l.phoneNumber) then l.phoneNumber else None
  }

  /**
   * `getPhoneNumbersFromUserIds`: the non-blank numbers of the users found,
   * in id order; failed lookups and users without a number are skipped.
   */
  function PhoneNumbersFromUserIds(ids: seq<Option<int>>, lookup: Option<int> -> UserLookup): (r: seq<string>)
    ensures |r| <= |ids|
    ensures forall p :: p in r ==> !IsBlank(p)
    ensures forall p :: p in r <==> exists k :: 0 <= k < |ids| && UsablePhone(lookup(ids[k])) == Some(p)
  {
    if ids == [] then []
    else
      var rest := PhoneNumbersFromUserIds(ids[1..], lookup);
      var head := UsablePhone(lookup(ids[0]));
      UsableInTail(ids, lookup);
      (if head.Some? then [head.value] else []) + rest
  }

  /** A usable number found after the first id is one found in the tail. */
  lemma UsableInTail(ids: seq<Option<int>>, lookup: Option<int> -> UserLookup)
    requires |ids| > 0
    ensures forall p :: (exists k :: 1 <= k < |ids| && UsablePhone(lookup(ids[k])) == Some(p))
                        <==> (exists k :: 0 <= k < |ids[1..]| && UsablePhone(lookup(ids[1..][k])) == Some(p))
  {
    forall p | exists k :: 1 <= k < |ids| && UsablePhone(lookup(ids[k])) == Some(p)
      ensures exists k :: 0 <= k < |ids[1..]| && UsablePhone(lookup(ids[1..][k])) == Some(p)
    {
      var k :| 1 <= k < |ids| && UsablePhone(lookup(ids[k])) == Some(p);
      assert ids[1..][k - 1] == ids[k];
    }
  }

  function HasUsablePhone(lookup: Option<int> -> UserLookup): Option<int> -> bool
  {
    id => UsablePhone(lookup(id)).Some?
  }

  function UsablePhoneOf(lookup: Option<int> -> UserLookup): Option<int> -> string
  {
    id => UsablePhone(lookup(id)).GetOr("")
  }

  /**
   * The numbers found are, in id order, one per id whose user has a usable
   * number: that number.
   */
  lemma {:induction false} PhoneNumbersInIdOrder(ids: seq<Option<int>>, lookup: Option<int> -> UserLookup)
    ensures PhoneNumbersFromUserIds(ids, lookup)
            == Seqs.Map(Seqs.Filter(ids, HasUsablePhone(lookup)), UsablePhoneOf(lookup))
  {
    if ids != [] {
      PhoneNumbersInIdOrder(ids[1..], lookup);
      var rest := Seqs.Filter(ids[1..], HasUsablePhone(lookup));
      if HasUsablePhone(lookup)(ids[0]) {
        Seqs.MapCons(ids[0], rest, UsablePhoneOf(lookup));
      }
    }
  }

  /** `sendSingleSms`: true iff the reply map is present and its "status" is "success". */
  predicate GatewayAccepted(reply: GatewayReply)
  {
    reply.GatewayReplied? && reply.body.Some? && "status" in reply.body.value
    && reply.body.value["status"] == "success"
  }

  /**
   * The body `sendSingleSms` posts for one number. The sender number and
   * the API key are configuration and are left out; a null meeting id
   * leaves the key out, which `None` stands for.
   */
  datatype SmsPayload = SmsPayload(
    to: string,
    message: Option<string>,
    smsType: Option<string>,
    senderName: Option<string>,
    meetingId: Option<int>)

  function PayloadFor(phone: string, request: SmsRequest): SmsPayload
  {
    SmsPayload(phone, request.message, request.smsType, request.senderName, request.meetingId)
  }

  function PayloadsFor(phones: seq<string>, request: SmsRequest): seq<SmsPayload>
  {
    Seqs.Map(phones, p => PayloadFor(p, request))
  }

  /**
   * One pass of the loop of `sendSmsToPhoneNumbers`: the number and the
   * gateway's reply to the send made for it (ignored when the number is
   * malformed, since nothing is sent then).
   */
  datatype Attempt = Attempt(phone: string, reply: GatewayReply)

  /**
   * The loop's passes: the i-th number with the i-th reply. A number that
   * occurs twice is posted twice, and the two replies may differ.
   */
  function Attempts(phones: seq<string>, gateway: nat -> GatewayReply): seq<Attempt>
  {
    seq(|phones|, i requires 0 <= i < |phones| => Attempt(phones[i], gateway(i)))
  }

  /** Why a pass fails, or None when its number is sent. */
  function FailureReason(a: Attempt): Option<string>
  {
    if !IsValidPhoneNumber(Some(a.phone)) then Some(MalformedReason)
    else if GatewayAccepted(a.reply) then None
    else Some(GatewayFailureReason)
  }

  /**
   * A malformed number fails as malformed; a well-formed one is sent iff the
   * gateway accepts it, and otherwise fails as a gateway failure.
   */
  lemma FailureReasonCases(a: Attempt)
    ensures !IsValidPhoneNumber(Some(a.phone)) ==> FailureReason(a) == Some(MalformedReason)
    ensures IsValidPhoneNumber(Some(a.phone)) ==> (FailureReason(a).None? <==> GatewayAccepted(a.reply))
    ensures FailureReason(a) in {None, Some(MalformedReason), Some(GatewayFailureReason)}
  {
  }

  function Sent(): Attempt -> bool
  {
    (a: Attempt) => FailureReason(a).None?
  }

  function Failed(): Attempt -> bool
  {
    (a: Attempt) => FailureReason(a).Some?
  }

  function Phone(): Attempt -> string
  {
    (a: Attempt) => a.phone
  }

  function Valid(): string -> bool
  {
    (p: string) => IsValidPhoneNumber(Some(p))
  }

  /** No later pass of `fs` is for the number of `fs[k]`. */
  predicate IsLastFor(fs: seq<Attempt>, k: nat)
    requires k < |fs|
  {
    forall j :: k < j < |fs| ==> fs[j].phone != fs[k].phone
  }

  /** The keys of `m` are exactly the numbers of `failed`. */
  ghost predicate KeyedByNumbers(failed: seq<Attempt>, m: map<string, Option<string>>)
  {
    forall p :: p in m <==> exists k :: 0 <= k < |failed| && failed[k].phone == p
  }

  /** A number's last pass in `failed` gives its value in `m`. */
  ghost predicate LastPassDecides(failed: seq<Attempt>, m: map<string, Option<string>>)
  {
    forall k :: 0 <= k < |failed| && IsLastFor(failed, k) ==>
      failed[k].phone in m && m[failed[k].phone] == FailureReason(failed[k])
  }

  /** Every value of `m` is the reason of some pass of `failed` for its key. */
  ghost predicate ValuesFromPasses(failed: seq<Attempt>, m: map<string, Option<string>>)
  {
    forall p :: p in m ==> exists k :: 0 <= k < |failed| && failed[k].phone == p && m[p] == FailureReason(failed[k])
  }

  /**
   * The reason map the loop leaves for the failed passes `failed`: each put
   * overwrites, so a number's last failure decides its reason.
   */
  function ReasonsOf(failed: seq<Attempt>): (m: map<string, Option<string>>)
    ensures KeyedByNumbers(failed, m)
    ensures LastPassDecides(failed, m)
    ensures ValuesFromPasses(failed, m)
  {
    if failed == [] then map[]
    else
      var n := |failed| - 1;
      var m := ReasonsOf(failed[..n]);
      ReasonsStep(failed, m);
      m[failed[n].phone := FailureReason(failed[n])]
  }

  /** One more failed pass: putting its reason keeps the map's three properties. */
  lemma ReasonsStep(failed: seq<Attempt>, m: map<string, Option<string>>)
    requires failed != []
    requires var init := failed[..|failed| - 1];
             KeyedByNumbers(init, m) && LastPassDecides(init, m) && ValuesFromPasses(init, m)
    ensures var n := |failed| - 1;
            var m' := m[failed[n].phone := FailureReason(failed[n])];
            KeyedByNumbers(failed, m') && LastPassDecides(failed, m') && ValuesFromPasses(failed, m')
  {
    KeysStep(failed, m);
    LastStep(failed, m);
    ValuesStep(failed, m);
  }

  lemma KeysStep(failed: seq<Attempt>, m: map<string, Option<string>>)
    requires failed != [] && KeyedByNumbers(failed[..|failed| - 1], m)
    ensures var n := |failed| - 1; KeyedByNumbers(failed, m[failed[n].phone := FailureReason(failed[n])])
  {
    var n := |failed| - 1;
    var init := failed[..n];
    var m' := m[failed[n].phone := FailureReason(failed[n])];
    forall p ensures p in m' <==> exists k :: 0 <= k < |failed| && failed[k].phone == p {
      if exists k :: 0 <= k < |failed| && failed[k].phone == p {
        var k :| 0 <= k < |failed| && failed[k].phone == p;
        if k < n {
          assert init[k].phone == p;
        }
      }
      if p in m && p != failed[n].phone {
        var k :| 0 <= k < |init| && init[k].phone == p;
        assert failed[k] == init[k];
      }
    }
  }

  lemma LastStep(failed: seq<Attempt>, m: map<string, Option<string>>)
    requires failed != [] && LastPassDecides(failed[..|failed| - 1], m)
    ensures var n := |failed| - 1; LastPassDecides(failed, m[failed[n].phone := FailureReason(failed[n])])
  {
    var n := |failed| - 1;
    var init := failed[..n];
    forall k | 0 <= k < n && IsLastFor(failed, k)
      ensures IsLastFor(init, k) && failed[k].phone != failed[n].phone
    {
      assert init[k] == failed[k];
      assert forall j :: k < j < n ==> init[j] == failed[j];
    }
  }

  lemma ValuesStep(failed: seq<Attempt>, m: map<string, Option<string>>)
    requires failed != [] && ValuesFromPasses(failed[..|failed| - 1], m)
    ensures var n := |failed| - 1; ValuesFromPasses(failed, m[failed[n].phone := FailureReason(failed[n])])
  {
    var n := |failed| - 1;
    var init := failed[..n];
    var m' := m[failed[n].phone := FailureReason(failed[n])];
    forall p | p in m'
      ensures exists k :: 0 <= k < |failed| && failed[k].phone == p && m'[p] == FailureReason(failed[k])
    {
      if p != failed[n].phone {
        var k :| 0 <= k < |init| && init[k].phone == p && m[p] == FailureReason(init[k]);
        assert failed[k] == init[k];
      } else {
        assert failed[n].phone == p;
      }
    }
  }

  lemma ReasonsOfSnoc(failed: seq<Attempt>, a: Attempt)
    ensures ReasonsOf(failed + [a]) == ReasonsOf(failed)[a.phone := FailureReason(a)]
  {
    assert (failed + [a])[..|failed|] == failed;
  }

  /**
   * The response `sendSmsToPhoneNumbers` builds: the numbers of the passes
   * that sent and of those that failed, in input order, and the reason map
   * of the failures.
   */
  function PhonesResponse(phones: seq<string>, gateway: nat -> GatewayReply): SmsResponse
  {
    var a := Attempts(phones, gateway);
    var failed := Seqs.Filter(a, Failed());
    WithFailureReasons(NewResponse(SmsLabel, Seqs.Map(Seqs.Filter(a, Sent()), Phone()), Seqs.Map(failed, Phone())),
                       ReasonsOf(failed))
  }

  /**
   * One pass: a malformed number fails without reaching the gateway;
   * otherwise one body is posted and the gateway's reply decides.
   */
  method SendOne(phone: string, reply: GatewayReply, request: SmsRequest)
    returns (reason: Option<string>, posted: seq<SmsPayload>)
    ensures reason == FailureReason(Attempt(phone, reply))
    ensures posted != [] <==> IsValidPhoneNumber(Some(phone))
    ensures posted != [] ==> posted == [PayloadFor(phone, request)]
  {
    if !IsValidPhoneNumber(Some(phone)) {
      return Some(MalformedReason), [];
    }
    posted := [PayloadFor(phone, request)];
    if GatewayAccepted(reply) {
      return None, posted;
    }
    return Some(GatewayFailureReason), posted;
  }

  /** One more pass extends a filter of the passes by that pass when it qualifies. */
  lemma FilterNext<T(!new)>(xs: seq<T>, i: nat, p: T -> bool)
    requires i < |xs|
    ensures xs[..i + 1] == xs[..i] + [xs[i]]
    ensures Seqs.Filter(xs[..i + 1], p) == Seqs.Filter(xs[..i], p) + (if p(xs[i]) then [xs[i]] else [])
  {
    assert xs[..i + 1] == xs[..i] + [xs[i]];
    Seqs.FilterSnoc(xs[..i], xs[i], p);
  }

  /** A pass that sends extends the sent numbers and leaves the failures alone. */
  lemma PassSent(a: seq<Attempt>, i: nat)
    requires i < |a| && FailureReason(a[i]).None?
    ensures Seqs.Map(Seqs.Filter(a[..i + 1], Sent()), Phone()) == Seqs.Map(Seqs.Filter(a[..i], Sent()), Phone()) + [a[i].phone]
    ensures Seqs.Filter(a[..i + 1], Failed()) == Seqs.Filter(a[..i], Failed())
  {
    FilterNext(a, i, Sent());
    FilterNext(a, i, Failed());
    Seqs.MapSnoc(Seqs.Filter(a[..i], Sent()), a[i], Phone());
  }

  /** A pass that fails extends the failed numbers and puts its reason. */
  lemma PassFailed(a: seq<Attempt>, i: nat)
    requires i < |a| && FailureReason(a[i]).Some?
    ensures Seqs.Map(Seqs.Filter(a[..i + 1], Failed()), Phone()) == Seqs.Map(Seqs.Filter(a[..i], Failed()), Phone()) + [a[i].phone]
    ensures ReasonsOf(Seqs.Filter(a[..i + 1], Failed()))
            == ReasonsOf(Seqs.Filter(a[..i], Failed()))[a[i].phone := FailureReason(a[i])]
    ensures Seqs.Filter(a[..i + 1], Sent()) == Seqs.Filter(a[..i], Sent())
  {
    FilterNext(a, i, Sent());
    FilterNext(a, i, Failed());
    Seqs.MapSnoc(Seqs.Filter(a[..i], Failed()), a[i], Phone());
    ReasonsOfSnoc(Seqs.Filter(a[..i], Failed()), a[i]);
  }

  /** A pass posts one more body exactly when its number is well-formed. */
  lemma PassPosted(phones: seq<string>, i: nat, request: SmsRequest)
    requires i < |phones|
    ensures PayloadsFor(Seqs.Filter(phones[..i + 1], Valid()), request)
            == PayloadsFor(Seqs.Filter(phones[..i], Valid()), request)
               + (if IsValidPhoneNumber(Some(phones[i])) then [PayloadFor(phones[i], request)] else [])
    ensures multiset(phones[..i + 1]) == multiset(phones[..i]) + multiset{phones[i]}
  {
    FilterNext(phones, i, Valid());
    Seqs.MapSnoc(Seqs.Filter(phones[..i], Valid()), phones[i], p => PayloadFor(p, request));
  }

  /**
   * `sendSmsToPhoneNumbers`: each pass lands in exactly one of the two
   * lists, in input order, so every occurrence of a number is counted
   * once; each failed number has the reason of its last failure; one body
   * is posted per well-formed number, with the request's fields.
   */
  method SendSmsToPhoneNumbers(phones: seq<string>, request: SmsRequest, gateway: nat -> GatewayReply)
    returns (r: SmsResponse, posted: seq<SmsPayload>)
    ensures r == PhonesResponse(phones, gateway)
    ensures r.successfullyNotified == Seqs.Map(Seqs.Filter(Attempts(phones, gateway), Sent()), Phone())
    ensures r.failedToNotify == Seqs.Map(Seqs.Filter(Attempts(phones, gateway), Failed()), Phone())
    ensures multiset(r.successfullyNotified) + multiset(r.failedToNotify) == multiset(phones)
    ensures r.totalRecipients == |phones|
    ensures r.failureReasons == Some(ReasonsOf(Seqs.Filter(Attempts(phones, gateway), Failed())))
    ensures posted == PayloadsFor(Seqs.Filter(phones, Valid()), request)
  {
    var succeeded, failed, reasons;
    succeeded, failed, reasons, posted := SendEach(phones, request, gateway);
    EveryPassCountedOnce(phones, gateway);
    r := WithFailureReasons(NewResponse(SmsLabel, succeeded, failed), reasons);
  }

  /** What the loop holds after the first `i` numbers. */
  ghost predicate SentSoFar(phones: seq<string>, request: SmsRequest, gateway: nat -> GatewayReply, i: nat,
                            succeeded: seq<string>, failed: seq<string>,
                            reasons: map<string, Option<string>>, posted: seq<SmsPayload>)
  {
    && i <= |phones|
    && succeeded == Seqs.Map(Seqs.Filter(Attempts(phones, gateway)[..i], Sent()), Phone())
    && failed == Seqs.Map(Seqs.Filter(Attempts(phones, gateway)[..i], Failed()), Phone())
    && reasons == ReasonsOf(Seqs.Filter(Attempts(phones, gateway)[..i], Failed()))
    && posted == PayloadsFor(Seqs.Filter(phones[..i], Valid()), request)
  }

  /** One pass of the loop keeps `SentSoFar`. */
  lemma SendStep(phones: seq<string>, request: SmsRequest, gateway: nat -> GatewayReply, i: nat,
                 succeeded: seq<string>, failed: seq<string>,
                 reasons: map<string, Option<string>>, posted: seq<SmsPayload>,
                 reason: Option<string>, sent: seq<SmsPayload>)
    requires i < |phones|
    requires SentSoFar(phones, request, gateway, i, succeeded, failed, reasons, posted)
    requires reason == FailureReason(Attempt(phones[i], gateway(i)))
    requires sent == if IsValidPhoneNumber(Some(phones[i])) then [PayloadFor(phones[i], request)] else []
    ensures SentSoFar(phones, request, gateway, i + 1,
                      succeeded + (if reason.None? then [phones[i]] else []),
                      failed + (if reason.Some? then [phones[i]] else []),
                      if reason.Some? then reasons[phones[i] := reason] else reasons,
                      posted + sent)
  {
    var a := Attempts(phones, gateway);
    assert a[i] == Attempt(phones[i], gateway(i));
    PassPosted(phones, i, request);
    if reason.None? {
      PassSent(a, i);
    } else {
      PassFailed(a, i);
    }
  }

  /** The loop of `sendSmsToPhoneNumbers`, over the numbers in order. */
  method SendEach(phones: seq<string>, request: SmsRequest, gateway: nat -> GatewayReply)
    returns (succeeded: seq<string>, failed: seq<string>, reasons: map<string, Option<string>>, posted: seq<SmsPayload>)
    ensures succeeded == Seqs.Map(Seqs.Filter(Attempts(phones, gateway), Sent()), Phone())
    ensures failed == Seqs.Map(Seqs.Filter(Attempts(phones, gateway), Failed()), Phone())
    ensures reasons == ReasonsOf(Seqs.Filter(Attempts(phones, gateway), Failed()))
    ensures posted == PayloadsFor(Seqs.Filter(phones, Valid()), request)
  {
    succeeded, failed, reasons, posted := [], [], map[], [];
    var i := 0;
    while i < |phones|
      invariant SentSoFar(phones, request, gateway, i, succeeded, failed, reasons, posted)
    {
      var phone := phones[i];
      var reason, sent := SendOne(phone, gateway(i), request);
      SendStep(phones, request, gateway, i, succeeded, failed, reasons, posted, reason, sent);
      posted := posted + sent;
      if reason.None? {
        succeeded := succeeded + [phone];
      } else {
        failed := failed + [phone];
        reasons := reasons[phone := reason];
      }
      i := i + 1;
    }
    assert Attempts(phones, gateway)[..i] == Attempts(phones, gateway);
    assert phones[..i] == phones;
  }

  /**
   * Every occurrence of a number is in exactly one of the two lists: the
   * sent and the failed numbers together are the input, as a multiset.
   */
  lemma EveryPassCountedOnce(phones: seq<string>, gateway: nat -> GatewayReply)
    ensures var a := Attempts(phones, gateway);
            multiset(Seqs.Map(Seqs.Filter(a, Sent()), Phone())) + multiset(Seqs.Map(Seqs.Filter(a, Failed()), Phone()))
              == multiset(phones)
    ensures var a := Attempts(phones, gateway);
            |Seqs.Filter(a, Sent())| + |Seqs.Filter(a, Failed())| == |phones|
  {
    var a := Attempts(phones, gateway);
    Seqs.MapFilterPartition(a, Sent(), Failed(), Phone());
    Seqs.FilterComplement(a, Sent(), Failed());
    assert Seqs.Map(a, Phone()) == phones;
  }

  /**
   * The same well-formed number twice, accepted the first time and refused
   * the second: it is both sent and failed, and its reason is the gateway
   * failure.
   */
  lemma SameNumberTwice(p: string, gateway: nat -> GatewayReply)
    requires IsValidPhoneNumber(Some(p))
    requires GatewayAccepted(gateway(0)) && !GatewayAccepted(gateway(1))
    ensures PhonesResponse([p, p], gateway).successfullyNotified == [p]
    ensures PhonesResponse([p, p], gateway).failedToNotify == [p]
    ensures PhonesResponse([p, p], gateway).failureReasons == Some(map[p := Some(GatewayFailureReason)])
  {
    var a := Attempts([p, p], gateway);
    assert a == [Attempt(p, gateway(0)), Attempt(p, gateway(1))];
    assert Seqs.Filter(a, Sent()) == [a[0]] by {
      assert a[1..] == [a[1]];
      assert a[1..][1..] == [];
    }
    assert Seqs.Filter(a, Failed()) == [a[1]] by {
      assert a[1..] == [a[1]];
      assert a[1..][1..] == [];
    }
    assert ReasonsOf([a[1]]) == map[p := Some(GatewayFailureReason)] by {
      assert IsLastFor([a[1]], 0);
    }
  }

  /**
   * The response when nothing is sent: every number well-formed and every
   * send refused gives the failure response with the gateway failure as
   * every number's reason.
   */
  lemma AllRefusedIsFailureResponse(phones: seq<string>, gateway: nat -> GatewayReply)
    requires forall k :: 0 <= k < |phones| ==> IsValidPhoneNumber(Some(phones[k])) && !GatewayAccepted(gateway(k))
    ensures PhonesResponse(phones, gateway) == CreateFailureResponse(phones, Some(GatewayFailureReason))
  {
    var a := Attempts(phones, gateway);
    assert forall k :: 0 <= k < |a| ==> a[k] == Attempt(phones[k], gateway(k));
    Seqs.FilterNone(a, Sent());
    Seqs.FilterAll(a, Failed());
    assert Seqs.Map(a, Phone()) == phones;
    SameReasonEverywhere(a, Some(GatewayFailureReason));
  }

  /** When every failed pass has the same reason, the reason map gives it to every failed number. */
  lemma SameReasonEverywhere(failed: seq<Attempt>, reason: Option<string>)
    requires forall k :: 0 <= k < |failed| ==> FailureReason(failed[k]) == reason
    ensures ReasonsOf(failed) == SameReasonFor(Seqs.Map(failed, Phone()), reason)
  {
    ReasonKeysAreNumbers(failed);
    ReasonValuesAre(failed, reason);
    MapsAgree(ReasonsOf(failed), SameReasonFor(Seqs.Map(failed, Phone()), reason));
  }

  /** The reason map is keyed by the failed numbers. */
  lemma ReasonKeysAreNumbers(failed: seq<Attempt>)
    ensures forall p :: p in ReasonsOf(failed) <==> p in Seqs.Map(failed, Phone())
  {
    var m := ReasonsOf(failed);
    var phones := Seqs.Map(failed, Phone());
    forall p ensures p in m <==> p in phones {
      if p in phones {
        var k :| 0 <= k < |phones| && phones[k] == p;
        assert failed[k].phone == p;
      }
      if p in m {
        var k :| 0 <= k < |failed| && failed[k].phone == p;
        assert phones[k] == p;
      }
    }
  }

  lemma ReasonValuesAre(failed: seq<Attempt>, reason: Option<string>)
    requires forall k :: 0 <= k < |failed| ==> FailureReason(failed[k]) == reason
    ensures forall p :: p in ReasonsOf(failed) ==> ReasonsOf(failed)[p] == reason
  {
    var m := ReasonsOf(failed);
    forall p | p in m ensures m[p] == reason {
      var k :| 0 <= k < |failed| && failed[k].phone == p && m[p] == FailureReason(failed[k]);
    }
  }

  lemma MapsAgree(m: map<string, Option<string>>, n: map<string, Option<string>>)
    requires forall p :: p in m <==> p in n
    requires forall p :: p in m ==> m[p] == n[p]
    ensures m == n
  {
  }

  /** The response `sendSmsToUsers` gives for the numbers found. */
  function UsersResponse(phones: seq<string>, gateway: nat -> GatewayReply): SmsResponse
  {
    if phones == [] then NewResponse(SmsLabel, [], []) else PhonesResponse(phones, gateway)
  }

  /**
   * `sendSmsToUsers`: a null recipient list throws when the list's size is
   * logged, before the try block; no usable number gives an empty response
   * without touching the gateway; otherwise the numbers found are sent as
   * above.
   */
  method SendSmsToUsers(request: SmsRequest, lookup: Option<int> -> UserLookup, gateway: nat -> GatewayReply)
    returns (r: Result<SmsResponse>, posted: seq<SmsPayload>)
    ensures r.Ok? <==> request.recipientUserIds.Some?
    ensures r.Ok? ==> r.value == UsersResponse(PhoneNumbersFromUserIds(request.recipientUserIds.value, lookup), gateway)
    ensures r.Ok? && PhoneNumbersFromUserIds(request.recipientUserIds.value, lookup) == [] ==>
              r.value.totalRecipients == 0 && r.value.message == "" && posted == []
    ensures r.Ok? ==>
              posted == PayloadsFor(Seqs.Filter(PhoneNumbersFromUserIds(request.recipientUserIds.value, lookup), Valid()), request)
    ensures r.Err? ==> posted == []
  {
    posted := [];
    if request.recipientUserIds.None? {
      return NullDeref(), posted;
    }
    var phones := PhoneNumbersFromUserIds(request.recipientUserIds.value, lookup);
    if phones == [] {
      return Ok(NewResponse(SmsLabel, [], [])), posted;
    }
    var response;
    response, posted := SendSmsToPhoneNumbers(phones, request, gateway);
    r := Ok(response);
  }

  /** The request `sendUrgentSms` builds: prefixed message, URGENT type, urgent sender name. */
  function UrgentRequest(ids: seq<Option<int>>, message: string, meetingId: Option<int>): (r: SmsRequest)
    ensures IsUrgent(r)
    ensures r.message == Some(UrgentPrefix + message) && r.recipientUserIds == Some(ids)
    ensures r.senderName == Some(UrgentSenderName) && r.meetingId == meetingId
  {
    NewSmsRequest().(recipientUserIds := Some(ids), message := Some(UrgentPrefix + message),
                     smsType := Some(Urgent), meetingId := meetingId, senderName := Some(UrgentSenderName))
  }

  /** The prefix costs five characters of the 90-character budget. */
  lemma UrgentMessageLength(ids: seq<Option<int>>, message: string, meetingId: Option<int>)
    ensures IsMessageLengthValid(UrgentRequest(ids, message, meetingId)) <==> |message| <= MaxMessageLength - 5
  {
    assert |UrgentPrefix| == 5;
  }

  /**
   * `sendUrgentSms`: a null id list throws; otherwise the urgent request is
   * sent to the users, so the response is the one for the numbers found and
   * every body posted carries the prefixed message, the URGENT type and the
   * urgent sender name.
   */
  method SendUrgentSms(ids: Option<seq<Option<int>>>, message: string, meetingId: Option<int>,
                       lookup: Option<int> -> UserLookup, gateway: nat -> GatewayReply)
    returns (r: Result<SmsResponse>, posted: seq<SmsPayload>)
    ensures r.Ok? <==> ids.Some?
    ensures ids.Some? ==> r.value == UsersResponse(PhoneNumbersFromUserIds(ids.value, lookup), gateway)
    ensures ids.Some? ==>
              posted == PayloadsFor(Seqs.Filter(PhoneNumbersFromUserIds(ids.value, lookup), Valid()),
                                    UrgentRequest(ids.value, message, meetingId))
    ensures forall k :: 0 <= k < |posted| ==>
              posted[k].message == Some(UrgentPrefix + message) && posted[k].smsType == Some(Urgent)
              && posted[k].senderName == Some(UrgentSenderName) && posted[k].meetingId == meetingId
  {
    if ids.None? {
      return NullDeref(), [];
    }
    r, posted := SendSmsToUsers(UrgentRequest(ids.value, message, meetingId), lookup, gateway);
  }

  /** `createFailureResponse`: every recipient failed, each with the same reason. */
  function CreateFailureResponse(recipients: seq<string>, errorMessage: Option<string>): (r: SmsResponse)
    ensures r.successfullyNotified == [] && r.failedToNotify == recipients
    ensures r.successCount == 0 && r.failureCount == |recipients| == r.totalRecipients
    ensures r.failureReasons.Some?
    ensures forall p :: p in r.failureReasons.value <==> p in recipients
    ensures forall p :: p in r.failureReasons.value ==> r.failureReasons.value[p] == errorMessage
  {
    WithFailureReasons(NewResponse(SmsLabel, [], recipients), SameReasonFor(recipients, errorMessage))
  }

  /** The reason map that gives every recipient the same reason. */
  function SameReasonFor(recipients: seq<string>, reason: Option<string>): (m: map<string, Option<string>>)
    ensures forall p :: p in m <==> p in recipients
    ensures forall p :: p in m ==> m[p] == reason
  {
    map p | p in recipients :: reason
  }
}

=== FILE: template_payload.dfy ===
/**
 * `TemplatePayload`: the fields of a Kakao invitation message. Every field
 * is a nullable string.
 */
module TemplatePayloads {
  import opened Wrappers
  import opened Text

  datatype TemplatePayload = TemplatePayload(
    inviter: Option<string>,
    date: Option<string>,
    place: Option<string>,
    meetingUrl: Option<string>,
    title: Option<string>,
    description: Option<string>)

  /** The four-argument constructor: no title and no description. */
  function NewPayload(inviter: Option<string>, date: Option<string>, place: Option<string>,
                      meetingUrl: Option<string>): (p: TemplatePayload)
    ensures p.title.None? && p.description.None?
    ensures p.inviter == inviter && p.date == date && p.place == place && p.meetingUrl == meetingUrl
  {
    TemplatePayload(inviter, date, place, meetingUrl, None, None)
  }

  /** The six-argument constructor. */
  function NewFullPayload(inviter: Option<string>, date: Option<string>, place: Option<string>,
                          meetingUrl: Option<string>, title: Option<string>,
                          description: Option<string>): (p: TemplatePayload)
    ensures p.inviter == inviter && p.date == date && p.place == place && p.meetingUrl == meetingUrl
    ensures p.title == title && p.description == description
  {
    TemplatePayload(inviter, date, place, meetingUrl, title, description)
  }

  /** `isValid`: inviter, date and place are all present and not blank. */
  predicate IsValid(p: TemplatePayload)
  {
    HasText(p.inviter) && HasText(p.date) && HasText(p.place)
  }

  const InvitationSuffix := "님의 약속 초대"
  const TitleTag := "\n제목: "
  const DateTag := "\n일시: "
  const PlaceTag := "\n장소: "
  const UrlTag := "\n상세보기: "

  function TitleLine(p: TemplatePayload): string
  {
    if p.title.Some? then TitleTag + p.title.value else ""
  }

  function DateAndPlaceLines(p: TemplatePayload): string
  {
    DateTag + Appended(p.date) + PlaceTag + Appended(p.place)
  }

  function UrlLine(p: TemplatePayload): string
  {
    if p.meetingUrl.Some? then UrlTag + p.meetingUrl.value else ""
  }

  /** What the pieces of the simple text give, over plain strings so that no literal is unfolded. */
  lemma PiecesFacts(h: string, t: string, dl: string, pl: string, u: string)
    ensures StartsWith(h + t + (dl + pl) + u, h)
    ensures StartsWith(h + t + (dl + pl) + u, h + t)
    ensures t == [] ==> StartsWith(h + t + (dl + pl) + u, h + dl)
    ensures EndsWith(h + t + (dl + pl) + u, u)
    ensures u == [] ==> EndsWith(h + t + (dl + pl) + u, pl)
    ensures Contains(h + t + (dl + pl) + u, dl) && Contains(h + t + (dl + pl) + u, pl)
  {
    PiecesPrefixes(h, t, dl, pl + u);
    assert h + t + (dl + pl) + u == h + t + dl + (pl + u);
    PiecesSuffixes(h + t + dl, pl, u);
    assert h + t + (dl + pl) + u == h + t + dl + pl + u;
    ContainsMiddle(h + t, dl, pl + u);
    ContainsMiddle(h + t + dl, pl, u);
  }

  lemma PiecesPrefixes(h: string, t: string, dl: string, rest: string)
    ensures StartsWith(h + t + dl + rest, h)
    ensures StartsWith(h + t + dl + rest, h + t)
    ensures t == [] ==> StartsWith(h + t + dl + rest, h + dl)
  {
    var r := h + t + dl + rest;
    assert r[..|h|] == h;
    assert r[..|h + t|] == h + t;
    assert t == [] ==> r[..|h + dl|] == h + dl;
  }

  lemma PiecesSuffixes(a: string, pl: string, u: string)
    ensures EndsWith(a + pl + u, u)
    ensures u == [] ==> EndsWith(a + pl + u, pl)
  {
    var r := a + pl + u;
    assert r[|r| - |u|..] == u;
    assert u == [] ==> r[|r| - |pl|..] == pl;
  }

  /**
   * `toSimpleText`: the invitation line, a title line iff the title is
   * non-null, the date and place lines always, and a link line iff the URL
   * is non-null. A null field is written as "null".
   */
  function ToSimpleText(p: TemplatePayload): (r: string)
    ensures StartsWith(r, Appended(p.inviter) + InvitationSuffix)
    ensures p.title.Some? ==> StartsWith(r, Appended(p.inviter) + InvitationSuffix + (TitleTag + p.title.value))
    ensures p.title.None? ==> StartsWith(r, Appended(p.inviter) + InvitationSuffix + (DateTag + Appended(p.date)))
    ensures p.meetingUrl.Some? ==> EndsWith(r, UrlTag + p.meetingUrl.value)
    ensures p.meetingUrl.None? ==> EndsWith(r, PlaceTag + Appended(p.place))
    ensures Contains(r, DateTag + Appended(p.date)) && Contains(r, PlaceTag + Appended(p.place))
  {
    var head := Appended(p.inviter) + InvitationSuffix;
    var dateLine := DateTag + Appended(p.date);
    var placeLine := PlaceTag + Appended(p.place);
    PiecesFacts(head, TitleLine(p), dateLine, placeLine, UrlLine(p));
    head + TitleLine(p) + (dateLine + placeLine) + UrlLine(p)
  }

  /** Adding a title inserts exactly its line and changes nothing else of the text. */
  lemma TitleLineIsInserted(p: TemplatePayload, title: string)
    requires p.title.None?
    ensures var head := Appended(p.inviter) + InvitationSuffix;
            ToSimpleText(p.(title := Some(title)))
            == head + (TitleTag + title) + ToSimpleText(p)[|head|..]
  {
    var head := Appended(p.inviter) + InvitationSuffix;
    var rest := DateTag + Appended(p.date) + (PlaceTag + Appended(p.place)) + UrlLine(p);
    assert ToSimpleText(p) == head + rest;
    assert ToSimpleText(p)[|head|..] == rest;
  }
}

=== FILE: text.dfy ===
/**
 * The java.lang.String operations the services rely on, over `seq<char>`.
 * `trim` removes every character up to U+0020 at both ends, and "blank"
 * throughout the services means "empty after trim".
 */
module Text {

  /** `String.trim` drops exactly the characters at or below the space. */
  predicate IsTrimmable(c: char)
  {
    c <= ' '
  }

  function TrimStart(s: string): (r: string)
    ensures |r| <= |s| && r == s[|s| - |r|..]
    ensures r == [] || !IsTrimmable(r[0])
    ensures forall i :: 0 <= i < |s| - |r| ==> IsTrimmable(s[i])
  {
    if |s| > 0 && IsTrimmable(s[0]) then TrimStart(s[1..]) else s
  }

  function TrimEnd(s: string): (r: string)
    ensures |r| <= |s| && r == s[..|r|]
    ensures r == [] || !IsTrimmable(r[|r| - 1])
    ensures forall i :: |r| <= i < |s| ==> IsTrimmable(s[i])
  {
    if |s| > 0 && IsTrimmable(s[|s| - 1]) then TrimEnd(s[..|s| - 1]) else s
  }

  /** `String.trim`: the longest infix with no trimmable character at either end. */
  function Trim(s: string): (r: string)
    ensures |r| <= |s|
    ensures r == [] || (!IsTrimmable(r[0]) && !IsTrimmable(r[|r| - 1]))
    ensures OccursAt(s, r, |s| - |TrimStart(s)|)
  {
    TrimEnd(TrimStart(s))
  }

  lemma {:induction false} TrimStartOfUntrimmed(s: string)
    requires s == [] || !IsTrimmable(s[0])
    ensures TrimStart(s) == s
  {
  }

  lemma {:induction false} TrimEndKeepsFirst(s: string)
    requires s != [] && !IsTrimmable(s[0])
    ensures TrimEnd(s) != [] && TrimEnd(s)[0] == s[0]
  {
    if IsTrimmable(s[|s| - 1]) {
      TrimEndKeepsFirst(s[..|s| - 1]);
    }
  }

  /** Trimming a trimmed string changes nothing. */
  lemma TrimIdempotent(s: string)
    ensures Trim(Trim(s)) == Trim(s)
  {
    var r := Trim(s);
    TrimStartOfUntrimmed(r);
  }

  /** Blank: `s.trim().isEmpty()`. */
  predicate IsBlank(s: string)
  {
    Trim(s) == []
  }

  /** A string is blank exactly when every one of its characters is trimmable. */
  lemma {:induction false} BlankIffAllTrimmable(s: string)
    ensures IsBlank(s) <==> forall i :: 0 <= i < |s| ==> IsTrimmable(s[i])
  {
    if forall i :: 0 <= i < |s| ==> IsTrimmable(s[i]) {
      AllTrimmableTrimStart(s);
    } else {
      var i :| 0 <= i < |s| && !IsTrimmable(s[i]);
      var a := TrimStart(s);
      assert a != [];
      TrimEndKeepsFirst(a);
    }
  }

  lemma {:induction false} AllTrimmableTrimStart(s: string)
    requires forall i :: 0 <= i < |s| ==> IsTrimmable(s[i])
    ensures TrimStart(s) == []
  {
    if |s| > 0 {
      AllTrimmableTrimStart(s[1..]);
    }
  }

  /** A nullable string that is present and not blank (`s != null && !s.trim().isEmpty()`). */
  predicate HasText(s: Option<string>)
  {
    s.Some? && !IsBlank(s.value)
  }

  /** `StringBuilder.append` (or `+`) of a possibly null string, which writes "null". */
  function Appended(s: Option<string>): string
  {
    if s.Some? then s.value else "null"
  }

  import opened Wrappers

  predicate StartsWith(s: string, prefix: string)
  {
    |prefix| <= |s| && s[..|prefix|] == prefix
  }

  lemma StartsWithConcat(a: string, b: string)
    ensures StartsWith(a + b, a)
  {
    assert (a + b)[..|a|] == a;
  }

  predicate EndsWith(s: string, suffix: string)
  {
    |suffix| <= |s| && s[|s| - |suffix|..] == suffix
  }

  lemma EndsWithConcat(a: string, b: string)
    ensures EndsWith(a + b, b)
  {
    assert (a + b)[|a|..] == b;
  }

  /** A concatenation starts with its first part, ends with its second, and equals the first iff the second is empty. */
  lemma ConcatEnds(a: string, b: string)
    ensures StartsWith(a + b, a) && EndsWith(a + b, b)
    ensures a + b == a <==> b == ""
  {
    StartsWithConcat(a, b);
    EndsWithConcat(a, b);
    if a + b == a { assert |b| == 0; }
  }

  /** A prefix of the tail extends to a prefix of the whole. */
  lemma StartsWithExtended(a: string, b: string, p: string)
    ensures StartsWith(b, p) ==> StartsWith(a + b, a + p)
  {
    if StartsWith(b, p) {
      assert (a + b)[..|a + p|] == a + b[..|p|];
    }
  }

  /** A suffix of the tail is a suffix of the whole. */
  lemma EndsWithExtended(a: string, b: string, p: string)
    ensures EndsWith(b, p) ==> EndsWith(a + b, p)
  {
    if EndsWith(b, p) {
      assert (a + b)[|a + b| - |p|..] == b[|b| - |p|..];
    }
  }

  /** `String.contains`. */
  predicate Contains(s: string, part: string)
    decreases |s|
  {
    StartsWith(s, part) || (|s| > 0 && Contains(s[1..], part))
  }

  /** `part` occurs in `s` starting at index `k`. */
  predicate OccursAt(s: string, part: string, k: int)
  {
    0 <= k && k + |part| <= |s| && s[k..k + |part|] == part
  }

  /** `contains` holds exactly when `part` occurs at some index of `s`. */
  lemma {:induction false} ContainsIffOccurs(s: string, part: string)
    ensures Contains(s, part) <==> exists k :: OccursAt(s, part, k)
    decreases |s|
  {
    if |s| > 0 {
      ContainsIffOccurs(s[1..], part);
      if StartsWith(s, part) {
        assert OccursAt(s, part, 0);
      }
      if exists k :: OccursAt(s, part, k) {
        var k :| OccursAt(s, part, k);
        if k > 0 {
          assert OccursAt(s[1..], part, k - 1);
        }
      }
      if Contains(s[1..], part) && !StartsWith(s, part) {
        var k :| OccursAt(s[1..], part, k);
        assert OccursAt(s, part, k + 1);
      }
    } else {
      if exists k :: OccursAt(s, part, k) {
        var k :| OccursAt(s, part, k);
        assert k == 0 && part == [];
        assert StartsWith(s, part);
      }
      if Contains(s, part) {
        assert OccursAt(s, part, 0);
      }
    }
  }

  lemma OccursContains(s: string, part: string, k: nat)
    requires OccursAt(s, part, k)
    ensures Contains(s, part)
  {
    ContainsIffOccurs(s, part);
  }

  /** A non-empty pattern whose first character never occurs in `s` is not contained in it. */
  lemma AbsentFirstCharNotContained(s: string, part: string)
    requires |part| > 0 && forall i :: 0 <= i < |s| ==> s[i] != part[0]
    ensures !Contains(s, part)
  {
    ContainsIffOccurs(s, part);
    forall k | 0 <= k && k + |part| <= |s|
      ensures !OccursAt(s, part, k)
    {
      assert s[k..k + |part|][0] == s[k];
    }
  }

  /** A string contains each of its infixes. */
  lemma ContainsMiddle(a: string, b: string, c: string)
    ensures Contains(a + b + c, b)
  {
    assert (a + b + c)[|a|..|a| + |b|] == b;
    OccursContains(a + b + c, b, |a|);
  }

  lemma ContainsInConcat(a: string, b: string, part: string)
    requires Contains(a, part) || Contains(b, part)
    ensures Contains(a + b, part)
  {
    ContainsIffOccurs(a, part);
    ContainsIffOccurs(b, part);
    if Contains(a, part) {
      var k :| OccursAt(a, part, k);
      assert (a + b)[k..k + |part|] == a[k..k + |part|];
      OccursContains(a + b, part, k);
    } else {
      var k :| OccursAt(b, part, k);
      assert (a + b)[|a| + k..|a| + k + |part|] == b[k..k + |part|];
      OccursContains(a + b, part, |a| + k);
    }
  }

  // ASCII case mapping (the only letters the compared constants contain).

  function LowerChar(c: char): char
  {
    if 'A' <= c <= 'Z' then (c as int + 32) as char else c
  }

  function UpperChar(c: char): char
  {
    if 'a' <= c <= 'z' then (c as int - 32) as char else c
  }

  function Lower(s: string): (r: string)
    ensures |r| == |s| && forall i :: 0 <= i < |s| ==> r[i] == LowerChar(s[i])
  {
    if s == [] then [] else [LowerChar(s[0])] + Lower(s[1..])
  }

  function Upper(s: string): (r: string)
    ensures |r| == |s| && forall i :: 0 <= i < |s| ==> r[i] == UpperChar(s[i])
  {
    if s == [] then [] else [UpperChar(s[0])] + Upper(s[1..])
  }

  /** `String.equalsIgnoreCase`, with the ASCII case mapping. */
  predicate EqualsIgnoreCase(a: string, b: string)
  {
    |a| == |b| && forall i :: 0 <= i < |a| ==> UpperChar(a[i]) == UpperChar(b[i])
  }

  /** Case-insensitive equality is the same as equality after upper-casing both sides. */
  lemma EqualsIgnoreCaseIffUpperEqual(a: string, b: string)
    ensures EqualsIgnoreCase(a, b) <==> Upper(a) == Upper(b)
  {
    if Upper(a) == Upper(b) {
      assert forall i :: 0 <= i < |a| ==> Upper(a)[i] == Upper(b)[i];
    }
  }

  // Decimal rendering of integers (string concatenation of a long).

  predicate IsDigit(c: char)
  {
    '0' <= c <= '9'
  }

  predicate AllDigits(s: string)
  {
    forall i :: 0 <= i < |s| ==> IsDigit(s[i])
  }

  function DigitChar(d: nat): char
    requires d < 10
  {
    ('0' as int + d) as char
  }

  /** `Long.toString` of a non-negative value: its shortest decimal form. */
  function NatToString(n: nat): (r: string)
    ensures |r| > 0 && AllDigits(r)
    ensures |r| > 1 ==> r[0] != '0'
  {
    if n < 10 then [DigitChar(n)] else NatToString(n / 10) + [DigitChar(n % 10)]
  }

  /** `Long.toString`: a minus sign for negative values. */
  function IntToString(i: int): (r: string)
    ensures |r| > 0
    ensures i >= 0 <==> r[0] != '-'
  {
    if i >= 0 then NatToString(i) else "-" + NatToString(-i)
  }

  /** The value of a string of decimal digits. */
  function DigitsValue(s: string): nat
    requires AllDigits(s)
  {
    if s == [] then 0 else DigitsValue(s[..|s| - 1]) * 10 + (s[|s| - 1] as int - '0' as int)
  }

  /** Reading the decimal form back gives the number. */
  lemma {:induction false} DigitsValueOfNatToString(n: nat)
    ensures DigitsValue(NatToString(n)) == n
  {
    if n >= 10 {
      DigitsValueOfNatToString(n / 10);
      var r := NatToString(n);
      assert r[..|r| - 1] == NatToString(n / 10);
    }
  }

  /** Distinct numbers render to distinct strings. */
  lemma IntToStringInjective(a: int, b: int)
    requires IntToString(a) == IntToString(b)
    ensures a == b
  {
    if a >= 0 && b >= 0 {
      DigitsValueOfNatToString(a);
      DigitsValueOfNatToString(b);
    } else if a < 0 && b < 0 {
      assert NatToString(-a) == IntToString(a)[1..];
      DigitsValueOfNatToString(-a);
      DigitsValueOfNatToString(-b);
    }
  }

  /** Every rendering of a `long` is digits after an optional minus sign. */
  lemma IntToStringChars(i: int)
    ensures forall k :: 0 <= k < |IntToString(i)| ==> IsDigit(IntToString(i)[k]) || IntToString(i)[k] == '-'
  {
    if i < 0 {
      var s := IntToString(i);
      assert s == "-" + NatToString(-i);
      forall k | 0 <= k < |s|
        ensures IsDigit(s[k]) || s[k] == '-'
      {
        if k > 0 {
          assert s[k] == NatToString(-i)[k - 1];
        }
      }
    }
  }

  function Min(a: int, b: int): int
  {
    if a <= b then a else b
  }
}

=== FILE: unified_notification.dfy ===
/**
 * `UnifiedNotificationService`: sends through the Alimtalk port with a
 * fixed failure shape, aggregates bulk sends, and builds the template
 * variables and the plain-text fallback. The port's answer for each
 * recipient is an input.
 */
module UnifiedNotification {
  import opened Wrappers
  import opened Text
  import opened Seqs

  /** `NotificationPort.SendResult`. */
  datatype PortResult = PortResult(
    success: bool,
    message: Option<string>,
    errorCode: Option<string>,
    successRecipients: seq<string>,
    failedRecipients: seq<string>)

  /** What `sendTemplate` did for one recipient: returned a result, or threw with a message. */
  datatype PortReply = Returned(result: PortResult) | Threw(message: Option<string>)

  const AlimtalkFailed := "알림톡 전송 실패"
  const AlimtalkFailedCode := "ALIMTALK_FAILED"
  const UnifiedError := "통합 알림 전송 중 오류 발생: "
  const UnifiedErrorCode := "UNIFIED_NOTIFICATION_EXCEPTION"
  const BulkFailedCode := "BULK_SEND_PARTIAL_FAILED"

  /**
   * `sendNotice`: a successful port result unchanged; otherwise a failure
   * that names the recipient as its one failed recipient.
   */
  function SendNotice(to: string, reply: PortReply): (r: PortResult)
    ensures reply.Returned? && reply.result.success ==> r == reply.result
    ensures !(reply.Returned? && reply.result.success) ==>
              !r.success && r.successRecipients == [] && r.failedRecipients == [to]
    ensures reply.Returned? && !reply.result.success ==>
              r.message == Some(AlimtalkFailed) && r.errorCode == Some(AlimtalkFailedCode)
    ensures reply.Threw? ==>
              r.message == Some(UnifiedError + Appended(reply.message)) && r.errorCode == Some(UnifiedErrorCode)
  {
    match reply
    case Returned(result) =>
      if result.success then result
      else PortResult(false, Some(AlimtalkFailed), Some(AlimtalkFailedCode), [], [to])
    case Threw(message) =>
      PortResult(false, Some(UnifiedError + Appended(message)), Some(UnifiedErrorCode), [], [to])
  }

  /** The recipients a result adds to the bulk success list. */
  function SucceededPart(r: PortResult): seq<string>
  {
    if r.success then r.successRecipients else []
  }

  /** The recipients a result adds to the bulk failure list. */
  function FailedPart(r: PortResult): seq<string>
  {
    if r.success then [] else r.failedRecipients
  }

  /**
   * The bulk success list: each pass's contribution, in recipient order.
   * `replies(i)` is what the port does for the i-th send, so a recipient
   * listed twice is sent to twice and may be answered differently.
   */
  function BulkSucceeded(recipients: seq<string>, replies: nat -> PortReply): seq<string>
  {
    if recipients == [] then []
    else
      var n := |recipients| - 1;
      BulkSucceeded(recipients[..n], replies) + SucceededPart(SendNotice(recipients[n], replies(n)))
  }

  /** The bulk failure list: each pass's contribution, in recipient order. */
  function BulkFailed(recipients: seq<string>, replies: nat -> PortReply): seq<string>
  {
    if recipients == [] then []
    else
      var n := |recipients| - 1;
      BulkFailed(recipients[..n], replies) + FailedPart(SendNotice(recipients[n], replies(n)))
  }

  /** "전체 N명 중 성공 S명, 실패 F명". */
  function BulkMessage(total: nat, succeeded: nat, failed: nat): string
  {
    "전체 " + NatToString(total) + "명 중 성공 " + NatToString(succeeded) + "명, 실패 " + NatToString(failed) + "명"
  }

  /**
   * `sendBulkNotice`: each pass's success list (if it succeeded) or failure
   * list (if not), concatenated in recipient order; overall success iff the
   * success list is non-empty, with no error code exactly then.
   */
  method SendBulkNotice(recipients: seq<string>, replies: nat -> PortReply) returns (r: PortResult)
    ensures r.successRecipients == BulkSucceeded(recipients, replies)
    ensures r.failedRecipients == BulkFailed(recipients, replies)
    ensures r.success <==> r.successRecipients != []
    ensures r.errorCode.None? <==> r.success
    ensures !r.success ==> r.errorCode == Some(BulkFailedCode)
    ensures r.message == Some(BulkMessage(|recipients|, |r.successRecipients|, |r.failedRecipients|))
  {
    var succeeded: seq<string> := [];
    var failed: seq<string> := [];
    var i := 0;
    while i < |recipients|
      invariant 0 <= i <= |recipients|
      invariant succeeded == BulkSucceeded(recipients[..i], replies)
      invariant failed == BulkFailed(recipients[..i], replies)
    {
      var result := SendNotice(recipients[i], replies(i));
      assert recipients[..i + 1][..i] == recipients[..i];
      if result.success {
        succeeded := succeeded + result.successRecipients;
      } else {
        failed := failed + result.failedRecipients;
      }
      i := i + 1;
    }
    assert recipients[..i] == recipients;
    var overall := succeeded != [];
    r := PortResult(overall, Some(BulkMessage(|recipients|, |succeeded|, |failed|)),
                    if overall then None else Some(BulkFailedCode), succeeded, failed);
  }

  /**
   * A pass whose notice failed puts its recipient in the bulk failure
   * list, and one whose notice succeeded contributes its port result's
   * recipients to the success list.
   */
  lemma {:induction false} BulkListsEveryRecipient(recipients: seq<string>, replies: nat -> PortReply, k: nat)
    requires k < |recipients|
    ensures !SendNotice(recipients[k], replies(k)).success ==>
              recipients[k] in BulkFailed(recipients, replies)
    ensures SendNotice(recipients[k], replies(k)).success ==>
              forall x :: x in SendNotice(recipients[k], replies(k)).successRecipients ==>
                x in BulkSucceeded(recipients, replies)
  {
    var n := |recipients| - 1;
    if k < n {
      BulkListsEveryRecipient(recipients[..n], replies, k);
    }
  }

  /** Without any successful notice the bulk result fails, and every pass's recipient is in its failure list, in order. */
  lemma {:induction false} AllFailedBulk(recipients: seq<string>, replies: nat -> PortReply)
    requires forall k :: 0 <= k < |recipients| ==> !SendNotice(recipients[k], replies(k)).success
    ensures BulkSucceeded(recipients, replies) == []
    ensures BulkFailed(recipients, replies) == recipients
  {
    if recipients != [] {
      var n := |recipients| - 1;
      var init := recipients[..n];
      forall k | 0 <= k < |init|
        ensures !SendNotice(init[k], replies(k)).success
      {
        assert init[k] == recipients[k];
      }
      AllFailedBulk(init, replies);
      AllFailedStep(recipients, replies);
    }
  }

  lemma AllFailedStep(recipients: seq<string>, replies: nat -> PortReply)
    requires recipients != []
    requires var n := |recipients| - 1; !SendNotice(recipients[n], replies(n)).success
    requires var init := recipients[..|recipients| - 1];
             BulkSucceeded(init, replies) == [] && BulkFailed(init, replies) == init
    ensures BulkSucceeded(recipients, replies) == [] && BulkFailed(recipients, replies) == recipients
  {
    var n := |recipients| - 1;
    FailedNoticeParts(recipients[n], replies(n));
    NoSuccessStep(recipients, replies);
    FailureStep(recipients, replies);
  }

  lemma NoSuccessStep(recipients: seq<string>, replies: nat -> PortReply)
    requires recipients != []
    requires var n := |recipients| - 1; SucceededPart(SendNotice(recipients[n], replies(n))) == []
    requires BulkSucceeded(recipients[..|recipients| - 1], replies) == []
    ensures BulkSucceeded(recipients, replies) == []
  {
  }

  lemma FailureStep(recipients: seq<string>, replies: nat -> PortReply)
    requires recipients != []
    requires var n := |recipients| - 1; FailedPart(SendNotice(recipients[n], replies(n))) == [recipients[n]]
    requires BulkFailed(recipients[..|recipients| - 1], replies) == recipients[..|recipients| - 1]
    ensures BulkFailed(recipients, replies) == recipients
  {
    var n := |recipients| - 1;
    FailedSnoc(recipients, replies);
    Seqs.InitLast(recipients);
  }

  /** One unfolding of `BulkFailed` whose last pass contributes exactly its recipient. */
  lemma FailedSnoc(recipients: seq<string>, replies: nat -> PortReply)
    requires recipients != []
    requires var n := |recipients| - 1; FailedPart(SendNotice(recipients[n], replies(n))) == [recipients[n]]
    ensures BulkFailed(recipients, replies)
            == BulkFailed(recipients[..|recipients| - 1], replies) + [recipients[|recipients| - 1]]
  {
  }

  lemma FailedNoticeParts(to: string, reply: PortReply)
    requires !SendNotice(to, reply).success
    ensures SucceededPart(SendNotice(to, reply)) == [] && FailedPart(SendNotice(to, reply)) == [to]
  {
  }

  /**
   * The same recipient twice, the port accepting the first send for it and
   * refusing the second: it is in the success list (as the port reported)
   * and once in the failure list.
   */
  lemma SameRecipientTwice(to: string, replies: nat -> PortReply)
    requires replies(0).Returned? && replies(0).result.success && replies(0).result.successRecipients == [to]
    requires replies(1).Returned? && !replies(1).result.success
    ensures BulkSucceeded([to, to], replies) == [to]
    ensures BulkFailed([to, to], replies) == [to]
  {
    assert [to, to][..1] == [to];
    assert [to][..0] == [];
    FailedNoticeParts(to, replies(1));
    assert BulkSucceeded([to], replies) == [to];
    assert BulkFailed([to], replies) == [];
  }

  /** Keys of the template variables. */
  const TitleKey := "title"
  const TimeKey := "time"
  const LocationKey := "location"
  const ReasonKey := "reason"

  /**
   * `createMeetingVariables`: title, time and location always (with
   * "약속", "시간 미정" and "장소 미정" for null), and the reason iff it
   * has text.
   */
  function CreateMeetingVariables(title: Option<string>, time: Option<string>, location: Option<string>,
                                  reason: Option<string>): (vars: map<string, string>)
    ensures TitleKey in vars && vars[TitleKey] == title.GetOr("약속")
    ensures TimeKey in vars && vars[TimeKey] == time.GetOr("시간 미정")
    ensures LocationKey in vars && vars[LocationKey] == location.GetOr("장소 미정")
    ensures ReasonKey in vars <==> HasText(reason)
    ensures ReasonKey in vars ==> vars[ReasonKey] == reason.value
    ensures forall k :: k in vars ==> k in {TitleKey, TimeKey, LocationKey, ReasonKey}
  {
    var base := map[TitleKey := title.GetOr("약속"), TimeKey := time.GetOr("시간 미정"),
                     LocationKey := location.GetOr("장소 미정")];
    assert ReasonKey !in base;
    if HasText(reason) then base[ReasonKey := reason.value] else base
  }

  /** `Map.getOrDefault`. */
  function GetOrDefault(vars: map<string, string>, key: string, default: string): string
  {
    if key in vars then vars[key] else default
  }

  const Invitation := "MEETING_INVITATION"
  const Confirmed := "MEETING_CONFIRMED"
  const Cancelled := "MEETING_CANCELLED"
  const CancelledSuffix := "이 취소되었습니다."
  const ReasonTag := "\n사유: "

  /** The default branch's lines, one per non-title key, in the map's iteration order. */
  function OtherLines(order: seq<string>, vars: map<string, string>): string
    requires forall k :: k in order ==> k in vars
  {
    if order == [] then ""
    else
      (if order[0] != TitleKey then "\n" + order[0] + ": " + vars[order[0]] else "")
      + OtherLines(order[1..], vars)
  }

  /**
   * `createFallbackText`: the text of the three known templates, or the
   * generic notice followed by every other variable. The map's iteration
   * order is unspecified, so it is the parameter `order`, which lists every
   * key once.
   */
  function CreateFallbackText(templateCode: string, vars: map<string, string>, order: seq<string>): (text: string)
    requires NoDuplicates(order) && forall k :: k in order <==> k in vars
    ensures templateCode == Invitation ==> StartsWith(text, "약속 초대: ")
    ensures templateCode == Confirmed ==> StartsWith(text, GetOrDefault(vars, TitleKey, "약속"))
    ensures templateCode == Cancelled ==> StartsWith(text, GetOrDefault(vars, TitleKey, "약속") + CancelledSuffix)
    ensures templateCode !in {Invitation, Confirmed, Cancelled} ==> StartsWith(text, "약속 알림: ")
    ensures templateCode == Invitation ==>
              text == "약속 초대: " + GetOrDefault(vars, TitleKey, "새로운 약속")
                      + "\n시간: " + GetOrDefault(vars, TimeKey, "") + "\n장소: " + GetOrDefault(vars, LocationKey, "")
    ensures templateCode == Confirmed ==>
              text == GetOrDefault(vars, TitleKey, "약속") + "이 확정되었습니다."
                      + "\n시간: " + GetOrDefault(vars, TimeKey, "") + "\n장소: " + GetOrDefault(vars, LocationKey, "")
    ensures templateCode == Cancelled ==>
              text == GetOrDefault(vars, TitleKey, "약속") + CancelledSuffix
                      + (if ReasonKey in vars then ReasonTag + vars[ReasonKey] else "")
    ensures templateCode !in {Invitation, Confirmed, Cancelled} ==>
              text == "약속 알림: " + GetOrDefault(vars, TitleKey, "") + OtherLines(order, vars)
  {
    if templateCode == Invitation then
      var t := "약속 초대: " + GetOrDefault(vars, TitleKey, "새로운 약속")
               + "\n시간: " + GetOrDefault(vars, TimeKey, "") + "\n장소: " + GetOrDefault(vars, LocationKey, "");
      assert t == "약속 초대: " + (t[|"약속 초대: "|..]);
      StartsWithConcat("약속 초대: ", t[|"약속 초대: "|..]);
      t
    else if templateCode == Confirmed then
      var title := GetOrDefault(vars, TitleKey, "약속");
      var rest := "이 확정되었습니다." + "\n시간: " + GetOrDefault(vars, TimeKey, "")
                  + "\n장소: " + GetOrDefault(vars, LocationKey, "");
      StartsWithConcat(title, rest);
      title + rest
    else if templateCode == Cancelled then
      var head := GetOrDefault(vars, TitleKey, "약속") + CancelledSuffix;
      var rest := if ReasonKey in vars then ReasonTag + vars[ReasonKey] else "";
      StartsWithConcat(head, rest);
      head + rest
    else
      var head := "약속 알림: ";
      var rest := GetOrDefault(vars, TitleKey, "") + OtherLines(order, vars);
      StartsWithConcat(head, rest);
      head + rest
  }

  /**
   * The cancellation text has a line break, which only the reason line
   * brings, iff a reason is present (for a title without line breaks).
   */
  lemma CancelledReasonLineIffReason(vars: map<string, string>, order: seq<string>)
    requires NoDuplicates(order) && forall k :: k in order <==> k in vars
    requires '\n' !in GetOrDefault(vars, TitleKey, "약속")
    ensures '\n' in CreateFallbackText(Cancelled, vars, order) <==> ReasonKey in vars
    ensures ReasonKey in vars ==> EndsWith(CreateFallbackText(Cancelled, vars, order), ReasonTag + vars[ReasonKey])
  {
    var head := GetOrDefault(vars, TitleKey, "약속") + CancelledSuffix;
    assert '\n' !in CancelledSuffix;
    assert '\n' !in head;
    if ReasonKey in vars {
      var rest := ReasonTag + vars[ReasonKey];
      assert (head + rest)[|head|] == '\n';
      assert (head + rest)[|head + rest| - |rest|..] == rest;
    } else {
      assert CreateFallbackText(Cancelled, vars, order) == head + "";
      assert head + "" == head;
    }
  }

  /** Every variable other than the title has its "key: value" line in the generic text. */
  lemma {:induction false} OtherLinesListEach(order: seq<string>, vars: map<string, string>, k: string)
    requires forall x :: x in order ==> x in vars
    requires k in order && k != TitleKey
    ensures Contains(OtherLines(order, vars), "\n" + k + ": " + vars[k])
  {
    var line := "\n" + k + ": " + vars[k];
    var rest := OtherLines(order[1..], vars);
    if order[0] == k {
      ContainsMiddle("", line, rest);
      assert "" + line + rest == OtherLines(order, vars);
    } else {
      OtherLinesListEach(order[1..], vars, k);
      var first := if order[0] != TitleKey then "\n" + order[0] + ": " + vars[order[0]] else "";
      ContainsInConcat(first, rest, line);
    }
  }
}

=== FILE: validator.dfy ===
/**
 * The `model.dto.MeetingCreateRequest` helpers: the participant-list
 * fallback, the participant-count check and the invited count.
 */
module MeetingCreateRequests {
  import opened Wrappers

  datatype MeetingCreateRequest = MeetingCreateRequest(
    title: Option<string>,
    maxParticipants: Option<int>,
    participantUserIds: Option<seq<int>>,
    participants: Option<seq<int>>,
    sendNotification: Option<bool>)

  /** A request with the field initialisers applied: at most 10 participants, notification on. */
  function Defaults(): (r: MeetingCreateRequest)
    ensures r.maxParticipants == Some(10) && r.sendNotification == Some(true)
    ensures r.participantUserIds.None? && r.participants.None?
  {
    MeetingCreateRequest(None, Some(10), None, None, Some(true))
  }

  /**
   * `getParticipantUserIds`: the primary list when it is non-empty, else
   * the alternative list when present, else an empty list; never null.
   */
  function ParticipantUserIds(r: MeetingCreateRequest): (ids: seq<int>)
    ensures r.participantUserIds.Some? && r.participantUserIds.value != [] ==> ids == r.participantUserIds.value
    ensures (r.participantUserIds.None? || r.participantUserIds.value == []) ==>
              ids == (if r.participants.Some? then r.participants.value else [])
  {
    if r.participantUserIds.Some? && r.participantUserIds.value != [] then r.participantUserIds.value
    else if r.participants.Some? then r.participants.value
    else []
  }

  /**
   * `isValidParticipantCount`: the raw primary list (not the fallback)
   * plus the host when included must fit the maximum; a null maximum
   * throws when unboxed.
   */
  function IsValidParticipantCount(r: MeetingCreateRequest, hostIncluded: bool): (ok: Result<bool>)
    ensures ok.Ok? <==> r.maxParticipants.Some?
    ensures ok.Ok? ==> (ok.value <==>
              (if r.participantUserIds.Some? then |r.participantUserIds.value| else 0)
              + (if hostIncluded then 1 else 0) <= r.maxParticipants.value)
  {
    if r.maxParticipants.None? then NullDeref()
    else if r.participantUserIds.None? then
      Ok(if hostIncluded then r.maxParticipants.value >= 1 else r.maxParticipants.value >= 0)
    else
      Ok(|r.participantUserIds.value| + (if hostIncluded then 1 else 0) <= r.maxParticipants.value)
  }

  /** `getTotalInvitedCount`: the primary list's size (0 when null) plus the host. */
  function TotalInvitedCount(r: MeetingCreateRequest): (n: nat)
    ensures n >= 1
    ensures r.participantUserIds.None? ==> n == 1
  {
    (if r.participantUserIds.Some? then |r.participantUserIds.value| else 0) + 1
  }

  /**
   * The count check with the host included is exactly the invited count
   * against the maximum; and it reads the raw list, so a request whose
   * invitees sit only in the alternative list passes whatever their number.
   */
  lemma ParticipantCountAgreesWithTotal(r: MeetingCreateRequest)
    requires r.maxParticipants.Some?
    ensures IsValidParticipantCount(r, true).value <==> TotalInvitedCount(r) <= r.maxParticipants.value
    ensures r.participantUserIds.None? && r.maxParticipants.value >= 1 ==>
              IsValidParticipantCount(r, true) == Ok(true)
  {
  }
}

/**
 * `MeetingValidator`: the create, update and invite request checks. The
 * request shapes are the fields the validator reads.
 */
module MeetingValidator {
  import opened Wrappers
  import opened Text
  import opened MeetingStatuses
  import MeetingCreateRequests

  datatype CreateRequest = CreateRequest(
    title: Option<string>,
    placeId: Option<int>,
    scheduledAt: Option<Time>,
    maxParticipants: Option<int>,
    participantUserIds: Option<seq<int>>,
    kakaoIds: Option<seq<string>>)

  datatype UpdateRequest = UpdateRequest(
    title: Option<string>,
    scheduledAt: Option<Time>,
    placeName: Option<string>,
    placeAddress: Option<string>,
    maxParticipants: Option<int>,
    memo: Option<string>)

  datatype InviteRequest = InviteRequest(
    userIds: Option<seq<int>>,
    kakaoIds: Option<seq<string>>,
    message: Option<string>)

  function SizeOr0<T>(xs: Option<seq<T>>): nat
  {
    if xs.Some? then |xs.value| else 0
  }

  /** `isValidBasicFields`: a non-blank title, a positive place id and a time not before `now`. */
  predicate IsValidBasicFields(r: CreateRequest, now: Time)
  {
    && r.title.Some? && !IsBlank(r.title.value)
    && r.placeId.Some? && r.placeId.value > 0
    && r.scheduledAt.Some? && !(r.scheduledAt.value < now)
  }

  /** `isValidParticipantCount`: the host plus every invitee of both lists fits the maximum (10 when null). */
  predicate IsValidCreateParticipantCount(r: CreateRequest)
  {
    1 + SizeOr0(r.participantUserIds) + SizeOr0(r.kakaoIds) <= r.maxParticipants.GetOr(10)
  }

  /** `isValidCreateRequest`: a null request is invalid. */
  function IsValidCreateRequest(r: Option<CreateRequest>, now: Time): (ok: bool)
    ensures ok <==> r.Some? && HasText(r.value.title) && r.value.placeId.Some? && r.value.placeId.value >= 1
                    && r.value.scheduledAt.Some? && r.value.scheduledAt.value >= now
                    && 1 + SizeOr0(r.value.participantUserIds) + SizeOr0(r.value.kakaoIds)
                       <= (if r.value.maxParticipants.Some? then r.value.maxParticipants.value else 10)
  {
    if r.None? then false
    else if !IsValidBasicFields(r.value, now) then false
    else IsValidCreateParticipantCount(r.value)
  }

  /** `hasUpdateFields`: at least one field is present. */
  predicate HasUpdateFields(r: UpdateRequest)
  {
    r.title.Some? || r.scheduledAt.Some? || r.memo.Some? || r.maxParticipants.Some?
    || r.placeName.Some? || r.placeAddress.Some?
  }

  /** `isValidIndividualFields`: each present field is well-formed. */
  predicate IsValidIndividualFields(r: UpdateRequest, now: Time)
  {
    && !(r.title.Some? && IsBlank(r.title.value))
    && !(r.scheduledAt.Some? && r.scheduledAt.value < now)
    && !(r.maxParticipants.Some? && (r.maxParticipants.value < 2 || r.maxParticipants.value > 100))
    && !(r.placeName.Some? && IsBlank(r.placeName.value))
    && !(r.placeAddress.Some? && IsBlank(r.placeAddress.value))
  }

  /** `isValidUpdateRequest`: present, with some field, and every present field valid. */
  function IsValidUpdateRequest(r: Option<UpdateRequest>, now: Time): (ok: bool)
    ensures ok ==> r.Some? && r.value != UpdateRequest(None, None, None, None, None, None)
    ensures r.Some? && r.value != UpdateRequest(None, None, None, None, None, None) ==>
              (ok <==> (r.value.title.None? || HasText(r.value.title))
                       && (r.value.scheduledAt.None? || r.value.scheduledAt.value >= now)
                       && (r.value.maxParticipants.None? || 2 <= r.value.maxParticipants.value <= 100)
                       && (r.value.placeName.None? || HasText(r.value.placeName))
                       && (r.value.placeAddress.None? || HasText(r.value.placeAddress)))
  {
    if r.None? then false
    else if !HasUpdateFields(r.value) then false
    else IsValidIndividualFields(r.value, now)
  }

  /** `isValidInviteRequest`: some non-empty id list, and no message over 500 characters. */
  function IsValidInviteRequest(r: Option<InviteRequest>): (ok: bool)
    ensures ok <==> r.Some? && (SizeOr0(r.value.userIds) > 0 || SizeOr0(r.value.kakaoIds) > 0)
                    && (r.value.message.None? || |r.value.message.value| <= 500)
  {
    if r.None? then false
    else if !((r.value.userIds.Some? && r.value.userIds.value != [])
              || (r.value.kakaoIds.Some? && r.value.kakaoIds.value != [])) then false
    else r.value.message.None? || |r.value.message.value| <= 500
  }

  /**
   * The validator's participant-count check against the request DTO's own
   * `isValidParticipantCount` (host included): they agree when a maximum is
   * set and no Kakao ids are given; Kakao ids only make the validator
   * stricter; and where the DTO's check throws on a null maximum, the
   * validator assumes 10.
   */
  lemma CountCheckAgreesWithRequestDto(r: CreateRequest, d: MeetingCreateRequests.MeetingCreateRequest)
    requires d.maxParticipants == r.maxParticipants && d.participantUserIds == r.participantUserIds
    ensures r.maxParticipants.Some? && SizeOr0(r.kakaoIds) == 0 ==>
              (IsValidCreateParticipantCount(r) <==> MeetingCreateRequests.IsValidParticipantCount(d, true) == Ok(true))
    ensures r.maxParticipants.Some? && IsValidCreateParticipantCount(r) ==>
              MeetingCreateRequests.IsValidParticipantCount(d, true) == Ok(true)
    ensures r.maxParticipants.None? ==>
              MeetingCreateRequests.IsValidParticipantCount(d, true).Err?
              && (IsValidCreateParticipantCount(r) <==> 1 + SizeOr0(r.participantUserIds) + SizeOr0(r.kakaoIds) <= 10)
  {
  }

  /** The update request with only the `k`-th field (in declaration order) kept. */
  function OnlyField(r: UpdateRequest, k: nat): UpdateRequest
    requires k < 6
  {
    if k == 0 then UpdateRequest(r.title, None, None, None, None, None)
    else if k == 1 then UpdateRequest(None, r.scheduledAt, None, None, None, None)
    else if k == 2 then UpdateRequest(None, None, r.placeName, None, None, None)
    else if k == 3 then UpdateRequest(None, None, None, r.placeAddress, None, None)
    else if k == 4 then UpdateRequest(None, None, None, None, r.maxParticipants, None)
    else UpdateRequest(None, None, None, None, None, r.memo)
  }

  /** The `k`-th field's own condition in `isValidIndividualFields`. */
  predicate FieldOk(r: UpdateRequest, k: nat, now: Time)
    requires k < 6
  {
    if k == 0 then !(r.title.Some? && IsBlank(r.title.value))
    else if k == 1 then !(r.scheduledAt.Some? && r.scheduledAt.value < now)
    else if k == 2 then !(r.placeName.Some? && IsBlank(r.placeName.value))
    else if k == 3 then !(r.placeAddress.Some? && IsBlank(r.placeAddress.value))
    else if k == 4 then !(r.maxParticipants.Some? && (r.maxParticipants.value < 2 || r.maxParticipants.value > 100))
    else true
  }

  /** The `k`-th field, sent alone, passes the update check (or there is nothing to send). */
  predicate AloneValid(r: UpdateRequest, k: nat, now: Time)
    requires k < 6
  {
    OnlyField(r, k) == UpdateRequest(None, None, None, None, None, None)
    || IsValidUpdateRequest(Some(OnlyField(r, k)), now)
  }

  lemma AloneValidIsFieldOk(r: UpdateRequest, k: nat, now: Time)
    requires k < 6
    ensures AloneValid(r, k, now) <==> FieldOk(r, k, now)
  {
    var alone := OnlyField(r, k);
    if alone != UpdateRequest(None, None, None, None, None, None) {
      assert HasUpdateFields(alone);
      assert IsValidUpdateRequest(Some(alone), now) == IsValidIndividualFields(alone, now);
    }
  }

  /**
   * The update check is field by field: a request with some field is valid
   * exactly when each of its fields, sent alone, would be.
   */
  lemma UpdateCheckIsPerField(r: UpdateRequest, now: Time)
    requires HasUpdateFields(r)
    ensures IsValidUpdateRequest(Some(r), now) <==> forall k :: 0 <= k < 6 ==> AloneValid(r, k, now)
  {
    AloneValidIsFieldOk(r, 0, now);
    AloneValidIsFieldOk(r, 1, now);
    AloneValidIsFieldOk(r, 2, now);
    AloneValidIsFieldOk(r, 3, now);
    AloneValidIsFieldOk(r, 4, now);
    AloneValidIsFieldOk(r, 5, now);
    assert IsValidIndividualFields(r, now) <==> forall k :: 0 <= k < 6 ==> FieldOk(r, k, now);
  }

  /**
   * The invite check judges the recipients and the message independently:
   * a request is valid exactly when it is valid without its message and a
   * request with one user id and its message is valid too.
   */
  lemma InviteCheckSeparatesRecipientsAndMessage(r: InviteRequest)
    ensures IsValidInviteRequest(Some(r)) <==>
              IsValidInviteRequest(Some(r.(message := None)))
              && IsValidInviteRequest(Some(InviteRequest(Some([0]), None, r.message)))
  {
  }
}

=== FILE: wrappers.dfy ===
/**
 * Option and Result, the two wrappers the whole model uses.
 * A Java reference that may be null is an Option; a Java call that may
 * throw returns a Result whose error records the exception class and its
 * message, so that the HTTP mapping of the exception handler can be stated
 * about the services' own messages.
 */
module Wrappers {

  datatype Option<T> = None | Some(value: T)
  {
    function GetOr(default: T): T
    {
      if Some? then value else default
    }
  }

  /** The exception classes the services throw or let escape. */
  datatype ExceptionKind =
    | IllegalArgument
    | IllegalState
    | Runtime
    | NullPointer
    | NumberFormat
    /** Spring's `IncorrectResultSizeDataAccessException`: an `Optional` query matched several rows. */
    | IncorrectResultSize
    /** Spring's `DataIntegrityViolationException`: a save broke a unique or NOT NULL constraint. */
    | DataIntegrityViolation

  /** A thrown exception: its class and its (possibly null) message. */
  datatype Exception = Exception(kind: ExceptionKind, message: Option<string>)

  datatype Result<T> = Ok(value: T) | Err(error: Exception)
  {
    predicate IsFailure()
    {
      Err?
    }

    function PropagateFailure<U>(): Result<U>
      requires Err?
    {
      Err(error)
    }

    function Extract(): T
      requires Ok?
    {
      value
    }
  }

  function Fail<T>(kind: ExceptionKind, message: string): Result<T>
  {
    Err(Exception(kind, Some(message)))
  }

  /** The exception a Java method call on a null reference raises. */
  function NullDeref<T>(): Result<T>
  {
    Err(Exception(NullPointer, None))
  }
}
